=== FILE: README.md ===
# BUTT toolchain core in Dafny

This project models the core of the BUTT toolchain. The toolchain has two halves.

- **The translator's back end.** It covers:
  - the register allocator;
  - scope contexts and symbol tables;
  - opcode selection from operand types;
  - the instruction builders and patchers;
  - the expression, array, I/O, function and call generators over the operand, operator and pending-instruction stacks;
  - the object-file serializer.
- **The virtual machine.** It covers:
  - the program loader;
  - the register set and the memory accessors;
  - the seven instruction-shape handlers and the dispatcher;
  - the fetch-execute loop and the boot of the first thread.

The stack and queue containers these halves are built on are modelled as sequences.

Everything is written as pure functions over immutable values. Details:

- An instruction is a `bv64`. Its seven views (Arith, Indirect, Store, Jump, Return, Stack, Io) are encoded and decoded field by field, in declaration order from the least significant bit.
- A C assertion that the state can violate becomes a `Fault` in a `Result`.
- An assertion about a builder's constant arguments becomes a precondition.
- Integers are unbounded. The C `long` (32 bits) and the 32-bit registers are modelled explicitly:
  - `Wrap32`, `Unsigned32` and `bv32` arithmetic;
  - sign extension of the 14- and 23-bit offset fields;
  - C's truncating division (`CDivision`).
  - the 32-bit `unsigned long` array size of an identifier, kept modulo 2^32.

The modules follow the source files:

| module | file it models |
|---|---|
| `SStack`, `SQueue` | utils/sstack.c, utils/squeue.c |
| `RegisterDef`, `OpcodeDef`, `InstrDef`, `ProgDef` | the common headers |
| `ObjTypes`, `IntFields`, `SignExt`, `Errors` | translator/objtypes.h, translator/errors.h and the bit-field widths |
| `Allocator`, `Scope` | translator/register.c |
| `Opcodes` | translator/opcodes.c |
| `Instruction` | translator/instruction.c |
| `Generator` | translator/generator.c |
| `Serializer` | translator/program.c |
| `Loader` | vm/program.c |
| `VmState` | vm/memory_inl.h and the register set |
| `Exec` | vm/exec.c |

The following modules hold the properties that relate several operations:

- `ExecProperties`, `ControlProperties`, `IoProperties` and `RunProperties`: properties of the VM;
- `ObjectFile`: the serializer and loader round trip;
- `CDivision`: C's integer division.

Where the system's documentation and its code disagree, the model follows the code:

- **Object-file round trip.**
  - The translator writes the code right after the symbol table.
  - The header records the code one symbol record (8 bytes) further on, and the loader reads from there.
  - So the loaded code lacks the first written instruction, and every fetch returns the instruction one position later than the translator's numbering. The documentation promises an identical round trip.
  - This is logged under Findings.
- **`NextAvailableRegister` and `NextAvailableRegisterIndex`.** The documentation says they return nothing when the class is exhausted. The code asserts first (register.c:1170, 1211) and returns NULL only when assertions are compiled out. The model takes the NULL path.
- **Draining both stacks.** The generator's empty-stacks drain pops a second operator in every iteration. It therefore completes only on an even number of pending operators. The model keeps this quirk.

## Model

| member | source | states |
|---|---|---|
| SStack.Initialize | utils/sstack.c:58-72 | a new stack is empty |
| SStack.Push | utils/sstack.c:75-92 | the stack grows by one, the pushed item is on top, and the items below are unchanged |
| SStack.Pop | utils/sstack.c:95-115 | popping fails exactly on an empty stack; otherwise the remaining stack plus the popped item is the original stack |
| SStack.Top | utils/sstack.c:118-121 | `Top` fails exactly on an empty stack and otherwise returns the last pushed item |
| SStack.PushPop | utils/sstack.c:75-121 | popping right after a push returns the pushed item and the stack as it was |
| SStack.PushAllPopN | utils/sstack.c:75-115 | pushing a sequence and popping as many items returns them in reverse order and restores the stack (LIFO) |
| SStack.PushAllIsAppend | utils/sstack.c:75-92 | pushing items one by one appends them in order |
| SQueue.Initialize | utils/squeue.c:58-72 | a new queue is empty |
| SQueue.Push | utils/squeue.c:75-92 | the new item goes at the tail and every earlier item keeps its position |
| SQueue.Pop | utils/squeue.c:95-115 | popping fails exactly on an empty queue; otherwise the popped item followed by the rest is the original queue |
| SQueue.Top | utils/squeue.c:118-121 | `Top` fails exactly on an empty queue and otherwise returns the head |
| SQueue.PushPopFifo | utils/squeue.c:75-115 | after a push, a pop returns the oldest item (FIFO) |
| SQueue.TopNode | utils/squeue.c:124-127 | the first node exists exactly when the queue is non-empty |
| SQueue.NextFromNode | utils/squeue.c:136-139 | a node has a successor exactly when it is not the last one |
| SQueue.Iterate | utils/squeue.c:142-154 | the callback is invoked once per item, in queue order, with the item's position |
| RegisterDef.RegisterClasses | BUTT/common/registerdef.h:41-104 | the allocation orders list the 8 working and 4 index registers completely and in increasing order; these classes are disjoint from each other and from the special registers |
| OpcodeDef.DeclaredIncreasing | BUTT/common/opcodedef.h:45-133 | there are 41 opcodes; the k-th declared one has value k + 1, ERR is last, and values increase strictly in declaration order |
| OpcodeDef.DeclaredDistinct | BUTT/common/opcodedef.h:45-133 | an opcode declared later has a larger value, so no two declared opcodes share a value |
| OpcodeDef.ExecutableOpcodes | BUTT/vm/exec.c:816-877 | ERR is the only declared opcode that no handler executes |
| OpcodeDef.HandlersDisjoint | BUTT/vm/exec.c:816-877 | no opcode is claimed by two handler classes |
| InstrDef.ArithRoundTrip | BUTT/common/instrdef.h:66-75 | decoding an encoded Arith view returns its fields; the opcode reads the same through the common view; unnamed bits are zero |
| InstrDef.ArithReencode | BUTT/common/instrdef.h:66-75 | encoding a decoded Arith word restores every named bit |
| InstrDef.IndirectRoundTrip | BUTT/common/instrdef.h:81-88 | the Indirect view round-trips through the word |
| InstrDef.IndirectReencode | BUTT/common/instrdef.h:81-88 | encoding a decoded Indirect word restores every named bit |
| InstrDef.StoreRoundTrip | BUTT/common/instrdef.h:94-102 | the Store view round-trips through the word |
| InstrDef.StoreReencode | BUTT/common/instrdef.h:94-102 | encoding a decoded Store word restores every named bit |
| InstrDef.JumpRoundTrip | BUTT/common/instrdef.h:108-115 | the Jump view round-trips through the word |
| InstrDef.JumpReencode | BUTT/common/instrdef.h:108-115 | encoding a decoded Jump word restores every named bit |
| InstrDef.ReturnRoundTrip | BUTT/common/instrdef.h:121-125 | the Return view round-trips through the word |
| InstrDef.ReturnReencode | BUTT/common/instrdef.h:121-125 | encoding a decoded Return word restores every named bit |
| InstrDef.StackRoundTrip | BUTT/common/instrdef.h:131-136 | the Stack view round-trips through the word |
| InstrDef.StackReencode | BUTT/common/instrdef.h:131-136 | encoding a decoded Stack word restores every named bit |
| InstrDef.IoRoundTrip | BUTT/common/instrdef.h:142-146 | the Io view round-trips through the word |
| InstrDef.IoReencode | BUTT/common/instrdef.h:142-146 | encoding a decoded Io word restores every named bit |
| InstrDef.WithOpcode | BUTT/common/instrdef.h:54-60 | writing the common opcode field sets the opcode and leaves the other 58 bits alone |
| InstrDef.WithOpcodeKeepsFields | BUTT/common/instrdef.h:54-148 | rewriting the opcode changes no other field of any of the seven views |
| InstrDef.WithIndirectOffset | BUTT/common/instrdef.h:81-88 | rewriting the Indirect offset changes that field and no bit outside it |
| InstrDef.WithJumpTarget | BUTT/common/instrdef.h:108-115 | rewriting a Jump's register and offset changes those two fields and no bit outside them |
| InstrDef.Bytes | BUTT/common/instrdef.h:150 | an instruction occupies 8 bytes, and reading them as a little-endian 64-bit value gives the word back |
| ProgDef.HeaderBytes | BUTT/common/progdef.h:49-72 | the header image is exactly 64 bytes |
| ProgDef.Field16Reads | BUTT/common/progdef.h:49-55 | each 16-bit header field reads back from its offset in the image |
| ProgDef.Field32Reads | BUTT/common/progdef.h:56-68 | each 32-bit header field reads back from its offset in the image |
| ProgDef.HeaderRoundTrip | BUTT/common/progdef.h:49-72 | parsing the first 64 bytes of a header image returns the header, whatever follows it |
| ProgDef.SymbolBytes | BUTT/common/symdef.h:41-44 | a function symbol record is 8 bytes |
| ProgDef.SymbolRoundTrip | BUTT/common/symdef.h:41-44 | a symbol record parses back to the symbol wherever it sits in a file |
| ObjTypes.IdnTypeOf | BUTT/translator/objtypes.h:47-73 | exactly the values 0..9 name a data type, and each names the type with that value |
| ObjTypes.IdnTypeOrder | BUTT/translator/objtypes.h:47-73 | the numeric types are exactly those below THREADT; signed types have even values below 6 and unsigned ones odd values; values are distinct |
| ObjTypes.OprTypeOrder | BUTT/translator/objtypes.h:75-105 | STR is 0, the computing operators are 1..16 and the grouping operators 17..21 |
| ObjTypes.AbsOffset | BUTT/translator/objtypes.h:107-127 | reading an identifier's offset through the unsigned arm gives the offset modulo 2^32 |
| ObjTypes.OffsetUnion | BUTT/translator/objtypes.h:107-127 | the two offset arms agree bit for bit in both directions |
| ObjTypes.ZeroIdentifier | BUTT/translator/objtypes.h:107-127 | a zeroed identifier has only its register set |
| SignExt.Sext14 | BUTT/common/instrdef.h:66-75 | reading a 14-bit field sign-extends it: the value lies in -8192..8191 and agrees with the field's low bits |
| SignExt.Sext23 | BUTT/common/instrdef.h:94-102 | reading a 23-bit field sign-extends it into -4194304..4194303 |
| SignExt.Sext14Low | BUTT/common/instrdef.h:66-75 | truncating to 14 bits and sign-extending gives the value back exactly when it lies in -8192..8191 |
| SignExt.Sext23Low | BUTT/common/instrdef.h:94-102 | the same for 23 bits, on -4194304..4194303 |
| IntFields.Field14Exact | BUTT/translator/instruction.c:51-71 | a 14-bit offset field gives back a stored LONG exactly when the value is in range; otherwise it comes back truncated |
| IntFields.Field23Exact | BUTT/translator/instruction.c:131-153 | the same for the 23-bit Store offsets |
| CDivision.TruncDivIsCDivision | BUTT/vm/exec.c:140-143 | C division truncates toward zero: the remainder is smaller than the divisor in magnitude and is zero or has the dividend's sign |
| CDivision.QuotientMagnitude | BUTT/vm/exec.c:140-143 | the quotient's magnitude is the natural quotient of the magnitudes |
| CDivision.QuotientFits | BUTT/vm/exec.c:140-143 | every quotient of two LONGs fits a LONG, except INT_MIN / -1 |
| CDivision.NaturalDivision | BUTT/vm/exec.c:140-143 | with natural operands the remainder lies in 0..divisor-1 and the quotient is at most the dividend |
| Opcodes.OpcodeFromIdn | BUTT/translator/opcodes.c:44-66 | a numeric type maps to its width- and sign-specific store opcode; every other type maps to ERR |
| Opcodes.OpcodeFromOperator | BUTT/translator/opcodes.c:69-128 | an operator gives an opcode other than ERR exactly when it is a computing operator, and that opcode is arithmetic |
| Opcodes.IsOperandSigned | BUTT/translator/opcodes.c:131-142 | exactly INT8T, INT16T and INT32T are signed |
| Opcodes.GenerateOpcode | BUTT/translator/opcodes.c:145-206 | a type beyond THREADT or a grouping operator gives ERR |
| Opcodes.GenerateResultingDataType | BUTT/translator/opcodes.c:209-249 | a THREADT or later operand gives ERR; any other result is numeric |
| Opcodes.StoreOpcode | BUTT/translator/opcodes.c:145-206 | for STR: a THREADT destination gives STRTH exactly when the source is THREADT; otherwise the left type's store opcode; a result other than ERR is a store |
| Opcodes.ComputingOpcode | BUTT/translator/opcodes.c:145-206 | a computing operator gives an arithmetic opcode exactly when both types are numeric; PLUS, MINUS, TIMES and DIV choose the float variant when an operand is FLOATT |
| Opcodes.FloatVariants | BUTT/translator/opcodes.c:69-128 | a float operand selects the F variant of ADD, SUB, MUL and DIV; otherwise the I variant is selected |
| Opcodes.ResultingDataType | BUTT/translator/opcodes.c:209-249 | float wins; a store keeps the left type; otherwise the result is INT32T if either operand is signed and UINT32T if both are unsigned; non-numeric operands give ERR |
| Opcodes.ThreadStoreThresholds | BUTT/translator/opcodes.c:151-217 | THREADT = THREADT selects STRTH, but its resulting type is ERR, because the two routines use different thresholds |
| Opcodes.AcceptedCombinations | BUTT/translator/opcodes.c:145-249 | whenever both the opcode and the result type are accepted, both operands are numeric, a STR gives a non-thread store and a computing operator an arithmetic opcode |
| Instruction.MakeArithmetic | BUTT/translator/instruction.c:51-71 | the word decodes, through the Arith view, to the opcode, the three registers and their offsets truncated to 14 bits; pad bits are zero |
| Instruction.SourceOffset | BUTT/translator/instruction.c:74-109 | offset precedence: a constant source gives its own value; no offset gives constant 0; a constant offset gives its value; otherwise the offset's register number, marked as a register offset |
| Instruction.MakeIndirectDirect | BUTT/translator/instruction.c:74-109 | the word decodes to the opcode, the source and destination registers and the offset chosen by that precedence |
| Instruction.PatchIndirectDirectAddSourceOffset | BUTT/translator/instruction.c:112-128 | it succeeds exactly on an RCOPYD with a constant offset and a constant patch; only the offset changes, and bits outside the offset field are kept |
| Instruction.MakeStore | BUTT/translator/instruction.c:131-153 | the word decodes to the opcode, the registers, the atomic bit of the destination and 23-bit offsets; a constant destination is reported as an lvalue error |
| Instruction.MakeJump | BUTT/translator/instruction.c:156-190 | an unconditional JMP: without a target it is a placeholder (INV, 0); with one it takes the target's register and 32-bit offset |
| Instruction.PatchJumpTargetRelative | BUTT/translator/instruction.c:193-209 | it succeeds exactly on a JMP; the jump becomes RIP-relative with the target's offset and nothing else changes |
| Instruction.PatchJumpTargetAbsolute | BUTT/translator/instruction.c:212-228 | it succeeds exactly on a JMP; the jump goes through RCT to the target's absolute offset and nothing else changes |
| Instruction.MakeJumpConditional | BUTT/translator/instruction.c:231-268 | a JMPZ testing the check register, with the target or a placeholder |
| Instruction.PatchJumpConditionalAddTargetRelative | BUTT/translator/instruction.c:271-287 | it succeeds exactly on a JMPZ; only the target becomes RIP-relative |
| Instruction.ReleaseOperands | BUTT/translator/generator.c:272-280 | releasing operands keeps the allocator well formed and changes nothing when no operand is a working or index register |
| Instruction.CallTo | BUTT/translator/instruction.c:290-308 | a call word jumps through RCT to the callee's absolute address |
| Instruction.MakeCall | BUTT/translator/instruction.c:290-308 | CALLNORM to the callee's absolute address |
| Instruction.MakeCallParallelSync | BUTT/translator/instruction.c:335-351 | CALLPLLS to the callee's absolute address |
| Instruction.MakeCallParallelAsync | BUTT/translator/instruction.c:354-370 | CALLPLLA to the callee's absolute address |
| Instruction.PatchNormalCallToParallelSync | BUTT/translator/instruction.c:311-320 | it succeeds exactly on a CALLNORM and changes only the opcode, to CALLPLLS |
| Instruction.PatchNormalCallToParallelAsync | BUTT/translator/instruction.c:323-332 | it succeeds exactly on a CALLNORM and changes only the opcode, to CALLPLLA |
| Instruction.MakeReturn | BUTT/translator/instruction.c:373-390 | RETURN with the cleanup byte count |
| Instruction.MakeStackPush | BUTT/translator/instruction.c:393-408 | PUSH of the value's register and offset |
| Instruction.MakeStackPop | BUTT/translator/instruction.c:411-426 | POP into the location's register, with offset 0 |
| Instruction.MakeIoRead | BUTT/translator/instruction.c:429-446 | READ with the count's value as PopCount |
| Instruction.MakeIoPrint | BUTT/translator/instruction.c:449-466 | PRINT with the count's value as PopCount |
| Allocator.SlotName | BUTT/translator/register.c:832-912 | a register's name is its class prefix followed by one digit |
| Allocator.Initialize | BUTT/translator/register.c:832-912 | the initial allocator is valid, with both cursors at 0 and every slot free and typed INT8T |
| Allocator.Handle | BUTT/translator/register.c:1142-1184 | the handle of a register carries that register, offset 0 and the slot's data type |
| Allocator.Current | BUTT/translator/register.c:915-1068 | viewed through the allocator, an identifier keeps its register; one outside the allocatable classes is unchanged, and a working register takes its data type from its slot |
| Allocator.Reset | BUTT/translator/register.c:675-703 | a reset slot has reference count 0 and keeps its data type |
| Allocator.NextAvailableRegister | BUTT/translator/register.c:1142-1184 | at capacity it returns none and the state unchanged; otherwise it hands out the register at the cursor with count 1 and advances the cursor; it fails exactly when that slot is still referenced |
| Allocator.NextAvailableRegisterIndex | BUTT/translator/register.c:1187-1225 | the same for the index registers |
| Allocator.ReferenceSlot | BUTT/translator/register.c:915-949 | it fails exactly when the cursor is non-zero and the register is at or above it; otherwise the count goes up by one and no other slot changes |
| Allocator.DereferenceSlot | BUTT/translator/register.c:952-990 | it fails on count 0, and on count 1 unless the register is the last allocated; count 1 resets the slot and moves the cursor back; a higher count drops by one |
| Allocator.ReferenceRegister | BUTT/translator/register.c:1071-1103 | non-allocatable registers are unchanged; an RT or IX register is refused only when the cursor is non-zero and the register is at or above it, so with the cursor at 0 every register passes |
| Allocator.DereferenceRegister | BUTT/translator/register.c:1106-1139 | non-allocatable registers are unchanged; an RT or IX register fails on count 0, and on count 1 unless it is the most recently allocated; the result stays well formed and the other class is untouched |
| Allocator.SetDataType | BUTT/translator/register.c:338-388 | only a working register's slot type changes, and well-formedness and validity are kept |
| Allocator.FreeAllRegisters | BUTT/translator/register.c:1228-1268 | it fails exactly when a cursor is above 1; otherwise every slot is reset and both cursors return to 0 |
| Allocator.NextAvailablePreservesValid | BUTT/translator/register.c:1142-1225 | in a valid state allocation never faults and keeps the state valid; it returns none exactly at capacity |
| Allocator.NextAvailableKeeps | BUTT/translator/register.c:1142-1225 | allocation keeps the state well formed, and valid if it was valid |
| Allocator.DereferenceKeeps | BUTT/translator/register.c:1106-1139 | a successful release keeps a valid state valid, for every register |
| Allocator.DereferenceKeepsObjects | BUTT/translator/register.c:1106-1139 | releasing changes no identifier's register or data type as seen through the allocator |
| Allocator.AllocateThenRelease | BUTT/translator/register.c:1142-1184 | allocating a working register and releasing it returns the allocator exactly to where it was |
| Allocator.AllocateThenReleaseIndex | BUTT/translator/register.c:1187-1225 | the same for an index register |
| Allocator.ReleaseIsLifo | BUTT/translator/register.c:952-990 | a singly referenced working register can be released exactly when it is the most recently allocated one |
| Allocator.DereferencePreservesValid | BUTT/translator/register.c:1106-1139 | a successful release keeps a valid allocator valid |
| Allocator.ReferenceRegisterChecked | BUTT/translator/register.c:915-949 | corrected guard: a working or index register can be referenced exactly when it is below the cursor; otherwise it agrees with `ReferenceRegister` |
| Allocator.ReferenceCheckedPreservesValid | BUTT/translator/register.c:915-1027 | the corrected reference keeps a valid allocator valid |
| Allocator.ReferenceAtEmptyCursor | BUTT/translator/register.c:945 | as written, referencing RT0 in the initial state succeeds, leaves the allocator invalid and makes the next allocation fail |
| Scope.CreateGlobalContext | BUTT/translator/register.c:1310-1381 | the global context is global, with an empty table, code at 0xA0000 and data at 0x80000 |
| Scope.CreateFunctionContext | BUTT/translator/register.c:1310-1381 | a function context belongs to its function, has an empty table, data pointer 0, parameters from 8, and continues the global code pointer |
| Scope.GetDeclaredIdentifier | BUTT/translator/register.c:205-241 | a local declaration shadows a global one; a name is found exactly when either table holds it |
| Scope.CheckIdentifierExists | BUTT/translator/register.c:116-152 | true exactly when the lookup finds the name |
| Scope.CheckIdentifierIsArray | BUTT/translator/register.c:155-177 | an array is a non-function identifier with a non-zero size |
| Scope.RegisterIdentifier | BUTT/translator/register.c:244-293 | the new identifier has the name and type, register INV and offset 0, and is entered in the table under its name |
| Scope.RegisterIdentifierAsIntegerConstant | BUTT/translator/register.c:296-335 | a constant is an RCT identifier whose offset holds the value |
| Scope.RegisterSpecialRegister | BUTT/translator/register.c:1271-1307 | a special-register handle is the zeroed identifier of that register |
| Scope.WriteBack | BUTT/translator/register.c:338-388 | writing an identifier back replaces its own entry and no other |
| Scope.RegisterIdentifierAsVariable | BUTT/translator/register.c:338-388 | a global takes the next RGD slot and moves the data pointer up by 4; a local takes the next RST slot below the frame base and moves it down by 4 |
| Scope.RegisterIdentifierAsFunction | BUTT/translator/register.c:391-424 | a function lives in RFN at the current code address |
| Scope.RegisterIdentifierAsParameter | BUTT/translator/register.c:427-486 | it is refused in the global scope; otherwise the parameter takes the next RST slot above the frame base and the parameter pointer moves up by 4 |
| Scope.RegisterArrayToIdentifier | BUTT/translator/register.c:489-537 | it fails exactly for an atomic identifier; otherwise only the array size changes, to 4 bytes per element modulo 2^32 as the 32-bit `unsigned long` keeps it (exact below 2^30 elements), and the data pointer moves 4 bytes per element in the scope's growth direction |
| Scope.ArraySizeWraps | BUTT/translator/register.c:524 | an array of 2^30 elements gets a recorded size of 0 and is no longer taken for an array, while the data pointer moves by 2^32 bytes |
| Scope.RegisterParameterToIdentifier | BUTT/translator/register.c:540-582 | parameters can be added only to a function identifier, at the end of its list |
| Scope.RegisterFunctionCall | BUTT/translator/register.c:706-742 | a call record can be made only for a function identifier, and it starts with no parameters pushed |
| Scope.CleanIoObject | BUTT/translator/register.c:805-829 | a cleaned I/O object has count 0 |
| Scope.CheckFunctionIsMain | BUTT/translator/register.c:67-113 | outside a function it fails; a function not named main is NotMain; main is accepted exactly with one integer-typed parameter and an integer return type; main without parameters fails |
| Scope.RegisterFunctionSymbol | BUTT/translator/register.c:1413-1469 | the symbol holds the current code address, and a parameter count of 0 for a void list or the list's length otherwise |
| Scope.RegisteredIsFound | BUTT/translator/register.c:244-293 | a name registered in a context is found there, hiding any global of the same name |
| Scope.RegisterOtherNames | BUTT/translator/register.c:244-293 | registering a name leaves the lookup of every other name unchanged |
| Scope.LocalVariableSlot | BUTT/translator/register.c:338-388 | consecutive locals take adjacent, non-overlapping 4-byte slots growing downwards |
| Scope.GlobalVariableSlot | BUTT/translator/register.c:338-388 | a global's slot lies between the old and new data pointer, relative to 0x80000 |
| Scope.LocalArrayFrame | BUTT/translator/register.c:489-537 | a local array of n elements reserves 4(n + 1) bytes, records the size 4n modulo 2^32, and every element the generator can address lies inside the reservation |
| Scope.RegisterParameters | BUTT/translator/register.c:427-486 | it fails exactly in the global scope with a non-empty list; otherwise parameter k is placed in RST at the pointer plus 4k, under its name, and the pointer moves up by 4 per parameter |
| Scope.FreshParameterOffsets | BUTT/translator/register.c:427-486 | in a fresh function context the parameters sit at 8, 12, 16, ... |
| Generator.Emit | BUTT/translator/generator.c:679-682 | emitting appends the words to the queue and advances the code pointer 8 bytes per word |
| Generator.Constant | BUTT/translator/register.c:296-335 | a constant identifier holds the value wrapped to a LONG in RCT |
| Generator.CheckOperatorIsInOperatorArray | BUTT/translator/generator.c:62-99 | it finds the operator exactly when it is in the array |
| Generator.GenerateExpressionInstruction | BUTT/translator/generator.c:227-337 | the allocator stays well formed (valid if it was); an invalid combination logs an error and produces nothing; otherwise a typed instruction and its result are produced |
| Generator.Arithmetic | BUTT/translator/generator.c:311-330 | register exhaustion logs the no-registers error; otherwise the result lives in a fresh working register with the resulting type |
| Generator.Combine | BUTT/translator/generator.c:340-421 | one combine pops two operands and pushes one result, appends exactly one instruction and leaves the operators and the frame alone |
| Generator.GenerateExpressionInstructions | BUTT/translator/generator.c:340-421 | on success the allocator stays well formed and the drain has stopped at an empty operator stack or at an operator outside the set |
| Generator.ExpressionsDrain | BUTT/translator/generator.c:340-421 | each operator drained adds one instruction and removes one operand |
| Generator.ExpressionsDrainOperators | BUTT/translator/generator.c:340-421 | the drained operators are exactly the top ones that belong to the set, and the rest of the stack is untouched |
| Generator.GenerateExpressionInstructionsEmptyStacks | BUTT/translator/generator.c:424-489 | on success no operator is left and exactly one operand remains |
| Generator.EmptyStacksDrain | BUTT/translator/generator.c:424-489 | the drain to empty stacks completes only on an even number of operators and emits one instruction per pair |
| Generator.EmptyStacksSteps | BUTT/translator/generator.c:424-489 | that drain only appends to the queue and keeps the allocator well formed |
| Generator.EmptyStacksCounts | BUTT/translator/generator.c:424-489 | operators = 2 × instructions emitted and operands = instructions + 1 |
| Generator.EmptyStacksFrame | BUTT/translator/generator.c:424-489 | that drain leaves the scope and the patch stacks alone |
| Generator.GenerateExpressionInstructionsUntilMatch | BUTT/translator/generator.c:492-556 | the match drain keeps the allocator well formed |
| Generator.UntilMatchFrom | BUTT/translator/generator.c:492-556 | the drain's loop keeps the allocator well formed |
| Generator.UntilMatchDrain | BUTT/translator/generator.c:492-556 | each operator popped before the match adds one instruction and removes one operand |
| Generator.UntilMatchOperators | BUTT/translator/generator.c:492-556 | matching stops at the nearest matching operator and leaves the stack below it alone |
| Generator.UntilMatchConsumes | BUTT/translator/generator.c:492-556 | the matching operator is consumed, no operator above it matches, and one instruction is emitted per operator above it |
| Generator.UntilMatchFrame | BUTT/translator/generator.c:492-556 | the match drain leaves the scope and the patch stacks alone |
| Generator.GenerateArrayInstructions | BUTT/translator/generator.c:559-690 | an array access appends its instructions and pushes an element identifier addressed through an index register |
| Generator.ArrayEmit | BUTT/translator/generator.c:678-683 | the emitted access pushes the element identifier |
| Generator.ArrayRegisters | BUTT/translator/generator.c:640-656 | the access gets a working register for the offset and an index register for the element |
| Generator.ArrayOffsetRegister | BUTT/translator/generator.c:640-654 | an offset in a working register is reused as it is, and must be referenced; an offset outside both allocatable classes is copied into a freshly allocated working register |
| Generator.ArrayAccess | BUTT/translator/generator.c:658-676 | an access is three instructions |
| Generator.ArrayStride | BUTT/translator/generator.c:616-622 | elements are 4 bytes apart, downwards for stack arrays and upwards for global ones |
| Generator.GenerateIoAddReadIdentifier | BUTT/translator/generator.c:693-754 | it succeeds only inside a function on an indexed target; it copies the target's address into RT0, pushes RT0 and raises the count by one; with no working register in use it always succeeds and leaves the allocator as it was |
| Generator.ScratchRt0 | BUTT/translator/generator.c:693-754 | RT0 can be used as scratch only when no working register is in use, and in a valid allocator it then always can |
| Generator.GenerateIoAddPrintIdentifier | BUTT/translator/generator.c:757-811 | the pending expression is drained and its value pushed, both stacks end empty, and the count goes up by one |
| Generator.GenerateIoFinishRead | BUTT/translator/generator.c:814-865 | inside a function with at least one target, a single READ of the count is emitted and the count resets |
| Generator.GenerateIoFinishPrint | BUTT/translator/generator.c:868-919 | the same for PRINT |
| Generator.GenerateProgramStartBlockStage0 | BUTT/translator/generator.c:102-180 | only in the global scope: it appends the start block and records its JMP as pending |
| Generator.StartWords | BUTT/translator/generator.c:102-180 | the start block loads RST, RSB and RGD and ends in a placeholder JMP |
| Generator.GenerateProgramStartBlockStage1 | BUTT/translator/generator.c:183-224 | it succeeds exactly when a single JMP is pending; that JMP is made to go through RCT to main's address, nothing stays pending and no other instruction changes |
| Generator.StartBlockPatched | BUTT/translator/generator.c:102-224 | together the stages append a start block that jumps to main and leave nothing pending |
| Generator.ParameterOffsets | BUTT/translator/generator.c:922-1025 | parameters are renumbered downwards from the first offset; this fails exactly when the last would fall below 8 |
| Generator.WriteBackAll | BUTT/translator/generator.c:922-1025 | every renumbered parameter is written back under its name and other names are untouched |
| Generator.GenerateFunctionHeaderStage0 | BUTT/translator/generator.c:922-1025 | only inside a function with a parameter list: it appends the prologue and renumbers the parameters |
| Generator.HeaderEmit | BUTT/translator/generator.c:922-1025 | the emitted prologue is appended after the queue as it was |
| Generator.HeaderWords | BUTT/translator/generator.c:922-1025 | the prologue saves the frame base, sets up the frame and reserves the locals by a pending RCOPYD |
| Generator.HeaderParameterOffsets | BUTT/translator/generator.c:922-1025 | parameter k of n sits at 4 + 4(n - k) above the frame base, the last at 8 |
| Generator.GenerateFunctionHeaderStage1 | BUTT/translator/generator.c:1028-1074 | it succeeds only with an entry pending and a non-positive locals size; the last pending RCOPYD gets that size as its offset and is popped, and no other instruction changes |
| Generator.PatchReturns | BUTT/translator/generator.c:1077-1201 | patching the returns keeps the queue length and pops one pending entry and one count per return |
| Generator.PatchedJumps | BUTT/translator/generator.c:1077-1201 | every patched position holds a RIP-relative JMP |
| Generator.PatchedUntouched | BUTT/translator/generator.c:1077-1201 | positions no patch names keep their instruction |
| Generator.ReturnLandsOnExit | BUTT/translator/generator.c:1077-1201 | the last return's jump lands on the exit sequence |
| Generator.Cleanup | BUTT/translator/generator.c:1077-1201 | the caller's cleanup is 0 for a void parameter list and 4 bytes per parameter otherwise |
| Generator.GenerateFunctionTrailer | BUTT/translator/generator.c:1077-1201 | only inside a function: it patches the returns and appends the epilogue |
| Generator.TrailerEmit | BUTT/translator/generator.c:1077-1201 | the emitted epilogue is appended to the patched queue |
| Generator.TrailerWords | BUTT/translator/generator.c:1077-1201 | the epilogue restores the frame and returns with the cleanup |
| Generator.GenerateFunctionCallVoidParameter | BUTT/translator/generator.c:1204-1255 | it succeeds exactly inside a function, on a function callee with a parameter list, with '(' on top of the operators; it pops the '(' and logs a mismatch unless the list is a single void |
| Generator.PushValue | BUTT/translator/generator.c:1258-1337 | pushing a value appends exactly one PUSH of it |
| Generator.GenerateFunctionCallPushParameter | BUTT/translator/generator.c:1258-1337 | an argument is pushed and counted against the callee's parameters |
| Generator.PushArgument | BUTT/translator/generator.c:1258-1337 | the argument's value is pushed and the call's count goes up |
| Generator.CallResult | BUTT/translator/generator.c:1340-1418 | the call's value is the callee's RRV copied into a fresh working register, or nothing for a void callee |
| Generator.GenerateFunctionCallMakeCall | BUTT/translator/generator.c:1340-1418 | it appends CALLNORM to the callee at the returned position, then the result copy, and pushes the result operand |
| Generator.ReturnWords | BUTT/translator/generator.c:1421-1499 | a return copies the value to RRV and jumps by a placeholder |
| Generator.GenerateFunctionReturn | BUTT/translator/generator.c:1421-1499 | a return drains the expression, appends the return sequence and records the jump as pending |
| Generator.ReturnValue | BUTT/translator/generator.c:1421-1499 | the returned value's sequence is appended and the operand stack is emptied |
| Generator.GenerateFunctionCallPatchParallelSync | BUTT/translator/generator.c:1502-1525 | it succeeds exactly on a CALLNORM position and changes only that opcode, to CALLPLLS |
| Generator.GenerateFunctionCallPatchParallelAsync | BUTT/translator/generator.c:1528-1551 | the same, to CALLPLLA |
| Generator.CallCanBeParallel | BUTT/translator/generator.c:1340-1551 | a call the generator made can always be patched to CALLPLLA at the position it returned, keeping the callee's absolute address |
| Serializer.SymbolImages | BUTT/translator/program.c:256-260 | every symbol becomes one 8-byte record |
| Serializer.CodeImages | BUTT/translator/program.c:262-266 | every instruction becomes one 8-byte record |
| Serializer.SerializeQueue | BUTT/translator/program.c:91-180 | the buffered writer succeeds exactly when the buffer holds whole records, and writes the concatenation of the records in queue order |
| Serializer.MakeHeader | BUTT/translator/program.c:230-244 | the header records magic 0xC403, version 1.0, stack alignment 4, StackTop and StackSize 0x7FFFE, DataStart 0x80000, CodeStart 0xA0000 and DataSize (DataPointer − 0x80000) × 4 modulo 2^32; CodeSize and SymbolSize are the record counts times 8 modulo 2^32 (exact when the product is below 2^32); the symbol table sits at 64 and the code one symbol record past its end |
| Serializer.MakeHeaderCorrected | BUTT/translator/program.c:243-244 | the corrected header records the code right after the symbol table and agrees with `MakeHeader` otherwise |
| Serializer.ProgramImage | BUTT/translator/program.c:183-273 | the file is the 64-byte header, 8 bytes per symbol and 8 bytes per instruction |
| Serializer.SerializeCode | BUTT/translator/program.c:183-273 | it refuses a non-global context; otherwise it writes exactly the header, symbol records and instruction records |
| Loader.InstructionsAvailable | BUTT/vm/program.c:136-147 | the read obtains as many whole records as asked for or as the file holds, whichever is fewer |
| Loader.ReadSymbols | BUTT/vm/program.c:113-126 | it returns one symbol per record read after the header |
| Loader.LoadCode | BUTT/vm/program.c:136-147 | the code read is a whole number of records, at most CodeSize |
| Loader.ProgramRead | BUTT/vm/program.c:67-181 | it succeeds exactly when the file holds the 64-byte header and the SymbolSize/8 symbol records after it, with the parsed header, its symbols, the code read at CodeBinaryLocation and zeroed global data of DataSize bytes |
| ObjectFile.LoadWrittenImage | BUTT/vm/program.c:136-147 | a written image loads with its header and symbols, and with the code minus the first instruction, because the code begins 8 bytes before the recorded location |
| ObjectFile.SymbolsRead | BUTT/vm/program.c:113-126 | the written symbol table reads back intact |
| ObjectFile.CodeRead | BUTT/vm/program.c:136-147 | the code read at the recorded location is the written code without its first instruction |
| ObjectFile.SerializeThenLoad | BUTT/translator/program.c:243-244 | a serialized program loads with its header and symbols, and its code loses the first instruction |
| ObjectFile.CodeReadExactly | BUTT/vm/program.c:136-147 | with the true code location, every written instruction is read |
| ObjectFile.LoadExactImage | BUTT/vm/program.c:67-181 | an image whose header records the true code location loads back exactly |
| ObjectFile.CorrectedSerializeThenLoad | BUTT/translator/program.c:243-244 | with the corrected header, serializing and then loading is the identity on header, symbols and code |
| VmState.ZeroSet | BUTT/vm/exec.c:1058-1064 | a fresh register set has 17 zero slots |
| VmState.Signed | BUTT/vm/memory_inl.h:52-107 | reading a register as a LONG gives the value congruent to its bits modulo 2^32 |
| VmState.Slot | BUTT/vm/memory_inl.h:52-107 | a slot can be read exactly when its index is a register of the set |
| VmState.SetSlot | BUTT/vm/memory_inl.h:111-118 | writing a slot changes that slot alone |
| VmState.ReadStack | BUTT/vm/memory_inl.h:52-107 | a stack read succeeds exactly inside the stack and reads the little-endian word at the bias-corrected offset |
| VmState.WriteStack | BUTT/vm/memory_inl.h:52-107 | a stack write succeeds exactly inside the stack; the word reads back and every other byte is kept |
| VmState.ReadData | BUTT/vm/memory_inl.h:52-107 | a global-data read succeeds exactly inside the data segment |
| VmState.WriteData | BUTT/vm/memory_inl.h:52-107 | a global-data write reads back and keeps every other byte |
| VmState.RegisterValue | BUTT/vm/memory_inl.h:52-107 | an operand's value: global data for RGD, the stack word for an index register, the constant for RCT, and the slot otherwise |
| Exec.Advance | BUTT/vm/exec.c:212-213 | moving on raises RIP by 8 and changes no other slot |
| Exec.PutResult | BUTT/vm/exec.c:199-210 | storing a result keeps the stack size, the saved sets and the I/O streams |
| Exec.ExecArithmetic | BUTT/vm/exec.c:70-216 | the arithmetic handler continues the thread and keeps the stack size |
| Exec.ExecDirectIndirect | BUTT/vm/exec.c:219-272 | the copy handler continues the thread |
| Exec.ExecStore | BUTT/vm/exec.c:275-379 | the store handler continues the thread and keeps the stack size |
| Exec.JumpTarget | BUTT/vm/exec.c:382-445 | a target can be resolved exactly through RIP or RCT |
| Exec.Call | BUTT/vm/exec.c:450-496 | CALLNORM continues the thread and keeps the stack size |
| Exec.ExecJump | BUTT/vm/exec.c:382-508 | the jump handler continues the thread and keeps the stack size |
| Exec.ExecReturn | BUTT/vm/exec.c:511-579 | RETURN with no saved set stops the thread as it is; otherwise a successful return continues it |
| Exec.PutPopped | BUTT/vm/exec.c:665-689 | a popped value's store keeps the stack size and the saved sets |
| Exec.ExecStack | BUTT/vm/exec.c:582-689 | the stack handler continues the thread and keeps the stack size |
| Exec.PrintLoop | BUTT/vm/exec.c:729-755 | the print loop keeps the stack size |
| Exec.ReadLoop | BUTT/vm/exec.c:756-785 | the read loop keeps the stack size |
| Exec.IoLoop | BUTT/vm/exec.c:692-790 | the I/O loop keeps the stack size |
| Exec.ExecIo | BUTT/vm/exec.c:692-790 | the I/O handler continues the thread and keeps the stack size |
| Exec.Execute | BUTT/vm/exec.c:816-877 | an opcode no handler claims is fatal |
| Exec.Fetch | BUTT/vm/exec.c:907-910 | a fetch succeeds exactly when 8 bytes of loaded code lie at RIP minus the code bias |
| Exec.Step | BUTT/vm/exec.c:905-912 | one iteration keeps the stack size |
| Exec.Run | BUTT/vm/exec.c:880-915 | the loop keeps the stack size |
| Exec.Boot | BUTT/vm/exec.c:919-1077 | booting needs stack alignment 4; the first thread starts at CodeStart with RST = RSB = StackTop, other slots zero and nothing saved |
| ExecProperties.SignedTrunc32 | BUTT/vm/memory_inl.h:111-118 | a LONG stored into a register reads back unchanged |
| ExecProperties.QuotientMeaning | BUTT/vm/exec.c:140-143 | DIVI and DIVF trap exactly on a zero divisor and on INT_MIN / -1, and otherwise divide as C does |
| ExecProperties.ComputeMeaning | BUTT/vm/exec.c:124-194 | the F opcodes compute as their I opcodes; DIVI divides as C does and traps on a zero divisor and on INT_MIN / -1; logic and comparison opcodes give 0 or 1; LT and GTE compare as signed; NOT fails; anything outside the group is fatal |
| ExecProperties.FloatAsInteger | BUTT/vm/exec.c:125-143 | each F opcode computes exactly what its I opcode does, and NOT never yields a value |
| ExecProperties.DivisionAsC | BUTT/vm/exec.c:140-143 | DIVI succeeds exactly when the divisor is non-zero and the quotient is not INT_MIN / -1, and its quotient truncates toward zero as in C |
| ExecProperties.TruthValues | BUTT/vm/exec.c:160-190 | logical and comparison opcodes give 0 or 1 |
| ExecProperties.SignedComparisons | BUTT/vm/exec.c:176-190 | LT and GTE compare their operands as signed LONGs |
| ExecProperties.OutsideTheGroup | BUTT/vm/exec.c:192-194 | an opcode outside the arithmetic group is fatal |
| ExecProperties.PutResultReadsBack | BUTT/vm/exec.c:199-210 | after a handler stores a value, the destination reads it back; a register destination changes only that register, and a memory destination changes no register |
| ExecProperties.StoreAndAdvance | BUTT/vm/exec.c:199-213 | after a store and an advance, the value reads back, and RIP has moved on unless it was the destination |
| ExecProperties.ReadsBackAfterAdvance | BUTT/vm/exec.c:199-213 | moving RIP on keeps what every other destination reads back |
| ExecProperties.ArithmeticEffect | BUTT/vm/exec.c:70-216 | the arithmetic handler leaves L op R where the destination reads it, moves RIP on unless it is the destination, and keeps the saved sets and I/O |
| ExecProperties.StoreValueMeaning | BUTT/vm/exec.c:320-354 | a store writes the source's low 8 or 16 bits sign-extended (all 32 for the others), and masking again changes nothing |
| ExecProperties.ByteExtension | BUTT/vm/exec.c:321-354 | sign extension from bit 7 keeps the low byte, fills the rest with bit 7 and is idempotent |
| ExecProperties.HalfExtension | BUTT/vm/exec.c:328-354 | the same from bit 15 |
| ExecProperties.StoreEffect | BUTT/vm/exec.c:275-379 | the store handler leaves the width-adjusted value where the destination reads it and moves RIP on |
| ExecProperties.UnsignedStoreAsSigned | BUTT/vm/exec.c:320-343 | an unsigned store executes exactly as the signed store of the same width |
| ExecProperties.DispatchStore | BUTT/vm/exec.c:844-852 | store opcodes are dispatched to the store handler |
| ExecProperties.StoreOpcodeWidth | BUTT/vm/exec.c:320-343 | the store handler treats STRU8, STRU16 and STRU32 exactly as STRI8, STRI16 and STRI32 |
| ExecProperties.MoveIsFatal | BUTT/vm/exec.c:219-272 | MOVE reaching the VM is fatal |
| ExecProperties.NotNeverCompletes | BUTT/vm/exec.c:157-158 | a NOT instruction never completes |
| ControlProperties.CopyEffect | BUTT/vm/exec.c:219-272 | RCOPYD stores the left register plus the offset (a constant, or another register's value) into the destination and moves RIP on; no other slot, the stack, the data or the saved sets change |
| ControlProperties.UnpatchedJumpFails | BUTT/vm/exec.c:382-445 | a jump through a register other than RIP and RCT fails its assertion |
| ControlProperties.TargetValue | BUTT/vm/exec.c:382-445 | a RIP jump is relative to the jump's own address and an RCT jump is absolute |
| ControlProperties.ConditionalJump | BUTT/vm/exec.c:436-507 | JMPZ goes to the target when the zero register is 0 and to the next instruction otherwise, changing nothing else |
| ControlProperties.UnconditionalJump | BUTT/vm/exec.c:445-448 | JMP moves RIP to the target and changes nothing else |
| ControlProperties.CallEffect | BUTT/vm/exec.c:450-496 | CALLNORM stores RIP + 8 at RSB - 4, saves the caller's set and starts the callee with a zeroed set sharing RST and RSB; it fails exactly when that word is outside the stack |
| ControlProperties.CallThenReturn | BUTT/vm/exec.c:450-579 | a callee that hands back RSB and the return address returns to the instruction after the call, with the caller's set restored except RRV, RST and the cleaned-up RSB |
| ControlProperties.PushEffect | BUTT/vm/exec.c:645-688 | PUSH of a plain register lowers RSB by 4 and stores the register's value there; it fails exactly outside the stack |
| ControlProperties.IndexOperand | BUTT/vm/exec.c:615-634 | an index-register operand is readable exactly when, for RGD, the global word at the offset and the stack word at the register's value less the bias plus the offset lie in bounds, and it is that stack word |
| ControlProperties.PushIndexedEffect | BUTT/vm/exec.c:615-686 | PUSH of an index-register operand pushes the stack word at the register's value less the bias plus the offset, changes no other stack byte, lowers RSB by 4 and moves RIP on; it fails exactly when that word, the new top or the RGD global word is out of bounds |
| ControlProperties.PushConstantEffect | BUTT/vm/exec.c:635-686 | PUSH of RCT pushes the instruction's offset itself, lowers RSB by 4 and moves RIP on; it fails exactly when the new top is outside the stack |
| ControlProperties.PopEffect | BUTT/vm/exec.c:665-688 | POP into a plain register copies the word at RSB into the register and raises RSB by 4 |
| ControlProperties.PopIndexedEffect | BUTT/vm/exec.c:615-686 | POP into an index-register operand writes the word at RSB into the stack word the operand names, changes no other stack byte, raises RSB by 4 and moves RIP on; it fails exactly when either word or the RGD global word is out of bounds |
| ControlProperties.PopConstantFails | BUTT/vm/exec.c:635-637 | POP into RCT is an assertion failure |
| ControlProperties.StackOutsideSetFails | BUTT/vm/exec.c:640-642 | PUSH or POP of a register number past the register set fails |
| ControlProperties.PushThenPop | BUTT/vm/exec.c:582-689 | PUSH then POP copies the value between registers, with RSB restored and RIP 16 further on |
| IoProperties.Walked | BUTT/vm/exec.c:729-785 | the words a walk down the stack reads, in the order it reads them |
| IoProperties.WalkableStep | BUTT/vm/exec.c:729-785 | a walk of n + 1 words is the word at its start followed by a walk of n words from 4 below |
| IoProperties.PrintEffect | BUTT/vm/exec.c:729-755 | PRINT's loop succeeds exactly when every word it visits is inside the stack; it then appends them to the output in order and raises RSB by 4 per word |
| IoProperties.PrintSucceeds | BUTT/vm/exec.c:729-755 | PRINT's loop succeeds exactly when every visited word is inside the stack |
| IoProperties.PrintOutput | BUTT/vm/exec.c:729-755 | the output gains exactly the visited words, in order |
| IoProperties.PrintRegisters | BUTT/vm/exec.c:729-755 | RSB rises by 4 per word and nothing else changes |
| IoProperties.Consumed | BUTT/vm/exec.c:756-785 | READ consumes one value per word while input lasts |
| IoProperties.ReadEffect | BUTT/vm/exec.c:756-785 | READ's loop consumes input per word, raises RSB, and keeps the output, the data and the saved sets |
| IoProperties.ReadWithoutInput | BUTT/vm/exec.c:756-785 | with no input, READ writes nothing and succeeds exactly when every visited word is inside the stack |
| IoProperties.RemainingIsSuffix | BUTT/vm/exec.c:756-785 | consuming one input value per read while input lasts leaves the input without its first min(n, available) values |
| IoProperties.ReadRegisters | BUTT/vm/exec.c:756-785 | READ raises RSB by 4 per word, changes no other register slot, keeps the output, data and saved sets, and consumes one input value per word while input lasts |
| IoProperties.ReadOutcomeStep | BUTT/vm/exec.c:756-785 | one READ iteration followed by n - 1 more has the outcome of n iterations |
| IoProperties.PrintInstruction | BUTT/vm/exec.c:692-790 | PRINT n prints the n topmost stack words, the first pushed first, pops them and moves RIP on; it fails exactly when one of them lies outside the stack |
| IoProperties.ReadInstruction | BUTT/vm/exec.c:692-790 | READ n consumes min(n, available) inputs, pops n words and moves RIP on |
| IoProperties.ReadNextStores | BUTT/vm/exec.c:756-785 | with input left, one READ iteration stores the next input value at the stack address held in the popped word and leaves every other stack byte alone |
| RunProperties.ReturnWithoutCallerStops | BUTT/vm/exec.c:511-579 | a RETURN with no saved set ends the loop with the thread as it is |
| RunProperties.LoadedFetch | BUTT/vm/exec.c:907-910 | after serializing and loading, a fetch 8k bytes past CodeStart returns written instruction k + 1 |
| RunProperties.BootFetchesSecond | BUTT/vm/exec.c:919-1077 | the booted thread's first fetch returns the second written instruction |
| RunProperties.BootAtCodeStart | BUTT/vm/exec.c:919-1077 | the booted thread's RIP is the code bias |
| RunProperties.CorrectedLoadedFetch | BUTT/vm/exec.c:907-910 | with the corrected header, a fetch 8k bytes past CodeStart returns written instruction k |
| RunProperties.CorrectedBootFetchesFirst | BUTT/vm/exec.c:919-1077 | with the corrected header, the booted thread's first fetch is the first written instruction |

## Left out

- Threads: the Win32 threads and the parallel calls CALLPLLS and CALLPLLA (vm/exec.c, lines 919-1077) are left out. The VM treats these calls as a fatal assertion; thread creation and joining are foreign calls.
- Text formatting: printf and scanf formatting are left out. PRINT and READ are modelled on the 32-bit values they emit and consume.
- Front end and glue: file opening, vm/main.c, the command-line glue and all debug printing are left out.
- Allocation failures: malloc failure is not modelled, including the −1 return of `ProgramRead`.
- Loader buffer: the part of the code buffer that no record was read into is left out, because its bytes are whatever malloc returned.
- Stack alignment: the handlers read the alignment from the header. The model fixes it at 4, which is what the translator writes, and `Exec.Boot` fails on any other value.
- Atomic stores: the atomic bit of a Store instruction is encoded and decoded but has no effect when executed, as in the VM.
- Floating point: float values are left out. The F opcodes compute on the bits as their I opcodes do, as the source does.
- Containers: the symbol-table hash map (shashmap.h) is a Dafny `map` from names to identifiers. The stack and the queue are sequences.
- Register names: the register name table (BUTT/common/registerdef.c) is used only for debug output and is left out. `Allocator.SlotName` builds the allocator's own names.
- Destroy functions: the Destroy* functions do not free anything in this model, since values are immutable.
- Exec.Run: takes a fuel bound. When the fuel runs out it returns `Continue` with the thread as it is at that point; the real loop would go on. Its contract states only that the stack keeps its size. Only single steps are related to the handlers' effects; no lemma composes runs of several steps.
- Exec.Step: its contract states only that the stack keeps its size. Its outcome for each opcode is stated by the ExecProperties, ControlProperties and IoProperties lemmas.
- IoProperties.ReadEffect: states the stack contents after READ only when no input is left. With input, the words written depend on the addresses read from the stack.
- IoProperties.ReadInstruction: does not state where the consumed values are stored, because each store goes to an address read from the stack after the earlier stores of the same READ. `IoProperties.ReadNextStores` states the store of one iteration.
- Loader.ProgramRead: the C loader frees the function-symbol buffer on every path before returning (vm/program.c:175-178), so the symbol table it hands back points at freed memory. The model returns the parsed records instead; no VM handler reads them.
- Signed overflow: signed additions, subtractions and multiplications wrap modulo 2^32 in the model. C leaves signed overflow undefined.
- Scope data pointer: `DataPointer` is a 64-bit `unsigned long long` (translator/objtypes.h:148). The model keeps it as an unbounded integer, which agrees with C modulo 2^64 and therefore in every 32-bit offset taken from it.
- Write buffer count: `WriteBufferCount` in `ProgramSerializeQueue` (translator/program.c:135) is never initialised. The model takes it to start at 0.
- Allocator.NextAvailableRegister: at capacity it takes the NULL return. In debug builds an assertion precedes that return (register.c:1170).
- Allocator.NextAvailableRegisterIndex: at capacity it takes the NULL return. In debug builds an assertion precedes that return (register.c:1211).
- Generator.GenerateExpressionInstructionsEmptyStacks: reproduces the second operator pop, so it faults on an odd number of pending operators.
- Exec.ExecArithmetic: states only that the thread continues and the stack keeps its size. `ExecProperties.ArithmeticEffect` states its effect.
- Exec.ExecDirectIndirect: states only that the thread continues. `ControlProperties.CopyEffect` states its effect.
- Exec.ExecStore: states only that the thread continues and the stack keeps its size. `ExecProperties.StoreEffect` states its effect.
- Exec.ExecJump: states only that the thread continues and the stack keeps its size. `ControlProperties.ConditionalJump`, `ControlProperties.UnconditionalJump` and `ControlProperties.CallEffect` state its effect.
- Exec.Call: states only that the thread continues and the stack keeps its size. `ControlProperties.CallEffect` states its effect.
- Exec.ExecReturn: beyond the return without a caller, it states only that the thread continues. `ControlProperties.CallThenReturn` states its effect.
- Exec.ExecStack: states only that the thread continues and the stack keeps its size. Its effect is stated per operand kind: `ControlProperties.PushEffect` and `ControlProperties.PopEffect` for plain registers, `ControlProperties.PushIndexedEffect` and `ControlProperties.PopIndexedEffect` for index registers, `ControlProperties.PushConstantEffect` and `ControlProperties.PopConstantFails` for RCT, and `ControlProperties.StackOutsideSetFails` for numbers past the register set.
- Exec.ExecIo: states only that the thread continues and the stack keeps its size. `IoProperties.PrintInstruction` and `IoProperties.ReadInstruction` state its effect.
- Exec.PrintLoop: states only that the stack keeps its size. `IoProperties.PrintEffect` states its effect.
- Exec.ReadLoop: states only that the stack keeps its size. `IoProperties.ReadEffect` states its effect.
- Exec.IoLoop: states only that the stack keeps its size. The two lemmas above state its effect.
- Exec.PutResult: states only what a store keeps. `ExecProperties.PutResultReadsBack` states what it writes.
- Exec.PutPopped: states only what a store keeps. `ControlProperties.PopEffect` and `ControlProperties.PopIndexedEffect` state what it writes.
- Loader.ReadSymbols: states only the number of symbols. `ObjectFile.SymbolsRead` states their contents for a written image.
- Loader.LoadCode: states only the size of the code. `ObjectFile.CodeRead` and `ObjectFile.CodeReadExactly` state its contents.
- Generator.GenerateExpressionInstructionsUntilMatch: states only that the allocator stays well formed. `Generator.UntilMatchConsumes` states its effect on the stacks and the queue.
- Generator.UntilMatchFrom: states only that the allocator stays well formed. `Generator.UntilMatchDrain` and `Generator.UntilMatchOperators` state the rest.
- Generator.ArrayAccess: states only that an access is three instructions. `Generator.ArrayEmit` states what the emitted access pushes.

## Findings

| source | as written | input that shows it | evidently intended | confidence | as-written member | corrected member |
|---|---|---|---|---|---|---|
| BUTT/translator/register.c:945 | The guard compares `Register - REG_RT0` with `NextAvailable - 1` on unsigned operands. When the cursor is 0 the subtraction wraps, and every working register passes. The same applies to index registers at line 1023. | `ReferenceRegister` on RT0 in the initial allocator. It succeeds and leaves RT0 referenced with the cursor at 0, so the next `NextAvailableRegister` faults. | Only a register below the cursor, that is an allocated one, can be referenced. | not executed; high | Allocator.ReferenceAtEmptyCursor | Allocator.ReferenceRegisterChecked |
| BUTT/translator/program.c:243-244 | `CodeBinaryLocation` is set one symbol record past the end of the symbol table. The instructions are written right after the table, and the loader seeks to the recorded location (vm/program.c:136). | Any program with two or more instructions. The booted thread's first fetch returns the second written instruction, and a call to a function lands on the function's second instruction. | The loaded code is the written code, so the instruction the translator placed at code address CodeStart + 8k is the one fetched there. | not executed; medium | RunProperties.BootFetchesSecond | ObjectFile.CorrectedSerializeThenLoad |

=== FILE: allocator.dfy ===
/**
 The translator's allocator for scratch registers (translator/register.c):
 eight working registers RT0..RT7 and four index registers IX0..IX3, each
 class handed out strictly in order through a cursor and given back in the
 reverse order. The C code keeps the two register arrays and their cursors
 in the global `GWorkingIndexRegisters`; here they are one explicit value.

 Each register is an identifier object in C, and the operand stack holds
 pointers to those objects. The model keeps the mutable parts of each
 object, its reference count and its data type, in a `Slot`, and hands out
 identifier values (`Handle`) that name the register; reading the data type
 of a handle goes through the slot (`Current`), as the C pointer would.
 */
module Allocator {
  import opened Base
  import opened RegisterDef
  import opened ObjTypes

  /** The mutable part of an RTn or IXn identifier object. */
  datatype Slot = Slot(refCount: nat, dataType: IdnType)

  /** `WORKING_REGISTERS`: both register arrays and both cursors. */
  datatype Registers = Registers(working: seq<Slot>, index: seq<Slot>, nextWorking: nat, nextIndex: nat)

  /** The arrays have their fixed sizes and the cursors stay within them. */
  predicate WellFormed(s: Registers)
  {
    |s.working| == WorkingRegisterCount && |s.index| == IndexRegisterCount
    && s.nextWorking <= WorkingRegisterCount && s.nextIndex <= IndexRegisterCount
  }

  /**
   The discipline the cursors maintain: exactly the registers below the
   cursor are in use, and every register in use is referenced.
   */
  predicate Stacked(slots: seq<Slot>, next: nat)
  {
    next <= |slots|
    && (forall i :: 0 <= i < next ==> slots[i].refCount > 0)
    && (forall i :: next <= i < |slots| ==> slots[i].refCount == 0)
  }

  predicate Valid(s: Registers)
  {
    WellFormed(s) && Stacked(s.working, s.nextWorking) && Stacked(s.index, s.nextIndex)
  }

  /** The name the C code gives register `k` of a class: "REG_RT0", "REG_IX3", ... */
  function SlotName(prefix: string, k: nat): (r: string)
    requires k < 10
    ensures |r| == |prefix| + 1 && r[..|prefix|] == prefix
  {
    prefix + ["0123456789"[k]]
  }

  /**
   `InitializeRegisters`: every register object zeroed, so unreferenced and
   of data type INT8T (the enumerator 0), and both cursors at 0.
   */
  function Initialize(): (s: Registers)
    ensures Valid(s)
    ensures s.nextWorking == 0 && s.nextIndex == 0
    ensures forall i :: 0 <= i < |s.working| ==> s.working[i] == Slot(0, INT8T)
    ensures forall i :: 0 <= i < |s.index| ==> s.index[i] == Slot(0, INT8T)
  {
    Registers(seq(WorkingRegisterCount, _ => Slot(0, INT8T)), seq(IndexRegisterCount, _ => Slot(0, INT8T)), 0, 0)
  }

  /**
   The identifier object of register `r` of either class, as the C code hands
   out a pointer to it: its name, its register, offset 0 and the slot's type.
   */
  function Handle(s: Registers, r: Register): (id: Identifier)
    requires WellFormed(s) && (IsWorking(r) || IsIndexIx(r))
    ensures id.register == r && id.offset == 0
    ensures IsWorking(r) ==> id.dataType == s.working[r - RT0].dataType
    ensures IsIndexIx(r) ==> id.dataType == s.index[r - IX0].dataType
  {
    if IsWorking(r) then
      Identifier(SlotName("REG_RT", r - RT0), r, 0, s.working[r - RT0].dataType, 0, 0, 0, [])
    else
      Identifier(SlotName("REG_IX", r - IX0), r, 0, s.index[r - IX0].dataType, 0, 0, 0, [])
  }

  /**
   What a pointer to `id` reads now: for an RT or IX register the object in
   the allocator (whose data type may have changed since the handle was
   taken), for any other identifier the identifier itself.
   */
  function Current(s: Registers, id: Identifier): (r: Identifier)
    requires WellFormed(s)
    ensures r.register == id.register
    ensures !IsWorking(id.register) && !IsIndexIx(id.register) ==> r == id
    ensures IsWorking(id.register) ==> r.dataType == s.working[id.register - RT0].dataType
  {
    if IsWorking(id.register) || IsIndexIx(id.register) then Handle(s, id.register) else id
  }

  /** `ResetWorkingIndexRegister`: offsets, array size and count to 0; the data type stays. */
  function Reset(slot: Slot): (r: Slot)
    ensures r.refCount == 0 && r.dataType == slot.dataType
  {
    slot.(refCount := 0)
  }

  // ---------------------------------------------------------------- allocation

  /**
   `NextAvailableRegister`: the working register at the cursor, now with
   count 1, and the cursor advanced; `None` once all eight are in use. The
   slot at the cursor must be unreferenced.
   */
  function NextAvailableRegister(s: Registers): (r: Result<(Registers, Option<Identifier>), Fault>)
    requires WellFormed(s)
    ensures r.Ok? && s.nextWorking >= WorkingRegisterCount ==> r.value == (s, None)
    ensures r.Ok? && s.nextWorking < WorkingRegisterCount ==>
              r.value.1 == Some(Handle(s, RT0 + s.nextWorking))
              && r.value.0 == s.(working := s.working[s.nextWorking := Slot(1, s.working[s.nextWorking].dataType)],
                                 nextWorking := s.nextWorking + 1)
    ensures r.Err? <==> s.nextWorking < WorkingRegisterCount && s.working[s.nextWorking].refCount != 0
  {
    if s.nextWorking >= WorkingRegisterCount then Ok((s, None))
    else
      var k := s.nextWorking;
      if s.working[k].refCount != 0 then Err(AssertionFailed("next working register is referenced"))
      else
        var s' := s.(working := s.working[k := s.working[k].(refCount := 1)], nextWorking := k + 1);
        Ok((s', Some(Handle(s, RT0 + k))))
  }

  /** `NextAvailableRegisterIndex`: the same over IX0..IX3. */
  function NextAvailableRegisterIndex(s: Registers): (r: Result<(Registers, Option<Identifier>), Fault>)
    requires WellFormed(s)
    ensures r.Ok? && s.nextIndex >= IndexRegisterCount ==> r.value == (s, None)
    ensures r.Ok? && s.nextIndex < IndexRegisterCount ==>
              r.value.1 == Some(Handle(s, IX0 + s.nextIndex))
              && r.value.0 == s.(index := s.index[s.nextIndex := Slot(1, s.index[s.nextIndex].dataType)],
                                 nextIndex := s.nextIndex + 1)
    ensures r.Err? <==> s.nextIndex < IndexRegisterCount && s.index[s.nextIndex].refCount != 0
  {
    if s.nextIndex >= IndexRegisterCount then Ok((s, None))
    else
      var k := s.nextIndex;
      if s.index[k].refCount != 0 then Err(AssertionFailed("next index register is referenced"))
      else
        var s' := s.(index := s.index[k := s.index[k].(refCount := 1)], nextIndex := k + 1);
        Ok((s', Some(Handle(s, IX0 + k))))
  }

  // ---------------------------------------------------------------- reference counts

  /**
   One class's reference: the register must be below the cursor as the C
   code tests it, `k <= next - 1` in unsigned arithmetic; with the cursor at
   0 the subtraction wraps to UINT_MAX and every register passes.
   */
  function ReferenceSlot(slots: seq<Slot>, next: nat, k: nat): (r: Result<seq<Slot>, Fault>)
    requires k < |slots|
    ensures r.Err? <==> next != 0 && k > next - 1
    ensures r.Ok? ==> r.value == slots[k := slots[k].(refCount := slots[k].refCount + 1)]
  {
    if next != 0 && k > next - 1 then Err(AssertionFailed("referenced register is not allocated"))
    else Ok(slots[k := slots[k].(refCount := slots[k].refCount + 1)])
  }

  /**
   One class's dereference: the count must be positive; when it drops to 0
   the register must be the last one handed out (`k == next - 1`, which with
   the cursor at 0 compares against UINT_MAX and fails); it is then reset and
   the cursor moves back.
   */
  function DereferenceSlot(slots: seq<Slot>, next: nat, k: nat): (r: Result<(seq<Slot>, nat), Fault>)
    requires k < |slots|
    ensures r.Err? <==> slots[k].refCount == 0 || (slots[k].refCount == 1 && !(next > 0 && k == next - 1))
    ensures r.Ok? && slots[k].refCount > 1 ==>
              r.value == (slots[k := slots[k].(refCount := slots[k].refCount - 1)], next)
    ensures r.Ok? && slots[k].refCount == 1 ==> r.value == (slots[k := Reset(slots[k])], next - 1)
  {
    if slots[k].refCount == 0 then Err(AssertionFailed("dereferenced register has no references"))
    else if slots[k].refCount > 1 then Ok((slots[k := slots[k].(refCount := slots[k].refCount - 1)], next))
    else if next > 0 && k == next - 1 then Ok((slots[k := Reset(slots[k])], (next - 1) as nat))
    else Err(AssertionFailed("freed register is not the most recently allocated"))
  }

  /**
   `ReferenceRegister`: index registers first, then working registers;
   any other register is left alone.
   */
  function ReferenceRegister(s: Registers, r: Register): (t: Result<Registers, Fault>)
    requires WellFormed(s)
    ensures !IsWorking(r) && !IsIndexIx(r) ==> t == Ok(s)
    ensures IsWorking(r) ==> (t.Err? <==> s.nextWorking != 0 && r - RT0 >= s.nextWorking)
    ensures IsIndexIx(r) ==> (t.Err? <==> s.nextIndex != 0 && r - IX0 >= s.nextIndex)
    ensures t.Ok? && IsWorking(r) ==>
              t.value == s.(working := s.working[r - RT0 := s.working[r - RT0].(refCount := s.working[r - RT0].refCount + 1)])
  {
    if IsIndexIx(r) then
      match ReferenceSlot(s.index, s.nextIndex, r - IX0)
      case Err(e) => Err(e)
      case Ok(slots) => Ok(s.(index := slots))
    else if IsWorking(r) then
      match ReferenceSlot(s.working, s.nextWorking, r - RT0)
      case Err(e) => Err(e)
      case Ok(slots) => Ok(s.(working := slots))
    else Ok(s)
  }

  /**
   `DereferenceRegister`: index registers first, then working registers;
   any other register (constants, variables, special registers) is left alone.
   */
  function DereferenceRegister(s: Registers, r: Register): (t: Result<Registers, Fault>)
    requires WellFormed(s)
    ensures !IsWorking(r) && !IsIndexIx(r) ==> t == Ok(s)
    ensures t.Ok? ==> WellFormed(t.value)
    ensures IsWorking(r) ==>
              (t.Err? <==> s.working[r - RT0].refCount == 0
                           || (s.working[r - RT0].refCount == 1 && r - RT0 + 1 != s.nextWorking))
    ensures IsIndexIx(r) ==>
              (t.Err? <==> s.index[r - IX0].refCount == 0
                           || (s.index[r - IX0].refCount == 1 && r - IX0 + 1 != s.nextIndex))
    ensures t.Ok? && IsWorking(r) ==> t.value.index == s.index && t.value.nextIndex == s.nextIndex
    ensures t.Ok? && IsIndexIx(r) ==> t.value.working == s.working && t.value.nextWorking == s.nextWorking
  {
    if IsIndexIx(r) then
      match DereferenceSlot(s.index, s.nextIndex, r - IX0)
      case Err(e) => Err(e)
      case Ok((slots, next)) => Ok(s.(index := slots, nextIndex := next))
    else if IsWorking(r) then
      match DereferenceSlot(s.working, s.nextWorking, r - RT0)
      case Err(e) => Err(e)
      case Ok((slots, next)) => Ok(s.(working := slots, nextWorking := next))
    else Ok(s)
  }

  /** Sets the data type of an RT register's object, as `Dest->DataType = ...` does through the pointer. */
  function SetDataType(s: Registers, r: Register, t: IdnType): (s': Registers)
    requires WellFormed(s)
    ensures WellFormed(s')
    ensures IsWorking(r) ==> s' == s.(working := s.working[r - RT0 := s.working[r - RT0].(dataType := t)])
    ensures !IsWorking(r) ==> s' == s
    ensures Valid(s) ==> Valid(s')
  {
    if IsWorking(r) then s.(working := s.working[r - RT0 := s.working[r - RT0].(dataType := t)]) else s
  }

  /**
   `FreeAllRegisters`: at most one register of each class may still be in
   use; every register is reset and both cursors return to 0.
   */
  function FreeAllRegisters(s: Registers): (r: Result<Registers, Fault>)
    requires WellFormed(s)
    ensures r.Err? <==> s.nextWorking > 1 || s.nextIndex > 1
    ensures r.Ok? ==> Valid(r.value) && r.value.nextWorking == 0 && r.value.nextIndex == 0
    ensures r.Ok? ==> forall i :: 0 <= i < |s.working| ==> r.value.working[i] == Reset(s.working[i])
    ensures r.Ok? ==> forall i :: 0 <= i < |s.index| ==> r.value.index[i] == Reset(s.index[i])
  {
    if s.nextWorking > 1 || s.nextIndex > 1 then Err(AssertionFailed("more than one register in use"))
    else
      Ok(Registers(seq(|s.working|, i requires 0 <= i < |s.working| => Reset(s.working[i])),
                   seq(|s.index|, i requires 0 <= i < |s.index| => Reset(s.index[i])), 0, 0))
  }

  // ---------------------------------------------------------------- properties

  /** Under the discipline, allocation never trips its own assertion and keeps the discipline. */
  lemma NextAvailablePreservesValid(s: Registers)
    requires Valid(s)
    ensures NextAvailableRegister(s).Ok? && Valid(NextAvailableRegister(s).value.0)
    ensures NextAvailableRegister(s).value.1.None? <==> s.nextWorking == WorkingRegisterCount
    ensures NextAvailableRegisterIndex(s).Ok? && Valid(NextAvailableRegisterIndex(s).value.0)
    ensures NextAvailableRegisterIndex(s).value.1.None? <==> s.nextIndex == IndexRegisterCount
  {
  }

  /** Allocation from any well-formed state keeps the shape, and the discipline where it held. */
  lemma NextAvailableKeeps(s: Registers)
    requires WellFormed(s)
    ensures NextAvailableRegister(s).Ok? ==> WellFormed(NextAvailableRegister(s).value.0)
    ensures NextAvailableRegister(s).Ok? && Valid(s) ==> Valid(NextAvailableRegister(s).value.0)
    ensures NextAvailableRegisterIndex(s).Ok? ==> WellFormed(NextAvailableRegisterIndex(s).value.0)
    ensures NextAvailableRegisterIndex(s).Ok? && Valid(s) ==> Valid(NextAvailableRegisterIndex(s).value.0)
  {
    if Valid(s) {
      NextAvailablePreservesValid(s);
    }
  }

  /** A release from any well-formed state keeps the discipline where it held. */
  lemma DereferenceKeeps(s: Registers, r: Register)
    requires WellFormed(s)
    ensures DereferenceRegister(s, r).Ok? && Valid(s) ==> Valid(DereferenceRegister(s, r).value)
  {
    if DereferenceRegister(s, r).Ok? && Valid(s) {
      DereferencePreservesValid(s, r);
    }
  }

  /** A release changes reference counts only: every register's object keeps its name and type. */
  lemma DereferenceKeepsObjects(s: Registers, r: Register, id: Identifier)
    requires WellFormed(s) && DereferenceRegister(s, r).Ok?
    ensures Current(DereferenceRegister(s, r).value, id) == Current(s, id)
  {
  }

  /**
   Allocation followed by releasing the register just handed out restores
   the allocator exactly: the count returns to 0, the data type was never
   touched and the cursor moves back.
   */
  lemma AllocateThenRelease(s: Registers)
    requires Valid(s) && s.nextWorking < WorkingRegisterCount
    ensures var (s', h) := NextAvailableRegister(s).value;
            h.Some? && DereferenceRegister(s', h.value.register) == Ok(s)
  {
    var k := s.nextWorking;
    var (s', h) := NextAvailableRegister(s).value;
    assert s'.working[k := Reset(s'.working[k])] == s.working;
  }

  /** The same round trip for index registers. */
  lemma AllocateThenReleaseIndex(s: Registers)
    requires Valid(s) && s.nextIndex < IndexRegisterCount
    ensures var (s', h) := NextAvailableRegisterIndex(s).value;
            h.Some? && DereferenceRegister(s', h.value.register) == Ok(s)
  {
    var k := s.nextIndex;
    var (s', h) := NextAvailableRegisterIndex(s).value;
    assert s'.index[k := Reset(s'.index[k])] == s.index;
  }

  /**
   Releases are last-in first-out: dropping the last reference to any
   register other than the most recently allocated one fails.
   */
  lemma ReleaseIsLifo(s: Registers, r: Register)
    requires Valid(s) && IsWorking(r) && s.working[r - RT0].refCount == 1
    ensures DereferenceRegister(s, r).Ok? <==> r == RT0 + s.nextWorking - 1
  {
  }

  /** A release that succeeds keeps the discipline. */
  lemma DereferencePreservesValid(s: Registers, r: Register)
    requires Valid(s) && DereferenceRegister(s, r).Ok?
    ensures Valid(DereferenceRegister(s, r).value)
  {
    var t := DereferenceRegister(s, r).value;
    if IsWorking(r) && s.working[r - RT0].refCount == 1 {
      assert t.nextWorking == s.nextWorking - 1;
      assert forall i :: t.nextWorking <= i < |t.working| ==> t.working[i].refCount == 0;
    }
    if IsIndexIx(r) && s.index[r - IX0].refCount == 1 {
      assert t.nextIndex == s.nextIndex - 1;
      assert forall i :: t.nextIndex <= i < |t.index| ==> t.index[i].refCount == 0;
    }
  }

  /**
   The check in `ReferenceRegister*` as evidently intended: the register
   must be one of those below the cursor.
   */
  function ReferenceRegisterChecked(s: Registers, r: Register): (t: Result<Registers, Fault>)
    requires WellFormed(s)
    ensures !IsWorking(r) && !IsIndexIx(r) ==> t == Ok(s)
    ensures IsWorking(r) ==> (t.Err? <==> r - RT0 >= s.nextWorking)
    ensures IsIndexIx(r) ==> (t.Err? <==> r - IX0 >= s.nextIndex)
    ensures t.Ok? ==> t == ReferenceRegister(s, r)
  {
    if IsIndexIx(r) && r - IX0 >= s.nextIndex then Err(AssertionFailed("referenced register is not allocated"))
    else if IsWorking(r) && r - RT0 >= s.nextWorking then Err(AssertionFailed("referenced register is not allocated"))
    else ReferenceRegister(s, r)
  }

  /** With the intended check, taking a reference keeps the discipline. */
  lemma ReferenceCheckedPreservesValid(s: Registers, r: Register)
    requires Valid(s) && ReferenceRegisterChecked(s, r).Ok?
    ensures Valid(ReferenceRegisterChecked(s, r).value)
  {
  }

  /**
   The check as written lets a reference through while nothing is
   allocated: referencing RT0 in the initial state succeeds, leaves a
   referenced register above the cursor, and the next allocation then
   fails its assertion.
   */
  lemma ReferenceAtEmptyCursor()
    ensures ReferenceRegister(Initialize(), RT0).Ok?
    ensures !Valid(ReferenceRegister(Initialize(), RT0).value)
    ensures NextAvailableRegister(ReferenceRegister(Initialize(), RT0).value).Err?
    ensures ReferenceRegisterChecked(Initialize(), RT0).Err?
  {
    var s := ReferenceRegister(Initialize(), RT0).value;
    assert s.working[0].refCount == 1;
  }
}

=== FILE: base.dfy ===
/**
 Shared vocabulary of the BUTT model: failure-compatible wrappers, the byte
 type, little-endian packing of the fixed-width integers the toolchain writes
 to disk, and the two's-complement view of 32-bit registers.
 */
module Base {

  /** Some/None in place of a nullable pointer. */
  datatype Option<+T> = None | Some(value: T)

  /** Either a value or the reason the computation stopped. */
  datatype Result<+T, +E> = Ok(value: T) | Err(error: E) {
    predicate IsFailure() { Err? }

    function PropagateFailure<U>(): Result<U, E>
      requires Err?
    {
      Err(error)
    }

    function Extract(): T
      requires Ok?
    {
      value
    }
  }

  /**
   Why a run of translator or VM code stopped before finishing: a failed
   `assert`, a dereference of an empty container or NULL pointer, or
   behaviour the C language leaves undefined (an access outside an
   allocation, an out-of-range register slot, a trapping division), or a
   fatal error the VM reports before exiting (`VmFatal`).
   */
  datatype Fault =
    | AssertionFailed(what: string)
    | NullDereference(what: string)
    | Undefined(what: string)
    | Fatal(what: string)

  type byte = bv8

  const Two32: int := 0x1_0000_0000

  /** True when `x` fits a signed 32-bit `long`. */
  predicate IsLong(x: int) { -0x8000_0000 <= x < 0x8000_0000 }

  /**
   The value a C assignment of `x` to a signed 32-bit `long` keeps: the
   unique long congruent to `x` modulo 2^32.
   */
  function Wrap32(x: int): (r: int)
    ensures IsLong(r)
    ensures (r - x) % Two32 == 0
    ensures IsLong(x) ==> r == x
  {
    var m := x % Two32;
    if m < 0x8000_0000 then m else m - Two32
  }

  /** The value a C assignment of `x` to an unsigned 32-bit `ulong` keeps. */
  function Unsigned32(x: int): (r: nat)
    ensures r < Two32
    ensures (r - x) % Two32 == 0
    ensures 0 <= x < Two32 ==> r == x
  {
    x % Two32
  }

  // Little-endian byte images ------------------------------------------------

  function Le16(x: bv16): (r: seq<byte>)
    ensures |r| == 2
  {
    [(x & 0xFF) as byte, (x >> 8) as byte]
  }

  function Le32(x: bv32): (r: seq<byte>)
    ensures |r| == 4
  {
    [(x & 0xFF) as byte, ((x >> 8) & 0xFF) as byte,
     ((x >> 16) & 0xFF) as byte, (x >> 24) as byte]
  }

  function Le64(x: bv64): (r: seq<byte>)
    ensures |r| == 8
  {
    Le32((x & 0xFFFF_FFFF) as bv32) + Le32((x >> 32) as bv32)
  }

  function ReadLe16(s: seq<byte>, at: nat): bv16
    requires at + 2 <= |s|
  {
    (s[at] as bv16) | ((s[at + 1] as bv16) << 8)
  }

  function ReadLe32(s: seq<byte>, at: nat): bv32
    requires at + 4 <= |s|
  {
    (s[at] as bv32) | ((s[at + 1] as bv32) << 8)
    | ((s[at + 2] as bv32) << 16) | ((s[at + 3] as bv32) << 24)
  }

  function ReadLe64(s: seq<byte>, at: nat): bv64
    requires at + 8 <= |s|
  {
    (ReadLe32(s, at) as bv64) | ((ReadLe32(s, at + 4) as bv64) << 32)
  }

  lemma Le16RoundTrip(x: bv16, pre: seq<byte>, post: seq<byte>)
    ensures ReadLe16(pre + Le16(x) + post, |pre|) == x
  {
    var s := pre + Le16(x) + post;
    assert s[|pre|] == (x & 0xFF) as byte && s[|pre| + 1] == (x >> 8) as byte;
  }

  lemma Le32RoundTrip(x: bv32, pre: seq<byte>, post: seq<byte>)
    ensures ReadLe32(pre + Le32(x) + post, |pre|) == x
  {
    var s := pre + Le32(x) + post;
    var b := Le32(x);
    assert s[|pre|] == b[0] && s[|pre| + 1] == b[1] && s[|pre| + 2] == b[2] && s[|pre| + 3] == b[3];
  }

  lemma Le64RoundTrip(x: bv64, pre: seq<byte>, post: seq<byte>)
    ensures ReadLe64(pre + Le64(x) + post, |pre|) == x
  {
    var lo := (x & 0xFFFF_FFFF) as bv32;
    var hi := (x >> 32) as bv32;
    assert pre + Le64(x) + post == pre + Le32(lo) + (Le32(hi) + post);
    Le32RoundTrip(lo, pre, Le32(hi) + post);
    assert pre + Le64(x) + post == (pre + Le32(lo)) + Le32(hi) + post;
    Le32RoundTrip(hi, pre + Le32(lo), post);
  }

  // Unsigned integers held as `nat`s ---------------------------------------

  /** A value of a `uint16_t` field. */
  type U16 = x: nat | x < 0x1_0000
  /** A value of a `uint32_t` or `ULONG` field. */
  type U32 = x: nat | x < Two32

  /** The 32-bit pattern of an unsigned value, built one bit at a time. */
  function NatToBv32(n: nat): bv32
    requires n < Two32
    decreases n
  {
    if n == 0 then 0
    else if n % 2 == 1 then (NatToBv32(n / 2) << 1) | 1
    else NatToBv32(n / 2) << 1
  }

  /** The bit pattern reads back as the value it was built from. */
  lemma {:induction false} NatToBv32Value(n: nat)
    requires n < Two32
    ensures NatToBv32(n) as int == n
    decreases n
  {
    if n != 0 {
      var h := n / 2;
      NatToBv32Value(h);
      var x := NatToBv32(h);
      BelowHalf32(x);
      if n % 2 == 1 {
        assert n == 2 * h + 1 && NatToBv32(n) == (x << 1) | 1;
        OddStep32(x);
      } else {
        assert n == 2 * h && NatToBv32(n) == x << 1;
        EvenStep32(x);
      }
    }
  }

  lemma BelowHalf32(x: bv32)
    requires x as int < 0x8000_0000
    ensures x < 0x8000_0000
  {
  }

  lemma EvenStep32(x: bv32)
    requires x < 0x8000_0000
    ensures (x << 1) as int == 2 * (x as int)
  {
  }

  lemma OddStep32(x: bv32)
    requires x < 0x8000_0000
    ensures ((x << 1) | 1) as int == 2 * (x as int) + 1
  {
  }

  lemma Bv32BackAndForth(x: bv32)
    ensures (x as int) as bv32 == x
  {
  }

  /** Reading a pattern as a value and building the pattern again gives it back. */
  lemma NatToBv32OfValue(b: bv32)
    ensures NatToBv32(b as int) == b
  {
    NatToBv32Value(b as int);
    Bv32BackAndForth(b);
    Bv32BackAndForth(NatToBv32(b as int));
  }

  lemma Narrow16(b: bv32)
    requires b as int < 0x1_0000
    ensures ((b & 0xFFFF) as bv16) as int == b as int
  {
    BelowBv16(b);
  }

  lemma BelowBv16(b: bv32)
    requires b as int < 0x1_0000
    ensures b < 0x1_0000
  {
  }

  function U16Bytes(x: U16): (r: seq<byte>)
    ensures |r| == 2
  {
    Le16((NatToBv32(x) & 0xFFFF) as bv16)
  }

  function U32Bytes(x: U32): (r: seq<byte>)
    ensures |r| == 4
  {
    Le32(NatToBv32(x))
  }

  function ReadU16(s: seq<byte>, at: nat): U16
    requires at + 2 <= |s|
  {
    ReadLe16(s, at) as int
  }

  function ReadU32(s: seq<byte>, at: nat): U32
    requires at + 4 <= |s|
  {
    ReadLe32(s, at) as int
  }

  lemma U16RoundTrip(x: U16, pre: seq<byte>, post: seq<byte>)
    ensures ReadU16(pre + U16Bytes(x) + post, |pre|) == x
  {
    Le16RoundTrip((NatToBv32(x) & 0xFFFF) as bv16, pre, post);
    NatToBv32Value(x);
    Narrow16(NatToBv32(x));
  }

  lemma U32RoundTrip(x: U32, pre: seq<byte>, post: seq<byte>)
    ensures ReadU32(pre + U32Bytes(x) + post, |pre|) == x
  {
    Le32RoundTrip(NatToBv32(x), pre, post);
    NatToBv32Value(x);
  }

  /** Concatenation of fixed-size records, as successive `fwrite`s lay them out. */
  function Flatten(parts: seq<seq<byte>>): (r: seq<byte>)
  {
    if |parts| == 0 then [] else Flatten(parts[..|parts| - 1]) + parts[|parts| - 1]
  }

  lemma {:induction false} FlattenLength(parts: seq<seq<byte>>, size: nat)
    requires forall i :: 0 <= i < |parts| ==> |parts[i]| == size
    ensures |Flatten(parts)| == size * |parts|
  {
    if |parts| > 0 {
      FlattenLength(parts[..|parts| - 1], size);
    }
  }

  lemma {:induction false} FlattenAppend(parts: seq<seq<byte>>, more: seq<seq<byte>>)
    ensures Flatten(parts + more) == Flatten(parts) + Flatten(more)
    decreases |more|
  {
    if |more| > 0 {
      var last := more[|more| - 1];
      assert parts + more == (parts + more[..|more| - 1]) + [last];
      assert (parts + more)[..|parts + more| - 1] == parts + more[..|more| - 1];
      FlattenAppend(parts, more[..|more| - 1]);
    } else {
      assert parts + more == parts;
    }
  }

  /** The `k`-th fixed-size record sits at byte offset `size * k`. */
  lemma {:induction false} FlattenSlice(parts: seq<seq<byte>>, size: nat, k: nat)
    requires forall i :: 0 <= i < |parts| ==> |parts[i]| == size
    requires k < |parts|
    ensures size * k + size <= |Flatten(parts)|
    ensures Flatten(parts)[size * k .. size * k + size] == parts[k]
  {
    FlattenLength(parts, size);
    FlattenAppend(parts[..k], parts[k..]);
    assert parts == parts[..k] + parts[k..];
    FlattenLength(parts[..k], size);
    FlattenAppend([parts[k]], parts[k + 1..]);
    assert parts[k..] == [parts[k]] + parts[k + 1..];
    assert Flatten([parts[k]]) == Flatten([]) + parts[k];
  }
}

=== FILE: cdivision.dfy ===
/**
 C's integer division on `long` operands (section 6.5.5 of ISO C99): the
 quotient is truncated toward zero. Dafny's own `/` is Euclidean, so the C
 operator is defined here on magnitudes and characterised by its remainder.
 */
module CDivision {
  import opened Base

  function Abs(x: int): nat { if x < 0 then -x else x }

  /**
   `q` is a quotient of `a` by `b` as C defines it: the remainder `a - q * b`
   is smaller than `b` in magnitude and is zero or has the sign of `a`.
   */
  predicate IsCQuotient(a: int, b: int, q: int)
  {
    var rem := a - q * b;
    Abs(rem) < Abs(b) && (rem == 0 || (rem < 0) == (a < 0))
  }

  /** C's `a / b`: the quotient of the magnitudes, negated when the signs differ. */
  function TruncDiv(a: int, b: int): int
    requires b != 0
  {
    var q := (if a < 0 then -a else a) / (if b < 0 then -b else b);
    if (a < 0) == (b < 0) then q else -q
  }

  lemma Euclid(A: nat, B: nat)
    requires B > 0
    ensures A == (A / B) * B + A % B && 0 <= A % B < B
  {
  }

  lemma AtLeastOnce(q: nat, B: nat)
    requires B > 0
    ensures q <= q * B
  {
    assert q * B == q * (B - 1) + q;
  }

  /** With natural operands the remainder `A - (A / B) * B` lies in 0..B-1. */
  lemma NaturalDivision(A: nat, B: nat)
    requires B > 0
    ensures 0 <= A - (A / B) * B < B && A / B <= A
  {
    Euclid(A, B);
    AtLeastOnce(A / B, B);
  }

  /** The four sign cases of TruncDiv, each reduced to the natural division of the magnitudes. */
  lemma RemainderOfMagnitudes(a: int, b: int, q0: int, r0: int)
    requires b != 0 && Abs(a) == q0 * Abs(b) + r0
    ensures (a < 0) == (b < 0) ==> a - q0 * b == (if a < 0 then -r0 else r0)
    ensures (a < 0) != (b < 0) ==> a - (-q0) * b == (if a < 0 then -r0 else r0)
  {
    if a < 0 && b < 0 {
      assert q0 * b == -(q0 * -b);
    } else if a < 0 {
      assert (-q0) * b == -(q0 * b);
    } else if b < 0 {
      assert (-q0) * b == q0 * -b;
    }
  }

  /**
   TruncDiv is C's division: the remainder it leaves is smaller than the
   divisor in magnitude and is zero or has the dividend's sign.
   */
  lemma TruncDivIsCDivision(a: int, b: int)
    requires b != 0
    ensures IsCQuotient(a, b, TruncDiv(a, b))
  {
    var A, B := Abs(a), Abs(b);
    NaturalDivision(A, B);
    var q0: int := A / B;
    RemainderOfMagnitudes(a, b, q0, A - q0 * B);
  }

  /** The quotient's magnitude is that of the natural quotient of the magnitudes, so at most |a|. */
  lemma QuotientMagnitude(a: int, b: int)
    requires b != 0
    ensures Abs(TruncDiv(a, b)) == Abs(a) / Abs(b) <= Abs(a)
  {
    NaturalDivision(Abs(a), Abs(b));
  }

  /** The only quotient of two LONGs that does not fit a LONG is INT_MIN / -1. */
  lemma QuotientFits(a: int, b: int)
    requires IsLong(a) && IsLong(b) && b != 0
    requires !(a == -0x8000_0000 && b == -1)
    ensures IsLong(TruncDiv(a, b))
  {
    QuotientMagnitude(a, b);
    if a == -0x8000_0000 && b < -1 {
      DivisionShrinks(Abs(a), Abs(b));
    }
  }

  lemma DivisionShrinks(A: nat, B: nat)
    requires A > 0 && B >= 2
    ensures A / B < A
  {
    Euclid(A, B);
    AtLeastTwice(A / B, B);
  }

  lemma AtLeastTwice(q: nat, B: nat)
    requires B >= 2
    ensures 2 * q <= q * B
  {
    assert q * B == q * (B - 2) + 2 * q;
  }
}

=== FILE: containers.dfy ===
/**
 The two linked containers the translator builds on (utils/sstack.c and
 utils/squeue.c), as immutable sequences. A list node is identified by its
 position, so "the node after n" is position n + 1. Popping or reading the
 top of an empty container dereferences a NULL head in C; here it is a
 `NullDereference` fault.
 */
module SStack {
  import opened Base

  /** A last-in first-out stack; the top is the LAST element of the sequence. */
  type Stack<T> = seq<T>

  function Initialize<T>(): (s: Stack<T>)
    ensures Size(s) == 0
  {
    []
  }

  function Size<T>(s: Stack<T>): nat { |s| }

  function Push<T>(s: Stack<T>, x: T): (r: Stack<T>)
    ensures Size(r) == Size(s) + 1
    ensures r[..|s|] == s && r[|s|] == x
  {
    s + [x]
  }

  /** Popping right after a push undoes it and yields the pushed value. */
  lemma PushPop<T>(s: Stack<T>, x: T)
    ensures Top(Push(s, x)) == Ok(x)
    ensures Pop(Push(s, x)) == Ok((s, x))
  {
    assert (s + [x])[..|s|] == s;
  }

  /** Removes the top element; on an empty stack the C code reads through NULL. */
  function Pop<T>(s: Stack<T>): (r: Result<(Stack<T>, T), Fault>)
    ensures Size(s) == 0 <==> r.Err?
    ensures r.Ok? ==> r.value.0 + [r.value.1] == s
  {
    if |s| == 0 then Err(NullDereference("pop of an empty stack"))
    else Ok((s[..|s| - 1], s[|s| - 1]))
  }

  function Top<T>(s: Stack<T>): (r: Result<T, Fault>)
    ensures Size(s) == 0 <==> r.Err?
    ensures r.Ok? ==> r.value == s[|s| - 1]
  {
    if |s| == 0 then Err(NullDereference("top of an empty stack")) else Ok(s[|s| - 1])
  }

  /** Pushes `xs` in order, as a caller pushing one element after another does. */
  function PushAll<T>(s: Stack<T>, xs: seq<T>): Stack<T>
    decreases |xs|
  {
    if |xs| == 0 then s else PushAll(Push(s, xs[0]), xs[1..])
  }

  /** Pops `n` elements and returns them in the order they came off. */
  function PopN<T>(s: Stack<T>, n: nat): Result<(Stack<T>, seq<T>), Fault>
    decreases n
  {
    if n == 0 then Ok((s, []))
    else
      match Pop(s)
      case Err(e) => Err(e)
      case Ok((rest, x)) =>
        match PopN(rest, n - 1)
        case Err(e) => Err(e)
        case Ok((rest', xs)) => Ok((rest', [x] + xs))
  }

  function Reverse<T>(xs: seq<T>): seq<T>
    decreases |xs|
  {
    if |xs| == 0 then [] else Reverse(xs[1..]) + [xs[0]]
  }

  /** Last in, first out: popping what was pushed returns it in reverse order. */
  lemma {:induction false} PushAllPopN<T>(s: Stack<T>, xs: seq<T>)
    ensures PopN(PushAll(s, xs), |xs|) == Ok((s, Reverse(xs)))
    decreases |xs|
  {
    if |xs| > 0 {
      PushAllIsAppend(s, xs);
      PushAllIsAppend(s, xs[..|xs| - 1]);
      assert xs == xs[..|xs| - 1] + [xs[|xs| - 1]];
      assert s + xs == Push(s + xs[..|xs| - 1], xs[|xs| - 1]);
      PushAllPopN(s, xs[..|xs| - 1]);
      ReverseSnoc(xs[..|xs| - 1], xs[|xs| - 1]);
    }
  }

  lemma {:induction false} PushAllIsAppend<T>(s: Stack<T>, xs: seq<T>)
    ensures PushAll(s, xs) == s + xs
    decreases |xs|
  {
    if |xs| > 0 {
      PushAllIsAppend(Push(s, xs[0]), xs[1..]);
      assert s + [xs[0]] + xs[1..] == s + xs;
    }
  }

  lemma {:induction false} ReverseSnoc<T>(xs: seq<T>, x: T)
    ensures Reverse(xs + [x]) == [x] + Reverse(xs)
    decreases |xs|
  {
    if |xs| == 0 {
      assert xs + [x] == [x];
    } else {
      assert (xs + [x])[1..] == xs[1..] + [x];
      ReverseSnoc(xs[1..], x);
    }
  }
}

module SQueue {
  import opened Base

  /** A first-in first-out queue; the head is the FIRST element. */
  type Queue<T> = seq<T>

  function Initialize<T>(): (q: Queue<T>)
    ensures Size(q) == 0
  {
    []
  }

  function Size<T>(q: Queue<T>): nat { |q| }

  /** Appends at the tail; every element already queued keeps its position. */
  function Push<T>(q: Queue<T>, x: T): (r: Queue<T>)
    ensures Size(r) == Size(q) + 1
    ensures forall i :: 0 <= i < |q| ==> r[i] == q[i]
    ensures r[|q|] == x
  {
    q + [x]
  }

  /** Removes the head; on an empty queue the C code reads through NULL. */
  function Pop<T>(q: Queue<T>): (r: Result<(Queue<T>, T), Fault>)
    ensures Size(q) == 0 <==> r.Err?
    ensures r.Ok? ==> [r.value.1] + r.value.0 == q
  {
    if |q| == 0 then Err(NullDereference("pop of an empty queue")) else Ok((q[1..], q[0]))
  }

  function Top<T>(q: Queue<T>): (r: Result<T, Fault>)
    ensures Size(q) == 0 <==> r.Err?
    ensures r.Ok? ==> r.value == q[0]
  {
    if |q| == 0 then Err(NullDereference("top of an empty queue")) else Ok(q[0])
  }

  /** First in, first out: a push at the tail does not change which element is popped next. */
  lemma PushPopFifo<T>(q: Queue<T>, x: T)
    requires Size(q) > 0
    ensures Pop(Push(q, x)) == Ok((Push(q[1..], x), q[0]))
  {
    assert (q + [x])[1..] == q[1..] + [x];
  }

  /** The first node, or NULL for an empty queue. */
  function TopNode<T>(q: Queue<T>): (n: Option<nat>)
    ensures n.Some? <==> Size(q) > 0
    ensures n.Some? ==> n.value == 0
  {
    if |q| == 0 then None else Some(0)
  }

  function DataFromNode<T>(q: Queue<T>, n: nat): T
    requires n < |q|
  {
    q[n]
  }

  /** The node after `n`, or NULL after the tail. */
  function NextFromNode<T>(q: Queue<T>, n: nat): (r: Option<nat>)
    requires n < |q|
    ensures r.Some? <==> n + 1 < Size(q)
    ensures r.Some? ==> r.value == n + 1
  {
    if n + 1 < |q| then Some(n + 1) else None
  }

  /**
   The calls an iteration makes: the iterator receives every element together
   with its zero-based position, from head to tail. The method walks the nodes
   with TopNode/NextFromNode exactly as the C loop does and returns the
   arguments of each iterator call.
   */
  method Iterate<T>(q: Queue<T>) returns (calls: seq<(T, nat)>)
    ensures |calls| == |q|
    ensures forall i :: 0 <= i < |q| ==> calls[i] == (q[i], i)
  {
    calls := [];
    var node := TopNode(q);
    var length: nat := 0;
    while node.Some?
      invariant length <= |q|
      invariant node.Some? ==> node.value == length && length < |q|
      invariant node.None? ==> length == |q|
      invariant |calls| == length
      invariant forall i :: 0 <= i < length ==> calls[i] == (q[i], i)
      decreases |q| - length
    {
      calls := calls + [(DataFromNode(q, node.value), length)];
      node := NextFromNode(q, node.value);
      length := length + 1;
    }
  }
}

=== FILE: controlprops.dfy ===
/**
 Properties of the VM's control-flow and stack handlers: RCOPYD, jumps,
 CALLNORM followed by RETURN, PUSH and POP for each kind of operand (a plain
 register, an index register, RCT), and PUSH followed by POP.
 */
module ControlProperties {
  import opened Base
  import opened RegisterDef
  import opened InstrDef
  import opened VmState
  import opened Exec
  import Opc = OpcodeDef

  /** Only RIP differs between the two register sets. */
  predicate OnlyRipMoved(before: RegisterSet, after: RegisterSet)
  {
    forall i :: 0 <= i < RegisterSlots && i != RIP ==> after[i] == before[i]
  }

  /**
   RCOPYD stores the left register's slot plus the offset (the constant, or
   the slot the offset names) into the destination slot, changes no other
   slot except RIP, which moves on by one instruction unless it is the
   destination, and touches no memory.
   */
  lemma CopyEffect(l: Layout, t: Thread, a: Indirect)
    requires a.opcode as int == Opc.RCOPYD
    requires a.lt as int < RegisterSlots && a.dt as int < RegisterSlots
    requires a.offsetType == OffsetTypeRegister ==> 0 <= Signed(a.offset) < RegisterSlots
    ensures ExecDirectIndirect(l, t, a).Ok?
    ensures var t' := ExecDirectIndirect(l, t, a).value.t;
            && (a.dt as int != RIP ==>
                  t'.active[a.dt] == Add32(t.active[a.lt], CopyOffset(t.active, a)) && t'.active[RIP] == Add32(t.active[RIP], 8))
            && (forall i :: 0 <= i < RegisterSlots && i != RIP && i != a.dt as int ==> t'.active[i] == t.active[i])
            && t'.stack == t.stack && t'.data == t.data && t'.saved == t.saved
  {
    var regs := t.active[a.dt := Add32(t.active[a.lt], CopyOffset(t.active, a))];
    CopyResult(l, t, a);
  }

  /** The offset RCOPYD adds: the constant itself, or the slot it names. */
  function CopyOffset(regs: RegisterSet, a: Indirect): bv32
    requires a.offsetType == OffsetTypeRegister ==> 0 <= Signed(a.offset) < RegisterSlots
  {
    if a.offsetType == OffsetTypeConstant then a.offset else regs[Signed(a.offset)]
  }

  lemma CopyResult(l: Layout, t: Thread, a: Indirect)
    requires a.opcode as int == Opc.RCOPYD
    requires a.lt as int < RegisterSlots && a.dt as int < RegisterSlots
    requires a.offsetType == OffsetTypeRegister ==> 0 <= Signed(a.offset) < RegisterSlots
    ensures ExecDirectIndirect(l, t, a)
            == Ok(Continue(t.(active := Advance(t.active[a.dt := Add32(t.active[a.lt], CopyOffset(t.active, a))]))))
  {
    var offset := CopyOffset(t.active, a);
    assert (if a.offsetType == OffsetTypeConstant then Ok(a.offset) else Slot(t.active, Signed(a.offset))) == Ok(offset);
    assert SetSlot(t.active, a.dt as int, Add32(t.active[a.lt], offset)) == Ok(t.active[a.dt := Add32(t.active[a.lt], offset)]);
  }

  /** Any register other than RIP and RCT as a jump's target register fails an assertion. */
  lemma UnpatchedJumpFails(l: Layout, t: Thread, j: Jump)
    requires |t.stack| == l.stackSize
    requires j.register as int != RIP && j.register as int != RCT
    ensures ExecJump(l, t, j) == Err(AssertionFailed("jump through an unsupported register"))
  {
  }

  /** A jump through RIP is relative to the jump's own address; one through RCT is absolute. */
  lemma TargetValue(regs: RegisterSet, j: Jump)
    ensures j.register as int == RIP ==> JumpTarget(regs, j) == Ok(Add32(regs[RIP], j.offset))
    ensures j.register as int == RCT ==> JumpTarget(regs, j) == Ok(j.offset)
    ensures j.register as int != RIP && j.register as int != RCT ==> JumpTarget(regs, j).Err?
  {
  }

  /**
   A conditional jump moves RIP to the target when its zero register's slot
   is 0 and to the next instruction otherwise; nothing else changes.
   */
  lemma ConditionalJump(l: Layout, t: Thread, j: Jump)
    requires |t.stack| == l.stackSize
    requires j.jumpType == JumpConditional
    requires j.register as int == RIP || j.register as int == RCT
    requires !IsIndex(j.zero as Register) && j.zero as int < RegisterSlots
    ensures ExecJump(l, t, j).Ok?
    ensures var t' := ExecJump(l, t, j).value.t;
            var target := if j.register as int == RIP then Add32(t.active[RIP], j.offset) else j.offset;
            && (t.active[j.zero] == 0 ==> t'.active[RIP] == target)
            && (t.active[j.zero] != 0 ==> t'.active[RIP] == Add32(t.active[RIP], 8))
            && OnlyRipMoved(t.active, t'.active)
            && t'.stack == t.stack && t'.saved == t.saved
  {
    var target := if j.register as int == RIP then Add32(t.active[RIP], j.offset) else j.offset;
    TargetValue(t.active, j);
    ConditionalResult(l, t, j, target);
  }

  lemma ConditionalResult(l: Layout, t: Thread, j: Jump, target: bv32)
    requires |t.stack| == l.stackSize
    requires j.jumpType == JumpConditional && JumpTarget(t.active, j) == Ok(target)
    requires !IsIndex(j.zero as Register) && j.zero as int < RegisterSlots
    ensures ExecJump(l, t, j) == Ok(Continue(t.(active := if t.active[j.zero] == 0 then t.active[RIP := target] else Advance(t.active))))
  {
    assert Slot(t.active, j.zero as int) == Ok(t.active[j.zero]);
  }

  /**
   An unconditional JMP moves RIP to the target and nothing else; the kind
   of jump is taken from the JumpType bit, so a JMP opcode whose bit says
   conditional tests its zero register instead.
   */
  lemma UnconditionalJump(l: Layout, t: Thread, j: Jump)
    requires |t.stack| == l.stackSize
    requires j.jumpType == JumpUnconditional && j.opcode as int == Opc.JMP
    requires j.register as int == RIP || j.register as int == RCT
    ensures ExecJump(l, t, j).Ok?
    ensures var t' := ExecJump(l, t, j).value.t;
            && t'.active[RIP] == (if j.register as int == RIP then Add32(t.active[RIP], j.offset) else j.offset)
            && OnlyRipMoved(t.active, t'.active)
            && t'.stack == t.stack && t'.saved == t.saved
  {
    var target := if j.register as int == RIP then Add32(t.active[RIP], j.offset) else j.offset;
    TargetValue(t.active, j);
    assert ExecJump(l, t, j) == Ok(Continue(t.(active := t.active[RIP := target])));
  }

  /**
   CALLNORM lowers RSB by 4 and stores the return address RIP + 8 there,
   pushes the caller's set (with the lowered RSB) and starts the callee at
   the target with a zeroed set sharing the caller's RST and RSB. It fails
   exactly when the return-address slot lies outside the stack.
   */
  lemma CallEffect(l: Layout, t: Thread, target: bv32)
    requires |t.stack| == l.stackSize
    ensures Call(l, t, target).Ok? <==> InStack(l, StackOffset(l, Sub32(t.active[RSB], 4), 0))
    ensures Call(l, t, target).Ok? ==>
              var t' := Call(l, t, target).value.t;
              && t'.active[RIP] == target
              && t'.active[RST] == t.active[RST]
              && t'.active[RSB] == Sub32(t.active[RSB], 4)
              && (forall i :: 0 <= i < RegisterSlots && i != RIP && i != RST && i != RSB ==> t'.active[i] == 0)
              && t'.saved == t.saved + [t.active[RSB := Sub32(t.active[RSB], 4)]]
              && ReadStack(l, t'.stack, StackOffset(l, t'.active[RSB], 0)) == Ok(Add32(t.active[RIP], 8))
  {
  }

  /**
   A callee that hands back RSB and the return-address word as it found
   them returns, with RETURN's cleanup a multiple of 4, to the instruction
   after the call: the caller's set comes back with RIP + 8, the callee's RRV
   and RST, and RSB raised by the cleanup plus the 4 bytes of the return
   address above the callee's RSB (which CALLNORM set 4 below the caller's);
   the saved sets are as before the call and the stack is not touched.
   */
  lemma CallThenReturn(l: Layout, t: Thread, target: bv32, u: Thread, a: Return)
    requires |t.stack| == l.stackSize && |u.stack| == l.stackSize
    requires Call(l, t, target).Ok?
    requires var c := Call(l, t, target).value.t;
             && u.saved == c.saved && u.active[RSB] == c.active[RSB]
             && ReadStack(l, u.stack, StackOffset(l, u.active[RSB], 0)) == ReadStack(l, c.stack, StackOffset(l, c.active[RSB], 0))
    requires a.cleanup % 4 == 0
    ensures ExecReturn(l, u, a).Ok? && ExecReturn(l, u, a).value.Continue?
    ensures var t' := ExecReturn(l, u, a).value.t;
            && t'.active == t.active[RIP := Add32(t.active[RIP], 8)][RRV := u.active[RRV]][RST := u.active[RST]]
                                    [RSB := Add32(u.active[RSB], Add32(a.cleanup, 4))]
            && t'.saved == t.saved && t'.stack == u.stack
  {
    CallEffect(l, t, target);
    assert u.saved[|u.saved| - 1] == t.active[RSB := Sub32(t.active[RSB], 4)];
    assert u.saved[..|u.saved| - 1] == t.saved;
    CleanupAligned(a.cleanup);
  }

  /** Adding the return address's 4 bytes keeps a cleanup that is a multiple of 4 aligned. */
  lemma CleanupAligned(cleanup: bv32)
    requires cleanup % 4 == 0
    ensures Add32(cleanup, 4) % 4 == 0
  {
  }

  /** Lowering then raising RSB by 4 restores it; two instructions advance RIP by 16. */
  lemma PushPopArithmetic(rsb: bv32, rip: bv32)
    ensures Add32(Sub32(rsb, 4), 4) == rsb
    ensures Add32(Add32(rip, 8), 8) == Add32(rip, 16)
  {
  }

  /** A register operand of PUSH or POP: a slot of the set that is neither an index register nor RCT. */
  predicate PlainRegister(x: bv5)
  {
    !IsIndex(x as Register) && x as int != RCT && x as int < RegisterSlots
  }

  /**
   PUSH of a register slot lowers RSB by 4 and stores the slot's value in
   the word RSB then points at; RIP moves on by one instruction and no other
   slot, the saved sets or global data change. It fails exactly when that
   word lies outside the stack.
   */
  lemma PushEffect(l: Layout, t: Thread, x: bv5, offset: bv32)
    requires |t.stack| == l.stackSize
    requires PlainRegister(x)
    ensures ExecStack(l, t, Stack(Opc.PUSH as bv6, x, offset)).Ok?
            <==> InStack(l, StackOffset(l, Sub32(t.active[RSB], 4), 0))
    ensures ExecStack(l, t, Stack(Opc.PUSH as bv6, x, offset)).Ok? ==>
              var t' := ExecStack(l, t, Stack(Opc.PUSH as bv6, x, offset)).value.t;
              && t'.active[RSB] == Sub32(t.active[RSB], 4)
              && t'.active[RIP] == Add32(t.active[RIP], 8)
              && (forall i :: 0 <= i < RegisterSlots && i != RIP && i != RSB ==> t'.active[i] == t.active[i])
              && ReadStack(l, t'.stack, StackOffset(l, t'.active[RSB], 0)) == Ok(t.active[x])
              && t'.saved == t.saved && t'.data == t.data
  {
    var s := Stack(Opc.PUSH as bv6, x, offset);
    assert StackOperand(l, t, s) == Ok((t.active[x], SlotOf(x as int)));
  }

  /**
   POP into a register slot other than RSB and RIP copies the word RSB
   points at into the slot and raises RSB by 4; RIP moves on by one
   instruction and no other slot, the saved sets or global data change.
   */
  lemma PopEffect(l: Layout, t: Thread, y: bv5, offset: bv32)
    requires |t.stack| == l.stackSize
    requires PlainRegister(y) && y as int != RSB && y as int != RIP
    requires InStack(l, StackOffset(l, t.active[RSB], 0))
    ensures ExecStack(l, t, Stack(Opc.POP as bv6, y, offset)).Ok?
    ensures var t' := ExecStack(l, t, Stack(Opc.POP as bv6, y, offset)).value.t;
            && Ok(t'.active[y]) == ReadStack(l, t.stack, StackOffset(l, t.active[RSB], 0))
            && t'.active[RSB] == Add32(t.active[RSB], 4)
            && t'.active[RIP] == Add32(t.active[RIP], 8)
            && (forall i :: 0 <= i < RegisterSlots && i != RIP && i != RSB && i != y as int ==> t'.active[i] == t.active[i])
            && t'.saved == t.saved && t'.data == t.data
  {
    PopResult(l, t, y, offset);
  }

  lemma PopResult(l: Layout, t: Thread, y: bv5, offset: bv32)
    requires |t.stack| == l.stackSize
    requires PlainRegister(y) && y as int != RSB && y as int != RIP
    requires InStack(l, StackOffset(l, t.active[RSB], 0))
    ensures var top := ReadLe32(t.stack, StackIndex(l, StackOffset(l, t.active[RSB], 0)));
            ExecStack(l, t, Stack(Opc.POP as bv6, y, offset))
            == Ok(Continue(t.(active := Advance(t.active[y := top][RSB := Add32(t.active[RSB], 4)]))))
  {
    var s := Stack(Opc.POP as bv6, y, offset);
    assert StackOperand(l, t, s) == Ok((t.active[y], SlotOf(y as int)));
    var top := ReadStack(l, t.stack, StackOffset(l, t.active[RSB], 0)).value;
    assert SetSlot(t.active, y as int, top) == Ok(t.active[y := top]);
  }

  /**
   The global-data word an RGD operand names must lie inside the global data,
   since the handler reads it before it reads the operand's stack word.
   */
  predicate GlobalWordReadable(t: Thread, x: bv5, offset: bv32)
  {
    x as int == RGD ==> InData(t.data, Signed(offset))
  }

  /**
   PUSH of an index-register operand (RGD, RST, RSB or IX0-3) pushes the
   stack word at the register's value less the stack bias plus the offset:
   RSB is lowered by 4 and that word is stored where RSB then points, RIP
   moves on by one instruction, and no other slot, stack byte, the saved
   sets or global data change. It fails exactly when the operand's word,
   the new top of stack or, for RGD, the global word lies outside its memory.
   */
  lemma PushIndexedEffect(l: Layout, t: Thread, x: bv5, offset: bv32)
    requires |t.stack| == l.stackSize
    requires IsIndex(x as Register)
    ensures var o := StackOffset(l, t.active[x], offset);
            var top := StackOffset(l, Sub32(t.active[RSB], 4), 0);
            var r := ExecStack(l, t, Stack(Opc.PUSH as bv6, x, offset));
            && (r.Ok? <==> GlobalWordReadable(t, x, offset) && InStack(l, o) && InStack(l, top))
            && (r.Ok? ==>
                  var t' := r.value.t;
                  && t'.active == Advance(t.active[RSB := Sub32(t.active[RSB], 4)])
                  && ReadStack(l, t'.stack, top) == ReadStack(l, t.stack, o)
                  && (forall i :: 0 <= i < |t.stack| && !(StackIndex(l, top) <= i < StackIndex(l, top) + WordBytes) ==> t'.stack[i] == t.stack[i])
                  && t'.saved == t.saved && t'.data == t.data && t'.input == t.input && t'.output == t.output)
  {
    var s := Stack(Opc.PUSH as bv6, x, offset);
    IndexOperand(l, t, s);
    if StackOperand(l, t, s).Ok? {
      PushOperand(l, t, s);
    }
  }

  /** An index-register operand names the stack word at the register's value less the bias plus the offset. */
  lemma IndexOperand(l: Layout, t: Thread, s: Stack)
    requires |t.stack| == l.stackSize
    requires IsIndex(s.register as Register)
    ensures var o := StackOffset(l, t.active[s.register], s.offset);
            && (StackOperand(l, t, s).Ok? <==> GlobalWordReadable(t, s.register, s.offset) && InStack(l, o))
            && (StackOperand(l, t, s).Ok? ==> StackOperand(l, t, s).value == (ReadLe32(t.stack, StackIndex(l, o)), StackAt(o)))
  {
  }

  /** PUSH of an operand that could be read: the word is stored below RSB. */
  lemma PushOperand(l: Layout, t: Thread, s: Stack)
    requires |t.stack| == l.stackSize
    requires s.opcode as int == Opc.PUSH && StackOperand(l, t, s).Ok?
    ensures var rsb := Sub32(t.active[RSB], 4);
            var w := WriteStack(l, t.stack, StackOffset(l, rsb, 0), StackOperand(l, t, s).value.0);
            && (ExecStack(l, t, s).Ok? <==> w.Ok?)
            && (w.Ok? ==> ExecStack(l, t, s) == Ok(Continue(t.(active := Advance(t.active[RSB := rsb]), stack := w.value))))
  {
  }

  /** PUSH of RCT pushes the instruction's offset itself; otherwise as PUSH of a register. */
  lemma PushConstantEffect(l: Layout, t: Thread, offset: bv32)
    requires |t.stack| == l.stackSize
    ensures var top := StackOffset(l, Sub32(t.active[RSB], 4), 0);
            var r := ExecStack(l, t, Stack(Opc.PUSH as bv6, RCT as bv5, offset));
            && (r.Ok? <==> InStack(l, top))
            && (r.Ok? ==>
                  var t' := r.value.t;
                  && t'.active == Advance(t.active[RSB := Sub32(t.active[RSB], 4)])
                  && ReadStack(l, t'.stack, top) == Ok(offset)
                  && (forall i :: 0 <= i < |t.stack| && !(StackIndex(l, top) <= i < StackIndex(l, top) + WordBytes) ==> t'.stack[i] == t.stack[i])
                  && t'.saved == t.saved && t'.data == t.data && t'.input == t.input && t'.output == t.output)
  {
    var s := Stack(Opc.PUSH as bv6, RCT as bv5, offset);
    assert StackOperand(l, t, s) == Ok((offset, Nowhere));
    PushOperand(l, t, s);
  }

  /**
   POP into an index-register operand copies the word at RSB into the stack
   word the operand names (the register's value less the stack bias plus the
   offset) and leaves every other stack byte alone; RSB is raised by 4, RIP
   moves on by one instruction and no other slot, the saved sets or global
   data change. It fails exactly when the operand's word, the word at RSB
   or, for RGD, the global word lies outside its memory.
   */
  lemma PopIndexedEffect(l: Layout, t: Thread, y: bv5, offset: bv32)
    requires |t.stack| == l.stackSize
    requires IsIndex(y as Register)
    ensures var o := StackOffset(l, t.active[y], offset);
            var top := StackOffset(l, t.active[RSB], 0);
            var r := ExecStack(l, t, Stack(Opc.POP as bv6, y, offset));
            && (r.Ok? <==> GlobalWordReadable(t, y, offset) && InStack(l, o) && InStack(l, top))
            && (r.Ok? ==>
                  var t' := r.value.t;
                  && ReadStack(l, t'.stack, o) == ReadStack(l, t.stack, top)
                  && (forall i :: 0 <= i < |t.stack| && !(StackIndex(l, o) <= i < StackIndex(l, o) + WordBytes) ==> t'.stack[i] == t.stack[i])
                  && t'.active == Advance(t.active[RSB := Add32(t.active[RSB], 4)])
                  && t'.saved == t.saved && t'.data == t.data && t'.input == t.input && t'.output == t.output)
  {
    var o := StackOffset(l, t.active[y], offset);
    var top := StackOffset(l, t.active[RSB], 0);
    if GlobalWordReadable(t, y, offset) && InStack(l, o) && InStack(l, top) {
      PopIndexedResult(l, t, y, offset);
    } else {
      PopIndexedFails(l, t, y, offset);
    }
  }

  lemma PopIndexedResult(l: Layout, t: Thread, y: bv5, offset: bv32)
    requires |t.stack| == l.stackSize
    requires IsIndex(y as Register)
    requires GlobalWordReadable(t, y, offset)
    requires InStack(l, StackOffset(l, t.active[y], offset)) && InStack(l, StackOffset(l, t.active[RSB], 0))
    ensures var o := StackOffset(l, t.active[y], offset);
            var v := ReadLe32(t.stack, StackIndex(l, StackOffset(l, t.active[RSB], 0)));
            var w := WriteStack(l, t.stack, o, v);
            && w.Ok?
            && ExecStack(l, t, Stack(Opc.POP as bv6, y, offset))
               == Ok(Continue(t.(stack := w.value, active := Advance(t.active[RSB := Add32(t.active[RSB], 4)]))))
  {
    var s := Stack(Opc.POP as bv6, y, offset);
    IndexOperand(l, t, s);
    PopOperand(l, t, s);
  }

  /** POP of an operand that could be read: the word at RSB goes to the operand's place. */
  lemma PopOperand(l: Layout, t: Thread, s: Stack)
    requires |t.stack| == l.stackSize
    requires s.opcode as int == Opc.POP && StackOperand(l, t, s).Ok?
    requires InStack(l, StackOffset(l, t.active[RSB], 0))
    ensures var top := ReadLe32(t.stack, StackIndex(l, StackOffset(l, t.active[RSB], 0)));
            var p := PutPopped(l, t, StackOperand(l, t, s).value.1, top);
            && (ExecStack(l, t, s).Ok? <==> p.Ok?)
            && (p.Ok? ==> ExecStack(l, t, s) == Ok(Continue(p.value.(active := Advance(p.value.active[RSB := Add32(p.value.active[RSB], 4)])))))
  {
  }

  lemma PopIndexedFails(l: Layout, t: Thread, y: bv5, offset: bv32)
    requires |t.stack| == l.stackSize
    requires IsIndex(y as Register)
    requires !(GlobalWordReadable(t, y, offset) && InStack(l, StackOffset(l, t.active[y], offset)) && InStack(l, StackOffset(l, t.active[RSB], 0)))
    ensures ExecStack(l, t, Stack(Opc.POP as bv6, y, offset)).Err?
  {
    IndexOperand(l, t, Stack(Opc.POP as bv6, y, offset));
  }

  /** POP into RCT is an assertion failure. */
  lemma PopConstantFails(l: Layout, t: Thread, offset: bv32)
    requires |t.stack| == l.stackSize
    ensures ExecStack(l, t, Stack(Opc.POP as bv6, RCT as bv5, offset)) == Err(AssertionFailed("POP into RCT"))
  {
  }

  /** PUSH or POP of a register number past the register set (RT7 or a pseudo-register) fails. */
  lemma StackOutsideSetFails(l: Layout, t: Thread, s: Stack)
    requires |t.stack| == l.stackSize
    requires !IsIndex(s.register as Register) && s.register as int != RCT && s.register as int >= RegisterSlots
    ensures ExecStack(l, t, s).Err?
  {
  }

  /**
   PUSH of a register slot followed by POP into another register slot
   copies the value: the destination holds the source's value, RSB is back
   where it was, RIP has moved on by two instructions, and no other slot
   changed. Neither operand may be an index register or RCT, and the
   destination may not be RSB or RIP.
   */
  lemma PushThenPop(l: Layout, t: Thread, x: bv5, y: bv5, xOffset: bv32, yOffset: bv32)
    requires |t.stack| == l.stackSize
    requires PlainRegister(x) && PlainRegister(y)
    requires y as int != RSB && y as int != RIP
    requires InStack(l, StackOffset(l, Sub32(t.active[RSB], 4), 0))
    ensures ExecStack(l, t, Stack(Opc.PUSH as bv6, x, xOffset)).Ok?
    ensures var t1 := ExecStack(l, t, Stack(Opc.PUSH as bv6, x, xOffset)).value.t;
            && ExecStack(l, t1, Stack(Opc.POP as bv6, y, yOffset)).Ok?
            && var t2 := ExecStack(l, t1, Stack(Opc.POP as bv6, y, yOffset)).value.t;
               && t2.active[y] == t.active[x]
               && t2.active[RSB] == t.active[RSB]
               && t2.active[RIP] == Add32(t.active[RIP], 16)
               && (forall i :: 0 <= i < RegisterSlots && i != RIP && i != y as int ==> t2.active[i] == t.active[i])
               && t2.saved == t.saved && t2.data == t.data
  {
    PushEffect(l, t, x, xOffset);
    var t1 := ExecStack(l, t, Stack(Opc.PUSH as bv6, x, xOffset)).value.t;
    PopEffect(l, t1, y, yOffset);
    PushPopArithmetic(t.active[RSB], t.active[RIP]);
  }
}

=== FILE: errors.dfy ===
/**
 The diagnostics the translator reports through `yyerror`
 (translator/errors.h). The model appends them to an error log.
 */
module Errors {
  const InvalidInstruction: string := "Invalid instruction."
  const NoRegisters: string := "Out of registers. This is uh.. bad, like, really bad."
  const LvalueConstant: string := "lvalue is a constant."
  const ParamMismatch: string := "Parameter mismatch."
  const ExcessParam: string := "Parameter count for function has been exceeded."
}

=== FILE: exec.dfy ===
/**
 The VM's instruction handlers, dispatch and execution loop (vm/exec.c).
 Each handler takes the decoded view of the instruction and the thread and
 returns the thread after the instruction, `Stop` when the handler returns
 FALSE (a RETURN with no caller), or the fault that ends the run.

 Arithmetic is on 32-bit patterns: sums, differences and products wrap
 around (signed overflow is taken to wrap, as the x86 instructions the C
 compiles to do), division truncates toward zero and traps on a zero divisor
 and on the one overflowing quotient. The F opcodes execute as the integer
 ones; there is no floating point.
 */
module Exec {
  import opened Base
  import opened RegisterDef
  import opened InstrDef
  import opened SignExt
  import opened VmState
  import Opc = OpcodeDef
  import IntFields
  import CDivision
  import L = Loader

  datatype Outcome =
    | Continue(t: Thread)
    /** The handler returned FALSE: the thread's loop ends normally. */
    | Stop(t: Thread)

  /** The register set with RIP past the current instruction. */
  function Advance(regs: RegisterSet): (r: RegisterSet)
    ensures r[RIP] == Add32(regs[RIP], 8)
    ensures forall i :: 0 <= i < RegisterSlots && i != RIP ==> r[i] == regs[i]
  {
    regs[RIP := Add32(regs[RIP], 8)]
  }

  function Bit(b: bool): bv32 { if b then 1 else 0 }

  /** `L / R` on `LONG`s; a zero divisor and INT_MIN / -1 trap. */
  function Quotient(l: bv32, r: bv32): Result<bv32, Fault>
  {
    if r == 0 then Err(Undefined("division by zero"))
    else if l == 0x8000_0000 && r == 0xFFFF_FFFF then Err(Undefined("quotient does not fit a LONG"))
    else Ok(IntFields.Trunc32(CDivision.TruncDiv(Signed(l), Signed(r))))
  }

  /** The arithmetic handler's switch: the value `L op R` it computes. */
  function Compute(op: int, l: bv32, r: bv32): Result<bv32, Fault>
  {
    if op == Opc.ADDI || op == Opc.ADDF then Ok(l + r)
    else if op == Opc.SUBI || op == Opc.SUBF then Ok(l - r)
    else if op == Opc.MULI || op == Opc.MULF then Ok(l * r)
    else if op == Opc.DIVI || op == Opc.DIVF then Quotient(l, r)
    else if op == Opc.XOR then Ok(l ^ r)
    else if op == Opc.OR then Ok(l | r)
    else if op == Opc.AND then Ok(l & r)
    else if op == Opc.NOT then Err(AssertionFailed("NOT is not implemented"))
    else if op == Opc.LOR then Ok(Bit(l != 0 || r != 0))
    else if op == Opc.LAND then Ok(Bit(l != 0 && r != 0))
    else if op == Opc.EQ then Ok(Bit(l == r))
    else if op == Opc.NEQ then Ok(Bit(l != r))
    else if op == Opc.LT then Ok(Bit(Signed(l) < Signed(r)))
    else if op == Opc.GT then Ok(Bit(Signed(l) > Signed(r)))
    else if op == Opc.LTE then Ok(Bit(Signed(l) <= Signed(r)))
    else if op == Opc.GTE then Ok(Bit(Signed(l) >= Signed(r)))
    else Err(Fatal("invalid instruction"))
  }

  /**
   Where the arithmetic and store handlers put their result `d`. RGD is
   compared on its own and then, because the second comparison is not an `else if`,
   also as an index register: an RGD destination writes global data at the
   RIGHT operand's offset and then the stack slot RGD's register value
   points at. Other index registers write their stack slot; anything else
   is a register slot.
   */
  function PutResult(l: Layout, t: Thread, rd: Register, rightOffset: bv32, destOffset: bv32, d: bv32)
    : (r: Result<Thread, Fault>)
    requires |t.stack| == l.stackSize
    ensures r.Ok? ==> |r.value.stack| == l.stackSize
    ensures r.Ok? ==> r.value.saved == t.saved && r.value.output == t.output && r.value.input == t.input
  {
    var data :- if rd == RGD then WriteData(t.data, Signed(rightOffset), d) else Ok(t.data);
    if IsIndex(rd) then
      var stack :- WriteStack(l, t.stack, StackOffset(l, t.active[rd], destOffset), d);
      Ok(t.(data := data, stack := stack))
    else
      var regs :- SetSlot(t.active, rd, d);
      Ok(t.(data := data, active := regs))
  }

  /** `ExecArithmeticInstruction`. */
  function ExecArithmetic(l: Layout, t: Thread, a: Arith): (r: Result<Outcome, Fault>)
    requires |t.stack| == l.stackSize
    ensures r.Ok? ==> r.value.Continue? && |r.value.t.stack| == l.stackSize
  {
    var left :- RegisterValue(l, t, a.lt as Register, Sext14(a.ltOffset));
    var right :- RegisterValue(l, t, a.rt as Register, Sext14(a.rtOffset));
    var d :- Compute(a.opcode as int, left, right);
    var t' :- PutResult(l, t, a.dt as Register, Sext14(a.rtOffset), Sext14(a.dtOffset), d);
    Ok(Continue(t'.(active := Advance(t'.active))))
  }

  /**
   `ExecDirectIndirectInstruction`: only RCOPYD is implemented. The
   destination slot receives the SLOT of the left register (no memory is
   read) plus either the constant offset or the slot the offset names.
   */
  function ExecDirectIndirect(l: Layout, t: Thread, a: Indirect): (r: Result<Outcome, Fault>)
    ensures r.Ok? ==> r.value.Continue?
  {
    if a.opcode as int != Opc.RCOPYD then Err(Fatal("only RCOPYD is implemented"))
    else
      var left :- Slot(t.active, a.lt as int);
      var offset :- if a.offsetType == OffsetTypeConstant then Ok(a.offset) else Slot(t.active, Signed(a.offset));
      var regs :- SetSlot(t.active, a.dt as int, Add32(left, offset));
      Ok(Continue(t.(active := Advance(regs))))
  }

  /** The low byte of `v`, sign-extended from bit 7. */
  function SignExtend8(v: bv32): bv32
  {
    var d := v & 0xFF;
    if d & 0x80 != 0 then d | 0xFFFF_FF00 else d
  }

  /** The low 16 bits of `v`, sign-extended from bit 15. */
  function SignExtend16(v: bv32): bv32
  {
    var d := v & 0xFFFF;
    if d & 0x8000 != 0 then d | 0xFFFF_0000 else d
  }

  /**
   The value a store writes: the source masked to the store's width and,
   when the width's top bit is set, sign-extended. Signed and unsigned
   stores of one width are treated alike.
   */
  function StoreValue(op: int, v: bv32): bv32
  {
    if op == Opc.STRI8 || op == Opc.STRU8 then SignExtend8(v)
    else if op == Opc.STRI16 || op == Opc.STRU16 then SignExtend16(v)
    else v
  }

  /** `ExecStoreInstruction`. */
  function ExecStore(l: Layout, t: Thread, a: Store): (r: Result<Outcome, Fault>)
    requires |t.stack| == l.stackSize
    ensures r.Ok? ==> r.value.Continue? && |r.value.t.stack| == l.stackSize
  {
    var v :- RegisterValue(l, t, a.rt as Register, Sext23(a.rtOffset));
    var t' :- PutResult(l, t, a.dt as Register, Sext23(a.rtOffset), Sext23(a.dtOffset), StoreValue(a.opcode as int, v));
    Ok(Continue(t'.(active := Advance(t'.active))))
  }

  /** The jump target: RIP plus the offset, or the offset itself for RCT. */
  function JumpTarget(regs: RegisterSet, j: Jump): (r: Result<bv32, Fault>)
    ensures r.Ok? <==> j.register as int == RIP || j.register as int == RCT
  {
    if j.register as int == RIP then Ok(Add32(regs[RIP], j.offset))
    else if j.register as int == RCT then Ok(j.offset)
    else Err(AssertionFailed("jump through an unsupported register"))
  }

  /**
   CALLNORM: pushes the return address RIP + 8 below RSB, saves the whole
   active set (with the lowered RSB) and activates a zeroed set that starts
   at the target and shares the caller's RST and RSB.
   */
  function Call(l: Layout, t: Thread, target: bv32): (r: Result<Outcome, Fault>)
    requires |t.stack| == l.stackSize
    ensures r.Ok? ==> r.value.Continue? && |r.value.t.stack| == l.stackSize
  {
    var rsb := Sub32(t.active[RSB], 4);
    var caller := t.active[RSB := rsb];
    var stack :- WriteStack(l, t.stack, StackOffset(l, rsb, 0), Add32(t.active[RIP], 8));
    var callee := ZeroSet()[RIP := target][RST := caller[RST]][RSB := rsb];
    Ok(Continue(t.(active := callee, saved := t.saved + [caller], stack := stack)))
  }

  /**
   `ExecJumpInstruction`. The jump kind comes from the view's JumpType bit,
   not from the opcode: a conditional jump branches when its zero register's
   slot is 0 and otherwise falls through; an unconditional JMP jumps,
   CALLNORM calls, the parallel calls are unimplemented, and any other
   opcode falls through.
   */
  function ExecJump(l: Layout, t: Thread, j: Jump): (r: Result<Outcome, Fault>)
    requires |t.stack| == l.stackSize
    ensures r.Ok? ==> r.value.Continue? && |r.value.t.stack| == l.stackSize
  {
    var target :- JumpTarget(t.active, j);
    if j.jumpType == JumpConditional then
      if IsIndex(j.zero as Register) then Err(AssertionFailed("conditional jump tests an index register"))
      else
        var z :- Slot(t.active, j.zero as int);
        if z == 0 then Ok(Continue(t.(active := t.active[RIP := target])))
        else Ok(Continue(t.(active := Advance(t.active))))
    else if j.opcode as int == Opc.JMP then Ok(Continue(t.(active := t.active[RIP := target])))
    else if j.opcode as int == Opc.CALLNORM then Call(l, t, target)
    else if j.opcode as int == Opc.CALLPLLS || j.opcode as int == Opc.CALLPLLA then
      Err(AssertionFailed("parallel calls are not supported"))
    else Ok(Continue(t.(active := Advance(t.active))))
  }

  /**
   `ExecReturnInstruction`. With no saved set the thread is done. Otherwise
   the return address is read at RSB, RSB moves up by the cleanup plus 4 (the
   return address), and the saved set becomes active again with the return
   address in RIP and the callee's RRV, RST and RSB.
   */
  function ExecReturn(l: Layout, t: Thread, a: Return): (r: Result<Outcome, Fault>)
    requires |t.stack| == l.stackSize
    ensures |t.saved| == 0 ==> r == Ok(Stop(t))
    ensures |t.saved| > 0 && r.Ok? ==> r.value.Continue? && |r.value.t.stack| == l.stackSize
  {
    if |t.saved| == 0 then Ok(Stop(t))
    else
      var cleanup := Add32(a.cleanup, 4);
      var top := t.saved[|t.saved| - 1];
      var address :- ReadStack(l, t.stack, StackOffset(l, t.active[RSB], 0));
      if cleanup % 4 != 0 then Err(AssertionFailed("stack cleanup is not a multiple of the alignment"))
      else
        var rsb := Add32(t.active[RSB], cleanup);
        var restored := top[RIP := address][RRV := t.active[RRV]][RST := t.active[RST]][RSB := rsb];
        Ok(Continue(t.(active := restored, saved := t.saved[..|t.saved| - 1])))
  }

  /** Where a POP puts the value it takes off the stack. */
  datatype Place = StackAt(at: int) | SlotOf(r: int) | Nowhere

  /**
   The operand of a PUSH or POP. RGD is compared on its own and then again as
   an index register: its global-data word at the offset is read (and must
   lie inside the global data) but then replaced by the stack word RGD's
   register value points at, which is also where a POP into RGD goes. RCT is
   only allowed for PUSH and stands for the offset.
   */
  function StackOperand(l: Layout, t: Thread, s: Stack): (r: Result<(bv32, Place), Fault>)
    requires |t.stack| == l.stackSize
  {
    var _ :- if s.register as int == RGD then ReadData(t.data, Signed(s.offset)) else Ok(0);
    if IsIndex(s.register as Register) then
      var o := StackOffset(l, t.active[s.register], s.offset);
      var v :- ReadStack(l, t.stack, o);
      Ok((v, StackAt(o)))
    else if s.register as int == RCT then
      if s.opcode as int != Opc.PUSH then Err(AssertionFailed("POP into RCT"))
      else Ok((s.offset, Nowhere))
    else
      var v :- Slot(t.active, s.register as int);
      Ok((v, SlotOf(s.register as int)))
  }

  /** Stores a popped value at `p`. */
  function PutPopped(l: Layout, t: Thread, p: Place, v: bv32): (r: Result<Thread, Fault>)
    requires |t.stack| == l.stackSize
    ensures r.Ok? ==> |r.value.stack| == l.stackSize && r.value.saved == t.saved
  {
    match p
    case StackAt(o) =>
      var stack :- WriteStack(l, t.stack, o, v);
      Ok(t.(stack := stack))
    case SlotOf(r) =>
      var regs :- SetSlot(t.active, r, v);
      Ok(t.(active := regs))
    case Nowhere => Ok(t)
  }

  /**
   `ExecStackInstruction`: PUSH lowers RSB by 4 and stores the operand at
   RSB; POP copies the word at RSB into the place the operand names and
   then raises RSB by 4.
   */
  function ExecStack(l: Layout, t: Thread, s: Stack): (r: Result<Outcome, Fault>)
    requires |t.stack| == l.stackSize
    ensures r.Ok? ==> r.value.Continue? && |r.value.t.stack| == l.stackSize
  {
    var (v, place) :- StackOperand(l, t, s);
    if s.opcode as int == Opc.PUSH then
      var rsb := Sub32(t.active[RSB], 4);
      var stack :- WriteStack(l, t.stack, StackOffset(l, rsb, 0), v);
      Ok(Continue(t.(active := Advance(t.active[RSB := rsb]), stack := stack)))
    else if s.opcode as int == Opc.POP then
      var top :- ReadStack(l, t.stack, StackOffset(l, t.active[RSB], 0));
      var t' :- PutPopped(l, t, place, top);
      Ok(Continue(t'.(active := Advance(t'.active[RSB := Add32(t'.active[RSB], 4)]))))
    else Ok(Continue(t.(active := Advance(t.active))))
  }

  /**
   PRINT's loop: `n` more values to print, the next at stack address `at`.
   Each iteration raises RSB by 4 and emits the word at `at`, then moves
   `at` down by 4; the first value printed is the deepest of the popped ones.
   */
  function PrintLoop(l: Layout, t: Thread, n: nat, at: bv32): (r: Result<Thread, Fault>)
    requires |t.stack| == l.stackSize
    ensures r.Ok? ==> |r.value.stack| == l.stackSize
    decreases n
  {
    if n == 0 then Ok(t)
    else
      var regs := t.active[RSB := Add32(t.active[RSB], 4)];
      var v :- ReadStack(l, t.stack, StackOffset(l, at, 0));
      PrintLoop(l, t.(active := regs, output := t.output + [v]), n - 1, Sub32(at, 4))
  }

  /**
   READ's loop: each iteration raises RSB by 4, takes the address stored at
   `at` and stores the next input value at that stack address. When the
   input is exhausted `scanf` assigns nothing and the slot keeps its value.
   */
  function ReadLoop(l: Layout, t: Thread, n: nat, at: bv32): (r: Result<Thread, Fault>)
    requires |t.stack| == l.stackSize
    ensures r.Ok? ==> |r.value.stack| == l.stackSize
    decreases n
  {
    if n == 0 then Ok(t)
    else
      var regs := t.active[RSB := Add32(t.active[RSB], 4)];
      var address :- ReadStack(l, t.stack, StackOffset(l, at, 0));
      var t' :- if |t.input| == 0 then Ok(t.(active := regs))
                else
                  var stack :- WriteStack(l, t.stack, StackOffset(l, address, 0), t.input[0]);
                  Ok(t.(active := regs, stack := stack, input := t.input[1..]));
      ReadLoop(l, t', n - 1, Sub32(at, 4))
  }

  /** The stack address of the deepest of `count` words starting at `rsb`. */
  function Deepest(rsb: bv32, count: bv32): bv32
  {
    rsb + count * 4 - 4
  }

  /** The loop the opcode selects; other I/O opcodes do nothing. */
  function IoLoop(l: Layout, t: Thread, op: int, n: nat, at: bv32): (r: Result<Thread, Fault>)
    requires |t.stack| == l.stackSize
    ensures r.Ok? ==> |r.value.stack| == l.stackSize
  {
    if op == Opc.PRINT then PrintLoop(l, t, n, at)
    else if op == Opc.READ then ReadLoop(l, t, n, at)
    else Ok(t)
  }

  /** `ExecIoInstruction`: PopCount values, starting PopCount - 1 words above RSB. */
  function ExecIo(l: Layout, t: Thread, a: Io): (r: Result<Outcome, Fault>)
    requires |t.stack| == l.stackSize
    ensures r.Ok? ==> r.value.Continue? && |r.value.t.stack| == l.stackSize
  {
    var n := a.popCount as int;
    var t' :- IoLoop(l, t, a.opcode as int, n, Deepest(t.active[RSB], a.popCount));
    Ok(Continue(t'.(active := Advance(t'.active))))
  }

  /** `ExecProcessInstruction`: the handler the opcode's group selects; any other opcode is fatal. */
  function Execute(l: Layout, t: Thread, w: Word): (r: Result<Outcome, Fault>)
    requires |t.stack| == l.stackSize
    ensures r.Ok? && r.value.Continue? ==> |r.value.t.stack| == l.stackSize
    ensures !Opc.IsExecutable(OpcodeOf(w) as int) ==> r == Err(Fatal("invalid instruction"))
  {
    var op := OpcodeOf(w) as int;
    if Opc.IsArithmetic(op) then ExecArithmetic(l, t, DecodeArith(w))
    else if Opc.IsDirectIndirect(op) then ExecDirectIndirect(l, t, DecodeIndirect(w))
    else if Opc.IsStore(op) then ExecStore(l, t, DecodeStore(w))
    else if Opc.IsJump(op) then ExecJump(l, t, DecodeJump(w))
    else if Opc.IsReturn(op) then ExecReturn(l, t, DecodeReturn(w))
    else if Opc.IsStack(op) then ExecStack(l, t, DecodeStack(w))
    else if Opc.IsIo(op) then ExecIo(l, t, DecodeIo(w))
    else Err(Fatal("invalid instruction"))
  }

  /**
   The fetch of `ExecThreadExecute`: the 8 bytes at RIP minus the code bias.
   Only the bytes the loader read hold instructions; a fetch beyond them
   reads outside the code buffer or memory `malloc` left unset.
   */
  function Fetch(l: Layout, code: seq<byte>, regs: RegisterSet): (r: Result<Word, Fault>)
    ensures r.Ok? <==> Sub32(regs[RIP], l.codeBias) as int + InstrSize <= |code|
  {
    var index := Sub32(regs[RIP], l.codeBias) as int;
    if index + InstrSize <= |code| then Ok(ReadLe64(code, index))
    else Err(Undefined("instruction fetch outside the loaded code"))
  }

  function Step(l: Layout, code: seq<byte>, t: Thread): (r: Result<Outcome, Fault>)
    requires |t.stack| == l.stackSize
    ensures r.Ok? && r.value.Continue? ==> |r.value.t.stack| == l.stackSize
  {
    var w :- Fetch(l, code, t.active);
    Execute(l, t, w)
  }

  /**
   `ExecThreadExecute`, for at most `fuel` instructions: `Stop` when a
   handler ends the loop, `Continue` with the thread reached when the fuel
   runs out first.
   */
  function Run(l: Layout, code: seq<byte>, t: Thread, fuel: nat): (r: Result<Outcome, Fault>)
    requires |t.stack| == l.stackSize
    ensures r.Ok? && r.value.Continue? ==> |r.value.t.stack| == l.stackSize
    decreases fuel
  {
    if fuel == 0 then Ok(Continue(t))
    else
      var o :- Step(l, code, t);
      match o
      case Stop(t') => Ok(Stop(t'))
      case Continue(t') => Run(l, code, t', fuel - 1)
  }

  /**
   The start of the first thread (`ExecPrimeProgram` and `ThreadExecFunc`):
   the code and stack biases are the header's CodeStart and StackTop, and a
   zeroed register set starts at CodeStart with RST and RSB at StackTop and
   no saved sets. The thread stack is StackSize bytes whose contents
   `malloc` leaves unspecified; they are the parameter `stack`. `input` is
   what READ will consume. The handlers move words of StackAlignment bytes;
   a header with any alignment other than 4 is outside this model.
   */
  function Boot(p: L.Program, stack: seq<byte>, input: seq<bv32>): (r: Result<(Layout, Thread), Fault>)
    requires |stack| == p.header.stackSize
    ensures r.Ok? <==> p.header.stackAlignment == WordBytes
    ensures r.Ok? ==> var (l, t) := r.value;
      && l.codeBias as int == p.header.codeStart && l.stackBias as int == p.header.stackTop
      && l.stackSize == |t.stack| == p.header.stackSize
      && t.active[RIP] == l.codeBias && t.active[RST] == t.active[RSB] == l.stackBias
      && (forall i :: 0 <= i < RegisterSlots && i != RIP && i != RST && i != RSB ==> t.active[i] == 0)
      && t.saved == [] && t.data == p.globalData && t.output == [] && t.input == input
  {
    if p.header.stackAlignment != WordBytes then Err(Undefined("stack alignment other than 4"))
    else
      NatToBv32Value(p.header.codeStart);
      NatToBv32Value(p.header.stackTop);
      var l := Layout(NatToBv32(p.header.codeStart), NatToBv32(p.header.stackTop), p.header.stackSize);
      var regs := ZeroSet()[RIP := l.codeBias][RST := l.stackBias][RSB := l.stackBias];
      Ok((l, Thread(regs, [], stack, p.globalData, [], input)))
  }
}

=== FILE: execprops.dfy ===
/**
 What the VM's arithmetic and store handlers do, stated against independent
 descriptions: C's truncating division, two's-complement wrap-around, the
 word a destination reads back after a write, the width adjustment of
 stores, and which handler the dispatch selects for an opcode.
 */
module ExecProperties {
  import opened Base
  import opened RegisterDef
  import opened InstrDef
  import opened SignExt
  import opened VmState
  import opened Exec
  import Opc = OpcodeDef
  import IntFields
  import opened CDivision

  /** A LONG stored into a 32-bit register reads back unchanged. */
  lemma SignedTrunc32(x: int)
    requires IsLong(x)
    ensures Signed(IntFields.Trunc32(x)) == x
  {
    var m := x % Two32;
    assert m == if x >= 0 then x else x + Two32;
    NatToBv32Value(m);
    assert IntFields.Trunc32(x) as int == m;
  }

  lemma SignedZero(b: bv32)
    ensures Signed(b) == 0 <==> b == 0
    ensures Signed(b) == -0x8000_0000 <==> b == 0x8000_0000
    ensures Signed(b) == -1 <==> b == 0xFFFF_FFFF
  {
    if b as int < 0x8000_0000 {
      assert Signed(b) == b as int;
      assert b != 0x8000_0000 && b != 0xFFFF_FFFF;
    } else {
      assert Signed(b) == b as int - Two32;
      assert b != 0;
    }
  }

  /**
   DIVI and DIVF divide as C does on LONGs: they trap exactly on a zero
   divisor and on INT_MIN / -1, and otherwise the quotient, read as a LONG,
   leaves a remainder smaller than the divisor with the dividend's sign.
   */
  lemma QuotientMeaning(l: bv32, r: bv32)
    ensures Quotient(l, r).Ok? <==> Signed(r) != 0 && !(Signed(l) == -0x8000_0000 && Signed(r) == -1)
    ensures Quotient(l, r).Ok? ==> IsCQuotient(Signed(l), Signed(r), Signed(Quotient(l, r).value))
  {
    SignedZero(l);
    SignedZero(r);
    if Quotient(l, r).Ok? {
      QuotientFits(Signed(l), Signed(r));
      SignedTrunc32(TruncDiv(Signed(l), Signed(r)));
      TruncDivIsCDivision(Signed(l), Signed(r));
    }
  }

  /**
   The arithmetic handler's switch: each F opcode computes what its I opcode
   does; the logical and comparison opcodes give 0 or 1, comparing as signed
   LONGs; NOT fails its assertion; DIVI is C's division; opcodes outside
   the group are fatal.
   */
  lemma ComputeMeaning(op: int, l: bv32, r: bv32)
    ensures Compute(Opc.ADDF, l, r) == Compute(Opc.ADDI, l, r)
    ensures Compute(Opc.SUBF, l, r) == Compute(Opc.SUBI, l, r)
    ensures Compute(Opc.MULF, l, r) == Compute(Opc.MULI, l, r)
    ensures Compute(Opc.DIVF, l, r) == Compute(Opc.DIVI, l, r)
    ensures Compute(Opc.NOT, l, r).Err?
    ensures Compute(Opc.DIVI, l, r).Ok? <==> Signed(r) != 0 && !(Signed(l) == -0x8000_0000 && Signed(r) == -1)
    ensures Compute(Opc.DIVI, l, r).Ok? ==> IsCQuotient(Signed(l), Signed(r), Signed(Compute(Opc.DIVI, l, r).value))
    ensures Opc.LOR <= op <= Opc.GTE && op != Opc.NOT ==>
              Compute(op, l, r).Ok? && (Compute(op, l, r).value == 0 || Compute(op, l, r).value == 1)
    ensures Compute(Opc.LT, l, r) == Ok(1) <==> Signed(l) < Signed(r)
    ensures Compute(Opc.GTE, l, r) == Ok(1) <==> Signed(l) >= Signed(r)
    ensures !(Opc.ADDI <= op <= Opc.DIVF || Opc.XOR <= op <= Opc.GTE) ==> Compute(op, l, r) == Err(Fatal("invalid instruction"))
  {
    FloatAsInteger(l, r);
    DivisionAsC(l, r);
    TruthValues(op, l, r);
    SignedComparisons(l, r);
    OutsideTheGroup(op, l, r);
  }

  lemma FloatAsInteger(l: bv32, r: bv32)
    ensures Compute(Opc.ADDF, l, r) == Compute(Opc.ADDI, l, r)
    ensures Compute(Opc.SUBF, l, r) == Compute(Opc.SUBI, l, r)
    ensures Compute(Opc.MULF, l, r) == Compute(Opc.MULI, l, r)
    ensures Compute(Opc.DIVF, l, r) == Compute(Opc.DIVI, l, r)
    ensures Compute(Opc.NOT, l, r).Err?
  {
    assert Compute(Opc.DIVF, l, r) == Quotient(l, r);
    assert Compute(Opc.DIVI, l, r) == Quotient(l, r);
  }

  lemma DivisionAsC(l: bv32, r: bv32)
    ensures Compute(Opc.DIVI, l, r).Ok? <==> Signed(r) != 0 && !(Signed(l) == -0x8000_0000 && Signed(r) == -1)
    ensures Compute(Opc.DIVI, l, r).Ok? ==> IsCQuotient(Signed(l), Signed(r), Signed(Compute(Opc.DIVI, l, r).value))
  {
    assert Compute(Opc.DIVI, l, r) == Quotient(l, r);
    QuotientMeaning(l, r);
  }

  lemma TruthValues(op: int, l: bv32, r: bv32)
    ensures Opc.LOR <= op <= Opc.GTE && op != Opc.NOT ==>
              Compute(op, l, r).Ok? && (Compute(op, l, r).value == 0 || Compute(op, l, r).value == 1)
  {
  }

  lemma SignedComparisons(l: bv32, r: bv32)
    ensures Compute(Opc.LT, l, r) == Ok(1) <==> Signed(l) < Signed(r)
    ensures Compute(Opc.GTE, l, r) == Ok(1) <==> Signed(l) >= Signed(r)
  {
  }

  lemma OutsideTheGroup(op: int, l: bv32, r: bv32)
    ensures !(Opc.ADDI <= op <= Opc.DIVF || Opc.XOR <= op <= Opc.GTE) ==> Compute(op, l, r) == Err(Fatal("invalid instruction"))
  {
  }

  // ------------------------------------------------------------ writes

  /**
   After a handler stores `d` for destination `rd`, the destination reads
   back `d`: an index register's stack slot, a register slot, and for RGD
   also the global-data word at the right operand's offset.
   */
  predicate ReadsBack(l: Layout, t: Thread, t': Thread, rd: Register, rightOffset: bv32, destOffset: bv32, d: bv32)
    requires |t'.stack| == l.stackSize
  {
    && (IsIndex(rd) ==> rd < RegisterSlots && ReadStack(l, t'.stack, StackOffset(l, t.active[rd], destOffset)) == Ok(d))
    && (rd == RGD ==> ReadData(t'.data, Signed(rightOffset)) == Ok(d))
    && (!IsIndex(rd) ==> Slot(t'.active, rd) == Ok(d))
  }

  lemma PutResultReadsBack(l: Layout, t: Thread, rd: Register, rightOffset: bv32, destOffset: bv32, d: bv32)
    requires |t.stack| == l.stackSize
    requires PutResult(l, t, rd, rightOffset, destOffset, d).Ok?
    ensures var t' := PutResult(l, t, rd, rightOffset, destOffset, d).value;
            && ReadsBack(l, t, t', rd, rightOffset, destOffset, d)
            && (IsIndex(rd) ==> t'.active == t.active)
            && (!IsIndex(rd) ==> forall i :: 0 <= i < RegisterSlots && i != rd ==> t'.active[i] == t.active[i])
            && (rd != RGD ==> t'.data == t.data)
            && (!IsIndex(rd) ==> t'.stack == t.stack)
  {
    if rd == RGD {
      PutGlobal(l, t, rightOffset, destOffset, d);
    } else if IsIndex(rd) {
      PutIndexed(l, t, rd, rightOffset, destOffset, d);
    } else {
      PutSlot(l, t, rd, rightOffset, destOffset, d);
    }
  }

  lemma PutGlobal(l: Layout, t: Thread, rightOffset: bv32, destOffset: bv32, d: bv32)
    requires |t.stack| == l.stackSize
    requires PutResult(l, t, RGD, rightOffset, destOffset, d).Ok?
    ensures var t' := PutResult(l, t, RGD, rightOffset, destOffset, d).value;
            && ReadsBack(l, t, t', RGD, rightOffset, destOffset, d)
            && t'.active == t.active
  {
    var data := WriteData(t.data, Signed(rightOffset), d).value;
    var stack := WriteStack(l, t.stack, StackOffset(l, t.active[RGD], destOffset), d).value;
    assert PutResult(l, t, RGD, rightOffset, destOffset, d).value == t.(data := data, stack := stack);
  }

  lemma PutIndexed(l: Layout, t: Thread, rd: Register, rightOffset: bv32, destOffset: bv32, d: bv32)
    requires |t.stack| == l.stackSize && IsIndex(rd) && rd != RGD
    requires PutResult(l, t, rd, rightOffset, destOffset, d).Ok?
    ensures var t' := PutResult(l, t, rd, rightOffset, destOffset, d).value;
            && ReadsBack(l, t, t', rd, rightOffset, destOffset, d)
            && t'.active == t.active && t'.data == t.data
  {
    var stack := WriteStack(l, t.stack, StackOffset(l, t.active[rd], destOffset), d).value;
    assert PutResult(l, t, rd, rightOffset, destOffset, d).value == t.(stack := stack);
  }

  lemma PutSlot(l: Layout, t: Thread, rd: Register, rightOffset: bv32, destOffset: bv32, d: bv32)
    requires |t.stack| == l.stackSize && !IsIndex(rd)
    requires PutResult(l, t, rd, rightOffset, destOffset, d).Ok?
    ensures var t' := PutResult(l, t, rd, rightOffset, destOffset, d).value;
            && ReadsBack(l, t, t', rd, rightOffset, destOffset, d)
            && (forall i :: 0 <= i < RegisterSlots && i != rd ==> t'.active[i] == t.active[i])
            && t'.data == t.data && t'.stack == t.stack
  {
    var regs := SetSlot(t.active, rd, d).value;
    assert PutResult(l, t, rd, rightOffset, destOffset, d).value == t.(active := regs);
  }

  /**
   The common tail of the arithmetic and store handlers: store `d` for the
   destination, then move RIP on. Unless RIP is the destination, the value
   reads back and RIP has advanced by one instruction.
   */
  lemma StoreAndAdvance(l: Layout, t: Thread, rd: Register, rightOffset: bv32, destOffset: bv32, d: bv32)
    requires |t.stack| == l.stackSize
    requires PutResult(l, t, rd, rightOffset, destOffset, d).Ok?
    ensures var u := PutResult(l, t, rd, rightOffset, destOffset, d).value;
            var t' := u.(active := Advance(u.active));
            && |t'.stack| == l.stackSize
            && (rd != RIP ==> ReadsBack(l, t, t', rd, rightOffset, destOffset, d) && t'.active[RIP] == Add32(t.active[RIP], 8))
            && t'.saved == t.saved && t'.output == t.output && t'.input == t.input
  {
    PutThenAdvanceRip(l, t, rd, rightOffset, destOffset, d);
    PutThenAdvanceReadsBack(l, t, rd, rightOffset, destOffset, d);
  }

  lemma PutThenAdvanceRip(l: Layout, t: Thread, rd: Register, rightOffset: bv32, destOffset: bv32, d: bv32)
    requires |t.stack| == l.stackSize
    requires PutResult(l, t, rd, rightOffset, destOffset, d).Ok?
    ensures var u := PutResult(l, t, rd, rightOffset, destOffset, d).value;
            rd != RIP ==> Advance(u.active)[RIP] == Add32(t.active[RIP], 8)
  {
    var u := PutResult(l, t, rd, rightOffset, destOffset, d).value;
    PutResultKeepsRip(l, t, rd, rightOffset, destOffset, d);
    AdvanceFrom(u.active, t.active[RIP]);
  }

  lemma PutResultKeepsRip(l: Layout, t: Thread, rd: Register, rightOffset: bv32, destOffset: bv32, d: bv32)
    requires |t.stack| == l.stackSize
    requires PutResult(l, t, rd, rightOffset, destOffset, d).Ok?
    ensures rd != RIP ==> PutResult(l, t, rd, rightOffset, destOffset, d).value.active[RIP] == t.active[RIP]
  {
  }

  lemma AdvanceFrom(regs: RegisterSet, x: bv32)
    ensures regs[RIP] == x ==> Advance(regs)[RIP] == Add32(x, 8)
  {
  }

  lemma PutThenAdvanceReadsBack(l: Layout, t: Thread, rd: Register, rightOffset: bv32, destOffset: bv32, d: bv32)
    requires |t.stack| == l.stackSize
    requires PutResult(l, t, rd, rightOffset, destOffset, d).Ok?
    ensures var u := PutResult(l, t, rd, rightOffset, destOffset, d).value;
            rd != RIP ==> ReadsBack(l, t, u.(active := Advance(u.active)), rd, rightOffset, destOffset, d)
  {
    var u := PutResult(l, t, rd, rightOffset, destOffset, d).value;
    PutResultReadsBack(l, t, rd, rightOffset, destOffset, d);
    if rd != RIP {
      ReadsBackAfterAdvance(l, t, u, rd, rightOffset, destOffset, d);
    }
  }

  /** Moving RIP on keeps what every destination other than RIP reads back. */
  lemma ReadsBackAfterAdvance(l: Layout, t: Thread, u: Thread, rd: Register, rightOffset: bv32, destOffset: bv32, d: bv32)
    requires |u.stack| == l.stackSize && rd != RIP
    requires ReadsBack(l, t, u, rd, rightOffset, destOffset, d)
    ensures ReadsBack(l, t, u.(active := Advance(u.active)), rd, rightOffset, destOffset, d)
  {
    if !IsIndex(rd) {
      assert Advance(u.active)[rd] == u.active[rd];
    }
  }

  /**
   `ExecArithmeticInstruction` computes `L op R` from the two operands and
   leaves it where the destination reads it back; RIP moves to the next
   instruction unless RIP itself is the destination; the saved sets and
   the I/O streams are untouched.
   */
  lemma ArithmeticEffect(l: Layout, t: Thread, a: Arith)
    requires |t.stack| == l.stackSize
    requires ExecArithmetic(l, t, a).Ok?
    ensures var t' := ExecArithmetic(l, t, a).value.t;
            var left := RegisterValue(l, t, a.lt as Register, Sext14(a.ltOffset));
            var right := RegisterValue(l, t, a.rt as Register, Sext14(a.rtOffset));
            && left.Ok? && right.Ok? && Compute(a.opcode as int, left.value, right.value).Ok?
            && (a.dt as int != RIP ==>
                  ReadsBack(l, t, t', a.dt as Register, Sext14(a.rtOffset), Sext14(a.dtOffset),
                            Compute(a.opcode as int, left.value, right.value).value)
                  && t'.active[RIP] == Add32(t.active[RIP], 8))
            && t'.saved == t.saved && t'.output == t.output && t'.input == t.input
  {
    var ro, dO := Sext14(a.rtOffset), Sext14(a.dtOffset);
    var left := RegisterValue(l, t, a.lt as Register, Sext14(a.ltOffset)).value;
    var right := RegisterValue(l, t, a.rt as Register, ro).value;
    var d := Compute(a.opcode as int, left, right).value;
    StoreAndAdvance(l, t, a.dt as Register, ro, dO, d);
  }

  /**
   The value a store writes is the source's low 8 or 16 bits (all 32 for the
   other stores) sign-extended from the width's top bit, and masking it again
   changes nothing.
   */
  lemma StoreValueMeaning(op: int, v: bv32)
    ensures op == Opc.STRI8 || op == Opc.STRU8 ==>
              StoreValue(op, v) & 0xFF == v & 0xFF
              && (if v & 0x80 == 0 then StoreValue(op, v) >> 8 == 0 else StoreValue(op, v) >> 8 == 0xFF_FFFF)
    ensures op == Opc.STRI16 || op == Opc.STRU16 ==>
              StoreValue(op, v) & 0xFFFF == v & 0xFFFF
              && (if v & 0x8000 == 0 then StoreValue(op, v) >> 16 == 0 else StoreValue(op, v) >> 16 == 0xFFFF)
    ensures !(Opc.STRI8 <= op <= Opc.STRU16) ==> StoreValue(op, v) == v
    ensures StoreValue(op, StoreValue(op, v)) == StoreValue(op, v)
  {
    if op == Opc.STRI8 || op == Opc.STRU8 {
      assert StoreValue(op, v) == SignExtend8(v);
      assert StoreValue(op, SignExtend8(v)) == SignExtend8(SignExtend8(v));
      ByteExtension(v);
    } else if op == Opc.STRI16 || op == Opc.STRU16 {
      assert StoreValue(op, v) == SignExtend16(v);
      assert StoreValue(op, SignExtend16(v)) == SignExtend16(SignExtend16(v));
      HalfExtension(v);
    } else {
      assert StoreValue(op, v) == v;
    }
  }

  /** Sign extension from bit 7 keeps the low byte, fills the rest with bit 7, and is idempotent. */
  lemma ByteExtension(v: bv32)
    ensures SignExtend8(v) & 0xFF == v & 0xFF
    ensures if v & 0x80 == 0 then SignExtend8(v) >> 8 == 0 else SignExtend8(v) >> 8 == 0xFF_FFFF
    ensures SignExtend8(SignExtend8(v)) == SignExtend8(v)
  {
    if v & 0x80 != 0 {
      assert (v & 0xFF) & 0x80 != 0;
    } else {
      assert (v & 0xFF) & 0x80 == 0;
    }
  }

  /** Sign extension from bit 15, likewise. */
  lemma HalfExtension(v: bv32)
    ensures SignExtend16(v) & 0xFFFF == v & 0xFFFF
    ensures if v & 0x8000 == 0 then SignExtend16(v) >> 16 == 0 else SignExtend16(v) >> 16 == 0xFFFF
    ensures SignExtend16(SignExtend16(v)) == SignExtend16(v)
  {
    if v & 0x8000 != 0 {
      assert (v & 0xFFFF) & 0x8000 != 0;
    } else {
      assert (v & 0xFFFF) & 0x8000 == 0;
    }
  }

  /**
   `ExecStoreInstruction` leaves the width-adjusted source value where the
   destination reads it back and moves RIP on unless RIP is the
   destination.
   */
  lemma StoreEffect(l: Layout, t: Thread, a: Store)
    requires |t.stack| == l.stackSize
    requires ExecStore(l, t, a).Ok?
    ensures var t' := ExecStore(l, t, a).value.t;
            var v := RegisterValue(l, t, a.rt as Register, Sext23(a.rtOffset));
            && v.Ok?
            && (a.dt as int != RIP ==>
                  ReadsBack(l, t, t', a.dt as Register, Sext23(a.rtOffset), Sext23(a.dtOffset),
                            StoreValue(a.opcode as int, v.value))
                  && t'.active[RIP] == Add32(t.active[RIP], 8))
            && t'.saved == t.saved && t'.output == t.output && t'.input == t.input
  {
    var ro, dO := Sext23(a.rtOffset), Sext23(a.dtOffset);
    var v := RegisterValue(l, t, a.rt as Register, ro).value;
    StoreAndAdvance(l, t, a.dt as Register, ro, dO, StoreValue(a.opcode as int, v));
  }

  /** The signed store an unsigned store opcode behaves as. */
  function SignedStore(op: bv6): bv6
  {
    if op as int == Opc.STRU8 then Opc.STRI8 as bv6
    else if op as int == Opc.STRU16 then Opc.STRI16 as bv6
    else if op as int == Opc.STRU32 then Opc.STRI32 as bv6
    else op
  }

  /** An unsigned store executes exactly as the signed store of the same width with the same fields. */
  lemma UnsignedStoreAsSigned(l: Layout, t: Thread, w: Word)
    requires |t.stack| == l.stackSize
    requires OpcodeOf(w) as int in {Opc.STRU8, Opc.STRU16, Opc.STRU32}
    ensures Execute(l, t, w) == Execute(l, t, WithOpcode(w, SignedStore(OpcodeOf(w))))
  {
    var op := SignedStore(OpcodeOf(w));
    var w' := WithOpcode(w, op);
    var a := DecodeStore(w);
    assert a.opcode == OpcodeOf(w);
    StoreFieldsKept(w, op);
    assert Opc.IsStore(OpcodeOf(w) as int) && Opc.IsStore(OpcodeOf(w') as int);
    DispatchStore(l, t, w);
    DispatchStore(l, t, w');
    StoreOpcodeWidth(l, t, a);
    assert a.(opcode := SignedStore(a.opcode)) == DecodeStore(w');
  }

  lemma StoreFieldsKept(w: Word, op: bv6)
    ensures DecodeStore(WithOpcode(w, op)) == DecodeStore(w).(opcode := op)
    ensures OpcodeOf(WithOpcode(w, op)) == op
  {
    WithOpcodeKeepsFields(w, op);
  }

  lemma DispatchStore(l: Layout, t: Thread, w: Word)
    requires |t.stack| == l.stackSize
    requires Opc.IsStore(OpcodeOf(w) as int)
    ensures Execute(l, t, w) == ExecStore(l, t, DecodeStore(w))
  {
  }

  lemma StoreOpcodeWidth(l: Layout, t: Thread, a: Store)
    requires |t.stack| == l.stackSize
    requires a.opcode as int in {Opc.STRU8, Opc.STRU16, Opc.STRU32}
    ensures ExecStore(l, t, a) == ExecStore(l, t, a.(opcode := SignedStore(a.opcode)))
  {
    var v := RegisterValue(l, t, a.rt as Register, Sext23(a.rtOffset));
    if v.Ok? {
      assert StoreValue(a.opcode as int, v.value) == StoreValue(SignedStore(a.opcode) as int, v.value);
    }
  }

  /** MOVE is dispatched to the indirect handler, which implements only RCOPYD. */
  lemma MoveIsFatal(l: Layout, t: Thread, w: Word)
    requires |t.stack| == l.stackSize
    requires OpcodeOf(w) as int == Opc.MOVE
    ensures Execute(l, t, w) == Err(Fatal("only RCOPYD is implemented"))
  {
    assert DecodeIndirect(w).opcode == OpcodeOf(w);
  }

  /** A NOT instruction never completes. */
  lemma NotNeverCompletes(l: Layout, t: Thread, w: Word)
    requires |t.stack| == l.stackSize
    requires OpcodeOf(w) as int == Opc.NOT
    ensures Execute(l, t, w).Err?
  {
    assert DecodeArith(w).opcode == OpcodeOf(w);
  }
}

=== FILE: generator.dfy ===
/**
 The code generator (translator/generator.c). The parser drives it through
 one call per construct; each call pops operands and operators, appends
 instructions to the program's instruction queue, and advances the code
 pointer of the current scope by 8 bytes per instruction.

 The C routines share their state through pointers; here it is one record:
 - the operand and operator stacks (top = last element),
 - the instruction queue, as the sequence of instruction words,
 - the pending-instruction stack, whose entries are positions in the queue
   (the C code keeps pointers to queued instructions and patches them in
   place later; a position names the same instruction),
 - the instruction-count stack used to patch `return` jumps,
 - the current scope context, the register allocator, and
 - the error log that `yyerror` appends to.
 A failed `assert` or a read through NULL ends the run with a `Fault`.
 */
module Generator {
  import opened Base
  import opened RegisterDef
  import opened ObjTypes
  import opened InstrDef
  import opened IntFields
  import Opc = OpcodeDef
  import Opcodes
  import Errors
  import I = Instruction
  import A = Allocator
  import S = Scope
  import SStack

  datatype State = State(
    operands: seq<Identifier>,
    operators: seq<OprType>,
    queue: seq<Word>,
    pending: seq<nat>,
    counts: seq<nat>,
    ctx: ScopeContext,
    regs: A.Registers,
    errors: seq<string>)

  /** Every pending entry names an instruction in the queue. */
  predicate Coherent(st: State)
  {
    forall i :: 0 <= i < |st.pending| ==> st.pending[i] < |st.queue|
  }

  /**
   What every generator routine keeps: the queue does not shrink, the code
   pointer moves by 8 bytes per instruction appended, the scope stays the
   same kind, the allocator keeps its shape and its discipline, and pending
   entries stay inside the queue.
   */
  predicate Step(st: State, r: State)
  {
    |st.queue| <= |r.queue|
    && r.ctx.codePointer == st.ctx.codePointer + S.CodeAlignment * (|r.queue| - |st.queue|)
    && r.ctx.isGlobal == st.ctx.isGlobal
    && A.WellFormed(r.regs)
    && (A.Valid(st.regs) ==> A.Valid(r.regs))
    && (Coherent(st) ==> Coherent(r))
  }

  lemma StepTransitive(a: State, b: State, c: State)
    requires Step(a, b) && Step(b, c)
    ensures Step(a, c)
  {
  }

  /**
   What expression code leaves alone: the scope (apart from the code
   pointer) and the stacks of pending patches and of return positions.
   */
  predicate SameFrame(st: State, r: State)
  {
    r.ctx == st.ctx.(codePointer := r.ctx.codePointer) && r.pending == st.pending && r.counts == st.counts
  }

  lemma SameFrameTransitive(a: State, b: State, c: State)
    requires SameFrame(a, b) && SameFrame(b, c)
    ensures SameFrame(a, c)
  {
  }

  /** Appends instructions to the queue and moves the code pointer past them. */
  function Emit(st: State, ws: seq<Word>): (r: State)
    ensures r.queue == st.queue + ws
    ensures r.ctx == st.ctx.(codePointer := st.ctx.codePointer + S.CodeAlignment * |ws|)
    ensures r == st.(queue := r.queue, ctx := r.ctx)
  {
    st.(queue := st.queue + ws, ctx := st.ctx.(codePointer := st.ctx.codePointer + S.CodeAlignment * |ws|))
  }

  /** An integer constant built from a value the C code passes as a signed long. */
  function Constant(v: int): (id: Identifier)
    ensures id.register == RCT && id.offset == Wrap32(v)
  {
    S.RegisterIdentifierAsIntegerConstant(Wrap32(v))
  }

  /** A special register's identifier object. */
  function Special(r: Register): (id: Identifier)
    requires IsSpecial(r)
    ensures id.register == r && id.offset == 0
  {
    S.RegisterSpecialRegister(r)
  }

  // ---------------------------------------------------------------- operator sets

  /** `CheckOperatorIsInOperatorArray`: a linear search of the array. */
  method CheckOperatorIsInOperatorArray(o: OprType, operators: seq<OprType>) returns (found: bool)
    ensures found <==> o in operators
  {
    var i := 0;
    while i < |operators|
      invariant 0 <= i <= |operators|
      invariant o !in operators[..i]
    {
      if operators[i] == o {
        return true;
      }
      i := i + 1;
    }
    assert operators[..i] == operators;
    return false;
  }

  // ---------------------------------------------------------------- expressions

  /**
   `GenerateExpressionInstruction`: releases both operands, selects the
   opcode and result type from their data types (read through the
   allocator for RT/IX registers), and builds either a store of R into L,
   which yields L, or an arithmetic instruction into a fresh working
   register of the result type, which yields that register. An invalid
   combination or an exhausted allocator is logged and yields nothing.
   */
  function GenerateExpressionInstruction(st: State, l: Identifier, r: Identifier, o: OprType)
    : (res: Result<(State, Option<(Word, Identifier)>), Fault>)
    requires A.WellFormed(st.regs)
    ensures res.Ok? ==> res.value.0 == st.(regs := res.value.0.regs, errors := res.value.0.errors)
    ensures res.Ok? ==> A.WellFormed(res.value.0.regs) && (A.Valid(st.regs) ==> A.Valid(res.value.0.regs))
    ensures res.Ok? && res.value.1.None? ==>
              |res.value.0.errors| == |st.errors| + 1 && res.value.0.errors[..|st.errors|] == st.errors
    ensures res.Ok? && res.value.1.Some? ==>
              var lt := A.Current(st.regs, l).dataType;
              var rt := A.Current(st.regs, r).dataType;
              Typed(lt, rt, o, res.value.0.regs, l, r, res.value.1.value)
  {
    var r1 :- A.DereferenceRegister(st.regs, r.register);
    var r2 :- A.DereferenceRegister(r1, l.register);
    A.DereferenceKeeps(st.regs, r.register);
    A.DereferenceKeeps(r1, l.register);
    A.DereferenceKeepsObjects(st.regs, r.register, l);
    A.DereferenceKeepsObjects(st.regs, r.register, r);
    A.DereferenceKeepsObjects(r1, l.register, l);
    A.DereferenceKeepsObjects(r1, l.register, r);
    var lt := A.Current(r2, l).dataType;
    var rt := A.Current(r2, r).dataType;
    var opcode := Opcodes.GenerateOpcode(lt, rt, o);
    var dt := Opcodes.GenerateResultingDataType(lt, rt, o);
    if opcode == Opc.ERR || dt == IdnType.ERR then
      Ok((st.(regs := r2, errors := st.errors + [Errors.InvalidInstruction]), None))
    else if o.STR? then
      var (w, report) := I.MakeStore(opcode, r, l);
      var errors := if report.Some? then st.errors + [report.value] else st.errors;
      Ok((st.(regs := r2, errors := errors), Some((w, l))))
    else
      Arithmetic(st, r2, l, r, opcode, dt)
  }

  /**
   What a generated instruction is, given the operands' data types: the
   opcode and result type the tables select (neither ERR); for `=` a store
   of R into L yielding L; otherwise the operation into a working register
   that now has the result type, yielding that register.
   */
  predicate Typed(lt: IdnType, rt: IdnType, o: OprType, regs: A.Registers, l: Identifier, r: Identifier, out: (Word, Identifier))
    requires A.WellFormed(regs)
  {
    var opcode := Opcodes.GenerateOpcode(lt, rt, o);
    var dt := Opcodes.GenerateResultingDataType(lt, rt, o);
    opcode != Opc.ERR && dt != IdnType.ERR
    && (o.STR? ==> out.1 == l && out.0 == I.MakeStore(opcode, r, l).0)
    && (!o.STR? ==> IsWorking(out.1.register) && A.Current(regs, out.1).dataType == dt
                    && out.0 == I.MakeArithmetic(opcode, l, r, out.1))
  }

  /** The non-store half: a fresh working register takes the result type and receives the operation. */
  function Arithmetic(st: State, regs: A.Registers, l: Identifier, r: Identifier, opcode: Opc.Opcode, dt: IdnType)
    : (res: Result<(State, Option<(Word, Identifier)>), Fault>)
    requires A.WellFormed(regs)
    ensures res.Ok? ==> res.value.0 == st.(regs := res.value.0.regs, errors := res.value.0.errors)
    ensures res.Ok? ==> A.WellFormed(res.value.0.regs) && (A.Valid(regs) ==> A.Valid(res.value.0.regs))
    ensures res.Ok? && res.value.1.None? ==> res.value.0.errors == st.errors + [Errors.NoRegisters]
    ensures res.Ok? && res.value.1.Some? ==>
              res.value.0.errors == st.errors && IsWorking(res.value.1.value.1.register)
              && A.Current(res.value.0.regs, res.value.1.value.1).dataType == dt
              && res.value.1.value.0 == I.MakeArithmetic(opcode, l, r, res.value.1.value.1)
  {
    var next :- A.NextAvailableRegister(regs);
    A.NextAvailableKeeps(regs);
    if next.1.None? then
      Ok((st.(regs := next.0, errors := st.errors + [Errors.NoRegisters]), None))
    else
      var regs' := A.SetDataType(next.0, next.1.value.register, dt);
      var d := A.Current(regs', next.1.value);
      Ok((st.(regs := regs'), Some((I.MakeArithmetic(opcode, l, r, d), d))))
  }

  /**
   One combining step shared by the three drains: with `o` already popped,
   pop R and then L, generate their instruction, append it and push the
   result back. A missing instruction fails the callers' `assert`s.
   */
  function Combine(st: State, o: OprType): (r: Result<State, Fault>)
    requires A.WellFormed(st.regs)
    ensures r.Ok? ==> Step(st, r.value) && |r.value.queue| == |st.queue| + 1
    ensures r.Ok? ==> |st.operands| >= 2 && |r.value.operands| + 1 == |st.operands|
    ensures r.Ok? ==> r.value.operands[..|r.value.operands| - 1] == st.operands[..|st.operands| - 2]
    ensures r.Ok? ==> r.value.operators == st.operators && SameFrame(st, r.value)
    ensures r.Ok? ==> r.value.queue[..|st.queue|] == st.queue
  {
    var p1 :- SStack.Pop(st.operands);
    var p2 :- SStack.Pop(p1.0);
    var g :- GenerateExpressionInstruction(st.(operands := p2.0), p2.1, p1.1, o);
    if g.1.None? then Err(AssertionFailed("expression produced no instruction"))
    else
      var (w, out) := g.1.value;
      Ok(Emit(g.0.(operands := p2.0 + [out]), [w]))
  }

  /**
   `GenerateExpressionInstructions`: combines while the operator on top of
   the stack is one of `check`, one instruction per operator; stops at an
   empty stack or at the first operator outside the set.
   */
  function GenerateExpressionInstructions(st: State, check: seq<OprType>): (r: Result<State, Fault>)
    requires A.WellFormed(st.regs)
    ensures r.Ok? ==> A.WellFormed(r.value.regs)
    ensures r.Ok? ==> AtBoundary(r.value.operators, check)
    decreases |st.operators|
  {
    if AtBoundary(st.operators, check) then Ok(st)
    else if |st.operands| < 2 then Err(AssertionFailed("fewer than two operands"))
    else
      var c :- Combine(st.(operators := st.operators[..|st.operators| - 1]), st.operators[|st.operators| - 1]);
      GenerateExpressionInstructions(c, check)
  }

  /** `o` is one of the operators a drain applies. */
  predicate Applies(o: OprType, check: seq<OprType>)
  {
    o in check
  }

  /** The operator stack is empty or its top is outside `check`. */
  predicate AtBoundary(operators: seq<OprType>, check: seq<OprType>)
  {
    |operators| == 0 || !Applies(operators[|operators| - 1], check)
  }

  /**
   `GenerateExpressionInstructionsEmptyStacks`: combines until the operator
   stack is empty, leaving the one result on the operand stack. Each
   iteration pops a second operator after combining and discards it, so the
   drain only completes on an even number of operators, of which every
   second one (from the top) is applied; with an odd number the last pop
   reads through NULL.
   */
  function GenerateExpressionInstructionsEmptyStacks(st: State): (r: Result<State, Fault>)
    requires A.WellFormed(st.regs)
    ensures r.Ok? ==> A.WellFormed(r.value.regs)
    ensures r.Ok? ==> r.value.operators == [] && |r.value.operands| == 1
    decreases |st.operators|
  {
    if |st.operators| == 0 then
      if |st.operands| != 1 then Err(AssertionFailed("operand stack does not hold one result")) else Ok(st)
    else if |st.operands| < 2 then Err(AssertionFailed("fewer than two operands"))
    else
      var c :- Combine(st.(operators := st.operators[..|st.operators| - 1]), st.operators[|st.operators| - 1]);
      var q :- SStack.Pop(c.operators);
      GenerateExpressionInstructionsEmptyStacks(c.(operators := q.0))
  }

  /**
   `GenerateExpressionInstructionsUntilMatch`: pops operators, combining
   for each, until it pops `m`, which is consumed without an instruction.
   */
  function GenerateExpressionInstructionsUntilMatch(st: State, m: OprType): (r: Result<State, Fault>)
    requires A.WellFormed(st.regs)
    ensures r.Ok? ==> A.WellFormed(r.value.regs)
  {
    var p :- SStack.Pop(st.operators);
    UntilMatchFrom(st.(operators := p.0), p.1, m)
  }

  /** The loop of `GenerateExpressionInstructionsUntilMatch`, with `o` just popped. */
  function UntilMatchFrom(st: State, o: OprType, m: OprType): (r: Result<State, Fault>)
    requires A.WellFormed(st.regs)
    ensures r.Ok? ==> A.WellFormed(r.value.regs)
    decreases |st.operators|
  {
    if o == m then Ok(st)
    else
      var c :- Combine(st, o);
      var p :- SStack.Pop(c.operators);
      UntilMatchFrom(c.(operators := p.0), p.1, m)
  }

  // ---------------------------------------------------------------- drain properties

  /**
   The operator-set drain appends one instruction and drops one operand per
   operator it removes, keeping the other invariants.
   */
  lemma {:induction false} ExpressionsDrain(st: State, check: seq<OprType>)
    requires A.WellFormed(st.regs)
    ensures var r := GenerateExpressionInstructions(st, check);
            r.Ok? ==> Step(st, r.value) && |r.value.operators| <= |st.operators|
                      && |r.value.queue| - |st.queue| == |st.operators| - |r.value.operators|
                      && |r.value.operands| + (|st.operators| - |r.value.operators|) == |st.operands|
                      && SameFrame(st, r.value)
    decreases |st.operators|
  {
    if !AtBoundary(st.operators, check) {
      ExpressionsUnfold(st, check);
      var r := GenerateExpressionInstructions(st, check);
      if r.Ok? {
        var c := Combine(st.(operators := st.operators[..|st.operators| - 1]), st.operators[|st.operators| - 1]).value;
        ExpressionsDrain(c, check);
        StepTransitive(st, c, r.value);
        SameFrameTransitive(st, c, r.value);
      }
    }
  }

  /** One iteration of the operator-set drain: a success past the boundary went through a combine. */
  lemma ExpressionsUnfold(st: State, check: seq<OprType>)
    requires A.WellFormed(st.regs) && !AtBoundary(st.operators, check)
    ensures GenerateExpressionInstructions(st, check).Ok? ==>
              |st.operands| >= 2
              && var c := Combine(st.(operators := st.operators[..|st.operators| - 1]), st.operators[|st.operators| - 1]);
                 c.Ok? && GenerateExpressionInstructions(st, check) == GenerateExpressionInstructions(c.value, check)
  {
  }

  /**
   The operators the drain removes are exactly those on top of the stack
   that belong to the set; the rest of the stack is untouched.
   */
  lemma {:induction false} ExpressionsDrainOperators(st: State, check: seq<OprType>)
    requires A.WellFormed(st.regs)
    ensures var r := GenerateExpressionInstructions(st, check);
            r.Ok? ==> |r.value.operators| <= |st.operators| && r.value.operators == st.operators[..|r.value.operators|]
                      && (forall i :: |r.value.operators| <= i < |st.operators| ==> Applies(st.operators[i], check))
    decreases |st.operators|
  {
    if !AtBoundary(st.operators, check) {
      ExpressionsUnfold(st, check);
      var r := GenerateExpressionInstructions(st, check);
      if r.Ok? {
        var c := Combine(st.(operators := st.operators[..|st.operators| - 1]), st.operators[|st.operators| - 1]).value;
        ExpressionsDrainOperators(c, check);
        PoppedPrefix(st.operators, c.operators, r.value.operators, check);
      }
    }
  }

  /** One more pop of an applied operator below a drained remainder. */
  lemma PoppedPrefix(ops: seq<OprType>, mid: seq<OprType>, rest: seq<OprType>, check: seq<OprType>)
    requires |ops| > 0 && mid == ops[..|ops| - 1] && Applies(ops[|ops| - 1], check)
    requires |rest| <= |mid| && rest == mid[..|rest|]
    requires forall i :: |rest| <= i < |mid| ==> Applies(mid[i], check)
    ensures rest == ops[..|rest|]
    ensures forall i :: |rest| <= i < |ops| ==> Applies(ops[i], check)
  {
    forall i | |rest| <= i < |ops|
      ensures Applies(ops[i], check)
    {
      if i < |ops| - 1 {
        assert ops[i] == mid[i];
      }
    }
  }

  /**
   The drain to empty stacks completes only on an even number of operators
   and emits one instruction per pair, consuming one operand per pair and
   leaving a single result.
   */
  lemma {:induction false} EmptyStacksDrain(st: State)
    requires A.WellFormed(st.regs)
    ensures var r := GenerateExpressionInstructionsEmptyStacks(st);
            r.Ok? ==> Step(st, r.value)
                      && |st.operators| == 2 * (|r.value.queue| - |st.queue|)
                      && |st.operands| == |r.value.queue| - |st.queue| + 1
  {
    EmptyStacksSteps(st);
    EmptyStacksCounts(st);
  }

  lemma {:induction false} EmptyStacksSteps(st: State)
    requires A.WellFormed(st.regs)
    ensures var r := GenerateExpressionInstructionsEmptyStacks(st);
            r.Ok? ==> Step(st, r.value)
    decreases |st.operators|
  {
    if |st.operators| > 0 {
      EmptyStacksUnfold(st);
      var r := GenerateExpressionInstructionsEmptyStacks(st);
      if r.Ok? {
        var st' := st.(operators := st.operators[..|st.operators| - 1]);
        var c := Combine(st', st.operators[|st.operators| - 1]).value;
        var c' := c.(operators := c.operators[..|c.operators| - 1]);
        EmptyStacksSteps(c');
        StepAround(st, st', c, c', r.value);
      }
    }
  }

  /** `Step` does not look at the operator stack. */
  lemma StepAround(st: State, st': State, c: State, c': State, r: State)
    requires st' == st.(operators := st'.operators) && c' == c.(operators := c'.operators)
    requires Step(st', c) && Step(c', r)
    ensures Step(st, r)
  {
  }

  lemma {:induction false} EmptyStacksCounts(st: State)
    requires A.WellFormed(st.regs)
    ensures var r := GenerateExpressionInstructionsEmptyStacks(st);
            r.Ok? ==> |st.queue| <= |r.value.queue|
                      && |st.operators| == 2 * (|r.value.queue| - |st.queue|)
                      && |st.operands| == |r.value.queue| - |st.queue| + 1
    decreases |st.operators|
  {
    if |st.operators| > 0 {
      EmptyStacksUnfold(st);
      var r := GenerateExpressionInstructionsEmptyStacks(st);
      if r.Ok? {
        var c := Combine(st.(operators := st.operators[..|st.operators| - 1]), st.operators[|st.operators| - 1]).value;
        var c' := c.(operators := c.operators[..|c.operators| - 1]);
        EmptyStacksCounts(c');
      }
    }
  }

  /** The drain to empty stacks leaves the scope and the patch stacks alone. */
  lemma {:induction false} EmptyStacksFrame(st: State)
    requires A.WellFormed(st.regs)
    ensures var r := GenerateExpressionInstructionsEmptyStacks(st);
            r.Ok? ==> SameFrame(st, r.value)
    decreases |st.operators|
  {
    if |st.operators| > 0 {
      EmptyStacksUnfold(st);
      var r := GenerateExpressionInstructionsEmptyStacks(st);
      if r.Ok? {
        var c := Combine(st.(operators := st.operators[..|st.operators| - 1]), st.operators[|st.operators| - 1]).value;
        var c' := c.(operators := c.operators[..|c.operators| - 1]);
        EmptyStacksFrame(c');
        SameFrameTransitive(st, c', r.value);
      }
    }
  }

  /** One iteration of the drain to empty stacks: a success went through a combine and a second pop. */
  lemma EmptyStacksUnfold(st: State)
    requires A.WellFormed(st.regs) && |st.operators| > 0
    ensures GenerateExpressionInstructionsEmptyStacks(st).Ok? ==>
              |st.operands| >= 2
              && var c := Combine(st.(operators := st.operators[..|st.operators| - 1]), st.operators[|st.operators| - 1]);
                 c.Ok? && |c.value.operators| > 0
                 && GenerateExpressionInstructionsEmptyStacks(st)
                    == GenerateExpressionInstructionsEmptyStacks(c.value.(operators := c.value.operators[..|c.value.operators| - 1]))
  {
  }

  /**
   Matching appends one instruction and drops one operand for every
   operator popped before `m`.
   */
  lemma {:induction false} UntilMatchDrain(st: State, o: OprType, m: OprType)
    requires A.WellFormed(st.regs)
    ensures var r := UntilMatchFrom(st, o, m);
            r.Ok? ==> Step(st, r.value) && |r.value.operators| <= |st.operators|
                      && |r.value.queue| - |st.queue| == |st.operators| - |r.value.operators|
                      && |r.value.operands| + (|st.operators| - |r.value.operators|) == |st.operands|
                      && SameFrame(st, r.value)
    decreases |st.operators|
  {
    if o != m {
      UntilMatchUnfold(st, o, m);
      var r := UntilMatchFrom(st, o, m);
      if r.Ok? {
        var c := Combine(st, o).value;
        var top := c.operators[|c.operators| - 1];
        var c' := c.(operators := c.operators[..|c.operators| - 1]);
        UntilMatchDrain(c', top, m);
        StepTransitive(st, c', r.value);
        SameFrameTransitive(st, c', r.value);
      }
    }
  }

  /** Matching stops at the nearest `m` below the popped operator and leaves the stack under it alone. */
  lemma {:induction false} UntilMatchOperators(st: State, o: OprType, m: OprType)
    requires A.WellFormed(st.regs)
    ensures var r := UntilMatchFrom(st, o, m);
            r.Ok? ==> MatchedAt(st.operators, o, m, r.value.operators)
    decreases |st.operators|
  {
    if o != m {
      UntilMatchUnfold(st, o, m);
      var r := UntilMatchFrom(st, o, m);
      if r.Ok? {
        var c := Combine(st, o).value;
        var top := c.operators[|c.operators| - 1];
        var c' := c.(operators := c.operators[..|c.operators| - 1]);
        UntilMatchOperators(c', top, m);
        assert c.operators == st.operators;
        MatchedBelow(st.operators, o, m, r.value.operators);
      }
    }
  }

  /**
   With `o` just popped off `ops`, `rest` is what matching leaves: `ops`
   itself when `o` is `m`, and otherwise `ops` cut at its topmost `m`.
   */
  predicate MatchedAt(ops: seq<OprType>, o: OprType, m: OprType, rest: seq<OprType>)
  {
    |rest| <= |ops| && rest == ops[..|rest|]
    && (|rest| == |ops| <==> o == m)
    && (|rest| < |ops| ==> ops[|rest|] == m && forall i :: |rest| < i < |ops| ==> ops[i] != m)
  }

  lemma MatchedBelow(ops: seq<OprType>, o: OprType, m: OprType, rest: seq<OprType>)
    requires |ops| > 0 && o != m
    requires MatchedAt(ops[..|ops| - 1], ops[|ops| - 1], m, rest)
    ensures MatchedAt(ops, o, m, rest)
  {
    var mid := ops[..|ops| - 1];
    assert rest == mid[..|rest|];
    assert mid[..|rest|] == ops[..|rest|];
    forall i | |rest| < i < |ops|
      ensures ops[i] != m
    {
      if i < |ops| - 1 {
        assert ops[i] == mid[i];
      }
    }
  }

  /** One iteration of the matching loop: a success went through a combine and a pop. */
  lemma UntilMatchUnfold(st: State, o: OprType, m: OprType)
    requires A.WellFormed(st.regs) && o != m
    ensures UntilMatchFrom(st, o, m).Ok? ==>
              Combine(st, o).Ok? && |Combine(st, o).value.operators| > 0
              && var c := Combine(st, o).value;
                 UntilMatchFrom(st, o, m)
                 == UntilMatchFrom(c.(operators := c.operators[..|c.operators| - 1]), c.operators[|c.operators| - 1], m)
  {
  }

  /** The match drain as the parser calls it: `m` must be on the stack, and it is consumed. */
  lemma UntilMatchConsumes(st: State, m: OprType)
    requires A.WellFormed(st.regs)
    ensures var r := GenerateExpressionInstructionsUntilMatch(st, m);
            r.Ok? ==> Step(st, r.value) && SameFrame(st, r.value)
                      && |r.value.operators| < |st.operators| && r.value.operators == st.operators[..|r.value.operators|]
                      && st.operators[|r.value.operators|] == m
                      && (forall i :: |r.value.operators| < i < |st.operators| ==> st.operators[i] != m)
                      && |r.value.queue| - |st.queue| == |st.operators| - |r.value.operators| - 1
  {
    UntilMatchStart(st, m);
    var r := GenerateExpressionInstructionsUntilMatch(st, m);
    if r.Ok? {
      var n := |st.operators| - 1;
      var st' := st.(operators := st.operators[..n]);
      UntilMatchDrain(st', st.operators[n], m);
      UntilMatchOperators(st', st.operators[n], m);
      MatchedTop(st.operators, m, r.value.operators);
      StepIgnoresOperators(st, st', r.value);
    }
  }

  lemma UntilMatchFrame(st: State, m: OprType)
    requires A.WellFormed(st.regs)
    ensures var r := GenerateExpressionInstructionsUntilMatch(st, m);
            r.Ok? ==> Step(st, r.value) && SameFrame(st, r.value)
  {
    UntilMatchConsumes(st, m);
  }

  /** The match drain starts by popping the top operator. */
  lemma UntilMatchStart(st: State, m: OprType)
    requires A.WellFormed(st.regs)
    ensures GenerateExpressionInstructionsUntilMatch(st, m).Ok? ==>
              |st.operators| > 0
              && GenerateExpressionInstructionsUntilMatch(st, m)
                 == UntilMatchFrom(st.(operators := st.operators[..|st.operators| - 1]), st.operators[|st.operators| - 1], m)
  {
  }

  lemma StepIgnoresOperators(st: State, st': State, r: State)
    requires st' == st.(operators := st'.operators) && Step(st', r)
    ensures Step(st, r)
  {
  }

  lemma MatchedTop(ops: seq<OprType>, m: OprType, rest: seq<OprType>)
    requires |ops| > 0 && MatchedAt(ops[..|ops| - 1], ops[|ops| - 1], m, rest)
    ensures |rest| < |ops| && rest == ops[..|rest|] && ops[|rest|] == m
    ensures forall i :: |rest| < i < |ops| ==> ops[i] != m
  {
    var mid := ops[..|ops| - 1];
    assert mid[..|rest|] == ops[..|rest|];
    forall i | |rest| < i < |ops|
      ensures ops[i] != m
    {
      if i < |ops| - 1 {
        assert ops[i] == mid[i];
      }
    }
  }

  // ---------------------------------------------------------------- arrays

  /**
   `GenerateArrayInstructions`: with the index on top of the array variable,
   computes the element's address into a fresh index register and pushes
   that register. The array must be a local (RST, negative offset) or a
   global (RGD, non-negative offset).
   */
  function GenerateArrayInstructions(st: State): (r: Result<State, Fault>)
    requires A.WellFormed(st.regs)
    ensures r.Ok? ==> Step(st, r.value) && ArrayPushed(st, r.value)
  {
    var p1 :- SStack.Pop(st.operands);
    var p2 :- SStack.Pop(p1.0);
    var access := p1.1;
    var base := p2.1;
    if !ArrayBase(base) then Err(AssertionFailed("array base is neither a local nor a global"))
    else
      var rs :- ArrayRegisters(st.regs, access);
      Ok(ArrayEmit(st, base, access, rs))
  }

  /**
   An element access replaced the array and the index on top of the operand
   stack by an index register, appending three instructions; the array was
   a local or a global.
   */
  predicate ArrayPushed(st: State, r: State)
  {
    |r.queue| == |st.queue| + 3 && SameFrame(st, r)
    && |st.operands| >= 2 && |r.operands| + 1 == |st.operands|
    && r.operands[..|r.operands| - 1] == st.operands[..|st.operands| - 2]
    && IsIndexIx(r.operands[|r.operands| - 1].register)
    && ArrayBase(st.operands[|st.operands| - 2])
  }

  /** The end of `GenerateArrayInstructions`, once the registers are chosen. */
  function ArrayEmit(st: State, base: Identifier, access: Identifier, rs: (A.Registers, Identifier, Identifier)): (r: State)
    requires |st.operands| >= 2 && st.operands[|st.operands| - 2] == base && st.operands[|st.operands| - 1] == access
    requires ArrayBase(base) && A.WellFormed(rs.0) && (A.Valid(st.regs) ==> A.Valid(rs.0))
    requires IsIndexIx(rs.2.register)
    ensures Step(st, r) && ArrayPushed(st, r)
  {
    var rest := st.operands[..|st.operands| - 2];
    var r := Emit(st.(operands := rest + [rs.2], regs := rs.0), ArrayAccess(base, access, rs.1, rs.2));
    assert r.operands[..|r.operands| - 1] == rest;
    r
  }

  /**
   The registers of an element access: the offset register (see
   `ArrayOffsetRegister`), a fresh index register for the element, and the
   release of the offset register once the address is computed.
   */
  function ArrayRegisters(regs: A.Registers, access: Identifier): (r: Result<(A.Registers, Identifier, Identifier), Fault>)
    requires A.WellFormed(regs)
    ensures r.Ok? ==> A.WellFormed(r.value.0) && (A.Valid(regs) ==> A.Valid(r.value.0))
    ensures r.Ok? ==> IsWorking(r.value.1.register) && IsIndexIx(r.value.2.register)
  {
    var off :- ArrayOffsetRegister(regs, access);
    var index :- A.NextAvailableRegisterIndex(off.0);
    A.NextAvailableKeeps(off.0);
    if index.1.None? then Err(NullDereference("no index register for the array element"))
    else
      var regs' :- A.DereferenceRegister(index.0, off.1.register);
      A.DereferenceKeeps(index.0, off.1.register);
      Ok((regs', off.1, index.1.value))
  }

  /** An array variable lives in the stack frame (RST, below it) or in the data segment (RGD, from 0). */
  predicate ArrayBase(base: Identifier)
  {
    (base.register == RST && base.offset < 0) || (base.register == RGD && base.offset >= 0)
  }

  /**
   The register that receives the scaled index: the index itself when it is
   already a working register (which must be referenced), otherwise a fresh
   working register. An index held in an index register is released first.
   */
  function ArrayOffsetRegister(regs: A.Registers, access: Identifier): (r: Result<(A.Registers, Identifier), Fault>)
    requires A.WellFormed(regs)
    ensures r.Ok? ==> A.WellFormed(r.value.0) && (A.Valid(regs) ==> A.Valid(r.value.0))
    ensures r.Ok? ==> IsWorking(r.value.1.register)
    ensures r.Ok? && IsWorking(access.register) ==> r.value == (regs, access) && regs.working[access.register - RT0].refCount >= 1
    ensures r.Ok? && !IsWorking(access.register) && !IsIndexIx(access.register) ==>
              A.NextAvailableRegister(regs) == Ok((r.value.0, Some(r.value.1)))
  {
    var regs1 :- A.DereferenceRegister(regs, if IsIndexIx(access.register) then access.register else INV);
    A.DereferenceKeeps(regs, if IsIndexIx(access.register) then access.register else INV);
    if IsWorking(access.register) then
      if regs1.working[access.register - RT0].refCount < 1 then Err(AssertionFailed("index register is not referenced"))
      else Ok((regs1, access))
    else
      var alloc :- A.NextAvailableRegister(regs1);
      A.NextAvailableKeeps(regs1);
      if alloc.1.None? then Err(NullDereference("no working register for the array offset"))
      else Ok((alloc.0, alloc.1.value))
  }

  /**
   The three instructions of an element access: the index times -4 (local)
   or +4 (global) into the offset register, plus the array's own offset,
   then RCOPYD of the base register plus the offset register into the
   element's index register.
   */
  function ArrayAccess(base: Identifier, access: Identifier, offset: Identifier, element: Identifier): (ws: seq<Word>)
    requires ArrayBase(base)
    ensures |ws| == 3
  {
    [I.MakeArithmetic(Opc.MULI, access, Constant(ArrayStride(base)), offset),
     I.MakeArithmetic(Opc.ADDI, offset, Constant(base.offset), offset),
     I.MakeIndirectDirect(Opc.RCOPYD, ZeroIdentifier(base.register), Some(offset), element)]
  }

  /** Successive elements of a local array sit 4 bytes lower, of a global array 4 bytes higher. */
  function ArrayStride(base: Identifier): (k: int)
    ensures k == S.StackAlignment || k == -(S.StackAlignment as int)
    ensures k < 0 <==> base.register == RST
  {
    if base.register == RST then -(S.StackAlignment as int) else S.StackAlignment
  }

  // ---------------------------------------------------------------- I/O

  /**
   `GenerateIoAddReadIdentifier`: pushes the address of a variable to read
   into: RCOPYD of its index register plus its offset into RT0, then PUSH
   RT0. RT0 must be the register the allocator hands out.
   */
  function GenerateIoAddReadIdentifier(st: State, io: IoObject, id: Identifier): (r: Result<(State, IoObject), Fault>)
    requires A.WellFormed(st.regs)
    ensures r.Ok? ==> Step(st, r.value.0) && |r.value.0.queue| == |st.queue| + 2
    ensures r.Ok? ==> !st.ctx.isGlobal && IsIndex(id.register) && r.value.1.count == Unsigned32(io.count + 1)
    ensures r.Ok? ==> r.value.0.operands == st.operands && r.value.0.pending == st.pending && r.value.0.counts == st.counts
    ensures r.Ok? ==> r.value.0.queue[|st.queue|] == I.MakeIndirectDirect(Opc.RCOPYD, id, Some(Constant(id.offset)), A.Handle(st.regs, RT0))
    ensures r.Ok? ==> DecodeStack(r.value.0.queue[|st.queue| + 1]) == Stack(I.Op(Opc.PUSH), I.Reg(RT0), 0)
    ensures A.Valid(st.regs) && st.regs.nextWorking == 0 && !st.ctx.isGlobal && IsIndex(id.register) ==>
              r.Ok? && r.value.0.regs == st.regs
  {
    if st.ctx.isGlobal then Err(AssertionFailed("read in the global context"))
    else if !IsIndex(id.register) then Err(AssertionFailed("read target is not addressable"))
    else
      var rt0 :- ScratchRt0(st.regs);
      var copy := I.MakeIndirectDirect(Opc.RCOPYD, id, Some(Constant(id.offset)), rt0.1);
      var push := I.MakeStackPush(rt0.1);
      Ok((Emit(st.(regs := rt0.0), [copy, push]), IoObject(Unsigned32(io.count + 1))))
  }

  /**
   The scratch register of a read, a function header or a function trailer:
   it must be RT0, the first working register, and it is released again at
   the end of the sequence. From a disciplined allocator with nothing in use
   the round trip leaves the allocator exactly as it was.
   */
  function ScratchRt0(regs: A.Registers): (r: Result<(A.Registers, Identifier), Fault>)
    requires A.WellFormed(regs)
    ensures r.Ok? ==> A.WellFormed(r.value.0) && (A.Valid(regs) ==> A.Valid(r.value.0))
    ensures r.Ok? ==> r.value.1 == A.Handle(regs, RT0)
    ensures r.Ok? ==> regs.nextWorking == 0
    ensures A.Valid(regs) && regs.nextWorking == 0 ==> r == Ok((regs, A.Handle(regs, RT0)))
  {
    var a :- A.NextAvailableRegister(regs);
    A.NextAvailableKeeps(regs);
    if a.1.None? then Err(NullDereference("no working register for RT0"))
    else if a.1.value.register != RT0 then Err(AssertionFailed("scratch register is not RT0"))
    else
      var regs' := A.DereferenceRegister(a.0, RT0).value;
      A.DereferenceKeeps(a.0, RT0);
      if A.Valid(regs) then A.AllocateThenRelease(regs); Ok((regs', a.1.value))
      else Ok((regs', a.1.value))
  }

  /** `GenerateIoAddPrintIdentifier`: evaluates the expression and pushes its value. */
  function GenerateIoAddPrintIdentifier(st: State, io: IoObject): (r: Result<(State, IoObject), Fault>)
    requires A.WellFormed(st.regs)
    ensures r.Ok? ==> Step(st, r.value.0) && SameFrame(st, r.value.0) && !st.ctx.isGlobal
    ensures r.Ok? ==> r.value.0.operands == [] && r.value.0.operators == [] && r.value.1.count == Unsigned32(io.count + 1)
    ensures r.Ok? ==> |r.value.0.queue| == |st.queue| + |st.operators| / 2 + 1
    ensures r.Ok? ==> OpcodeOf(r.value.0.queue[|r.value.0.queue| - 1]) == I.Op(Opc.PUSH)
  {
    if st.ctx.isGlobal then Err(AssertionFailed("print in the global context"))
    else
      var e :- GenerateExpressionInstructionsEmptyStacks(st);
      EmptyStacksDrain(st);
      EmptyStacksFrame(st);
      var e' := e.(operands := []);
      var s :- PushValue(e', e.operands[0]);
      StepTransitive(st, e', s);
      SameFrameTransitive(st, e', s);
      Ok((s, IoObject(Unsigned32(io.count + 1))))
  }

  /** `GenerateIoFinishRead`: one READ of all the addresses pushed; the count starts over. */
  function GenerateIoFinishRead(st: State, io: IoObject): (r: Result<(State, IoObject), Fault>)
    requires A.WellFormed(st.regs)
    ensures r.Ok? <==> !st.ctx.isGlobal && io.count >= 1
    ensures r.Ok? ==> |r.value.0.queue| == |st.queue| + 1 && r.value.0 == Emit(st, [r.value.0.queue[|st.queue|]])
    ensures r.Ok? ==> r.value.1.count == 0
    ensures r.Ok? && io.count < Two32 ==>
              DecodeIo(r.value.0.queue[|st.queue|]) == Io(I.Op(Opc.READ), Trunc32(io.count))
  {
    if st.ctx.isGlobal then Err(AssertionFailed("read in the global context"))
    else if io.count < 1 then Err(AssertionFailed("read of nothing"))
    else
      var count := Constant(io.count);
      OffsetUnion(Wrap32(io.count), Unsigned32(io.count));
      Ok((Emit(st, [I.MakeIoRead(Opc.READ, count)]), S.CleanIoObject(io)))
  }

  /** `GenerateIoFinishPrint`: one PRINT of all the values pushed; the count starts over. */
  function GenerateIoFinishPrint(st: State, io: IoObject): (r: Result<(State, IoObject), Fault>)
    requires A.WellFormed(st.regs)
    ensures r.Ok? <==> !st.ctx.isGlobal && io.count >= 1
    ensures r.Ok? ==> |r.value.0.queue| == |st.queue| + 1 && r.value.0 == Emit(st, [r.value.0.queue[|st.queue|]])
    ensures r.Ok? ==> r.value.1.count == 0
    ensures r.Ok? && io.count < Two32 ==>
              DecodeIo(r.value.0.queue[|st.queue|]) == Io(I.Op(Opc.PRINT), Trunc32(io.count))
  {
    if st.ctx.isGlobal then Err(AssertionFailed("print in the global context"))
    else if io.count < 1 then Err(AssertionFailed("print of nothing"))
    else
      var count := Constant(io.count);
      OffsetUnion(Wrap32(io.count), Unsigned32(io.count));
      Ok((Emit(st, [I.MakeIoPrint(Opc.PRINT, count)]), S.CleanIoObject(io)))
  }

  // ---------------------------------------------------------------- program start

  /**
   `GenerateProgramStartBlockStage0`: in the global scope, the four
   instructions every program starts with; the JMP among them stays pending
   until the address of `main` is known.
   */
  function GenerateProgramStartBlockStage0(st: State): (r: Result<State, Fault>)
    requires A.WellFormed(st.regs)
    ensures r.Ok? <==> st.ctx.isGlobal
    ensures r.Ok? ==> Step(st, r.value) && r.value.queue == st.queue + StartWords()
    ensures r.Ok? ==> r.value.pending == st.pending + [|st.queue| + 3]
    ensures r.Ok? ==> r.value == st.(queue := r.value.queue, pending := r.value.pending, ctx := r.value.ctx)
  {
    if !st.ctx.isGlobal then Err(AssertionFailed("start block outside the global context"))
    else Ok(Emit(st.(pending := st.pending + [|st.queue| + 3]), StartWords()))
  }

  /** The start block's instructions, before the jump is patched. */
  function StartWords(): (ws: seq<Word>)
    ensures StartBlock(ws, None)
  {
    var stackTop := Constant(S.ProgramStackTop);
    [I.MakeIndirectDirect(Opc.RCOPYD, stackTop, None, Special(RST)),
     I.MakeIndirectDirect(Opc.RCOPYD, stackTop, None, Special(RSB)),
     I.MakeIndirectDirect(Opc.RCOPYD, Constant(S.ProgramDataStart), None, Special(RGD)),
     I.MakeJump(Opc.JMP, None)]
  }

  /**
   The start block as decoded: RST and RSB loaded with the top of the stack,
   RGD with the start of the data segment, then a JMP that is a placeholder
   (INV, 0) until it is pointed at the absolute address of `main`.
   */
  predicate StartBlock(ws: seq<Word>, main: Option<U32>)
  {
    |ws| == 4
    && DecodeIndirect(ws[0]) == Indirect(I.Op(Opc.RCOPYD), I.Reg(RCT), I.Reg(RST), OffsetTypeConstant, Trunc32(S.ProgramStackTop))
    && DecodeIndirect(ws[1]) == Indirect(I.Op(Opc.RCOPYD), I.Reg(RCT), I.Reg(RSB), OffsetTypeConstant, Trunc32(S.ProgramStackTop))
    && DecodeIndirect(ws[2]) == Indirect(I.Op(Opc.RCOPYD), I.Reg(RCT), I.Reg(RGD), OffsetTypeConstant, Trunc32(S.ProgramDataStart))
    && OpcodeOf(ws[3]) == I.Op(Opc.JMP)
    && DecodeJump(ws[3]) == (if main.None? then Jump(I.Op(Opc.JMP), JumpUnconditional, I.Reg(INV), 0, 0)
                             else Jump(I.Op(Opc.JMP), JumpUnconditional, I.Reg(RCT), Trunc32(main.value), 0))
  }

  /**
   `GenerateProgramStartBlockStage1`: the one pending instruction, the JMP
   of stage 0, is pointed at `main`'s absolute address.
   */
  function GenerateProgramStartBlockStage1(st: State, mainAddress: U32): (r: Result<State, Fault>)
    requires A.WellFormed(st.regs)
    ensures r.Ok? <==> |st.pending| == 1 && st.pending[0] < |st.queue| && OpcodeOf(st.queue[st.pending[0]]) == I.Op(Opc.JMP)
    ensures r.Ok? ==> |r.value.queue| == |st.queue|
                      && r.value == st.(pending := [], queue := st.queue[st.pending[0] := r.value.queue[st.pending[0]]])
    ensures r.Ok? ==> OpcodeOf(r.value.queue[st.pending[0]]) == I.Op(Opc.JMP)
                      && DecodeJump(r.value.queue[st.pending[0]])
                         == DecodeJump(st.queue[st.pending[0]]).(register := I.Reg(RCT), offset := Trunc32(mainAddress))
  {
    if |st.pending| != 1 then Err(AssertionFailed("start block expects one pending instruction"))
    else
      var at := st.pending[0];
      OffsetUnion(Wrap32(mainAddress), mainAddress);
      if at >= |st.queue| then Err(Undefined("pending instruction outside the queue"))
      else
        var w :- I.PatchJumpTargetAbsolute(st.queue[at], Constant(mainAddress));
        Ok(st.(pending := [], queue := st.queue[at := w]))
  }

  /**
   The two stages together, from an empty pending stack in the global
   scope: the four instructions appended decode as the start block with its
   JMP aimed at `main`, and nothing is left pending.
   */
  lemma StartBlockPatched(st: State, mainAddress: U32)
    requires A.WellFormed(st.regs) && st.ctx.isGlobal && st.pending == []
    ensures GenerateProgramStartBlockStage0(st).Ok?
    ensures var s0 := GenerateProgramStartBlockStage0(st).value;
            var s1 := GenerateProgramStartBlockStage1(s0, mainAddress);
            s1.Ok? && s1.value.pending == [] && |s1.value.queue| == |st.queue| + 4
            && s1.value.queue[..|st.queue|] == st.queue
            && StartBlock(s1.value.queue[|st.queue|..], Some(mainAddress))
  {
    var ws := StartWords();
    var s0 := GenerateProgramStartBlockStage0(st).value;
    var at := |st.queue| + 3;
    assert s0.pending == [at] && s0.queue[at] == ws[3];
    var s1 := GenerateProgramStartBlockStage1(s0, mainAddress).value;
    assert s1.queue[|st.queue|..] == ws[3 := s1.queue[at]];
  }

  // ---------------------------------------------------------------- function header

  /**
   The parameters' offsets above the frame base, assigned in queue order
   from `next` downward in steps of 4; each must be at least 8 (past the
   saved frame base and the return address).
   */
  function ParameterOffsets(params: seq<Identifier>, next: int): (r: Result<seq<Identifier>, Fault>)
    ensures r.Ok? <==> |params| == 0 || next - S.StackAlignment * (|params| - 1) >= 8
    ensures r.Ok? ==> |r.value| == |params|
    ensures r.Ok? ==> forall k :: 0 <= k < |params| ==>
                        r.value[k] == params[k].(offset := Wrap32(next - S.StackAlignment * k))
    decreases |params|
  {
    if |params| == 0 then Ok([])
    else if next < 8 then Err(AssertionFailed("parameter offset below 8"))
    else
      var rest :- ParameterOffsets(params[1..], next - S.StackAlignment);
      Ok([params[0].(offset := Wrap32(next))] + rest)
  }

  /** No later entry of `ps` shares the name of entry `k`. */
  predicate LastOfName(ps: seq<Identifier>, k: nat)
    requires k < |ps|
  {
    forall j :: k < j < |ps| ==> ps[j].name != ps[k].name
  }

  /**
   The parameter objects are shared with the scope's symbol table, so the
   offsets written to them show there too: every parameter whose name the
   table holds ends up there (the last one, should two share a name), and
   nothing else in the scope changes.
   */
  function WriteBackAll(ctx: ScopeContext, ps: seq<Identifier>): (c: ScopeContext)
    ensures c == ctx.(symbols := c.symbols)
    ensures c.symbols.Keys == ctx.symbols.Keys
    ensures forall k :: 0 <= k < |ps| && ps[k].name in ctx.symbols && LastOfName(ps, k) ==> c.symbols[ps[k].name] == ps[k]
    ensures forall n :: n in ctx.symbols && (forall k :: 0 <= k < |ps| ==> ps[k].name != n) ==> c.symbols[n] == ctx.symbols[n]
    decreases |ps|
  {
    if |ps| == 0 then ctx
    else
      var c := WriteBackAll(S.WriteBack(ctx, ps[0]), ps[1..]);
      assert forall k :: 1 <= k < |ps| ==> ps[k] == ps[1..][k - 1];
      c
  }

  /** `n` parameters, counted as the C code counts them into an unsigned. */
  function FirstParameterOffset(n: nat): (o: U32)
  {
    Unsigned32(4 + S.StackAlignment * n)
  }

  /**
   What stage 0 of the header does to the function's identifier: the
   parameters keep their order and everything but their offsets, which run
   down from `4 + 4n` in steps of 4.
   */
  predicate Framed(f: Identifier, f': Identifier)
  {
    var n := |f.parameters|;
    f' == f.(parameters := f'.parameters) && |f'.parameters| == n
    && forall k :: 0 <= k < n ==>
         f'.parameters[k] == f.parameters[k].(offset := Wrap32(FirstParameterOffset(n) - S.StackAlignment * k))
  }

  /**
   `GenerateFunctionHeaderStage0`: assigns the parameters their offsets,
   then saves the caller's frame: copy RST to RT0, push it, make RSB the new
   frame base, and reserve the locals with an RCOPYD of RSB plus a
   placeholder constant into RSB, which stays pending.
   */
  function GenerateFunctionHeaderStage0(st: State): (r: Result<State, Fault>)
    requires A.WellFormed(st.regs)
    ensures r.Ok? ==> Step(st, r.value)
    ensures r.Ok? ==> !st.ctx.isGlobal && st.ctx.identifier.Some? && |st.ctx.identifier.value.parameters| > 0
    ensures r.Ok? ==> HeaderAppended(st, r.value)
  {
    if st.ctx.isGlobal then Err(AssertionFailed("function header in the global context"))
    else if st.ctx.identifier.None? then Err(NullDereference("context without a function identifier"))
    else
      var f := st.ctx.identifier.value;
      var n := |f.parameters|;
      if n == 0 then Err(NullDereference("parameter queue of the function"))
      else
        var ps :- ParameterOffsets(f.parameters, FirstParameterOffset(n));
        var rt0 :- ScratchRt0(st.regs);
        Ok(HeaderEmit(st, ps, rt0))
  }

  /**
   The header of the scope's function followed `st`: four instructions
   appended, the last of them pending, and the parameters given their
   offsets.
   */
  predicate HeaderAppended(st: State, r: State)
    requires st.ctx.identifier.Some?
  {
    |r.queue| == |st.queue| + 4 && r.queue[..|st.queue|] == st.queue
    && HeaderBlock(r.queue[|st.queue|..])
    && r.pending == st.pending + [|st.queue| + 3] && r.counts == st.counts
    && r.ctx.identifier.Some? && Framed(st.ctx.identifier.value, r.ctx.identifier.value)
  }

  /** The end of `GenerateFunctionHeaderStage0`, once the offsets are assigned and RT0 is checked. */
  function HeaderEmit(st: State, ps: seq<Identifier>, rt0: (A.Registers, Identifier)): (r: State)
    requires st.ctx.identifier.Some? && |st.ctx.identifier.value.parameters| > 0
    requires ParameterOffsets(st.ctx.identifier.value.parameters, FirstParameterOffset(|st.ctx.identifier.value.parameters|)) == Ok(ps)
    requires A.WellFormed(rt0.0) && (A.Valid(st.regs) ==> A.Valid(rt0.0)) && rt0.1.register == RT0 && rt0.1.offset == 0
    ensures Step(st, r) && HeaderAppended(st, r)
  {
    var f := st.ctx.identifier.value;
    var ws := HeaderWords(rt0.1);
    var ctx := WriteBackAll(st.ctx.(identifier := Some(f.(parameters := ps))), ps);
    var r := Emit(st.(pending := st.pending + [|st.queue| + 3], ctx := ctx, regs := rt0.0), ws);
    assert r.queue[|st.queue|..] == ws;
    r
  }

  /** The header's instructions, saving the caller's frame through `rt0`. */
  function HeaderWords(rt0: Identifier): (ws: seq<Word>)
    requires rt0.register == RT0 && rt0.offset == 0
    ensures HeaderBlock(ws)
  {
    [I.MakeIndirectDirect(Opc.RCOPYD, Special(RST), None, rt0),
     I.MakeStackPush(rt0),
     I.MakeIndirectDirect(Opc.RCOPYD, Special(RSB), None, Special(RST)),
     I.MakeIndirectDirect(Opc.RCOPYD, Special(RSB), Some(Constant(1)), Special(RSB))]
  }

  /**
   The header as decoded: RCOPYD RST into RT0, PUSH RT0, RCOPYD RSB into
   RST, and RCOPYD RSB plus constant 1 (the placeholder for the size of the
   locals) into RSB.
   */
  predicate HeaderBlock(ws: seq<Word>)
  {
    |ws| == 4
    && DecodeIndirect(ws[0]) == Indirect(I.Op(Opc.RCOPYD), I.Reg(RST), I.Reg(RT0), OffsetTypeConstant, 0)
    && DecodeStack(ws[1]) == Stack(I.Op(Opc.PUSH), I.Reg(RT0), 0)
    && DecodeIndirect(ws[2]) == Indirect(I.Op(Opc.RCOPYD), I.Reg(RSB), I.Reg(RST), OffsetTypeConstant, 0)
    && OpcodeOf(ws[3]) == I.Op(Opc.RCOPYD)
    && DecodeIndirect(ws[3]) == Indirect(I.Op(Opc.RCOPYD), I.Reg(RSB), I.Reg(RSB), OffsetTypeConstant, Trunc32(1))
  }

  /**
   With fewer than 2^29 - 1 parameters nothing wraps: the k-th parameter
   (0-based, in declaration order, so pushed k-th by the caller) sits at
   `4 + 4(n - k)` above the frame base, the last one at 8, just above the
   saved frame base and the return address.
   */
  lemma HeaderParameterOffsets(f: Identifier, f': Identifier)
    requires Framed(f, f') && |f.parameters| < 0x1FFF_FFFF
    ensures forall k :: 0 <= k < |f.parameters| ==>
              f'.parameters[k].offset == 4 + S.StackAlignment * (|f.parameters| - k) >= 8
  {
  }

  /**
   `GenerateFunctionHeaderStage1`: once the body is translated the data
   pointer has moved down by the size of the locals; the pending
   reservation is patched with that (non-positive) size.
   */
  function GenerateFunctionHeaderStage1(st: State): (r: Result<State, Fault>)
    requires A.WellFormed(st.regs)
    ensures r.Ok? ==> |st.pending| > 0 && Wrap32(st.ctx.dataPointer) <= 0
    ensures r.Ok? ==> var at := st.pending[|st.pending| - 1];
                      at < |st.queue| && |r.value.queue| == |st.queue|
                      && r.value == st.(pending := st.pending[..|st.pending| - 1], queue := st.queue[at := r.value.queue[at]])
                      && DecodeIndirect(r.value.queue[at]) == DecodeIndirect(st.queue[at]).(offset := Trunc32(Wrap32(st.ctx.dataPointer)))
  {
    var dataSize := Wrap32(st.ctx.dataPointer);
    var p :- SStack.Pop(st.pending);
    if dataSize > 0 then Err(AssertionFailed("locals above the frame base"))
    else if p.1 >= |st.queue| then Err(Undefined("pending instruction outside the queue"))
    else
      var w :- I.PatchIndirectDirectAddSourceOffset(st.queue[p.1], Constant(dataSize));
      Ok(st.(pending := p.0, queue := st.queue[p.1 := w]))
  }

  // ---------------------------------------------------------------- function trailer

  /** No entry among the top `n` of `pending` names position `p`. */
  predicate Untouched(pending: seq<nat>, n: nat, p: nat)
    requires n <= |pending|
  {
    forall i :: |pending| - n <= i < |pending| ==> pending[i] != p
  }

  /**
   The patching loop of `GenerateFunctionTrailer`: each of the function's
   `return`s left a pending JMP and the queue position it was appended at;
   each JMP becomes RIP-relative by 8 bytes per instruction from that
   position to the end of the queue, where the exit sequence starts.
   */
  function PatchReturns(queue: seq<Word>, pending: seq<nat>, counts: seq<nat>, n: nat)
    : (r: Result<(seq<Word>, seq<nat>, seq<nat>), Fault>)
    ensures r.Ok? ==> |r.value.0| == |queue|
    ensures r.Ok? ==> n <= |pending| && r.value.1 == pending[..|pending| - n]
    ensures r.Ok? ==> n <= |counts| && r.value.2 == counts[..|counts| - n]
    decreases n
  {
    if n == 0 then Ok((queue, pending, counts))
    else if |pending| == 0 || |counts| == 0 then Err(NullDereference("pop of an empty stack"))
    else
      var at := pending[|pending| - 1];
      var delta := Wrap32(Wrap32(|queue| - counts[|counts| - 1]) * S.CodeAlignment);
      if at >= |queue| then Err(Undefined("pending instruction outside the queue"))
      else
        var w :- I.PatchJumpTargetRelative(queue[at], Constant(delta));
        PatchedBelow(pending, n);
        PatchedBelow(counts, n);
        PatchReturns(queue[at := w], pending[..|pending| - 1], counts[..|counts| - 1], n - 1)
  }

  /** Position `p` of `q` holds a JMP relative to RIP. */
  predicate RipJump(q: seq<Word>, p: nat)
  {
    p < |q| && OpcodeOf(q[p]) == I.Op(Opc.JMP) && DecodeJump(q[p]).register == I.Reg(RIP)
  }

  /** Every patched position holds a JMP, now relative to RIP. */
  lemma {:induction false} PatchedJumps(queue: seq<Word>, pending: seq<nat>, counts: seq<nat>, n: nat)
    ensures var r := PatchReturns(queue, pending, counts, n);
            r.Ok? ==> forall i :: |pending| - n <= i < |pending| ==> RipJump(r.value.0, pending[i])
    decreases n
  {
    if n > 0 {
      PatchReturnsUnfold(queue, pending, counts, n);
      var r := PatchReturns(queue, pending, counts, n);
      if r.Ok? {
        var at := pending[|pending| - 1];
        var delta := Wrap32(Wrap32(|queue| - counts[|counts| - 1]) * S.CodeAlignment);
        var w := I.PatchJumpTargetRelative(queue[at], Constant(delta)).value;
        var q := queue[at := w];
        var pending' := pending[..|pending| - 1];
        assert RipJump(q, at);
        PatchedJumps(q, pending', counts[..|counts| - 1], n - 1);
        RipJumpStays(q, pending', counts[..|counts| - 1], n - 1, at);
        forall i | |pending| - n <= i < |pending| - 1
          ensures RipJump(r.value.0, pending[i])
        {
          assert pending[i] == pending'[i];
        }
      }
    }
  }

  /** A RIP-relative jump stays one through further patching, whether patched again or not. */
  lemma RipJumpStays(q: seq<Word>, pending: seq<nat>, counts: seq<nat>, n: nat, at: nat)
    requires RipJump(q, at)
    requires PatchReturns(q, pending, counts, n).Ok?
    requires forall i :: |pending| - n <= i < |pending| ==> RipJump(PatchReturns(q, pending, counts, n).value.0, pending[i])
    ensures RipJump(PatchReturns(q, pending, counts, n).value.0, at)
  {
    PatchedUntouched(q, pending, counts, n);
    if !Untouched(pending, n, at) {
      var i :| |pending| - n <= i < |pending| && pending[i] == at;
    }
  }

  /** Positions no patch names keep their instruction. */
  lemma {:induction false} PatchedUntouched(queue: seq<Word>, pending: seq<nat>, counts: seq<nat>, n: nat)
    ensures var r := PatchReturns(queue, pending, counts, n);
            r.Ok? ==> forall p :: 0 <= p < |queue| && Untouched(pending, n, p) ==> r.value.0[p] == queue[p]
    decreases n
  {
    if n > 0 {
      PatchReturnsUnfold(queue, pending, counts, n);
      var r := PatchReturns(queue, pending, counts, n);
      if r.Ok? {
        var at := pending[|pending| - 1];
        var delta := Wrap32(Wrap32(|queue| - counts[|counts| - 1]) * S.CodeAlignment);
        var w := I.PatchJumpTargetRelative(queue[at], Constant(delta)).value;
        var pending' := pending[..|pending| - 1];
        PatchedUntouched(queue[at := w], pending', counts[..|counts| - 1], n - 1);
        forall p | 0 <= p < |queue| && Untouched(pending, n, p)
          ensures r.value.0[p] == queue[p]
        {
          assert p != at;
          assert Untouched(pending', n - 1, p) by {
            forall i | |pending'| - (n - 1) <= i < |pending'| ensures pending'[i] != p {
              assert pending'[i] == pending[i];
            }
          }
        }
      }
    }
  }

  lemma PatchedBelow(s: seq<nat>, n: nat)
    requires 0 < |s|
    ensures 0 < n <= |s| ==> s[..|s| - 1][..|s| - n] == s[..|s| - n]
  {
  }

  /**
   The jump of the most recent `return` (when no other pending jump shares
   its position) lands on the exit sequence: its offset is 8 bytes for every
   instruction from the position recorded for it to the end of the queue.
   */
  lemma ReturnLandsOnExit(queue: seq<Word>, pending: seq<nat>, counts: seq<nat>, n: nat)
    requires 0 < n <= |pending| && 0 < |counts|
    requires Untouched(pending[..|pending| - 1], n - 1, pending[|pending| - 1])
    ensures var r := PatchReturns(queue, pending, counts, n);
            r.Ok? ==> var at := pending[|pending| - 1];
                      at < |queue|
                      && DecodeJump(r.value.0[at]).offset
                         == Trunc32(Wrap32(Wrap32(|queue| - counts[|counts| - 1]) * S.CodeAlignment))
  {
    PatchReturnsUnfold(queue, pending, counts, n);
    var r := PatchReturns(queue, pending, counts, n);
    if r.Ok? {
      var at := pending[|pending| - 1];
      var delta := Wrap32(Wrap32(|queue| - counts[|counts| - 1]) * S.CodeAlignment);
      var w := I.PatchJumpTargetRelative(queue[at], Constant(delta)).value;
      PatchedUntouched(queue[at := w], pending[..|pending| - 1], counts[..|counts| - 1], n - 1);
    }
  }

  /** One step of the patching loop: the top jump is patched before the rest. */
  lemma PatchReturnsUnfold(queue: seq<Word>, pending: seq<nat>, counts: seq<nat>, n: nat)
    requires 0 < n
    ensures var r := PatchReturns(queue, pending, counts, n);
            r.Ok? ==> |pending| > 0 && |counts| > 0 && pending[|pending| - 1] < |queue|
                      && var at := pending[|pending| - 1];
                         var delta := Wrap32(Wrap32(|queue| - counts[|counts| - 1]) * S.CodeAlignment);
                         var w := I.PatchJumpTargetRelative(queue[at], Constant(delta));
                         w.Ok? && r == PatchReturns(queue[at := w.value], pending[..|pending| - 1], counts[..|counts| - 1], n - 1)
  {
  }

  /** The bytes `RETURN` removes from the stack: none for a `void` parameter list, otherwise 4 per parameter. */
  function Cleanup(f: Identifier): (bytes: U32)
    requires |f.parameters| > 0
    ensures f.parameters[0].dataType == IdnType.VOID ==> bytes == 0
    ensures f.parameters[0].dataType != IdnType.VOID && |f.parameters| < 0x4000_0000 ==> bytes == S.StackAlignment * |f.parameters|
  {
    if f.parameters[0].dataType == IdnType.VOID then 0 else Unsigned32(S.StackAlignment * |f.parameters|)
  }

  /**
   `GenerateFunctionTrailer`: patches the function's `return` jumps, then
   appends the exit sequence: release the locals (RSB plus minus the data
   pointer), POP the saved frame base into RT0, copy it back to RST, and
   RETURN removing the parameters' bytes.
   */
  function GenerateFunctionTrailer(st: State): (r: Result<State, Fault>)
    requires A.WellFormed(st.regs)
    ensures r.Ok? ==> Step(st, r.value)
    ensures r.Ok? ==> !st.ctx.isGlobal && st.ctx.identifier.Some? && st.ctx.identifier.value.register == RFN
                      && |st.ctx.identifier.value.parameters| > 0
    ensures r.Ok? ==> TrailerAppended(st, r.value)
  {
    if st.ctx.isGlobal then Err(AssertionFailed("function trailer in the global context"))
    else if st.ctx.identifier.None? then Err(NullDereference("context without a function identifier"))
    else if st.ctx.identifier.value.register != RFN then Err(AssertionFailed("context identifier is not a function"))
    else
      var f := st.ctx.identifier.value;
      var patched :- PatchReturns(st.queue, st.pending, st.counts, f.returnCount);
      var rt0 :- ScratchRt0(st.regs);
      if f.parameters == [] then Err(NullDereference("parameter queue of the function"))
      else Ok(TrailerEmit(st, patched, rt0))
  }

  /**
   The trailer of the scope's function `f` followed `st`: the top
   `returnCount` pending jumps were patched (see `PatchReturns`) and their
   entries popped, and the exit sequence was appended.
   */
  predicate TrailerAppended(st: State, r: State)
    requires st.ctx.identifier.Some? && |st.ctx.identifier.value.parameters| > 0
  {
    var f := st.ctx.identifier.value;
    var p := PatchReturns(st.queue, st.pending, st.counts, f.returnCount);
    p.Ok? && f.returnCount <= |st.pending| && f.returnCount <= |st.counts|
    && r.pending == p.value.1 && r.counts == p.value.2
    && |r.queue| == |st.queue| + 4 && r.queue[..|st.queue|] == p.value.0
    && TrailerBlock(r.queue[|st.queue|..], st.ctx.dataPointer, Cleanup(f))
  }

  /** The end of `GenerateFunctionTrailer`, once the jumps are patched and RT0 is checked. */
  function TrailerEmit(st: State, patched: (seq<Word>, seq<nat>, seq<nat>), rt0: (A.Registers, Identifier)): (r: State)
    requires st.ctx.identifier.Some? && |st.ctx.identifier.value.parameters| > 0
    requires PatchReturns(st.queue, st.pending, st.counts, st.ctx.identifier.value.returnCount) == Ok(patched)
    requires A.WellFormed(rt0.0) && (A.Valid(st.regs) ==> A.Valid(rt0.0)) && rt0.1.register == RT0
    ensures Step(st, r) && TrailerAppended(st, r)
  {
    var f := st.ctx.identifier.value;
    var ws := TrailerWords(st.ctx.dataPointer, rt0.1, Cleanup(f));
    var r := Emit(st.(queue := patched.0, pending := patched.1, counts := patched.2, regs := rt0.0), ws);
    assert r.queue[|st.queue|..] == ws && r.queue[..|st.queue|] == patched.0;
    assert Coherent(st) ==> Coherent(r) by {
      if Coherent(st) {
        forall i | 0 <= i < |r.pending| ensures r.pending[i] < |r.queue| {
          assert r.pending[i] == st.pending[i];
        }
      }
    }
    r
  }

  /** The exit sequence's instructions, restoring the caller's frame through `rt0`. */
  function TrailerWords(dp: int, rt0: Identifier, cleanup: U32): (ws: seq<Word>)
    requires rt0.register == RT0
    ensures TrailerBlock(ws, dp, cleanup)
  {
    [I.MakeIndirectDirect(Opc.RCOPYD, Special(RSB), Some(Constant(-dp)), Special(RSB)),
     I.MakeStackPop(rt0),
     I.MakeIndirectDirect(Opc.RCOPYD, rt0, None, Special(RST)),
     I.MakeReturn(Opc.RETURN, Constant(cleanup))]
  }

  /**
   The exit sequence as decoded, for a function whose data pointer is `dp`:
   RCOPYD RSB plus `-dp` into RSB, POP RT0, RCOPYD RT0 into RST, RETURN
   `cleanup`.
   */
  predicate TrailerBlock(ws: seq<Word>, dp: int, cleanup: U32)
  {
    |ws| == 4
    && DecodeIndirect(ws[0]) == Indirect(I.Op(Opc.RCOPYD), I.Reg(RSB), I.Reg(RSB), OffsetTypeConstant, Trunc32(Wrap32(-dp)))
    && DecodeStack(ws[1]) == Stack(I.Op(Opc.POP), I.Reg(RT0), 0)
    && DecodeIndirect(ws[2]) == Indirect(I.Op(Opc.RCOPYD), I.Reg(RT0), I.Reg(RST), OffsetTypeConstant, 0)
    && DecodeReturn(ws[3]) == Return(I.Op(Opc.RETURN), Trunc32(Wrap32(cleanup)))
  }

  // ---------------------------------------------------------------- calls and returns

  /**
   `GenerateFunctionCallVoidParameter`: a call written with empty
   parentheses. The callee must declare exactly one `void` parameter, or a
   mismatch is logged; the `(` on the operator stack is consumed.
   */
  function GenerateFunctionCallVoidParameter(st: State, call: FunctionCall): (r: Result<State, Fault>)
    requires A.WellFormed(st.regs)
    ensures r.Ok? <==> !st.ctx.isGlobal && call.callee.register == RFN && |call.callee.parameters| > 0
                       && |st.operators| > 0 && st.operators[|st.operators| - 1] == LPAREN
    ensures r.Ok? ==> var mismatch := |call.callee.parameters| != 1 || call.callee.parameters[0].dataType != IdnType.VOID;
                      r.value == st.(operators := st.operators[..|st.operators| - 1],
                                     errors := if mismatch then st.errors + [Errors.ParamMismatch] else st.errors)
  {
    if st.ctx.isGlobal then Err(AssertionFailed("call in the global context"))
    else if call.callee.register != RFN then Err(AssertionFailed("callee is not a function"))
    else if |call.callee.parameters| == 0 then Err(NullDereference("parameter queue of the callee"))
    else
      var mismatch := |call.callee.parameters| != 1 || call.callee.parameters[0].dataType != IdnType.VOID;
      var errors := if mismatch then st.errors + [Errors.ParamMismatch] else st.errors;
      if |st.operators| == 0 then Err(AssertionFailed("no operator for the call"))
      else if st.operators[|st.operators| - 1] != LPAREN then Err(AssertionFailed("call parameters do not start with ("))
      else Ok(st.(operators := st.operators[..|st.operators| - 1], errors := errors))
  }

  /** A value a parameter may be pushed from: a working or index register, a stack slot, a constant or a global. */
  predicate Pushable(r: Register)
  {
    IsWorking(r) || IsIndexIx(r) || r == RST || r == RCT || r == RGD
  }

  /** Pushes `v` and releases its register. */
  function PushValue(st: State, v: Identifier): (r: Result<State, Fault>)
    requires A.WellFormed(st.regs)
    ensures r.Ok? ==> Step(st, r.value) && SameFrame(st, r.value)
    ensures r.Ok? ==> r.value.queue == st.queue + [I.MakeStackPush(v)]
    ensures r.Ok? ==> r.value.operands == st.operands && r.value.operators == st.operators && r.value.errors == st.errors
  {
    var regs :- A.DereferenceRegister(st.regs, v.register);
    A.DereferenceKeeps(st.regs, v.register);
    Ok(Emit(st.(regs := regs), [I.MakeStackPush(v)]))
  }

  /**
   `GenerateFunctionCallPushParameter`: evaluates one argument (down to its
   `(`), pushes its value and counts it; one more argument than the callee
   declares is logged.
   */
  function GenerateFunctionCallPushParameter(st: State, call: FunctionCall): (r: Result<(State, FunctionCall), Fault>)
    requires A.WellFormed(st.regs)
    ensures r.Ok? ==> Step(st, r.value.0) && SameFrame(st, r.value.0) && !st.ctx.isGlobal
    ensures r.Ok? ==> ParameterPushed(call, r.value.1, r.value.0)
  {
    if st.ctx.isGlobal then Err(AssertionFailed("call in the global context"))
    else
      var u :- GenerateExpressionInstructionsUntilMatch(st, LPAREN);
      UntilMatchFrame(st, LPAREN);
      var r :- PushArgument(u, call);
      StepTransitive(st, u, r.0);
      SameFrameTransitive(st, u, r.0);
      Ok(r)
  }

  /**
   One more argument was pushed for `call`: the count went up by one (as an
   unsigned long), the last instruction is a PUSH, and an argument beyond
   the callee's declared parameters was logged.
   */
  predicate ParameterPushed(call: FunctionCall, call': FunctionCall, s: State)
  {
    var count := Unsigned32(call.currentParameterCount + 1);
    |call.callee.parameters| > 0
    && call' == call.(currentParameterCount := count)
    && |s.queue| > 0 && DecodeStack(s.queue[|s.queue| - 1]).opcode == I.Op(Opc.PUSH)
    && (count > |call.callee.parameters| ==> |s.errors| > 0 && s.errors[|s.errors| - 1] == Errors.ExcessParam)
  }

  /** The end of `GenerateFunctionCallPushParameter`, once the argument is reduced to one value. */
  function PushArgument(u: State, call: FunctionCall): (r: Result<(State, FunctionCall), Fault>)
    requires A.WellFormed(u.regs)
    ensures r.Ok? ==> Step(u, r.value.0) && SameFrame(u, r.value.0) && ParameterPushed(call, r.value.1, r.value.0)
  {
    var p :- SStack.Pop(u.operands);
    var count := Unsigned32(call.currentParameterCount + 1);
    if |call.callee.parameters| == 0 then Err(NullDereference("parameter queue of the callee"))
    else
      var errors := if count > |call.callee.parameters| then u.errors + [Errors.ExcessParam] else u.errors;
      if !Pushable(p.1.register) then Err(AssertionFailed("parameter cannot be pushed"))
      else
        var s :- PushValue(u.(operands := p.0, errors := errors), p.1);
        Ok((s, call.(currentParameterCount := count)))
  }

  /**
   What a call leaves as its value: INV (of type ERR) with no instruction
   for a `void` callee; otherwise a working register and the RCOPYD from
   RRV into it.
   */
  predicate CallValue(callee: Identifier, value: Identifier, ws: seq<Word>)
  {
    if callee.ReturnType() == IdnType.VOID then ws == [] && value == ZeroIdentifier(INV).(dataType := IdnType.ERR)
    else |ws| == 1 && IsWorking(value.register)
         && DecodeIndirect(ws[0]) == Indirect(I.Op(Opc.RCOPYD), I.Reg(RRV), I.Reg(value.register), OffsetTypeConstant, 0)
  }

  /** The value of a call and the instructions that produce it, after the CALL. */
  function CallResult(regs: A.Registers, callee: Identifier): (r: Result<(A.Registers, Identifier, seq<Word>), Fault>)
    requires A.WellFormed(regs)
    ensures r.Ok? ==> A.WellFormed(r.value.0) && (A.Valid(regs) ==> A.Valid(r.value.0))
    ensures r.Ok? ==> CallValue(callee, r.value.1, r.value.2)
  {
    if callee.ReturnType() == IdnType.VOID then Ok((regs, ZeroIdentifier(INV).(dataType := IdnType.ERR), []))
    else
      var a :- A.NextAvailableRegister(regs);
      A.NextAvailableKeeps(regs);
      if a.1.None? then Err(NullDereference("no working register for the return value"))
      else
        var value := a.1.value;
        Ok((a.0, value, [I.MakeIndirectDirect(Opc.RCOPYD, Special(RRV).(offset := 4), None, value)]))
  }

  /**
   `GenerateFunctionCallMakeCall`: the CALL, whose queue position is
   returned so that it can be made parallel later, then the call's value
   pushed on the operand stack (see `CallValue`).
   */
  function GenerateFunctionCallMakeCall(st: State, call: FunctionCall): (r: Result<(State, nat), Fault>)
    requires A.WellFormed(st.regs)
    ensures r.Ok? ==> Step(st, r.value.0) && SameFrame(st, r.value.0) && !st.ctx.isGlobal
    ensures r.Ok? ==> r.value.1 == |st.queue| && |r.value.0.queue| > |st.queue| && r.value.0.queue[..|st.queue|] == st.queue
    ensures r.Ok? ==> r.value.0.queue[|st.queue|] == I.MakeCall(Opc.CALLNORM, call.callee)
    ensures r.Ok? ==> |r.value.0.operands| == |st.operands| + 1 && r.value.0.operands[..|st.operands|] == st.operands
    ensures r.Ok? ==> CallValue(call.callee, r.value.0.operands[|st.operands|], r.value.0.queue[|st.queue| + 1..])
  {
    if st.ctx.isGlobal then Err(AssertionFailed("call in the global context"))
    else
      var v :- CallResult(st.regs, call.callee);
      MadeCall(st, call, v);
      Ok((CallState(st, call, v), |st.queue|))
  }

  /**
   The state after the CALL to `call`'s callee and the instructions `v`
   that fetch its value into the operand `v` pushes, with allocator `v.0`.
   */
  function CallState(st: State, call: FunctionCall, v: (A.Registers, Identifier, seq<Word>)): State
  {
    var s := Emit(st, [I.MakeCall(Opc.CALLNORM, call.callee)]);
    Emit(s.(operands := s.operands + [v.1], regs := v.0), v.2)
  }

  lemma MadeCall(st: State, call: FunctionCall, v: (A.Registers, Identifier, seq<Word>))
    requires A.WellFormed(st.regs) && !st.ctx.isGlobal
    requires A.WellFormed(v.0) && (A.Valid(st.regs) ==> A.Valid(v.0)) && CallValue(call.callee, v.1, v.2)
    ensures var r := CallState(st, call, v);
            && Step(st, r) && SameFrame(st, r)
            && |r.queue| > |st.queue| && r.queue[..|st.queue|] == st.queue
            && r.queue[|st.queue|] == I.MakeCall(Opc.CALLNORM, call.callee)
            && |r.operands| == |st.operands| + 1 && r.operands[..|st.operands|] == st.operands
            && CallValue(call.callee, r.operands[|st.operands|], r.queue[|st.queue| + 1..])
  {
    var r := CallState(st, call, v);
    assert r.queue == st.queue + [I.MakeCall(Opc.CALLNORM, call.callee)] + v.2;
    assert r.queue[|st.queue| + 1..] == v.2;
  }

  /**
   The two instructions of a `return`, whatever value they return: ADDI of
   the value and constant 0 into RRV, then a placeholder JMP (INV, 0) to be
   aimed at the exit sequence.
   */
  predicate ReturnShape(ws: seq<Word>)
  {
    |ws| == 2
    && DecodeArith(ws[0]).opcode == I.Op(Opc.ADDI) && DecodeArith(ws[0]).rt == I.Reg(RCT) && DecodeArith(ws[0]).dt == I.Reg(RRV)
    && OpcodeOf(ws[1]) == I.Op(Opc.JMP)
    && DecodeJump(ws[1]) == Jump(I.Op(Opc.JMP), JumpUnconditional, I.Reg(INV), 0, 0)
  }

  /** The instructions of a `return` of `value`. */
  predicate ReturnJump(ws: seq<Word>, value: Identifier)
  {
    ReturnShape(ws) && DecodeArith(ws[0]).lt == I.Reg(value.register)
  }

  function ReturnWords(value: Identifier): (ws: seq<Word>)
    ensures ReturnJump(ws, value)
  {
    [I.MakeArithmetic(Opc.ADDI, value, Constant(0), Special(RRV)), I.MakeJump(Opc.JMP, None)]
  }

  /**
   `GenerateFunctionReturn`: evaluates the returned expression into RRV and
   appends a placeholder JMP to the exit sequence. The JMP's position goes
   on both the pending stack and the count stack, and the function's count
   of returns goes up by one.
   */
  function GenerateFunctionReturn(st: State): (r: Result<State, Fault>)
    requires A.WellFormed(st.regs)
    ensures r.Ok? ==> Step(st, r.value) && r.value.operands == [] && r.value.operators == []
    ensures r.Ok? ==> ReturnAppended(st, r.value)
  {
    var e :- GenerateExpressionInstructionsEmptyStacks(st);
    EmptyStacksDrain(st);
    EmptyStacksFrame(st);
    var r :- ReturnValue(e);
    StepTransitive(st, e, r);
    ReturnAppendedAfter(st, e, r);
    Ok(r)
  }

  lemma ReturnAppendedAfter(st: State, e: State, r: State)
    requires SameFrame(st, e) && |st.queue| <= |e.queue| && ReturnAppended(e, r)
    ensures ReturnAppended(st, r)
  {
  }

  /**
   A `return` was appended after `st`'s queue: its two instructions end the
   queue, the JMP's position is pushed on the pending and count stacks, and
   the scope's function has one more return.
   */
  predicate ReturnAppended(st: State, r: State)
  {
    |r.queue| >= |st.queue| + 2
    && var j := |r.queue| - 1;
       r.pending == st.pending + [j] && r.counts == st.counts + [j]
       && ReturnShape(r.queue[j - 1..])
       && st.ctx.identifier.Some?
       && r.ctx == st.ctx.(codePointer := r.ctx.codePointer,
                           identifier := Some(st.ctx.identifier.value.(returnCount := Unsigned32(st.ctx.identifier.value.returnCount + 1))))
  }

  /** The end of `GenerateFunctionReturn`, once the expression is reduced to one value. */
  function ReturnValue(e: State): (r: Result<State, Fault>)
    requires A.WellFormed(e.regs) && |e.operands| == 1
    ensures r.Ok? ==> Step(e, r.value) && r.value.operands == [] && r.value.operators == e.operators
    ensures r.Ok? ==> ReturnAppended(e, r.value)
  {
    if e.ctx.identifier.None? then Err(NullDereference("context without a function identifier"))
    else
      var regs :- A.DereferenceRegister(e.regs, e.operands[0].register);
      A.DereferenceKeeps(e.regs, e.operands[0].register);
      ReturnEmitted(e, regs);
      Ok(ReturnState(e, regs))
  }

  /**
   The state after a `return` of `e`'s single operand, once the allocator
   is `regs`: the two instructions appended, the JMP's position pushed on the
   pending and count stacks, and the function's return count raised.
   */
  function ReturnState(e: State, regs: A.Registers): State
    requires |e.operands| == 1 && e.ctx.identifier.Some?
  {
    var f := e.ctx.identifier.value;
    var j := |e.queue| + 1;
    var ctx := e.ctx.(identifier := Some(f.(returnCount := Unsigned32(f.returnCount + 1))));
    Emit(e.(operands := [], pending := e.pending + [j], counts := e.counts + [j], ctx := ctx, regs := regs),
         ReturnWords(e.operands[0]))
  }

  lemma ReturnEmitted(e: State, regs: A.Registers)
    requires |e.operands| == 1 && e.ctx.identifier.Some?
    requires A.WellFormed(regs) && (A.Valid(e.regs) ==> A.Valid(regs))
    ensures var r := ReturnState(e, regs);
            Step(e, r) && r.operands == [] && r.operators == e.operators && ReturnAppended(e, r)
  {
    var r := ReturnState(e, regs);
    var j := |e.queue| + 1;
    assert r.queue[j - 1..] == ReturnWords(e.operands[0]);
    assert |r.queue| == j + 1 && r.pending == e.pending + [j];
  }

  // ---------------------------------------------------------------- parallel calls

  /** `GenerateFunctionCallPatchParallelSync`: the CALL at `at` becomes a synchronous parallel call. */
  function GenerateFunctionCallPatchParallelSync(st: State, at: nat): (r: Result<State, Fault>)
    ensures r.Ok? <==> at < |st.queue| && OpcodeOf(st.queue[at]) == I.Op(Opc.CALLNORM)
    ensures r.Ok? ==> |r.value.queue| == |st.queue| && r.value == st.(queue := st.queue[at := r.value.queue[at]])
    ensures r.Ok? ==> DecodeJump(r.value.queue[at]) == DecodeJump(st.queue[at]).(opcode := I.Op(Opc.CALLPLLS))
  {
    if at >= |st.queue| then Err(Undefined("call instruction outside the queue"))
    else
      var w :- I.PatchNormalCallToParallelSync(st.queue[at]);
      Ok(st.(queue := st.queue[at := w]))
  }

  /** `GenerateFunctionCallPatchParallelAsync`: the CALL at `at` becomes an asynchronous parallel call. */
  function GenerateFunctionCallPatchParallelAsync(st: State, at: nat): (r: Result<State, Fault>)
    ensures r.Ok? <==> at < |st.queue| && OpcodeOf(st.queue[at]) == I.Op(Opc.CALLNORM)
    ensures r.Ok? ==> |r.value.queue| == |st.queue| && r.value == st.(queue := st.queue[at := r.value.queue[at]])
    ensures r.Ok? ==> DecodeJump(r.value.queue[at]) == DecodeJump(st.queue[at]).(opcode := I.Op(Opc.CALLPLLA))
  {
    if at >= |st.queue| then Err(Undefined("call instruction outside the queue"))
    else
      var w :- I.PatchNormalCallToParallelAsync(st.queue[at]);
      Ok(st.(queue := st.queue[at := w]))
  }

  /**
   A call generated by `GenerateFunctionCallMakeCall` can be made parallel:
   the patch succeeds on the position it returned and changes the opcode
   alone, keeping the callee's address.
   */
  lemma CallCanBeParallel(st: State, call: FunctionCall)
    requires A.WellFormed(st.regs)
    ensures var m := GenerateFunctionCallMakeCall(st, call);
            m.Ok? ==> var s := GenerateFunctionCallPatchParallelAsync(m.value.0, m.value.1);
                      s.Ok? && DecodeJump(s.value.queue[m.value.1])
                               == Jump(I.Op(Opc.CALLPLLA), JumpUnconditional, I.Reg(RCT), Trunc32(call.callee.AbsOffset()), 0)
  {
  }
}

=== FILE: instrdef.dfy ===
/**
 The 64-bit instruction word (common/instrdef.h). The C type is a union of
 seven bit-field structures ("views") over one `uint64_t`; the six-bit opcode
 decides which view applies. C leaves the placement of bit-fields to the
 implementation: this model assumes what MSVC and GCC do for `uint64_t`
 bit-fields, namely that fields are laid out in declaration order starting
 at the least-significant bit, with no padding between them.

 Each view is a datatype of bit-vector fields with an Encode/Decode pair.
 Encoding writes zero into the unnamed padding bits; decoding ignores them.
 */
module InstrDef {
  import opened Base

  type Word = bv64

  /** Size in bytes of one instruction in the queue, the file and the VM. */
  const InstrSize: nat := 8

  const JumpUnconditional: bv1 := 0
  const JumpConditional: bv1 := 1

  /** `LtOffset` names a register whose value is the offset. */
  const OffsetTypeRegister: bv1 := 0
  /** `LtOffset` is the offset itself. */
  const OffsetTypeConstant: bv1 := 1

  // ---------------------------------------------------------------- opcode

  /** The opcode field, bits 0..5, common to every view. */
  function OpcodeOf(w: Word): bv6
  {
    (w & 0x3F) as bv6
  }

  /** Rewrites the opcode field alone. */
  function WithOpcode(w: Word, op: bv6): (r: Word)
    ensures OpcodeOf(r) == op
    ensures r >> 6 == w >> 6
  {
    (w & 0xFFFF_FFFF_FFFF_FFC0) | op as Word
  }

  // ---------------------------------------------------------------- Arith

  /** Opcode:6, LtRegister:5, RtRegister:5, DtRegister:5, three signed 14-bit offsets, 1 pad bit. */
  datatype Arith = Arith(opcode: bv6, lt: bv5, rt: bv5, dt: bv5,
                         ltOffset: bv14, rtOffset: bv14, dtOffset: bv14)

  function EncodeArith(a: Arith): Word
  {
    (a.opcode as Word)
    | ((a.lt as Word) << 6) | ((a.rt as Word) << 11) | ((a.dt as Word) << 16)
    | ((a.ltOffset as Word) << 21) | ((a.rtOffset as Word) << 35) | ((a.dtOffset as Word) << 49)
  }

  function DecodeArith(w: Word): Arith
  {
    Arith((w & 0x3F) as bv6,
          ((w >> 6) & 0x1F) as bv5, ((w >> 11) & 0x1F) as bv5, ((w >> 16) & 0x1F) as bv5,
          ((w >> 21) & 0x3FFF) as bv14, ((w >> 35) & 0x3FFF) as bv14, ((w >> 49) & 0x3FFF) as bv14)
  }

  /** The bits the Arith view names: everything but the top pad bit. */
  const ArithBits: Word := 0x7FFF_FFFF_FFFF_FFFF

  // ---------------------------------------------------------------- Indirect

  /** Opcode:6, LtRegister:5, DtRegister:5, LtOffsetType:1, signed LtOffset:32, 15 pad bits. */
  datatype Indirect = Indirect(opcode: bv6, lt: bv5, dt: bv5, offsetType: bv1, offset: bv32)

  function EncodeIndirect(a: Indirect): Word
  {
    (a.opcode as Word) | ((a.lt as Word) << 6) | ((a.dt as Word) << 11)
    | ((a.offsetType as Word) << 16) | ((a.offset as Word) << 17)
  }

  function DecodeIndirect(w: Word): Indirect
  {
    Indirect((w & 0x3F) as bv6, ((w >> 6) & 0x1F) as bv5, ((w >> 11) & 0x1F) as bv5,
             ((w >> 16) & 1) as bv1, ((w >> 17) & 0xFFFF_FFFF) as bv32)
  }

  const IndirectBits: Word := 0x0001_FFFF_FFFF_FFFF

  // ---------------------------------------------------------------- Store

  /** Opcode:6, RtRegister:5, DtRegister:5, AtomicStore:1, two signed 23-bit offsets, 1 pad bit. */
  datatype Store = Store(opcode: bv6, rt: bv5, dt: bv5, atomic: bv1, rtOffset: bv23, dtOffset: bv23)

  function EncodeStore(a: Store): Word
  {
    (a.opcode as Word) | ((a.rt as Word) << 6) | ((a.dt as Word) << 11)
    | ((a.atomic as Word) << 16) | ((a.rtOffset as Word) << 17) | ((a.dtOffset as Word) << 40)
  }

  function DecodeStore(w: Word): Store
  {
    Store((w & 0x3F) as bv6, ((w >> 6) & 0x1F) as bv5, ((w >> 11) & 0x1F) as bv5,
          ((w >> 16) & 1) as bv1, ((w >> 17) & 0x7F_FFFF) as bv23, ((w >> 40) & 0x7F_FFFF) as bv23)
  }

  const StoreBits: Word := 0x7FFF_FFFF_FFFF_FFFF

  // ---------------------------------------------------------------- Jump

  /** Opcode:6, JumpType:1, Register:5, signed RegisterOffset:32, ZeroRegister:5, 15 pad bits. */
  datatype Jump = Jump(opcode: bv6, jumpType: bv1, register: bv5, offset: bv32, zero: bv5)

  function EncodeJump(a: Jump): Word
  {
    (a.opcode as Word) | ((a.jumpType as Word) << 6) | ((a.register as Word) << 7)
    | ((a.offset as Word) << 12) | ((a.zero as Word) << 44)
  }

  function DecodeJump(w: Word): Jump
  {
    Jump((w & 0x3F) as bv6, ((w >> 6) & 1) as bv1, ((w >> 7) & 0x1F) as bv5,
         ((w >> 12) & 0xFFFF_FFFF) as bv32, ((w >> 44) & 0x1F) as bv5)
  }

  const JumpBits: Word := 0x0001_FFFF_FFFF_FFFF

  // ---------------------------------------------------------------- Return

  /** Opcode:6, unsigned StackCleanup:32, 26 pad bits. */
  datatype Return = Return(opcode: bv6, cleanup: bv32)

  function EncodeReturn(a: Return): Word
  {
    (a.opcode as Word) | ((a.cleanup as Word) << 6)
  }

  function DecodeReturn(w: Word): Return
  {
    Return((w & 0x3F) as bv6, ((w >> 6) & 0xFFFF_FFFF) as bv32)
  }

  const ReturnBits: Word := 0x0000_003F_FFFF_FFFF

  // ---------------------------------------------------------------- Stack

  /** Opcode:6, Register:5, signed RegisterOffset:32, 21 pad bits. */
  datatype Stack = Stack(opcode: bv6, register: bv5, offset: bv32)

  function EncodeStack(a: Stack): Word
  {
    (a.opcode as Word) | ((a.register as Word) << 6) | ((a.offset as Word) << 11)
  }

  function DecodeStack(w: Word): Stack
  {
    Stack((w & 0x3F) as bv6, ((w >> 6) & 0x1F) as bv5, ((w >> 11) & 0xFFFF_FFFF) as bv32)
  }

  const StackBits: Word := 0x0000_07FF_FFFF_FFFF

  // ---------------------------------------------------------------- Io

  /** Opcode:6, unsigned PopCount:32, 26 pad bits. */
  datatype Io = Io(opcode: bv6, popCount: bv32)

  function EncodeIo(a: Io): Word
  {
    (a.opcode as Word) | ((a.popCount as Word) << 6)
  }

  function DecodeIo(w: Word): Io
  {
    Io((w & 0x3F) as bv6, ((w >> 6) & 0xFFFF_FFFF) as bv32)
  }

  const IoBits: Word := 0x0000_003F_FFFF_FFFF

  // ---------------------------------------------------------------- round trips

  /**
   Decoding an encoded Arith view returns its fields, the opcode reads the
   same through the common view, and the bits the view does not name are zero.
   */
  lemma ArithRoundTrip(a: Arith)
    ensures DecodeArith(EncodeArith(a)) == a
    ensures OpcodeOf(EncodeArith(a)) == a.opcode
    ensures EncodeArith(a) & !ArithBits == 0
  {
  }

  /** Encoding a decoded word restores every named bit and clears the pad bit. */
  lemma ArithReencode(w: Word)
    ensures EncodeArith(DecodeArith(w)) == w & ArithBits
  {
  }

  lemma IndirectRoundTrip(a: Indirect)
    ensures DecodeIndirect(EncodeIndirect(a)) == a
    ensures OpcodeOf(EncodeIndirect(a)) == a.opcode
    ensures EncodeIndirect(a) & !IndirectBits == 0
  {
  }

  lemma IndirectReencode(w: Word)
    ensures EncodeIndirect(DecodeIndirect(w)) == w & IndirectBits
  {
  }

  lemma StoreRoundTrip(a: Store)
    ensures DecodeStore(EncodeStore(a)) == a
    ensures OpcodeOf(EncodeStore(a)) == a.opcode
    ensures EncodeStore(a) & !StoreBits == 0
  {
  }

  lemma StoreReencode(w: Word)
    ensures EncodeStore(DecodeStore(w)) == w & StoreBits
  {
  }

  lemma JumpRoundTrip(a: Jump)
    ensures DecodeJump(EncodeJump(a)) == a
    ensures OpcodeOf(EncodeJump(a)) == a.opcode
    ensures EncodeJump(a) & !JumpBits == 0
  {
  }

  lemma JumpReencode(w: Word)
    ensures EncodeJump(DecodeJump(w)) == w & JumpBits
  {
  }

  lemma ReturnRoundTrip(a: Return)
    ensures DecodeReturn(EncodeReturn(a)) == a
    ensures OpcodeOf(EncodeReturn(a)) == a.opcode
    ensures EncodeReturn(a) & !ReturnBits == 0
  {
  }

  lemma ReturnReencode(w: Word)
    ensures EncodeReturn(DecodeReturn(w)) == w & ReturnBits
  {
  }

  lemma StackRoundTrip(a: Stack)
    ensures DecodeStack(EncodeStack(a)) == a
    ensures OpcodeOf(EncodeStack(a)) == a.opcode
    ensures EncodeStack(a) & !StackBits == 0
  {
  }

  lemma StackReencode(w: Word)
    ensures EncodeStack(DecodeStack(w)) == w & StackBits
  {
  }

  lemma IoRoundTrip(a: Io)
    ensures DecodeIo(EncodeIo(a)) == a
    ensures OpcodeOf(EncodeIo(a)) == a.opcode
    ensures EncodeIo(a) & !IoBits == 0
  {
  }

  lemma IoReencode(w: Word)
    ensures EncodeIo(DecodeIo(w)) == w & IoBits
  {
  }

  /**
   Rewriting the opcode changes what every view reads as the opcode and
   nothing else: all other fields of all seven views read the same.
   */
  lemma WithOpcodeKeepsFields(w: Word, op: bv6)
    ensures DecodeArith(WithOpcode(w, op)) == DecodeArith(w).(opcode := op)
    ensures DecodeIndirect(WithOpcode(w, op)) == DecodeIndirect(w).(opcode := op)
    ensures DecodeStore(WithOpcode(w, op)) == DecodeStore(w).(opcode := op)
    ensures DecodeJump(WithOpcode(w, op)) == DecodeJump(w).(opcode := op)
    ensures DecodeReturn(WithOpcode(w, op)) == DecodeReturn(w).(opcode := op)
    ensures DecodeStack(WithOpcode(w, op)) == DecodeStack(w).(opcode := op)
    ensures DecodeIo(WithOpcode(w, op)) == DecodeIo(w).(opcode := op)
  {
  }

  // ---------------------------------------------------------------- field rewrites

  /** Rewrites the Indirect view's `LtOffset` field (bits 17..48) alone. */
  function WithIndirectOffset(w: Word, offset: bv32): (r: Word)
    ensures DecodeIndirect(r) == DecodeIndirect(w).(offset := offset)
    ensures r & !((0xFFFF_FFFF as Word) << 17) == w & !((0xFFFF_FFFF as Word) << 17)
  {
    (w & !((0xFFFF_FFFF as Word) << 17)) | ((offset as Word) << 17)
  }

  /** Rewrites the Jump view's `Register` and `RegisterOffset` fields (bits 7..43) alone. */
  function WithJumpTarget(w: Word, register: bv5, offset: bv32): (r: Word)
    ensures DecodeJump(r) == DecodeJump(w).(register := register, offset := offset)
    ensures r & !((0x1F_FFFF_FFFF as Word) << 7) == w & !((0x1F_FFFF_FFFF as Word) << 7)
  {
    (w & !((0x1F_FFFF_FFFF as Word) << 7)) | ((register as Word) << 7) | ((offset as Word) << 12)
  }

  /** An instruction's image in the queue, the object file and the loaded code: 8 little-endian bytes. */
  function Bytes(w: Word): (r: seq<byte>)
    ensures |r| == InstrSize
    ensures ReadLe64(r, 0) == w
  {
    Le64RoundTrip(w, [], []);
    assert [] + Le64(w) + [] == Le64(w);
    Le64(w)
  }
}

=== FILE: instruction.dfy ===
/**
 Instruction builders and patchers (translator/instruction.c). A builder
 starts from an all-zero word (the C code `memset`s a fresh allocation) and
 writes the fields of one view from identifier objects; a patcher rewrites
 one or two fields of an instruction already in the queue and leaves every
 other bit alone.

 The `assert`s of the builders constrain only their constant arguments (the
 opcode they are asked to build, the register class of a constant), so they
 are preconditions here and every call in the generator is checked against
 them. The `assert`s of the patchers concern the instruction being patched,
 which comes out of the translation state, so a failed one is a `Fault`.
 */
module Instruction {
  import opened Base
  import opened InstrDef
  import opened IntFields
  import opened RegisterDef
  import opened ObjTypes
  import Opc = OpcodeDef
  import Errors
  import A = Allocator

  /** A register number in a five-bit register field. */
  function Reg(r: Register): bv5 { r as bv5 }

  /** An opcode in the six-bit opcode field. */
  function Op(o: Opc.Opcode): bv6 { o as bv6 }

  // ---------------------------------------------------------------- Arith

  /**
   Copies the left, right and destination registers and their `RelOffset`s
   (truncated to 14 bits) into the Arith view; every other bit is zero.
   */
  function MakeArithmetic(op: Opc.Opcode, l: Identifier, r: Identifier, d: Identifier): (w: Word)
    ensures DecodeArith(w) == Arith(Op(op), Reg(l.register), Reg(r.register), Reg(d.register),
                                    Trunc14(l.offset), Trunc14(r.offset), Trunc14(d.offset))
    ensures OpcodeOf(w) == Op(op)
    ensures w & !ArithBits == 0
  {
    var a := Arith(Op(op), Reg(l.register), Reg(r.register), Reg(d.register),
                   Trunc14(l.offset), Trunc14(r.offset), Trunc14(d.offset));
    ArithRoundTrip(a);
    EncodeArith(a)
  }

  // ---------------------------------------------------------------- Indirect

  /**
   The offset-type and offset fields of a MOVE or RCOPYD, in order of
   precedence: the source's own value when the source is a constant (which
   then takes no separate offset); constant 0 when there is no offset; the
   offset's value when it is a constant; and otherwise the offset's register
   number, marked as a register offset.
   */
  function SourceOffset(source: Identifier, offset: Option<Identifier>): (r: (bv1, bv32))
    ensures source.register == RCT ==> r == (OffsetTypeConstant, Trunc32(source.offset))
    ensures source.register != RCT && offset.None? ==> r == (OffsetTypeConstant, 0)
    ensures source.register != RCT && offset.Some? && offset.value.register == RCT ==>
              r == (OffsetTypeConstant, Trunc32(offset.value.offset))
    ensures source.register != RCT && offset.Some? && offset.value.register != RCT ==>
              r == (OffsetTypeRegister, Reg(offset.value.register) as bv32)
  {
    if source.register == RCT then (OffsetTypeConstant, Trunc32(source.offset))
    else if offset.None? then (OffsetTypeConstant, 0)
    else if offset.value.register == RCT then (OffsetTypeConstant, Trunc32(offset.value.offset))
    else (OffsetTypeRegister, Reg(offset.value.register) as bv32)
  }

  /** The word whose Indirect view is `a`, with zero padding. */
  function IndirectWord(a: Indirect): (w: Word)
    ensures DecodeIndirect(w) == a && OpcodeOf(w) == a.opcode
    ensures w & !IndirectBits == 0
  {
    IndirectRoundTrip(a);
    EncodeIndirect(a)
  }

  /** A MOVE or RCOPYD from `source` (plus an optional `offset`) into `dest`. */
  function MakeIndirectDirect(op: Opc.Opcode, source: Identifier, offset: Option<Identifier>, dest: Identifier): (w: Word)
    requires Opc.IsDirectIndirect(op)
    requires source.register == RCT ==> offset.None?
    ensures OpcodeOf(w) == Op(op)
    ensures DecodeIndirect(w) == Indirect(Op(op), Reg(source.register), Reg(dest.register),
                                          SourceOffset(source, offset).0, SourceOffset(source, offset).1)
    ensures w & !IndirectBits == 0
  {
    var so := SourceOffset(source, offset);
    IndirectWord(Indirect(Op(op), Reg(source.register), Reg(dest.register), so.0, so.1))
  }

  /**
   Completes a pending RCOPYD whose constant offset was left as a
   placeholder: only the offset field changes, to the constant's value.
   */
  function PatchIndirectDirectAddSourceOffset(w: Word, offset: Identifier): (r: Result<Word, Fault>)
    ensures r.Ok? <==> OpcodeOf(w) == Op(Opc.RCOPYD) && DecodeIndirect(w).offsetType == OffsetTypeConstant
                       && offset.register == RCT
    ensures r.Ok? ==> DecodeIndirect(r.value) == DecodeIndirect(w).(offset := Trunc32(offset.offset))
    ensures r.Ok? ==> r.value & !((0xFFFF_FFFF as Word) << 17) == w & !((0xFFFF_FFFF as Word) << 17)
  {
    if OpcodeOf(w) != Op(Opc.RCOPYD) then Err(AssertionFailed("patched instruction is not RCOPYD"))
    else if DecodeIndirect(w).offsetType != OffsetTypeConstant then Err(AssertionFailed("patched offset is not a constant"))
    else if offset.register != RCT then Err(AssertionFailed("patch offset is not a constant"))
    else Ok(WithIndirectOffset(w, Trunc32(offset.offset)))
  }

  // ---------------------------------------------------------------- Store

  /**
   A store of `operand` into `dest`. A constant destination is reported as
   an lvalue error, but the instruction is still built. `AtomicStore` is set
   iff the destination is atomic.
   */
  function MakeStore(op: Opc.Opcode, operand: Identifier, dest: Identifier): (r: (Word, Option<string>))
    ensures r.1 == (if dest.register == RCT then Some(Errors.LvalueConstant) else None)
    ensures DecodeStore(r.0) == Store(Op(op), Reg(operand.register), Reg(dest.register),
                                      if dest.isAtomic != 0 then 1 else 0,
                                      Trunc23(operand.offset), Trunc23(dest.offset))
    ensures OpcodeOf(r.0) == Op(op)
    ensures r.0 & !StoreBits == 0
  {
    var a := Store(Op(op), Reg(operand.register), Reg(dest.register),
                   if dest.isAtomic != 0 then 1 else 0,
                   Trunc23(operand.offset), Trunc23(dest.offset));
    StoreRoundTrip(a);
    (EncodeStore(a), if dest.register == RCT then Some(Errors.LvalueConstant) else None)
  }

  // ---------------------------------------------------------------- Jump

  /**
   An unconditional JMP. Without a target it is a placeholder to patch later:
   register INV and offset 0. A target gives its register and the 32 bits of
   its offset (read as `AbsOffset`).
   */
  function MakeJump(op: Opc.Opcode, target: Option<Identifier>): (w: Word)
    requires op == Opc.JMP
    ensures OpcodeOf(w) == Op(Opc.JMP)
    ensures DecodeJump(w).jumpType == JumpUnconditional && DecodeJump(w).zero == 0
    ensures target.None? ==> DecodeJump(w).register == Reg(INV) && DecodeJump(w).offset == 0
    ensures target.Some? ==>
              DecodeJump(w).register == Reg(target.value.register) && DecodeJump(w).offset == Trunc32(target.value.offset)
    ensures w & !JumpBits == 0
  {
    var a := if target.None? then Jump(Op(Opc.JMP), JumpUnconditional, Reg(INV), 0, 0)
             else Jump(Op(Opc.JMP), JumpUnconditional, Reg(target.value.register), Trunc32(target.value.offset), 0);
    JumpRoundTrip(a);
    EncodeJump(a)
  }

  /** Points a pending JMP at RIP plus the target's `RelOffset`; nothing else changes. */
  function PatchJumpTargetRelative(w: Word, target: Identifier): (r: Result<Word, Fault>)
    ensures r.Ok? <==> OpcodeOf(w) == Op(Opc.JMP)
    ensures r.Ok? ==> DecodeJump(r.value) == DecodeJump(w).(register := Reg(RIP), offset := Trunc32(target.offset))
    ensures r.Ok? ==> OpcodeOf(r.value) == Op(Opc.JMP)
    ensures r.Ok? ==> r.value & !((0x1F_FFFF_FFFF as Word) << 7) == w & !((0x1F_FFFF_FFFF as Word) << 7)
  {
    if OpcodeOf(w) != Op(Opc.JMP) then Err(AssertionFailed("patched instruction is not JMP"))
    else Ok(WithJumpTarget(w, Reg(RIP), Trunc32(target.offset)))
  }

  /** Points a pending JMP at the absolute address the constant's `AbsOffset` holds. */
  function PatchJumpTargetAbsolute(w: Word, target: Identifier): (r: Result<Word, Fault>)
    ensures r.Ok? <==> OpcodeOf(w) == Op(Opc.JMP)
    ensures r.Ok? ==> DecodeJump(r.value) == DecodeJump(w).(register := Reg(RCT), offset := Trunc32(target.AbsOffset()))
    ensures r.Ok? ==> OpcodeOf(r.value) == Op(Opc.JMP)
    ensures r.Ok? ==> r.value & !((0x1F_FFFF_FFFF as Word) << 7) == w & !((0x1F_FFFF_FFFF as Word) << 7)
  {
    if OpcodeOf(w) != Op(Opc.JMP) then Err(AssertionFailed("patched instruction is not JMP"))
    else Ok(WithJumpTarget(w, Reg(RCT), Trunc32(target.AbsOffset())))
  }

  /** A JMPZ testing `check`; without a target it is a placeholder (INV, 0). */
  function MakeJumpConditional(op: Opc.Opcode, target: Option<Identifier>, check: Identifier): (w: Word)
    requires op == Opc.JMPZ
    ensures OpcodeOf(w) == Op(Opc.JMPZ)
    ensures DecodeJump(w).jumpType == JumpConditional && DecodeJump(w).zero == Reg(check.register)
    ensures target.None? ==> DecodeJump(w).register == Reg(INV) && DecodeJump(w).offset == 0
    ensures target.Some? ==>
              DecodeJump(w).register == Reg(target.value.register) && DecodeJump(w).offset == Trunc32(target.value.offset)
    ensures w & !JumpBits == 0
  {
    var a := if target.None? then Jump(Op(Opc.JMPZ), JumpConditional, Reg(INV), 0, Reg(check.register))
             else Jump(Op(Opc.JMPZ), JumpConditional, Reg(target.value.register), Trunc32(target.value.offset), Reg(check.register));
    JumpRoundTrip(a);
    EncodeJump(a)
  }

  /** Points a pending JMPZ at RIP plus the target's `RelOffset`. */
  function PatchJumpConditionalAddTargetRelative(w: Word, target: Identifier): (r: Result<Word, Fault>)
    ensures r.Ok? <==> OpcodeOf(w) == Op(Opc.JMPZ)
    ensures r.Ok? ==> DecodeJump(r.value) == DecodeJump(w).(register := Reg(RIP), offset := Trunc32(target.offset))
    ensures r.Ok? ==> OpcodeOf(r.value) == Op(Opc.JMPZ)
    ensures r.Ok? ==> r.value & !((0x1F_FFFF_FFFF as Word) << 7) == w & !((0x1F_FFFF_FFFF as Word) << 7)
  {
    if OpcodeOf(w) != Op(Opc.JMPZ) then Err(AssertionFailed("patched instruction is not JMPZ"))
    else Ok(WithJumpTarget(w, Reg(RIP), Trunc32(target.offset)))
  }

  /**
   The allocator side of the jump builders and patchers: before writing the
   fields each one releases its operands with `DereferenceRegister`, a JMPZ
   its zero-check register first and then its target. Registers outside RT and
   IX, the constants in particular, are left alone.
   */
  function ReleaseOperands(s: A.Registers, ids: seq<Identifier>): (r: Result<A.Registers, Fault>)
    requires A.WellFormed(s)
    ensures r.Ok? ==> A.WellFormed(r.value)
    ensures (forall i :: 0 <= i < |ids| ==> !IsWorking(ids[i].register) && !IsIndexIx(ids[i].register)) ==> r == Ok(s)
    decreases |ids|
  {
    if |ids| == 0 then Ok(s)
    else
      match A.DereferenceRegister(s, ids[0].register)
      case Err(e) => Err(e)
      case Ok(t) => ReleaseOperands(t, ids[1..])
  }

  // ---------------------------------------------------------------- calls

  /** A call of kind `op` to the absolute address of `callee`: register RCT plus its `AbsOffset`. */
  function CallTo(op: Opc.Opcode, callee: Identifier): (w: Word)
    ensures OpcodeOf(w) == Op(op)
    ensures DecodeJump(w) == Jump(Op(op), JumpUnconditional, Reg(RCT), Trunc32(callee.AbsOffset()), 0)
    ensures w & !JumpBits == 0
  {
    var a := Jump(Op(op), JumpUnconditional, Reg(RCT), Trunc32(callee.AbsOffset()), 0);
    JumpRoundTrip(a);
    EncodeJump(a)
  }

  /** A normal (sequential) call. */
  function MakeCall(op: Opc.Opcode, callee: Identifier): (w: Word)
    requires op == Opc.CALLNORM
    ensures DecodeJump(w) == Jump(Op(Opc.CALLNORM), JumpUnconditional, Reg(RCT), Trunc32(callee.AbsOffset()), 0)
    ensures w & !JumpBits == 0
  {
    CallTo(Opc.CALLNORM, callee)
  }

  /** A synchronous parallel call; the opcode argument is ignored. */
  function MakeCallParallelSync(callee: Identifier): (w: Word)
    ensures DecodeJump(w) == Jump(Op(Opc.CALLPLLS), JumpUnconditional, Reg(RCT), Trunc32(callee.AbsOffset()), 0)
  {
    CallTo(Opc.CALLPLLS, callee)
  }

  /** An asynchronous parallel call; the opcode argument is ignored. */
  function MakeCallParallelAsync(callee: Identifier): (w: Word)
    ensures DecodeJump(w) == Jump(Op(Opc.CALLPLLA), JumpUnconditional, Reg(RCT), Trunc32(callee.AbsOffset()), 0)
  {
    CallTo(Opc.CALLPLLA, callee)
  }

  /** Turns a CALLNORM into a CALLPLLS, changing the opcode alone. */
  function PatchNormalCallToParallelSync(w: Word): (r: Result<Word, Fault>)
    ensures r.Ok? <==> OpcodeOf(w) == Op(Opc.CALLNORM)
    ensures r.Ok? ==> OpcodeOf(r.value) == Op(Opc.CALLPLLS)
    ensures r.Ok? ==> DecodeJump(r.value) == DecodeJump(w).(opcode := Op(Opc.CALLPLLS))
  {
    if OpcodeOf(w) != Op(Opc.CALLNORM) then Err(AssertionFailed("patched instruction is not CALLNORM"))
    else
      WithOpcodeKeepsFields(w, Op(Opc.CALLPLLS));
      Ok(WithOpcode(w, Op(Opc.CALLPLLS)))
  }

  /** Turns a CALLNORM into a CALLPLLA, changing the opcode alone. */
  function PatchNormalCallToParallelAsync(w: Word): (r: Result<Word, Fault>)
    ensures r.Ok? <==> OpcodeOf(w) == Op(Opc.CALLNORM)
    ensures r.Ok? ==> OpcodeOf(r.value) == Op(Opc.CALLPLLA)
    ensures r.Ok? ==> DecodeJump(r.value) == DecodeJump(w).(opcode := Op(Opc.CALLPLLA))
  {
    if OpcodeOf(w) != Op(Opc.CALLNORM) then Err(AssertionFailed("patched instruction is not CALLNORM"))
    else
      WithOpcodeKeepsFields(w, Op(Opc.CALLPLLA));
      Ok(WithOpcode(w, Op(Opc.CALLPLLA)))
  }

  // ---------------------------------------------------------------- return, stack, I/O

  /** RETURN popping `cleanup`'s value in bytes of parameters. */
  function MakeReturn(op: Opc.Opcode, cleanup: Identifier): (w: Word)
    requires op == Opc.RETURN && cleanup.register == RCT
    ensures DecodeReturn(w) == Return(Op(Opc.RETURN), Trunc32(cleanup.offset))
    ensures OpcodeOf(w) == Op(Opc.RETURN)
    ensures w & !ReturnBits == 0
  {
    var a := Return(Op(Opc.RETURN), Trunc32(cleanup.offset));
    ReturnRoundTrip(a);
    EncodeReturn(a)
  }

  /** PUSH of `value`: its register and `RelOffset`. The opcode argument is ignored. */
  function MakeStackPush(value: Identifier): (w: Word)
    ensures DecodeStack(w) == Stack(Op(Opc.PUSH), Reg(value.register), Trunc32(value.offset))
    ensures OpcodeOf(w) == Op(Opc.PUSH)
    ensures w & !StackBits == 0
  {
    var a := Stack(Op(Opc.PUSH), Reg(value.register), Trunc32(value.offset));
    StackRoundTrip(a);
    EncodeStack(a)
  }

  /** POP into `location`'s register; the offset is always 0. */
  function MakeStackPop(location: Identifier): (w: Word)
    ensures DecodeStack(w) == Stack(Op(Opc.POP), Reg(location.register), 0)
    ensures OpcodeOf(w) == Op(Opc.POP)
    ensures w & !StackBits == 0
  {
    var a := Stack(Op(Opc.POP), Reg(location.register), 0);
    StackRoundTrip(a);
    EncodeStack(a)
  }

  /** READ of as many values as the constant's `AbsOffset` says. */
  function MakeIoRead(op: Opc.Opcode, count: Identifier): (w: Word)
    requires op == Opc.READ && count.register == RCT
    ensures DecodeIo(w) == Io(Op(Opc.READ), Trunc32(count.AbsOffset()))
    ensures OpcodeOf(w) == Op(Opc.READ)
    ensures w & !IoBits == 0
  {
    var a := Io(Op(Opc.READ), Trunc32(count.AbsOffset()));
    IoRoundTrip(a);
    EncodeIo(a)
  }

  /** PRINT of as many values as the constant's `AbsOffset` says. */
  function MakeIoPrint(op: Opc.Opcode, count: Identifier): (w: Word)
    requires op == Opc.PRINT && count.register == RCT
    ensures DecodeIo(w) == Io(Op(Opc.PRINT), Trunc32(count.AbsOffset()))
    ensures OpcodeOf(w) == Op(Opc.PRINT)
    ensures w & !IoBits == 0
  {
    var a := Io(Op(Opc.PRINT), Trunc32(count.AbsOffset()));
    IoRoundTrip(a);
    EncodeIo(a)
  }
}

=== FILE: intfields.dfy ===
/**
 Sign extension of the narrow signed fields of an instruction word, as the VM
 reads a 14- or 23-bit field back into a 32-bit `LONG`.
 */
module SignExt {

  /** The low 14 bits of a 32-bit value. */
  function Low14(b: bv32): bv14
  {
    (b & 0x3FFF) as bv14
  }

  /** The low 23 bits of a 32-bit value. */
  function Low23(b: bv32): bv23
  {
    (b & 0x7F_FFFF) as bv23
  }

  /** Reading a signed 14-bit field into a 32-bit LONG sign-extends it. */
  function Sext14(b: bv14): (r: bv32)
    ensures Low14(r) == b
    ensures r >> 13 == 0 || r >> 13 == 0x7_FFFF
  {
    if b & 0x2000 == 0 then b as bv32 else (b as bv32) | 0xFFFF_C000
  }

  /** Reading a signed 23-bit field into a 32-bit LONG sign-extends it. */
  function Sext23(b: bv23): (r: bv32)
    ensures Low23(r) == b
    ensures r >> 22 == 0 || r >> 22 == 0x3FF
  {
    if b & 0x40_0000 == 0 then b as bv32 else (b as bv32) | 0xFF80_0000
  }

  lemma Sext14LowPositive(b: bv32)
    requires b >> 13 == 0
    ensures Sext14(Low14(b)) == b
  {
  }

  lemma Sext14LowNegative(b: bv32)
    requires b >> 13 == 0x7_FFFF
    ensures Sext14(Low14(b)) == b
  {
  }

  /**
   Keeping the low 14 bits and sign-extending them gives the value back
   exactly when its top 19 bits are copies of bit 13, i.e. when it lies in
   -8192..8191 read as a signed 32-bit value.
   */
  lemma Sext14Low(b: bv32)
    ensures Sext14(Low14(b)) == b <==> (b >> 13 == 0 || b >> 13 == 0x7_FFFF)
  {
    if b >> 13 == 0 {
      Sext14LowPositive(b);
    } else if b >> 13 == 0x7_FFFF {
      Sext14LowNegative(b);
    }
  }

  lemma Sext23LowPositive(b: bv32)
    requires b >> 22 == 0
    ensures Sext23(Low23(b)) == b
  {
  }

  lemma Sext23LowNegative(b: bv32)
    requires b >> 22 == 0x3FF
    ensures Sext23(Low23(b)) == b
  {
  }

  /** The same for 23 bits: exact on -4194304..4194303. */
  lemma Sext23Low(b: bv32)
    ensures Sext23(Low23(b)) == b <==> (b >> 22 == 0 || b >> 22 == 0x3FF)
  {
    if b >> 22 == 0 {
      Sext23LowPositive(b);
    } else if b >> 22 == 0x3FF {
      Sext23LowNegative(b);
    }
  }
}

/**
 Integer values in the fields of an instruction word. The translator assigns
 C `long` values to 14-, 23- and 32-bit fields, which keeps their low bits.
 */
module IntFields {
  import opened Base
  import opened SignExt

  /** The 32 bits of a value assigned to a 32-bit field (a `long` or `unsigned long`). */
  function Trunc32(x: int): bv32
  {
    NatToBv32(x % Two32)
  }

  /** The low 14 bits of a C `long` assigned to a signed 14-bit field. */
  function Trunc14(x: int): bv14
  {
    Low14(Trunc32(x))
  }

  /** The low 23 bits of a C `long` assigned to a signed 23-bit field. */
  function Trunc23(x: int): bv23
  {
    Low23(Trunc32(x))
  }

  /**
   A signed 14-bit field gives back the 32-bit value stored into it exactly
   when that value lies in -8192..8191; any other value comes back truncated.
   */
  lemma Field14Exact(x: int)
    ensures Sext14(Trunc14(x)) == Trunc32(x) <==> (Trunc32(x) >> 13 == 0 || Trunc32(x) >> 13 == 0x7_FFFF)
  {
    Sext14Low(Trunc32(x));
  }

  /** The same for the signed 23-bit fields of the Store view. */
  lemma Field23Exact(x: int)
    ensures Sext23(Trunc23(x)) == Trunc32(x) <==> (Trunc32(x) >> 22 == 0 || Trunc32(x) >> 22 == 0x3FF)
  {
    Sext23Low(Trunc32(x));
  }
}

=== FILE: ioprops.dfy ===
/**
 Properties of PRINT and READ (`ExecIoInstruction`). Both walk PopCount
 stack words from the deepest one up, raising RSB by 4 per word; PRINT emits
 the words, READ stores the next input value at the stack address each word
 holds. RSB and the walk's address move in 32-bit arithmetic, so they are
 described as repeated steps of 4 (`Up`, `Down`) rather than closed sums.
 */
module IoProperties {
  import opened Base
  import opened RegisterDef
  import opened InstrDef
  import opened VmState
  import opened Exec
  import Opc = OpcodeDef

  /** `x` raised by 4, `k` times, wrapping modulo 2^32. */
  function Up(x: bv32, k: nat): bv32
    decreases k
  {
    if k == 0 then x else Up(Add32(x, 4), k - 1)
  }

  /** `x` lowered by 4, `k` times, wrapping modulo 2^32. */
  function Down(x: bv32, k: nat): bv32
    decreases k
  {
    if k == 0 then x else Down(Sub32(x, 4), k - 1)
  }

  /** Every one of the `n` words the walk from `at` visits lies inside the stack. */
  predicate Walkable(l: Layout, at: bv32, n: nat)
  {
    forall i :: 0 <= i < n ==> InStack(l, StackOffset(l, Down(at, i), 0))
  }

  /** The `n` words a walk down from `at` reads, in the order it reads them. */
  function Walked(l: Layout, stack: seq<byte>, at: bv32, n: nat): (ws: seq<bv32>)
    requires |stack| == l.stackSize && Walkable(l, at, n)
    ensures |ws| == n
    ensures forall i :: 0 <= i < n ==> ReadStack(l, stack, StackOffset(l, Down(at, i), 0)) == Ok(ws[i])
  {
    seq(n, i requires 0 <= i < n => ReadLe32(stack, StackIndex(l, StackOffset(l, Down(at, i), 0))))
  }

  /** A walk of `n + 1` words from `at` is the word at `at` and then a walk of `n` words from 4 below. */
  lemma WalkableStep(l: Layout, at: bv32, n: nat)
    ensures Walkable(l, at, n + 1) <==> InStack(l, StackOffset(l, at, 0)) && Walkable(l, Sub32(at, 4), n)
  {
    if InStack(l, StackOffset(l, at, 0)) && Walkable(l, Sub32(at, 4), n) {
      forall i | 0 <= i < n + 1
        ensures InStack(l, StackOffset(l, Down(at, i), 0))
      {
        if i > 0 {
          assert Down(at, i) == Down(Sub32(at, 4), i - 1);
        }
      }
    }
    if Walkable(l, at, n + 1) {
      assert Down(at, 0) == at;
      forall i | 0 <= i < n
        ensures InStack(l, StackOffset(l, Down(Sub32(at, 4), i), 0))
      {
        assert Down(at, i + 1) == Down(Sub32(at, 4), i);
      }
    }
  }

  lemma WalkedStep(l: Layout, stack: seq<byte>, at: bv32, n: nat)
    requires |stack| == l.stackSize && Walkable(l, at, n + 1)
    ensures Walkable(l, Sub32(at, 4), n)
    ensures ReadStack(l, stack, StackOffset(l, at, 0)) == Ok(Walked(l, stack, at, n + 1)[0])
    ensures Walked(l, stack, at, n + 1)[1..] == Walked(l, stack, Sub32(at, 4), n)
  {
    WalkableStep(l, at, n);
    var ws := Walked(l, stack, at, n + 1);
    var rest := Walked(l, stack, Sub32(at, 4), n);
    assert Down(at, 0) == at;
    forall i | 0 <= i < n
      ensures ws[i + 1] == rest[i]
    {
      assert Down(at, i + 1) == Down(Sub32(at, 4), i);
    }
  }

  /** One iteration of PRINT's loop. */
  lemma PrintUnfold(l: Layout, t: Thread, n: nat, at: bv32)
    requires |t.stack| == l.stackSize && n > 0
    ensures !InStack(l, StackOffset(l, at, 0)) ==> PrintLoop(l, t, n, at).Err?
    ensures InStack(l, StackOffset(l, at, 0)) ==>
              var v := ReadStack(l, t.stack, StackOffset(l, at, 0)).value;
              PrintLoop(l, t, n, at)
              == PrintLoop(l, t.(active := t.active[RSB := Add32(t.active[RSB], 4)], output := t.output + [v]), n - 1, Sub32(at, 4))
  {
  }

  /**
   PRINT's loop succeeds exactly when every word it visits lies inside the
   stack; it then appends those words to the output in the order visited,
   raises RSB by 4 per word and changes nothing else.
   */
  lemma PrintEffect(l: Layout, t: Thread, n: nat, at: bv32)
    requires |t.stack| == l.stackSize
    ensures PrintLoop(l, t, n, at).Ok? <==> Walkable(l, at, n)
    ensures PrintLoop(l, t, n, at).Ok? ==>
              var t' := PrintLoop(l, t, n, at).value;
              && t'.output == t.output + Walked(l, t.stack, at, n)
              && t'.active == t.active[RSB := Up(t.active[RSB], n)]
              && t'.stack == t.stack && t'.data == t.data && t'.saved == t.saved && t'.input == t.input
  {
    PrintSucceeds(l, t, n, at);
    if Walkable(l, at, n) {
      PrintResult(l, t, n, at);
    }
  }

  lemma {:induction false} PrintSucceeds(l: Layout, t: Thread, n: nat, at: bv32)
    requires |t.stack| == l.stackSize
    ensures PrintLoop(l, t, n, at).Ok? <==> Walkable(l, at, n)
    decreases n
  {
    if n > 0 {
      WalkableStep(l, at, n - 1);
      PrintUnfold(l, t, n, at);
      if InStack(l, StackOffset(l, at, 0)) {
        var v := ReadStack(l, t.stack, StackOffset(l, at, 0)).value;
        PrintSucceeds(l, t.(active := t.active[RSB := Add32(t.active[RSB], 4)], output := t.output + [v]), n - 1, Sub32(at, 4));
      }
    }
  }

  lemma PrintResult(l: Layout, t: Thread, n: nat, at: bv32)
    requires |t.stack| == l.stackSize
    requires Walkable(l, at, n) && PrintLoop(l, t, n, at).Ok?
    ensures var t' := PrintLoop(l, t, n, at).value;
            && t'.output == t.output + Walked(l, t.stack, at, n)
            && t'.active == t.active[RSB := Up(t.active[RSB], n)]
            && t'.stack == t.stack && t'.data == t.data && t'.saved == t.saved && t'.input == t.input
  {
    PrintOutput(l, t, n, at);
    PrintRegisters(l, t, n, at);
  }

  lemma {:induction false} PrintOutput(l: Layout, t: Thread, n: nat, at: bv32)
    requires |t.stack| == l.stackSize
    requires Walkable(l, at, n) && PrintLoop(l, t, n, at).Ok?
    ensures PrintLoop(l, t, n, at).value.output == t.output + Walked(l, t.stack, at, n)
    decreases n
  {
    if n > 0 {
      WalkedStep(l, t.stack, at, n - 1);
      PrintUnfold(l, t, n, at);
      var ws := Walked(l, t.stack, at, n);
      var t1 := t.(active := t.active[RSB := Add32(t.active[RSB], 4)], output := t.output + [ws[0]]);
      PrintOutput(l, t1, n - 1, Sub32(at, 4));
      Regroup(t.output, ws, Walked(l, t.stack, Sub32(at, 4), n - 1));
    }
  }

  /** Emitting the first word and then the rest emits them all. */
  lemma Regroup(prefix: seq<bv32>, ws: seq<bv32>, rest: seq<bv32>)
    requires |ws| > 0 && ws[1..] == rest
    ensures (prefix + [ws[0]]) + rest == prefix + ws
  {
    assert ws == [ws[0]] + ws[1..];
  }

  lemma {:induction false} PrintRegisters(l: Layout, t: Thread, n: nat, at: bv32)
    requires |t.stack| == l.stackSize
    requires PrintLoop(l, t, n, at).Ok?
    ensures var t' := PrintLoop(l, t, n, at).value;
            && t'.active == t.active[RSB := Up(t.active[RSB], n)]
            && t'.stack == t.stack && t'.data == t.data && t'.saved == t.saved && t'.input == t.input
    decreases n
  {
    if n > 0 {
      PrintUnfold(l, t, n, at);
      var v := ReadStack(l, t.stack, StackOffset(l, at, 0)).value;
      var regs := t.active[RSB := Add32(t.active[RSB], 4)];
      PrintRegisters(l, t.(active := regs, output := t.output + [v]), n - 1, Sub32(at, 4));
      RaiseOnce(t.active, n);
    }
  }

  /** Raising RSB by 4 and then n - 1 more times raises it n times. */
  lemma RaiseOnce(regs: RegisterSet, n: nat)
    requires n > 0
    ensures var once := regs[RSB := Add32(regs[RSB], 4)];
            once[RSB := Up(once[RSB], n - 1)] == regs[RSB := Up(regs[RSB], n)]
  {
  }

  /** The number of input values READ's loop consumes: one per word, while input lasts. */
  function Consumed(n: nat, available: nat): (k: nat)
    ensures k <= n && k <= available
    ensures k == n || k == available
  {
    if n <= available then n else available
  }

  /**
   READ's loop consumes one input value per word it visits, as long as
   input lasts, raises RSB by 4 per word and leaves the output, global data
   and saved sets alone. With no input left it writes nothing, and then
   succeeds exactly when every word it visits lies inside the stack.
   */
  lemma ReadEffect(l: Layout, t: Thread, n: nat, at: bv32)
    requires |t.stack| == l.stackSize
    ensures |t.input| == 0 ==> (ReadLoop(l, t, n, at).Ok? <==> Walkable(l, at, n))
    ensures ReadLoop(l, t, n, at).Ok? ==>
              var t' := ReadLoop(l, t, n, at).value;
              && t'.input == t.input[Consumed(n, |t.input|)..]
              && t'.active == t.active[RSB := Up(t.active[RSB], n)]
              && t'.output == t.output && t'.data == t.data && t'.saved == t.saved
              && (|t.input| == 0 ==> t'.stack == t.stack)
  {
    if |t.input| == 0 {
      ReadWithoutInput(l, t, n, at);
    }
    if ReadLoop(l, t, n, at).Ok? {
      ReadRegisters(l, t, n, at);
      RemainingIsSuffix(t.input, n);
    }
  }

  /** The thread after one iteration of READ's loop whose address word is at `at`. */
  function ReadNext(l: Layout, t: Thread, at: bv32): Result<Thread, Fault>
    requires |t.stack| == l.stackSize
  {
    var regs := t.active[RSB := Add32(t.active[RSB], 4)];
    var address :- ReadStack(l, t.stack, StackOffset(l, at, 0));
    if |t.input| == 0 then Ok(t.(active := regs))
    else
      var stack :- WriteStack(l, t.stack, StackOffset(l, address, 0), t.input[0]);
      Ok(t.(active := regs, stack := stack, input := t.input[1..]))
  }

  /** One iteration of READ's loop. */
  lemma ReadUnfold(l: Layout, t: Thread, n: nat, at: bv32)
    requires |t.stack| == l.stackSize && n > 0
    ensures ReadNext(l, t, at).Err? ==> ReadLoop(l, t, n, at).Err?
    ensures ReadNext(l, t, at).Ok? ==>
              var t1 := ReadNext(l, t, at).value;
              && |t1.stack| == l.stackSize
              && (ReadLoop(l, t, n, at).Ok? <==> ReadLoop(l, t1, n - 1, Sub32(at, 4)).Ok?)
              && (ReadLoop(l, t, n, at).Ok? ==> ReadLoop(l, t, n, at).value == ReadLoop(l, t1, n - 1, Sub32(at, 4)).value)
  {
  }

  /** A successful run of READ's loop is a successful iteration followed by a successful run of the rest. */
  lemma ReadUnfoldOk(l: Layout, t: Thread, n: nat, at: bv32)
    requires |t.stack| == l.stackSize && n > 0 && ReadLoop(l, t, n, at).Ok?
    ensures ReadNext(l, t, at).Ok? && |ReadNext(l, t, at).value.stack| == l.stackSize
    ensures ReadLoop(l, ReadNext(l, t, at).value, n - 1, Sub32(at, 4)).Ok?
    ensures ReadLoop(l, t, n, at).value == ReadLoop(l, ReadNext(l, t, at).value, n - 1, Sub32(at, 4)).value
  {
    ReadUnfold(l, t, n, at);
  }

  /** What one iteration of READ's loop changes. */
  lemma ReadNextEffect(l: Layout, t: Thread, at: bv32)
    requires |t.stack| == l.stackSize
    ensures ReadNext(l, t, at).Ok? ==>
              var t1 := ReadNext(l, t, at).value;
              && t1.active == t.active[RSB := Add32(t.active[RSB], 4)]
              && t1.output == t.output && t1.data == t.data && t1.saved == t.saved
              && t1.input == (if |t.input| == 0 then [] else t.input[1..])
              && (|t.input| == 0 ==> t1.stack == t.stack)
    ensures |t.input| == 0 ==> (ReadNext(l, t, at).Ok? <==> InStack(l, StackOffset(l, at, 0)))
  {
  }

  /**
   With input left, one iteration of READ's loop stores the first input
   value at the stack address held in the word at `at`, and leaves every
   other stack byte alone.
   */
  lemma ReadNextStores(l: Layout, t: Thread, at: bv32)
    requires |t.stack| == l.stackSize && |t.input| > 0 && ReadNext(l, t, at).Ok?
    ensures var address := ReadLe32(t.stack, StackIndex(l, StackOffset(l, at, 0)));
            var o := StackOffset(l, address, 0);
            var s' := ReadNext(l, t, at).value.stack;
            && InStack(l, StackOffset(l, at, 0)) && InStack(l, o)
            && ReadLe32(s', StackIndex(l, o)) == t.input[0]
            && forall i :: 0 <= i < |s'| && !(StackIndex(l, o) <= i < StackIndex(l, o) + WordBytes) ==> s'[i] == t.stack[i]
  {
  }

  lemma {:induction false} ReadWithoutInput(l: Layout, t: Thread, n: nat, at: bv32)
    requires |t.stack| == l.stackSize && |t.input| == 0
    ensures ReadLoop(l, t, n, at).Ok? <==> Walkable(l, at, n)
    ensures ReadLoop(l, t, n, at).Ok? ==> ReadLoop(l, t, n, at).value.stack == t.stack
    decreases n
  {
    if n > 0 {
      WalkableStep(l, at, n - 1);
      ReadUnfold(l, t, n, at);
      ReadNextEffect(l, t, at);
      if ReadNext(l, t, at).Ok? {
        ReadWithoutInput(l, ReadNext(l, t, at).value, n - 1, Sub32(at, 4));
      }
    }
  }

  /** The input left after `n` reads: one value is consumed per read while input lasts. */
  function Remaining(input: seq<bv32>, n: nat): seq<bv32>
    decreases n
  {
    if n == 0 || |input| == 0 then input else Remaining(input[1..], n - 1)
  }

  /** What remains after `n` reads is the input without its first `Consumed(n, |input|)` values. */
  lemma {:induction false} RemainingIsSuffix(input: seq<bv32>, n: nat)
    ensures Remaining(input, n) == input[Consumed(n, |input|)..]
    decreases n
  {
    if n > 0 && |input| > 0 {
      RemainingIsSuffix(input[1..], n - 1);
      assert input[1..][Consumed(n - 1, |input| - 1)..] == input[Consumed(n, |input|)..];
    }
  }

  /**
   What READ's loop over `n` words does to everything but the stack: RSB
   rises by 4 per word, up to `n` input values are consumed, and the output,
   global data and saved sets stay as they were.
   */
  predicate ReadOutcome(t: Thread, t': Thread, n: nat)
  {
    && t'.active == t.active[RSB := Up(t.active[RSB], n)]
    && t'.output == t.output && t'.data == t.data && t'.saved == t.saved
    && t'.input == Remaining(t.input, n)
  }

  /** One iteration followed by n - 1 more has the outcome of n iterations. */
  lemma ReadOutcomeStep(t: Thread, t1: Thread, t': Thread, n: nat)
    requires n > 0
    requires t1.active == t.active[RSB := Add32(t.active[RSB], 4)]
    requires t1.output == t.output && t1.data == t.data && t1.saved == t.saved
    requires t1.input == (if |t.input| == 0 then [] else t.input[1..])
    requires ReadOutcome(t1, t', n - 1)
    ensures ReadOutcome(t, t', n)
  {
    RaiseOnce(t.active, n);
    if |t.input| == 0 {
      assert Remaining(t1.input, n - 1) == [];
    }
  }

  lemma {:induction false} ReadRegisters(l: Layout, t: Thread, n: nat, at: bv32)
    requires |t.stack| == l.stackSize && ReadLoop(l, t, n, at).Ok?
    ensures ReadOutcome(t, ReadLoop(l, t, n, at).value, n)
    decreases n
  {
    if n > 0 {
      ReadUnfoldOk(l, t, n, at);
      ReadNextEffect(l, t, at);
      var t1 := ReadNext(l, t, at).value;
      ReadRegisters(l, t1, n - 1, Sub32(at, 4));
      ReadOutcomeStep(t, t1, ReadLoop(l, t1, n - 1, Sub32(at, 4)).value, n);
    } else {
      assert ReadLoop(l, t, n, at).value == t;
    }
  }

  /** `ExecIo` runs the opcode's loop over PopCount words from the deepest and then advances RIP. */
  lemma IoUnfold(l: Layout, t: Thread, a: Io)
    requires |t.stack| == l.stackSize
    ensures var r := IoLoop(l, t, a.opcode as int, a.popCount as int, Deepest(t.active[RSB], a.popCount));
            && (ExecIo(l, t, a).Ok? <==> r.Ok?)
            && (r.Ok? ==> ExecIo(l, t, a).value.t == r.value.(active := Advance(r.value.active)))
  {
  }

  /**
   PRINT with PopCount n emits the n words from the deepest (n - 1 words
   above RSB) up to the one at RSB, pops them by raising RSB by 4 each, and
   moves RIP on by one instruction; it fails exactly when one of the words
   lies outside the stack.
   */
  lemma PrintInstruction(l: Layout, t: Thread, a: Io)
    requires |t.stack| == l.stackSize
    requires a.opcode as int == Opc.PRINT
    ensures var at := Deepest(t.active[RSB], a.popCount);
            && (ExecIo(l, t, a).Ok? <==> Walkable(l, at, a.popCount as int))
            && (ExecIo(l, t, a).Ok? ==>
                  var t' := ExecIo(l, t, a).value.t;
                  && t'.output == t.output + Walked(l, t.stack, at, a.popCount as int)
                  && t'.active == Advance(t.active[RSB := Up(t.active[RSB], a.popCount as int)])
                  && t'.stack == t.stack && t'.data == t.data && t'.saved == t.saved && t'.input == t.input)
  {
    var n := a.popCount as int;
    var at := Deepest(t.active[RSB], a.popCount);
    IoUnfold(l, t, a);
    PrintAdvanced(l, t, n, at, ExecIo(l, t, a));
  }

  /** PRINT's loop followed by the move of RIP to the next instruction. */
  lemma PrintAdvanced(l: Layout, t: Thread, n: nat, at: bv32, x: Result<Outcome, Fault>)
    requires |t.stack| == l.stackSize
    requires x.Ok? <==> IoLoop(l, t, Opc.PRINT, n, at).Ok?
    requires x.Ok? ==> x.value.t == IoLoop(l, t, Opc.PRINT, n, at).value.(active := Advance(IoLoop(l, t, Opc.PRINT, n, at).value.active))
    ensures x.Ok? <==> Walkable(l, at, n)
    ensures x.Ok? ==>
              var t' := x.value.t;
              && t'.output == t.output + Walked(l, t.stack, at, n)
              && t'.active == Advance(t.active[RSB := Up(t.active[RSB], n)])
              && t'.stack == t.stack && t'.data == t.data && t'.saved == t.saved && t'.input == t.input
  {
    IoLoopPrint(l, t, n, at);
    PrintEffect(l, t, n, at);
  }

  lemma IoLoopPrint(l: Layout, t: Thread, n: nat, at: bv32)
    requires |t.stack| == l.stackSize
    ensures IoLoop(l, t, Opc.PRINT, n, at) == PrintLoop(l, t, n, at)
  {
  }

  /**
   READ with PopCount n consumes min(n, available) input values, pops the n
   address words by raising RSB by 4 each and moves RIP on by one
   instruction; the output and global data are unchanged.
   */
  lemma ReadInstruction(l: Layout, t: Thread, a: Io)
    requires |t.stack| == l.stackSize
    requires a.opcode as int == Opc.READ
    ensures ExecIo(l, t, a).Ok? ==>
              var t' := ExecIo(l, t, a).value.t;
              && t'.input == t.input[Consumed(a.popCount as int, |t.input|)..]
              && t'.active == Advance(t.active[RSB := Up(t.active[RSB], a.popCount as int)])
              && t'.output == t.output && t'.data == t.data && t'.saved == t.saved
  {
    var n := a.popCount as int;
    var at := Deepest(t.active[RSB], a.popCount);
    IoUnfold(l, t, a);
    IoLoopRead(l, t, n, at);
    ReadEffect(l, t, n, at);
  }

  lemma IoLoopRead(l: Layout, t: Thread, n: nat, at: bv32)
    requires |t.stack| == l.stackSize
    ensures IoLoop(l, t, Opc.READ, n, at) == ReadLoop(l, t, n, at)
  {
  }
}

=== FILE: loader.dfy ===
/**
 The VM's program loader (vm/program.c, `ProgramRead`) as a parser over the
 bytes of an object file. It copies the first 64 bytes into the header, reads
 SymbolSize / 8 symbol records directly after them, seeks to
 CodeBinaryLocation and reads up to CodeSize / 8 instruction records from
 there, and allocates DataSize bytes of zeroed global data.

 `fread` stores whole records only; a read that the file cannot satisfy is an
 assertion failure for the header and the symbols, while the instruction read
 is not checked, so the loaded code is however many whole records the file
 still holds at that position. The code buffer is CodeSize bytes long; the
 part no record was read into is left as it came from `malloc`, and the model
 keeps only the bytes actually read.
 */
module Loader {
  import opened Base
  import opened InstrDef
  import PD = ProgDef

  /** PROGRAM: the header, the symbol table, the code read from the file and the global data. */
  datatype Program = Program(
    header: PD.Header,
    functionSymbols: seq<PD.FunctionSymbol>,
    code: seq<byte>,
    globalData: seq<byte>)

  /** How many whole instruction records a read of up to `count` records at `at` obtains. */
  function InstructionsAvailable(fileSize: nat, at: nat, count: nat): (n: nat)
    ensures n <= count && (n == 0 || at + InstrSize * n <= fileSize)
    ensures n < count ==> at + InstrSize * (n + 1) > fileSize
  {
    if at >= fileSize then 0
    else
      var fit := (fileSize - at) / InstrSize;
      if fit < count then fit else count
  }

  /** The symbol records that follow the header. */
  function ReadSymbols(file: seq<byte>, n: nat): (r: seq<PD.FunctionSymbol>)
    requires PD.HeaderSizeBytes + PD.SymbolRecordSize * n <= |file|
    ensures |r| == n
  {
    seq(n, k requires 0 <= k < n => PD.ParseSymbol(file, PD.HeaderSizeBytes + PD.SymbolRecordSize * k))
  }

  /** The code read at `at`: as many whole records of the `count` asked for as the file holds there. */
  function LoadCode(file: seq<byte>, at: nat, count: nat): (code: seq<byte>)
    ensures |code| % InstrSize == 0 && |code| <= InstrSize * count
  {
    var n := InstructionsAvailable(|file|, at, count);
    if n == 0 then [] else file[at .. at + InstrSize * n]
  }

  /**
   `ProgramRead`: the program the loader builds from `file`, or the failed
   assertion of a short header or symbol read. The allocation-failure
   return of -1 is not modelled.
   */
  function ProgramRead(file: seq<byte>): (r: Result<Program, Fault>)
    ensures r.Ok? <==> |file| >= PD.HeaderSizeBytes
                       && PD.HeaderSizeBytes + PD.SymbolRecordSize * (PD.ParseHeader(file).symbolSize / PD.SymbolRecordSize) <= |file|
    ensures r.Ok? ==> r.value.header == PD.ParseHeader(file)
    ensures r.Ok? ==> |r.value.functionSymbols| == r.value.header.symbolSize / PD.SymbolRecordSize
    ensures r.Ok? ==> r.value.functionSymbols == ReadSymbols(file, |r.value.functionSymbols|)
    ensures r.Ok? ==> r.value.code == LoadCode(file, r.value.header.codeBinaryLocation, r.value.header.codeSize / InstrSize)
    ensures r.Ok? ==> |r.value.code| % InstrSize == 0 && |r.value.code| <= r.value.header.codeSize
    ensures r.Ok? ==> |r.value.globalData| == r.value.header.dataSize
    ensures r.Ok? ==> forall i :: 0 <= i < |r.value.globalData| ==> r.value.globalData[i] == 0
  {
    if |file| < PD.HeaderSizeBytes then Err(AssertionFailed("short read of the program header"))
    else
      var h := PD.ParseHeader(file);
      var n := h.symbolSize / PD.SymbolRecordSize;
      if |file| < PD.HeaderSizeBytes + PD.SymbolRecordSize * n then
        Err(AssertionFailed("short read of the function symbols"))
      else
        Ok(Program(h, ReadSymbols(file, n), LoadCode(file, h.codeBinaryLocation, h.codeSize / InstrSize),
                   seq(h.dataSize, _ => 0)))
  }
}

=== FILE: objectfile.dfy ===
/**
 What survives a trip through the object file: the translator writes the
 header, the symbols and the instructions back to back, but records in the
 header that the code starts one symbol record further on; the loader seeks
 there. The header comes back intact and the symbol records read back as
 written, while the code the VM receives is the written code without its
 first instruction, with every later instruction moved 8 bytes towards the
 start of the code buffer.
 A header that records the code where it is actually written makes the trip
 the identity; the last part of the module proves that for
 `Serializer.MakeHeaderCorrected`.
 */
module ObjectFile {
  import opened Base
  import opened InstrDef
  import PD = ProgDef
  import Ser = Serializer
  import L = Loader

  /** The instructions the loader obtains from a file whose code is `code`. */
  function AfterFirst(code: seq<Word>): seq<Word>
  {
    if |code| == 0 then [] else code[1..]
  }

  /** The header fields the layout of a written image depends on. */
  predicate Describes(h: PD.Header, symbolCount: nat, instructionCount: nat)
  {
    && h.symbolSize == PD.SymbolRecordSize * symbolCount
    && h.codeSize == InstrSize * instructionCount
    && h.codeBinaryLocation == PD.HeaderSizeBytes + PD.SymbolRecordSize * symbolCount + PD.SymbolRecordSize
  }

  /**
   Loading a written image returns the header and the symbols that were
   written, and the code without its first instruction. The instructions
   actually begin 8 bytes before the location the header records.
   */
  lemma {:induction false} LoadWrittenImage(h: PD.Header, symbols: seq<PD.FunctionSymbol>, code: seq<Word>)
    requires Describes(h, |symbols|, |code|)
    ensures var file := Ser.ProgramImage(h, symbols, code);
            && L.ProgramRead(file).Ok?
            && L.ProgramRead(file).value.header == h
            && L.ProgramRead(file).value.functionSymbols == symbols
            && L.ProgramRead(file).value.code == Flatten(Ser.CodeImages(AfterFirst(code)))
            && file[h.codeBinaryLocation - InstrSize ..] == Flatten(Ser.CodeImages(code))
  {
    var file := Ser.ProgramImage(h, symbols, code);
    HeaderRead(h, symbols, code);
    SymbolsRead(h, symbols, code);
    CodeRead(h, symbols, code);
    assert h.codeSize / InstrSize == |code|;
    ReadBack(file, h, symbols, Flatten(Ser.CodeImages(AfterFirst(code))));
    CodeWhereWritten(h, symbols, code, h.codeBinaryLocation - InstrSize);
  }

  /** The header of a written image parses back, and its symbol count is the number of symbols written. */
  lemma HeaderRead(h: PD.Header, symbols: seq<PD.FunctionSymbol>, code: seq<Word>)
    requires h.symbolSize == PD.SymbolRecordSize * |symbols|
    ensures PD.ParseHeader(Ser.ProgramImage(h, symbols, code)) == h
    ensures h.symbolSize / PD.SymbolRecordSize == |symbols|
  {
    var sb := Flatten(Ser.SymbolImages(symbols));
    var cb := Flatten(Ser.CodeImages(code));
    assert Ser.ProgramImage(h, symbols, code) == PD.HeaderBytes(h) + (sb + cb);
    PD.HeaderRoundTrip(h, sb + cb);
  }

  /** The instruction records of a written image start right after its symbol records. */
  lemma CodeWhereWritten(h: PD.Header, symbols: seq<PD.FunctionSymbol>, code: seq<Word>, at: int)
    requires at == PD.HeaderSizeBytes + PD.SymbolRecordSize * |symbols|
    ensures 0 <= at <= |Ser.ProgramImage(h, symbols, code)|
    ensures Ser.ProgramImage(h, symbols, code)[at..] == Flatten(Ser.CodeImages(code))
  {
    var hb := PD.HeaderBytes(h);
    var sb := Flatten(Ser.SymbolImages(symbols));
    FlattenLength(Ser.SymbolImages(symbols), PD.SymbolRecordSize);
    assert Ser.ProgramImage(h, symbols, code) == (hb + sb) + Flatten(Ser.CodeImages(code));
  }

  /** `ProgramRead` of a file whose header, symbols and code read back as given returns them. */
  lemma ReadBack(file: seq<byte>, h: PD.Header, symbols: seq<PD.FunctionSymbol>, codeBytes: seq<byte>)
    requires |file| >= PD.HeaderSizeBytes && PD.ParseHeader(file) == h
    requires h.symbolSize / PD.SymbolRecordSize == |symbols|
    requires PD.HeaderSizeBytes + PD.SymbolRecordSize * |symbols| <= |file|
    requires L.ReadSymbols(file, |symbols|) == symbols
    requires L.LoadCode(file, h.codeBinaryLocation, h.codeSize / InstrSize) == codeBytes
    ensures L.ProgramRead(file).Ok?
    ensures L.ProgramRead(file).value.header == h
    ensures L.ProgramRead(file).value.functionSymbols == symbols
    ensures L.ProgramRead(file).value.code == codeBytes
  {
  }

  /** The symbol records read back, whatever the header says about the code. */
  lemma {:induction false} SymbolsRead(h: PD.Header, symbols: seq<PD.FunctionSymbol>, code: seq<Word>)
    ensures var file := Ser.ProgramImage(h, symbols, code);
            && PD.HeaderSizeBytes + PD.SymbolRecordSize * |symbols| <= |file|
            && L.ReadSymbols(file, |symbols|) == symbols
  {
    var hb := PD.HeaderBytes(h);
    var sb := Flatten(Ser.SymbolImages(symbols));
    var cb := Flatten(Ser.CodeImages(code));
    var file := Ser.ProgramImage(h, symbols, code);
    FlattenLength(Ser.SymbolImages(symbols), PD.SymbolRecordSize);
    assert file == hb + sb + cb;
    var got := L.ReadSymbols(file, |symbols|);
    forall k | 0 <= k < |symbols|
      ensures got[k] == symbols[k]
    {
      SymbolAt(h, symbols, code, k);
    }
  }

  /** The `k`-th symbol record of a written image parses back to the `k`-th symbol. */
  lemma SymbolAt(h: PD.Header, symbols: seq<PD.FunctionSymbol>, code: seq<Word>, k: nat)
    requires k < |symbols|
    ensures var file := Ser.ProgramImage(h, symbols, code);
            && PD.HeaderSizeBytes + PD.SymbolRecordSize * (k + 1) <= |file|
            && PD.ParseSymbol(file, PD.HeaderSizeBytes + PD.SymbolRecordSize * k) == symbols[k]
  {
    var hb := PD.HeaderBytes(h);
    var parts := Ser.SymbolImages(symbols);
    var sb := Flatten(parts);
    var cb := Flatten(Ser.CodeImages(code));
    var file := Ser.ProgramImage(h, symbols, code);
    assert file == hb + sb + cb;
    var at := PD.HeaderSizeBytes + PD.SymbolRecordSize * k;
    FlattenSlice(parts, PD.SymbolRecordSize, k);
    PD.SliceInConcat(hb, sb, cb, 8 * k, 8 * k + 8);
    var record := file[at .. at + 8];
    assert record == PD.SymbolBytes(symbols[k]);
    ParseSymbolWindow(file, at);
    PD.SymbolRoundTrip(symbols[k], [], []);
    assert [] + record + [] == record;
  }

  /** Parsing a symbol record depends only on the 8 bytes it covers. */
  lemma ParseSymbolWindow(s: seq<byte>, at: nat)
    requires at + PD.SymbolRecordSize <= |s|
    ensures PD.ParseSymbol(s, at) == PD.ParseSymbol(s[at .. at + PD.SymbolRecordSize], 0)
  {
    var w := s[at .. at + PD.SymbolRecordSize];
    assert ReadLe32(s, at) == ReadLe32(w, 0);
    assert ReadLe32(s, at + 4) == ReadLe32(w, 4);
  }

  lemma {:induction false} CodeRead(h: PD.Header, symbols: seq<PD.FunctionSymbol>, code: seq<Word>)
    requires Describes(h, |symbols|, |code|)
    ensures L.LoadCode(Ser.ProgramImage(h, symbols, code), h.codeBinaryLocation, |code|)
            == Flatten(Ser.CodeImages(AfterFirst(code)))
  {
    var file := Ser.ProgramImage(h, symbols, code);
    var hb := PD.HeaderBytes(h);
    var sb := Flatten(Ser.SymbolImages(symbols));
    var cb := Flatten(Ser.CodeImages(code));
    FlattenLength(Ser.SymbolImages(symbols), PD.SymbolRecordSize);
    FlattenLength(Ser.CodeImages(code), InstrSize);
    assert file == hb + sb + cb;
    var at := h.codeBinaryLocation;
    var count := L.InstructionsAvailable(|file|, at, |code|);
    if |code| <= 1 {
      assert count == 0;
      assert AfterFirst(code) == [];
    } else {
      assert count == |code| - 1;
      assert file[at .. at + InstrSize * count] == cb[InstrSize..];
      DropFirstRecord(Ser.CodeImages(code), InstrSize);
      assert Ser.CodeImages(code)[1..] == Ser.CodeImages(code[1..]);
    }
  }

  /** Without its first fixed-size record a concatenation is the concatenation of the rest. */
  lemma DropFirstRecord(parts: seq<seq<byte>>, size: nat)
    requires |parts| > 0
    requires forall i :: 0 <= i < |parts| ==> |parts[i]| == size
    ensures size <= |Flatten(parts)| && Flatten(parts)[size..] == Flatten(parts[1..])
  {
    FlattenAppend([parts[0]], parts[1..]);
    assert [parts[0]] + parts[1..] == parts;
    assert Flatten([parts[0]]) == Flatten([]) + parts[0];
  }

  /**
   The file the translator writes for `code` and `symbols` loads with the
   header it wrote and the symbols it wrote; the loaded code is the written
   code minus its first instruction. The sizes must fit the header's 32-bit
   fields.
   */
  lemma SerializeThenLoad(dataPointer: int, symbols: seq<PD.FunctionSymbol>, code: seq<Word>)
    requires InstrSize * |code| < Two32
    requires PD.HeaderSizeBytes + PD.SymbolRecordSize * |symbols| + PD.SymbolRecordSize < Two32
    ensures var h := Ser.MakeHeader(dataPointer, |code|, |symbols|);
            var file := Ser.ProgramImage(h, symbols, code);
            && L.ProgramRead(file).Ok?
            && L.ProgramRead(file).value.header == h
            && L.ProgramRead(file).value.functionSymbols == symbols
            && L.ProgramRead(file).value.code == Flatten(Ser.CodeImages(AfterFirst(code)))
  {
    var h := Ser.MakeHeader(dataPointer, |code|, |symbols|);
    assert Describes(h, |symbols|, |code|);
    LoadWrittenImage(h, symbols, code);
  }

  // ---------------------------------------------------------------- corrected code location

  /** The header fields of an image whose recorded code location is where the code is written. */
  predicate DescribesExactly(h: PD.Header, symbolCount: nat, instructionCount: nat)
  {
    && h.symbolSize == PD.SymbolRecordSize * symbolCount
    && h.codeSize == InstrSize * instructionCount
    && h.codeBinaryLocation == PD.HeaderSizeBytes + PD.SymbolRecordSize * symbolCount
  }

  /** Reading the code at the location such a header records gets every written instruction. */
  lemma CodeReadExactly(h: PD.Header, symbols: seq<PD.FunctionSymbol>, code: seq<Word>)
    requires DescribesExactly(h, |symbols|, |code|)
    ensures L.LoadCode(Ser.ProgramImage(h, symbols, code), h.codeBinaryLocation, |code|)
            == Flatten(Ser.CodeImages(code))
  {
    var file := Ser.ProgramImage(h, symbols, code);
    var hb := PD.HeaderBytes(h);
    var sb := Flatten(Ser.SymbolImages(symbols));
    var cb := Flatten(Ser.CodeImages(code));
    FlattenLength(Ser.SymbolImages(symbols), PD.SymbolRecordSize);
    FlattenLength(Ser.CodeImages(code), InstrSize);
    assert file == hb + sb + cb;
    var at := h.codeBinaryLocation;
    if |code| == 0 {
      assert cb == [];
    } else {
      assert L.InstructionsAvailable(|file|, at, |code|) == |code|;
      assert file[at .. at + InstrSize * |code|] == cb;
    }
  }

  /** Loading an image whose header records the true code location returns everything written. */
  lemma LoadExactImage(h: PD.Header, symbols: seq<PD.FunctionSymbol>, code: seq<Word>)
    requires DescribesExactly(h, |symbols|, |code|)
    ensures var file := Ser.ProgramImage(h, symbols, code);
            && L.ProgramRead(file).Ok?
            && L.ProgramRead(file).value.header == h
            && L.ProgramRead(file).value.functionSymbols == symbols
            && L.ProgramRead(file).value.code == Flatten(Ser.CodeImages(code))
  {
    HeaderRead(h, symbols, code);
    SymbolsRead(h, symbols, code);
    CodeReadExactly(h, symbols, code);
    assert h.codeSize / InstrSize == |code|;
    ReadBack(Ser.ProgramImage(h, symbols, code), h, symbols, Flatten(Ser.CodeImages(code)));
  }

  /**
   With the corrected header the trip through the object file is the
   identity: the header, the symbols and every instruction come back as
   written.
   */
  lemma CorrectedSerializeThenLoad(dataPointer: int, symbols: seq<PD.FunctionSymbol>, code: seq<Word>)
    requires InstrSize * |code| < Two32
    requires PD.HeaderSizeBytes + PD.SymbolRecordSize * |symbols| < Two32
    ensures var h := Ser.MakeHeaderCorrected(dataPointer, |code|, |symbols|);
            var file := Ser.ProgramImage(h, symbols, code);
            && L.ProgramRead(file).Ok?
            && L.ProgramRead(file).value.header == h
            && L.ProgramRead(file).value.functionSymbols == symbols
            && L.ProgramRead(file).value.code == Flatten(Ser.CodeImages(code))
  {
    var h := Ser.MakeHeaderCorrected(dataPointer, |code|, |symbols|);
    assert DescribesExactly(h, |symbols|, |code|);
    LoadExactImage(h, symbols, code);
  }
}

=== FILE: objtypes.dfy ===
/**
 The translator's objects (translator/objtypes.h): the data and operator
 type enumerations, identifiers, function calls, I/O statements and scope
 contexts. Pointers between objects become values: a scope context records
 whether it is the global one instead of pointing at it, and symbol tables
 are maps from names to identifiers.
 */
module ObjTypes {
  import opened Base
  import opened RegisterDef

  /**
   The data types of the language, in the enumeration's order. The order
   matters: THREADT, VOID and ERR come after every numeric type, and the
   opcode rules compare types by their numeric values.
   */
  datatype IdnType = INT8T | UINT8T | INT16T | UINT16T | INT32T | UINT32T | FLOATT | THREADT | VOID | ERR
  {
    /** The value of the C enumerator. */
    function Value(): nat
    {
      match this
      case INT8T => 0
      case UINT8T => 1
      case INT16T => 2
      case UINT16T => 3
      case INT32T => 4
      case UINT32T => 5
      case FLOATT => 6
      case THREADT => 7
      case VOID => 8
      case ERR => 9
    }

    predicate IsNumeric() { INT8T? || UINT8T? || INT16T? || UINT16T? || INT32T? || UINT32T? || FLOATT? }
    predicate IsSignedInteger() { INT8T? || INT16T? || INT32T? }
    predicate IsUnsignedInteger() { UINT8T? || UINT16T? || UINT32T? }
  }

  /** The enumerator with value `v`; values outside the enumeration have none. */
  function IdnTypeOf(v: nat): (r: Option<IdnType>)
    ensures r.Some? <==> v < 10
    ensures r.Some? ==> r.value.Value() == v
  {
    if v == 0 then Some(INT8T) else if v == 1 then Some(UINT8T)
    else if v == 2 then Some(INT16T) else if v == 3 then Some(UINT16T)
    else if v == 4 then Some(INT32T) else if v == 5 then Some(UINT32T)
    else if v == 6 then Some(FLOATT) else if v == 7 then Some(THREADT)
    else if v == 8 then Some(VOID) else if v == 9 then Some(IdnType.ERR)
    else None
  }

  /**
   The order the opcode rules rely on: the numeric types are exactly the
   values below THREADT, they come in signed/unsigned pairs (even values are
   signed integers, odd values below 6 unsigned), and the enumerator values
   are distinct.
   */
  lemma IdnTypeOrder(t: IdnType, u: IdnType)
    ensures t.IsNumeric() <==> t.Value() < THREADT.Value()
    ensures t.Value() <= FLOATT.Value() < THREADT.Value() < VOID.Value() < IdnType.ERR.Value() || !t.IsNumeric()
    ensures t.IsSignedInteger() <==> t.Value() < 6 && t.Value() % 2 == 0
    ensures t.IsUnsignedInteger() <==> t.Value() < 6 && t.Value() % 2 == 1
    ensures t.Value() == u.Value() ==> t == u
    ensures IdnTypeOf(t.Value()) == Some(t)
  {
  }

  /** The operator kinds, in the enumeration's order. */
  datatype OprType =
    | STR
    | LOR | LAND
    | XOR | OR | AND | NOT
    | EQ | NEQ | LT | GT | LTE | GTE
    | PLUS | MINUS | TIMES | DIV
    | LPAREN | RPAREN
    | LBRACK | RBRACK
    | ERR
  {
    function Value(): nat
    {
      match this
      case STR => 0
      case LOR => 1
      case LAND => 2
      case XOR => 3
      case OR => 4
      case AND => 5
      case NOT => 6
      case EQ => 7
      case NEQ => 8
      case LT => 9
      case GT => 10
      case LTE => 11
      case GTE => 12
      case PLUS => 13
      case MINUS => 14
      case TIMES => 15
      case DIV => 16
      case LPAREN => 17
      case RPAREN => 18
      case LBRACK => 19
      case RBRACK => 20
      case ERR => 21
    }

    /** The sixteen operators that produce an arithmetic, logical or comparison opcode. */
    predicate IsComputing()
    {
      LOR? || LAND? || XOR? || OR? || AND? || NOT? || EQ? || NEQ? || LT? || GT? || LTE? || GTE?
      || PLUS? || MINUS? || TIMES? || DIV?
    }

    /** Grouping symbols and the error marker, which never produce an instruction. */
    predicate IsGrouping() { LPAREN? || RPAREN? || LBRACK? || RBRACK? || ERR? }
  }

  /** STR is 0, the computing operators are 1..16 and the rest 17..21. */
  lemma OprTypeOrder(o: OprType, p: OprType)
    ensures o.STR? <==> o.Value() == 0
    ensures o.IsComputing() <==> 1 <= o.Value() <= 16
    ensures o.IsGrouping() <==> 17 <= o.Value() <= 21
    ensures o.Value() == p.Value() ==> o == p
  {
  }

  /** A signed 32-bit `long` (the toolchain targets LLP64, where `long` is 32 bits). */
  type Long = x: int | -0x8000_0000 <= x < 0x8000_0000

  /**
   An identifier object. The C structure overlays several fields:
   - `RelOffset` (signed) and `AbsOffset` (unsigned) share one 32-bit word,
     held here as the signed `offset`; `AbsOffset` reads it back unsigned;
   - `DataType` and `ReturnType` share `dataType`;
   - `ArraySize` and `Parameters` share storage in C and are two fields here;
     `parameters` is only meaningful when `register == RFN`.
   Reference counts of working and index registers are kept by the allocator
   (the `Allocator` module), not here.
   */
  datatype Identifier = Identifier(
    name: string,
    register: Register,
    offset: Long,
    dataType: IdnType,
    isAtomic: nat,
    returnCount: nat,
    arraySize: nat,
    parameters: seq<Identifier>)
  {
    /** The `RelOffset` arm of the offset union. */
    function RelOffset(): Long { offset }

    /** The `AbsOffset` arm: the same 32 bits read as an unsigned long. */
    function AbsOffset(): (r: U32)
      ensures r == Unsigned32(offset)
    {
      Unsigned32(offset)
    }

    /** `ReturnType` is the `DataType` arm read for a function identifier. */
    function ReturnType(): IdnType { dataType }
  }

  /**
   The two arms of the offset union agree bit for bit: a value written as a
   signed `RelOffset` reads back through `AbsOffset` as the unsigned long
   with the same 32 bits, and writing an unsigned value then reading it as
   signed and storing it back gives the same unsigned value.
   */
  lemma OffsetUnion(x: Long, u: U32)
    ensures Wrap32(Unsigned32(x)) == x
    ensures Unsigned32(Wrap32(u)) == u
    ensures x >= 0 ==> Unsigned32(x) == x
    ensures x < 0 ==> Unsigned32(x) == x + Two32
  {
    if x < 0 {
      var m := x + Two32;
      assert 0 <= m < Two32;
      assert x == -1 * Two32 + m;
    }
  }

  /** An identifier with every field zero except its register, as the C code builds with `memset`. */
  function ZeroIdentifier(register: Register): (r: Identifier)
    ensures r.register == register && r.offset == 0 && r.dataType == INT8T
    ensures r.name == [] && r.parameters == [] && r.arraySize == 0
  {
    Identifier([], register, 0, INT8T, 0, 0, 0, [])
  }

  /** A function call being translated: the callee and the parameters pushed so far. */
  datatype FunctionCall = FunctionCall(callee: Identifier, currentParameterCount: nat)

  /** A PRINT or READ statement being translated: how many values it has pushed. */
  datatype IoObject = IoObject(count: nat)

  /**
   A scope: the global scope or a function's. `codePointer` and friends are
   `unsigned long long` in C, but the local data pointer is driven below zero
   and read back as signed, so they are plain integers here. The global
   context's `GlobalContext` pointer points to itself; that is `isGlobal`.
   */
  datatype ScopeContext = ScopeContext(
    isGlobal: bool,
    identifier: Option<Identifier>,
    symbols: map<string, Identifier>,
    codePointer: int,
    parameterPointer: int,
    dataPointer: int,
    stackPointer: int)
}

=== FILE: opcodedef.dfy ===
/**
 The instruction set of the BUTT virtual machine (common/opcodedef.h). An
 opcode occupies the low six bits of every instruction word, so at most 64
 opcodes exist; the values are fixed by the object-file format shared by
 the translator and the VM.
 */
module OpcodeDef {

  /** A value of the six-bit opcode field. */
  type Opcode = x: nat | x < 64

  // Arithmetic
  const ADDI: Opcode := 1
  const ADDF: Opcode := 2
  const SUBI: Opcode := 3
  const SUBF: Opcode := 4
  const MULI: Opcode := 5
  const MULF: Opcode := 6
  const DIVI: Opcode := 7
  const DIVF: Opcode := 8
  // Direct and indirect addressing
  const MOVE: Opcode := 9
  const RCOPYD: Opcode := 10
  // Bitwise
  const XOR: Opcode := 11
  const OR: Opcode := 12
  const AND: Opcode := 13
  const NOT: Opcode := 14
  // Logical
  const LOR: Opcode := 15
  const LAND: Opcode := 16
  // Comparison
  const EQ: Opcode := 17
  const NEQ: Opcode := 18
  const LT: Opcode := 19
  const GT: Opcode := 20
  const LTE: Opcode := 21
  const GTE: Opcode := 22
  // Stores, one per operand type
  const STRI8: Opcode := 23
  const STRU8: Opcode := 24
  const STRI16: Opcode := 25
  const STRU16: Opcode := 26
  const STRI32: Opcode := 27
  const STRU32: Opcode := 28
  const STRF: Opcode := 29
  const STRTH: Opcode := 30
  // Jumps, branches and calls
  const JMP: Opcode := 31
  const JMPZ: Opcode := 32
  const CALLNORM: Opcode := 33
  const CALLPLLS: Opcode := 34
  const CALLPLLA: Opcode := 35
  const RETURN: Opcode := 36
  // Stack
  const PUSH: Opcode := 37
  const POP: Opcode := 38
  // Console I/O
  const PRINT: Opcode := 39
  const READ: Opcode := 40
  /** The error marker the translator produces for an invalid combination. */
  const ERR: Opcode := 63

  /** Every opcode the enumeration names, in declaration order. */
  const Declared: seq<Opcode> := [
    ADDI, ADDF, SUBI, SUBF, MULI, MULF, DIVI, DIVF, MOVE, RCOPYD,
    XOR, OR, AND, NOT, LOR, LAND, EQ, NEQ, LT, GT, LTE, GTE,
    STRI8, STRU8, STRI16, STRU16, STRI32, STRU32, STRF, STRTH,
    JMP, JMPZ, CALLNORM, CALLPLLS, CALLPLLA, RETURN, PUSH, POP, PRINT, READ, ERR]

  // The handler groups of the VM's dispatch, one predicate per handler.

  predicate IsArithmetic(op: Opcode) { ADDI <= op <= DIVF || XOR <= op <= GTE }
  predicate IsDirectIndirect(op: Opcode) { op == MOVE || op == RCOPYD }
  predicate IsStore(op: Opcode) { STRI8 <= op <= STRTH }
  predicate IsJump(op: Opcode) { JMP <= op <= CALLPLLA }
  predicate IsReturn(op: Opcode) { op == RETURN }
  predicate IsStack(op: Opcode) { op == PUSH || op == POP }
  predicate IsIo(op: Opcode) { op == PRINT || op == READ }

  /** An opcode some handler executes; everything else, ERR included, is fatal. */
  predicate IsExecutable(op: Opcode)
  {
    IsArithmetic(op) || IsDirectIndirect(op) || IsStore(op) || IsJump(op)
    || IsReturn(op) || IsStack(op) || IsIo(op)
  }

  /**
   The declared values increase strictly in declaration order, so they are
   pairwise distinct and decoding the field is unambiguous; zero is not an
   opcode.
   */
  lemma DeclaredIncreasing()
    ensures |Declared| == 41
    ensures forall i :: 0 <= i < |Declared| - 1 ==> Declared[i] == i + 1
    ensures Declared[|Declared| - 1] == ERR
    ensures forall i :: 0 < i < |Declared| ==> Declared[i - 1] < Declared[i]
    ensures 0 !in Declared
  {
    assert forall i :: 0 <= i < |Declared| - 1 ==> Declared[i] == i + 1;
  }

  lemma {:induction false} DeclaredDistinct(i: nat, j: nat)
    requires i < j < |Declared|
    ensures Declared[i] < Declared[j]
    decreases j - i
  {
    DeclaredIncreasing();
    if i + 1 < j {
      DeclaredDistinct(i + 1, j);
    }
  }

  /** ERR is the only declared value that no handler executes. */
  lemma ExecutableOpcodes(op: Opcode)
    ensures IsExecutable(op) <==> op in Declared && op != ERR
  {
    DeclaredIncreasing();
    if IsExecutable(op) {
      assert Declared[op - 1] == op;
    }
    if op in Declared && op != ERR {
      var i :| 0 <= i < |Declared| && Declared[i] == op;
      assert i < |Declared| - 1;
    }
  }

  /** Exactly one handler claims each executable opcode. */
  lemma HandlersDisjoint(op: Opcode)
    ensures IsArithmetic(op) ==> !IsDirectIndirect(op) && !IsStore(op) && !IsJump(op) && !IsReturn(op) && !IsStack(op) && !IsIo(op)
    ensures IsDirectIndirect(op) ==> !IsStore(op) && !IsJump(op) && !IsReturn(op) && !IsStack(op) && !IsIo(op)
    ensures IsStore(op) ==> !IsJump(op) && !IsReturn(op) && !IsStack(op) && !IsIo(op)
    ensures IsJump(op) ==> !IsReturn(op) && !IsStack(op) && !IsIo(op)
    ensures IsReturn(op) ==> !IsStack(op) && !IsIo(op)
    ensures IsStack(op) ==> !IsIo(op)
  {
  }
}

=== FILE: opcodes.dfy ===
/**
 Opcode and result-type selection (translator/opcodes.c): which instruction
 an operator applied to two operands of given data types becomes, and which
 data type the result has. The two entry points reject out-of-range types at
 different thresholds: `GenerateOpcode` rejects types above THREADT, while
 `GenerateResultingDataType` rejects THREADT itself as well.
 */
module Opcodes {
  import opened ObjTypes
  import Opc = OpcodeDef

  /** The store opcode for a value of type `t`; non-numeric types have none. */
  function OpcodeFromIdn(t: IdnType): (r: Opc.Opcode)
    ensures t.IsNumeric() <==> r != Opc.ERR
    ensures t.IsNumeric() ==> r == Opc.STRI8 + t.Value() && Opc.IsStore(r)
    ensures !t.IsNumeric() ==> r == Opc.ERR
  {
    match t
    case INT8T => Opc.STRI8
    case UINT8T => Opc.STRU8
    case INT16T => Opc.STRI16
    case UINT16T => Opc.STRU16
    case INT32T => Opc.STRI32
    case UINT32T => Opc.STRU32
    case FLOATT => Opc.STRF
    case _ => Opc.ERR
  }

  /**
   The opcode of a computing operator. Addition, subtraction, multiplication
   and division have an F variant chosen when either operand is FLOATT; every
   other operator ignores the operand types. Non-computing operators give ERR.
   */
  function OpcodeFromOperator(o: OprType, l: IdnType, r: IdnType): (op: Opc.Opcode)
    ensures o.IsComputing() <==> op != Opc.ERR
    ensures o.IsComputing() ==> Opc.IsArithmetic(op)
  {
    var isFloat := l == FLOATT || r == FLOATT;
    match o
    case LAND => Opc.LAND
    case LOR => Opc.LOR
    case XOR => Opc.XOR
    case OR => Opc.OR
    case AND => Opc.AND
    case NOT => Opc.NOT
    case EQ => Opc.EQ
    case NEQ => Opc.NEQ
    case LT => Opc.LT
    case GT => Opc.GT
    case LTE => Opc.LTE
    case GTE => Opc.GTE
    case PLUS => if isFloat then Opc.ADDF else Opc.ADDI
    case MINUS => if isFloat then Opc.SUBF else Opc.SUBI
    case TIMES => if isFloat then Opc.MULF else Opc.MULI
    case DIV => if isFloat then Opc.DIVF else Opc.DIVI
    case _ => Opc.ERR
  }

  /** The integer types with a sign: INT8T, INT16T and INT32T. */
  function IsOperandSigned(t: IdnType): (r: bool)
    ensures r <==> t.Value() < 6 && t.Value() % 2 == 0
  {
    t == INT8T || t == INT16T || t == INT32T
  }

  /** The opcode for `l o r`, or ERR when the combination is invalid. */
  function GenerateOpcode(l: IdnType, r: IdnType, o: OprType): (op: Opc.Opcode)
    ensures l.Value() > THREADT.Value() || r.Value() > THREADT.Value() ==> op == Opc.ERR
    ensures o.IsGrouping() ==> op == Opc.ERR
  {
    if l.Value() > THREADT.Value() || r.Value() > THREADT.Value() then Opc.ERR
    else if o.STR? then
      if l == THREADT then (if r != THREADT then Opc.ERR else Opc.STRTH)
      else OpcodeFromIdn(l)
    else if o.IsComputing() then
      if l == THREADT || r == THREADT then Opc.ERR
      else OpcodeFromOperator(o, l, r)
    else Opc.ERR
  }

  /** The data type of the value `l o r` leaves on the operand stack, or ERR. */
  function GenerateResultingDataType(l: IdnType, r: IdnType, o: OprType): (t: IdnType)
    ensures l.Value() >= THREADT.Value() || r.Value() >= THREADT.Value() ==> t == IdnType.ERR
    ensures t != IdnType.ERR ==> t.IsNumeric()
  {
    if l.Value() >= THREADT.Value() || r.Value() >= THREADT.Value() then IdnType.ERR
    else if l == FLOATT || r == FLOATT then FLOATT
    else if o.STR? then l
    else if IsOperandSigned(l) || IsOperandSigned(r) then INT32T
    else UINT32T
  }

  // ------------------------------------------------------------ properties

  /**
   The store rule: a THREADT destination only accepts a THREADT source; any
   numeric destination takes the store opcode of its own type, whatever the
   source type is (a THREADT source included), because the VM truncates or
   extends the stored value to the destination's width.
   */
  lemma StoreOpcode(l: IdnType, r: IdnType)
    ensures l == THREADT ==> GenerateOpcode(l, r, STR) == (if r == THREADT then Opc.STRTH else Opc.ERR)
    ensures l.IsNumeric() && (r.IsNumeric() || r == THREADT) ==>
              GenerateOpcode(l, r, STR) == Opc.STRI8 + l.Value()
    ensures GenerateOpcode(l, r, STR) != Opc.ERR ==> Opc.IsStore(GenerateOpcode(l, r, STR))
    ensures GenerateOpcode(l, r, STR) != Opc.ERR <==>
              (l == THREADT && r == THREADT) || (l.IsNumeric() && (r.IsNumeric() || r == THREADT))
  {
  }

  /**
   The computing rule: any THREADT, VOID or ERR operand gives ERR, and
   otherwise the opcode is an arithmetic-group opcode that depends on the
   operand types only through "is either of them FLOATT", and only for
   PLUS, MINUS, TIMES and DIV.
   */
  lemma ComputingOpcode(l: IdnType, r: IdnType, o: OprType)
    requires o.IsComputing()
    ensures GenerateOpcode(l, r, o) != Opc.ERR <==> l.IsNumeric() && r.IsNumeric()
    ensures GenerateOpcode(l, r, o) != Opc.ERR ==> Opc.IsArithmetic(GenerateOpcode(l, r, o))
    ensures l.IsNumeric() && r.IsNumeric() && !(o.PLUS? || o.MINUS? || o.TIMES? || o.DIV?) ==>
              GenerateOpcode(l, r, o) == GenerateOpcode(INT8T, INT8T, o)
    ensures l.IsNumeric() && r.IsNumeric() && (o.PLUS? || o.MINUS? || o.TIMES? || o.DIV?) ==>
              (GenerateOpcode(l, r, o) == GenerateOpcode(INT8T, INT8T, o) + 1 <==> l == FLOATT || r == FLOATT)
  {
    IdnTypeOrder(l, r);
    IdnTypeOrder(r, l);
  }

  /** The integer opcodes of PLUS, MINUS, TIMES and DIV and their F variants. */
  lemma FloatVariants(l: IdnType, r: IdnType)
    requires l.IsNumeric() && r.IsNumeric()
    ensures l == FLOATT || r == FLOATT ==>
              GenerateOpcode(l, r, PLUS) == Opc.ADDF && GenerateOpcode(l, r, MINUS) == Opc.SUBF
              && GenerateOpcode(l, r, TIMES) == Opc.MULF && GenerateOpcode(l, r, DIV) == Opc.DIVF
    ensures l != FLOATT && r != FLOATT ==>
              GenerateOpcode(l, r, PLUS) == Opc.ADDI && GenerateOpcode(l, r, MINUS) == Opc.SUBI
              && GenerateOpcode(l, r, TIMES) == Opc.MULI && GenerateOpcode(l, r, DIV) == Opc.DIVI
  {
    IdnTypeOrder(l, r);
    IdnTypeOrder(r, l);
  }

  /**
   The result type: ERR for any operand of THREADT or above, FLOATT when
   either operand is FLOATT (a store included), the destination's type for
   any other store, and otherwise the 32-bit type that is signed as soon as
   one operand is signed.
   */
  lemma ResultingDataType(l: IdnType, r: IdnType, o: OprType)
    ensures !(l.IsNumeric() && r.IsNumeric()) <==> GenerateResultingDataType(l, r, o) == IdnType.ERR
    ensures l.IsNumeric() && r.IsNumeric() && (l == FLOATT || r == FLOATT) ==>
              GenerateResultingDataType(l, r, o) == FLOATT
    ensures l.IsNumeric() && r.IsNumeric() && l != FLOATT && r != FLOATT && o.STR? ==>
              GenerateResultingDataType(l, r, o) == l
    ensures l.IsNumeric() && r.IsNumeric() && l != FLOATT && r != FLOATT && !o.STR? ==>
              GenerateResultingDataType(l, r, o) == (if l.IsSignedInteger() || r.IsSignedInteger() then INT32T else UINT32T)
  {
    IdnTypeOrder(l, r);
    IdnTypeOrder(r, l);
  }

  /**
   The two thresholds differ: storing a THREADT into a THREADT has an opcode
   (STRTH) but no result type, so the generator rejects it after all.
   */
  lemma ThreadStoreThresholds()
    ensures GenerateOpcode(THREADT, THREADT, STR) == Opc.STRTH
    ensures GenerateResultingDataType(THREADT, THREADT, STR) == IdnType.ERR
  {
  }

  /**
   Where both selections succeed, the operands are numeric and the opcode
   belongs to the VM handler group the operator calls for: a store for STR,
   the arithmetic handler for the computing operators.
   */
  lemma AcceptedCombinations(l: IdnType, r: IdnType, o: OprType)
    requires GenerateOpcode(l, r, o) != Opc.ERR && GenerateResultingDataType(l, r, o) != IdnType.ERR
    ensures l.IsNumeric() && r.IsNumeric()
    ensures o.STR? ==> Opc.IsStore(GenerateOpcode(l, r, o)) && GenerateOpcode(l, r, o) != Opc.STRTH
    ensures o.IsComputing() ==> Opc.IsArithmetic(GenerateOpcode(l, r, o))
    ensures o.STR? || o.IsComputing()
  {
    IdnTypeOrder(l, r);
    IdnTypeOrder(r, l);
  }
}

=== FILE: progdef.dfy ===
/**
 The object-file header (common/progdef.h) and the function-symbol record
 (common/symdef.h). The header is six `uint16_t` fields followed by thirteen
 `uint32_t` fields with no padding, 64 bytes in all, stored little-endian.
 A function symbol is two 32-bit `unsigned long`s (the toolchain targets an
 LLP64 platform), 8 bytes.
 */
module ProgDef {
  import opened Base

  const HeaderMagicNumber: U16 := 0xC403
  const CompilerVersionMajor: U16 := 1
  const CompilerVersionMinor: U16 := 0
  const HeaderSizeBytes: nat := 0x40

  /** sizeof(FUNCTION_SYMBOL) */
  const SymbolRecordSize: nat := 8

  datatype Header = Header(
    magicNumber: U16, versionMajor: U16, versionMinor: U16, stackAlignment: U16,
    reserved1: U16, reserved2: U16,
    stackTop: U32, dataStart: U32, codeStart: U32, stackSize: U32, dataSize: U32,
    codeSize: U32, symbolSize: U32, symbolBinaryLocation: U32, codeBinaryLocation: U32,
    reserved3: U32, reserved4: U32, reserved5: U32, reserved6: U32)

  /** The 16-bit fields in declaration order. */
  function Fields16(h: Header): seq<U16>
  {
    [h.magicNumber, h.versionMajor, h.versionMinor, h.stackAlignment, h.reserved1, h.reserved2]
  }

  /** The 32-bit fields in declaration order. */
  function Fields32(h: Header): seq<U32>
  {
    [h.stackTop, h.dataStart, h.codeStart, h.stackSize, h.dataSize, h.codeSize,
     h.symbolSize, h.symbolBinaryLocation, h.codeBinaryLocation,
     h.reserved3, h.reserved4, h.reserved5, h.reserved6]
  }

  function Image16(xs: seq<U16>): seq<seq<byte>>
  {
    seq(|xs|, i requires 0 <= i < |xs| => U16Bytes(xs[i]))
  }

  function Image32(xs: seq<U32>): seq<seq<byte>>
  {
    seq(|xs|, i requires 0 <= i < |xs| => U32Bytes(xs[i]))
  }

  /** The header's in-memory image, which the translator writes verbatim. */
  function HeaderBytes(h: Header): (r: seq<byte>)
    ensures |r| == HeaderSizeBytes
  {
    FlattenLength(Image16(Fields16(h)), 2);
    FlattenLength(Image32(Fields32(h)), 4);
    Flatten(Image16(Fields16(h))) + Flatten(Image32(Fields32(h)))
  }

  /** Reassembles a header from its fields in declaration order. */
  function FromFields(a: seq<U16>, b: seq<U32>): Header
    requires |a| == 6 && |b| == 13
  {
    Header(a[0], a[1], a[2], a[3], a[4], a[5],
           b[0], b[1], b[2], b[3], b[4], b[5], b[6], b[7], b[8], b[9], b[10], b[11], b[12])
  }

  /**
   Reads a header from the first 64 bytes of `s`. The byte offsets follow
   from the field sizes: 16-bit field k at 2k, then 32-bit field k at
   12 + 4k, so StackTop is at 12, CodeSize at 32, SymbolSize at 36,
   SymbolBinaryLocation at 40 and CodeBinaryLocation at 44.
   */
  function ParseHeader(s: seq<byte>): Header
    requires |s| >= HeaderSizeBytes
  {
    FromFields(seq(6, k requires 0 <= k < 6 => ReadU16(s, 2 * k)),
               seq(13, k requires 0 <= k < 13 => ReadU32(s, 12 + 4 * k)))
  }

  lemma ReadU16Local(s: seq<byte>, at: nat, t: seq<byte>)
    requires at + 2 <= |s| && s[at..at + 2] == t
    ensures ReadU16(s, at) == ReadU16(t, 0)
  {
    assert s[at] == t[0] && s[at + 1] == t[1];
    assert ReadLe16(s, at) == ReadLe16(t, 0);
  }

  lemma ReadU32Local(s: seq<byte>, at: nat, t: seq<byte>)
    requires at + 4 <= |s| && s[at..at + 4] == t
    ensures ReadU32(s, at) == ReadU32(t, 0)
  {
    assert s[at] == t[0] && s[at + 1] == t[1] && s[at + 2] == t[2] && s[at + 3] == t[3];
    assert ReadLe32(s, at) == ReadLe32(t, 0);
  }

  /** The `k`-th 16-bit field of a header image reads back as that field. */
  lemma Field16Reads(h: Header, post: seq<byte>, k: nat)
    requires k < 6
    ensures ReadU16(HeaderBytes(h) + post, 2 * k) == Fields16(h)[k]
  {
    var parts := Image16(Fields16(h));
    FlattenSlice(parts, 2, k);
    var s := HeaderBytes(h) + post;
    assert s[2 * k .. 2 * k + 2] == Flatten(parts)[2 * k .. 2 * k + 2];
    ReadU16Local(s, 2 * k, U16Bytes(Fields16(h)[k]));
    U16RoundTrip(Fields16(h)[k], [], []);
    assert [] + U16Bytes(Fields16(h)[k]) + [] == U16Bytes(Fields16(h)[k]);
  }

  /** The `k`-th 32-bit field of a header image reads back as that field. */
  lemma Field32Reads(h: Header, post: seq<byte>, k: nat)
    requires k < 13
    ensures ReadU32(HeaderBytes(h) + post, 12 + 4 * k) == Fields32(h)[k]
  {
    var a := Flatten(Image16(Fields16(h)));
    var parts := Image32(Fields32(h));
    FlattenLength(Image16(Fields16(h)), 2);
    FlattenSlice(parts, 4, k);
    var s := HeaderBytes(h) + post;
    SliceInConcat(a, Flatten(parts), post, 4 * k, 4 * k + 4);
    ReadU32Local(s, 12 + 4 * k, U32Bytes(Fields32(h)[k]));
    U32RoundTrip(Fields32(h)[k], [], []);
    assert [] + U32Bytes(Fields32(h)[k]) + [] == U32Bytes(Fields32(h)[k]);
  }

  lemma SliceInConcat(a: seq<byte>, b: seq<byte>, c: seq<byte>, i: nat, j: nat)
    requires i <= j <= |b|
    ensures (a + b + c)[|a| + i .. |a| + j] == b[i..j]
  {
    assert forall x :: |a| + i <= x < |a| + j ==> (a + b + c)[x] == b[x - |a|];
  }

  /** Parsing the first 64 bytes of a header image, whatever follows it, returns the header. */
  lemma {:induction false} HeaderRoundTrip(h: Header, post: seq<byte>)
    ensures ParseHeader(HeaderBytes(h) + post) == h
  {
    var s := HeaderBytes(h) + post;
    var a := seq(6, k requires 0 <= k < 6 => ReadU16(s, 2 * k));
    var b := seq(13, k requires 0 <= k < 13 => ReadU32(s, 12 + 4 * k));
    forall k | 0 <= k < 6
      ensures a[k] == Fields16(h)[k]
    {
      Field16Reads(h, post, k);
    }
    forall k | 0 <= k < 13
      ensures b[k] == Fields32(h)[k]
    {
      Field32Reads(h, post, k);
    }
    assert a == Fields16(h);
    assert b == Fields32(h);
  }

  // ---------------------------------------------------------------- symbols

  /** One entry of the symbol table: a function's code address and its parameter count. */
  datatype FunctionSymbol = FunctionSymbol(functionAddress: U32, parameterCount: U32)

  function SymbolBytes(f: FunctionSymbol): (r: seq<byte>)
    ensures |r| == SymbolRecordSize
  {
    U32Bytes(f.functionAddress) + U32Bytes(f.parameterCount)
  }

  function ParseSymbol(s: seq<byte>, at: nat): FunctionSymbol
    requires at + SymbolRecordSize <= |s|
  {
    FunctionSymbol(ReadU32(s, at), ReadU32(s, at + 4))
  }

  lemma SymbolRoundTrip(f: FunctionSymbol, pre: seq<byte>, post: seq<byte>)
    ensures ParseSymbol(pre + SymbolBytes(f) + post, |pre|) == f
  {
    assert pre + SymbolBytes(f) + post == pre + U32Bytes(f.functionAddress) + (U32Bytes(f.parameterCount) + post);
    U32RoundTrip(f.functionAddress, pre, U32Bytes(f.parameterCount) + post);
    assert pre + SymbolBytes(f) + post == (pre + U32Bytes(f.functionAddress)) + U32Bytes(f.parameterCount) + post;
    U32RoundTrip(f.parameterCount, pre + U32Bytes(f.functionAddress), post);
  }
}

=== FILE: registerdef.dfy ===
/**
 The register file shared by the translator and the VM (common/registerdef.h).
 A register number occupies a five-bit instruction field. Numbers 0..17 are
 the machine registers; RFN and INV are pseudo-registers the translator uses
 to mark function identifiers and "no register".
 */
module RegisterDef {

  /** A value of a five-bit register field. */
  type Register = r: nat | r < 32

  const WorkingRegisterCount: nat := 8
  const IndexRegisterCount: nat := 4

  const RIP: Register := 0
  const RGD: Register := 1
  const RST: Register := 2
  const RSB: Register := 3
  const RRV: Register := 4
  const RCT: Register := 5
  const IX0: Register := 6
  const IX1: Register := 7
  const IX2: Register := 8
  const IX3: Register := 9
  const RT0: Register := 10
  const RT1: Register := 11
  const RT2: Register := 12
  const RT3: Register := 13
  const RT4: Register := 14
  const RT5: Register := 15
  const RT6: Register := 16
  const RT7: Register := 17
  /** Register numbers at or above this are not machine registers. */
  const REG_MAX: Register := 18
  const RFN: Register := 19
  const INV: Register := 20

  predicate IsSpecial(r: Register)
  {
    r == RIP || r == RGD || r == RST || r == RSB || r == RRV || r == RFN || r == INV
  }

  /** Registers whose value is an address that operands are offset from. */
  predicate IsIndex(r: Register)
  {
    r == RGD || r == RST || r == RSB || r == IX0 || r == IX1 || r == IX2 || r == IX3
  }

  predicate IsIndexIx(r: Register)
  {
    r == IX0 || r == IX1 || r == IX2 || r == IX3
  }

  predicate IsWorking(r: Register)
  {
    r == RT0 || r == RT1 || r == RT2 || r == RT3 || r == RT4 || r == RT5 || r == RT6 || r == RT7
  }

  /** The scrap registers in allocation order. */
  const WorkingRegisters: seq<Register> := [RT0, RT1, RT2, RT3, RT4, RT5, RT6, RT7]

  /** The general index registers in allocation order. */
  const IndexIxRegisters: seq<Register> := [IX0, IX1, IX2, IX3]

  /**
   The register classes: the allocation orders list each allocatable class
   completely, as many registers as the counts say, in increasing order; the
   two classes are disjoint from each other and from the special registers;
   every allocatable register is a machine register.
   */
  lemma RegisterClasses()
    ensures |WorkingRegisters| == WorkingRegisterCount
    ensures |IndexIxRegisters| == IndexRegisterCount
    ensures forall r: Register :: IsWorking(r) <==> r in WorkingRegisters
    ensures forall r: Register :: IsIndexIx(r) <==> r in IndexIxRegisters
    ensures forall i :: 0 < i < |WorkingRegisters| ==> WorkingRegisters[i - 1] < WorkingRegisters[i]
    ensures forall i :: 0 < i < |IndexIxRegisters| ==> IndexIxRegisters[i - 1] < IndexIxRegisters[i]
    ensures forall r: Register :: IsIndexIx(r) ==> IsIndex(r)
    ensures forall r: Register :: !(IsWorking(r) && IsIndex(r))
    ensures forall r: Register :: IsSpecial(r) ==> !IsWorking(r) && !IsIndexIx(r)
    ensures forall r: Register :: IsWorking(r) || IsIndex(r) ==> r < REG_MAX
  {
  }
}

=== FILE: runprops.dfy ===
/**
 Properties of the VM's fetch-execute loop (`ExecThreadExecute`): a RETURN
 with no caller ends the loop, and a fetch from loaded code returns the instruction
 that was written at that position — which, after a trip through the object
 file, is the instruction one position further on than the one the
 translator put there. With the corrected header the fetch returns the
 instruction the translator put at that very position.
 */
module RunProperties {
  import opened Base
  import opened RegisterDef
  import opened InstrDef
  import opened VmState
  import opened Exec
  import Opc = OpcodeDef
  import PD = ProgDef
  import Ser = Serializer
  import L = Loader
  import OF = ObjectFile

  /** A RETURN fetched while no register set is saved ends the loop with the thread as it is. */
  lemma ReturnWithoutCallerStops(l: Layout, code: seq<byte>, t: Thread, fuel: nat)
    requires |t.stack| == l.stackSize
    requires Fetch(l, code, t.active).Ok? && OpcodeOf(Fetch(l, code, t.active).value) as int == Opc.RETURN
    requires |t.saved| == 0 && fuel > 0
    ensures Run(l, code, t, fuel) == Ok(Stop(t))
  {
    var w := Fetch(l, code, t.active).value;
    assert Opc.IsReturn(OpcodeOf(w) as int);
    assert Execute(l, t, w) == ExecReturn(l, t, DecodeReturn(w));
  }

  /** A 64-bit read depends only on the 8 bytes it covers. */
  lemma ReadLe64Window(s: seq<byte>, at: nat)
    requires at + 8 <= |s|
    ensures ReadLe64(s, at) == ReadLe64(s[at .. at + 8], 0)
  {
    var w := s[at .. at + 8];
    assert ReadLe32(s, at) == ReadLe32(w, 0);
    assert ReadLe32(s, at + 4) == ReadLe32(w, 4);
  }

  /**
   Fetching from the concatenated records of `ws` at a RIP that lies
   8 k bytes past the code bias returns the k-th word.
   */
  lemma FetchWritten(l: Layout, ws: seq<Word>, regs: RegisterSet, k: nat)
    requires k < |ws|
    requires Sub32(regs[RIP], l.codeBias) as int == InstrSize * k
    ensures Fetch(l, Flatten(Ser.CodeImages(ws)), regs) == Ok(ws[k])
  {
    var flat := Flatten(Ser.CodeImages(ws));
    WordAt(ws, k);
    assert Fetch(l, flat, regs) == Ok(ReadLe64(flat, InstrSize * k));
  }

  /** The k-th 8-byte record of the concatenated records of `ws` reads back as the k-th word. */
  lemma WordAt(ws: seq<Word>, k: nat)
    requires k < |ws|
    ensures InstrSize * k + InstrSize <= |Flatten(Ser.CodeImages(ws))|
    ensures ReadLe64(Flatten(Ser.CodeImages(ws)), InstrSize * k) == ws[k]
  {
    var parts := Ser.CodeImages(ws);
    FlattenSlice(parts, InstrSize, k);
    ReadLe64Window(Flatten(parts), InstrSize * k);
  }

  /**
   After the translator writes `code` and the VM loads the file, a fetch
   8 k bytes past CodeStart returns the translator's instruction k + 1:
   in particular the thread's first fetch returns the second written
   instruction, and a program of at most one instruction has nothing to
   fetch at all.
   */
  lemma LoadedFetch(dataPointer: int, symbols: seq<PD.FunctionSymbol>, code: seq<Word>,
                    regs: RegisterSet, codeBias: bv32, stackBias: bv32, stackSize: nat, k: nat)
    requires InstrSize * |code| < Two32
    requires PD.HeaderSizeBytes + PD.SymbolRecordSize * |symbols| + PD.SymbolRecordSize < Two32
    requires Sub32(regs[RIP], codeBias) as int == InstrSize * k
    ensures var file := Ser.ProgramImage(Ser.MakeHeader(dataPointer, |code|, |symbols|), symbols, code);
            && L.ProgramRead(file).Ok?
            && var loaded := L.ProgramRead(file).value.code;
               && (k + 1 < |code| ==> Fetch(Layout(codeBias, stackBias, stackSize), loaded, regs) == Ok(code[k + 1]))
               && (k + 1 >= |code| ==> Fetch(Layout(codeBias, stackBias, stackSize), loaded, regs).Err?)
  {
    OF.SerializeThenLoad(dataPointer, symbols, code);
    FetchAfterFirst(Layout(codeBias, stackBias, stackSize), code, regs, k);
  }

  /** A fetch from the records of all but the first word returns word k + 1, or fails past the last one. */
  lemma FetchAfterFirst(l: Layout, code: seq<Word>, regs: RegisterSet, k: nat)
    requires Sub32(regs[RIP], l.codeBias) as int == InstrSize * k
    ensures var loaded := Flatten(Ser.CodeImages(OF.AfterFirst(code)));
            && (k + 1 < |code| ==> Fetch(l, loaded, regs) == Ok(code[k + 1]))
            && (k + 1 >= |code| ==> Fetch(l, loaded, regs).Err?)
  {
    FetchFlattened(l, OF.AfterFirst(code), regs, k);
  }

  /** A fetch from the concatenated records of `ws` returns the k-th word, or fails past the last one. */
  lemma FetchFlattened(l: Layout, ws: seq<Word>, regs: RegisterSet, k: nat)
    requires Sub32(regs[RIP], l.codeBias) as int == InstrSize * k
    ensures k < |ws| ==> Fetch(l, Flatten(Ser.CodeImages(ws)), regs) == Ok(ws[k])
    ensures k >= |ws| ==> Fetch(l, Flatten(Ser.CodeImages(ws)), regs).Err?
  {
    FlattenLength(Ser.CodeImages(ws), InstrSize);
    if k < |ws| {
      FetchWritten(l, ws, regs, k);
    }
  }

  /**
   The first instruction the booted thread executes is the second one the
   translator wrote: the thread starts at CodeStart, which is where the
   loaded code begins, and the loaded code has lost its first instruction.
   */
  lemma BootFetchesSecond(dataPointer: int, symbols: seq<PD.FunctionSymbol>, code: seq<Word>,
                          p: L.Program, stack: seq<byte>, input: seq<bv32>)
    requires InstrSize * |code| < Two32
    requires PD.HeaderSizeBytes + PD.SymbolRecordSize * |symbols| + PD.SymbolRecordSize < Two32
    requires L.ProgramRead(Ser.ProgramImage(Ser.MakeHeader(dataPointer, |code|, |symbols|), symbols, code)) == Ok(p)
    requires |stack| == p.header.stackSize
    ensures Boot(p, stack, input).Ok?
    ensures var (l, t) := Boot(p, stack, input).value;
            && (|code| >= 2 ==> Fetch(l, p.code, t.active) == Ok(code[1]))
            && (|code| < 2 ==> Fetch(l, p.code, t.active).Err?)
  {
    OF.SerializeThenLoad(dataPointer, symbols, code);
    BootFetchAfterFirst(p, stack, input, code);
  }

  /** A booted thread whose program code holds the records of all but the first word first fetches the second. */
  lemma BootFetchAfterFirst(p: L.Program, stack: seq<byte>, input: seq<bv32>, code: seq<Word>)
    requires |stack| == p.header.stackSize && p.header.stackAlignment == WordBytes
    requires p.code == Flatten(Ser.CodeImages(OF.AfterFirst(code)))
    ensures Boot(p, stack, input).Ok?
    ensures var (l, t) := Boot(p, stack, input).value;
            && (|code| >= 2 ==> Fetch(l, p.code, t.active) == Ok(code[1]))
            && (|code| < 2 ==> Fetch(l, p.code, t.active).Err?)
  {
    BootFetch(p, stack, input, OF.AfterFirst(code));
  }

  /** A booted thread whose program code holds the records of `ws` first fetches the first of them. */
  lemma BootFetch(p: L.Program, stack: seq<byte>, input: seq<bv32>, ws: seq<Word>)
    requires |stack| == p.header.stackSize && p.header.stackAlignment == WordBytes
    requires p.code == Flatten(Ser.CodeImages(ws))
    ensures Boot(p, stack, input).Ok?
    ensures var (l, t) := Boot(p, stack, input).value;
            && (|ws| >= 1 ==> Fetch(l, p.code, t.active) == Ok(ws[0]))
            && (|ws| == 0 ==> Fetch(l, p.code, t.active).Err?)
  {
    BootAtCodeStart(p, stack, input);
    var (l, t) := Boot(p, stack, input).value;
    FetchFlattened(l, ws, t.active, 0);
  }

  /** With the alignment the handlers assume, the booted thread's RIP is the code bias itself. */
  lemma BootAtCodeStart(p: L.Program, stack: seq<byte>, input: seq<bv32>)
    requires |stack| == p.header.stackSize && p.header.stackAlignment == WordBytes
    ensures Boot(p, stack, input).Ok?
    ensures var (l, t) := Boot(p, stack, input).value;
            Sub32(t.active[RIP], l.codeBias) as int == 0
  {
    var (l, t) := Boot(p, stack, input).value;
    assert t.active[RIP] == l.codeBias;
  }

  /**
   With the corrected header a fetch 8 k bytes past CodeStart returns the
   translator's instruction k, so the address the translator gave each
   instruction is the address it is fetched from.
   */
  lemma CorrectedLoadedFetch(dataPointer: int, symbols: seq<PD.FunctionSymbol>, code: seq<Word>,
                             regs: RegisterSet, codeBias: bv32, stackBias: bv32, stackSize: nat, k: nat)
    requires InstrSize * |code| < Two32
    requires PD.HeaderSizeBytes + PD.SymbolRecordSize * |symbols| < Two32
    requires Sub32(regs[RIP], codeBias) as int == InstrSize * k
    ensures var file := Ser.ProgramImage(Ser.MakeHeaderCorrected(dataPointer, |code|, |symbols|), symbols, code);
            && L.ProgramRead(file).Ok?
            && var loaded := L.ProgramRead(file).value.code;
               && (k < |code| ==> Fetch(Layout(codeBias, stackBias, stackSize), loaded, regs) == Ok(code[k]))
               && (k >= |code| ==> Fetch(Layout(codeBias, stackBias, stackSize), loaded, regs).Err?)
  {
    OF.CorrectedSerializeThenLoad(dataPointer, symbols, code);
    FetchFlattened(Layout(codeBias, stackBias, stackSize), code, regs, k);
  }

  /** With the corrected header the booted thread's first instruction is the first one written. */
  lemma CorrectedBootFetchesFirst(dataPointer: int, symbols: seq<PD.FunctionSymbol>, code: seq<Word>,
                                  p: L.Program, stack: seq<byte>, input: seq<bv32>)
    requires InstrSize * |code| < Two32
    requires PD.HeaderSizeBytes + PD.SymbolRecordSize * |symbols| < Two32
    requires L.ProgramRead(Ser.ProgramImage(Ser.MakeHeaderCorrected(dataPointer, |code|, |symbols|), symbols, code)) == Ok(p)
    requires |stack| == p.header.stackSize
    ensures Boot(p, stack, input).Ok?
    ensures var (l, t) := Boot(p, stack, input).value;
            && (|code| >= 1 ==> Fetch(l, p.code, t.active) == Ok(code[0]))
            && (|code| == 0 ==> Fetch(l, p.code, t.active).Err?)
  {
    OF.CorrectedSerializeThenLoad(dataPointer, symbols, code);
    BootFetch(p, stack, input, code);
  }
}

=== FILE: scope.dfy ===
/**
 Scopes, symbol tables and frame layout (translator/register.c and
 translator/register.h). A scope context carries the symbol table and the
 code, data and parameter cursors of the global scope or of one function.
 Registering a variable, an array or a parameter hands out the next slot of
 the frame and moves the data or parameter cursor.

 In C an identifier is an object shared between the symbol table and every
 pointer to it; here the operations that complete a registered identifier
 return the completed identifier together with the context whose table
 holds it under its name.
 */
module Scope {
  import opened Base
  import opened RegisterDef
  import opened ObjTypes
  import PD = ProgDef

  const ProgramStackTop: nat := 0x7FFFE
  const ProgramDataStart: nat := 0x80000
  const ProgramCodeStart: nat := 0xA0000
  /** Every variable, array element and parameter slot is this many bytes. */
  const StackAlignment: nat := 4
  /** Every instruction is this many bytes. */
  const CodeAlignment: nat := 8
  /** Offset of the first parameter above a function's frame base. */
  const FirstParameterOffset: nat := 8

  /** `CreateScopeContext(NULL, NULL)`: code at 0xA0000, data at 0x80000, an empty table. */
  function CreateGlobalContext(): (c: ScopeContext)
    ensures c.isGlobal && c.identifier.None? && c.symbols == map[]
    ensures c.codePointer == ProgramCodeStart && c.dataPointer == ProgramDataStart
  {
    ScopeContext(true, None, map[], ProgramCodeStart, 0, ProgramDataStart, ProgramCodeStart)
  }

  /**
   `CreateScopeContext(Identifier, GlobalContext)` for a function: an empty
   table, data pointer 0 (locals grow downwards from the frame base),
   parameters from offset 8, and code continuing where the global context is.
   */
  function CreateFunctionContext(fn: Identifier, global: ScopeContext): (c: ScopeContext)
    ensures !c.isGlobal && c.identifier == Some(fn) && c.symbols == map[]
    ensures c.codePointer == global.codePointer
    ensures c.dataPointer == 0 && c.parameterPointer == FirstParameterOffset
  {
    ScopeContext(false, Some(fn), map[], global.codePointer, FirstParameterOffset, 0, 0)
  }

  // ---------------------------------------------------------------- lookups

  /**
   `GetDeclaredIdentifier`: the identifier under `name` in the context's own
   table, else in the global table, else none. For the global context the two
   tables are the same one.
   */
  function GetDeclaredIdentifier(name: string, ctx: ScopeContext, global: ScopeContext): (r: Option<Identifier>)
    ensures r.Some? <==> name in ctx.symbols || name in global.symbols
    ensures name in ctx.symbols ==> r == Some(ctx.symbols[name])
    ensures name !in ctx.symbols && name in global.symbols ==> r == Some(global.symbols[name])
  {
    if name in ctx.symbols then Some(ctx.symbols[name])
    else if name in global.symbols then Some(global.symbols[name])
    else None
  }

  /** `CheckIdentifierExists`: 1 exactly when the lookup finds the name. */
  function CheckIdentifierExists(name: string, ctx: ScopeContext, global: ScopeContext): (r: bool)
    ensures r <==> GetDeclaredIdentifier(name, ctx, global).Some?
  {
    name in ctx.symbols || name in global.symbols
  }

  /** `CheckIdentifierIsFunction`: function identifiers carry the RFN pseudo-register. */
  predicate CheckIdentifierIsFunction(id: Identifier)
  {
    id.register == RFN
  }

  /** `CheckIdentifierIsArray`: a non-function identifier with a positive array size. */
  function CheckIdentifierIsArray(id: Identifier): (r: bool)
    ensures r ==> !CheckIdentifierIsFunction(id)
    ensures r <==> id.register != RFN && id.arraySize > 0
  {
    id.register != RFN && id.arraySize > 0
  }

  // ---------------------------------------------------------------- registration

  /**
   `RegisterIdentifier`: a fresh identifier of the given type with no
   register yet (INV), entered into the context's table under its name,
   replacing any earlier entry there.
   */
  function RegisterIdentifier(name: string, dataType: IdnType, ctx: ScopeContext): (r: (Identifier, ScopeContext))
    ensures r.0.name == name && r.0.register == INV && r.0.dataType == dataType && r.0.offset == 0
    ensures r.1 == ctx.(symbols := ctx.symbols[name := r.0])
  {
    var id := ZeroIdentifier(INV).(name := name, dataType := dataType);
    (id, ctx.(symbols := ctx.symbols[name := id]))
  }

  /** An integer constant: the RCT pseudo-register whose offset is the value. */
  function RegisterIdentifierAsIntegerConstant(value: Long): (id: Identifier)
    ensures id.register == RCT && id.RelOffset() == value
    ensures id.name == "REG_RCT"
  {
    ZeroIdentifier(RCT).(name := "REG_RCT", offset := value)
  }

  /** An identifier object for a special register, otherwise all zero. */
  function RegisterSpecialRegister(r: Register): (id: Identifier)
    requires IsSpecial(r)
    ensures id == ZeroIdentifier(r)
  {
    ZeroIdentifier(r)
  }

  /** Writes a completed identifier back to the table entry under its name, if there is one. */
  function WriteBack(ctx: ScopeContext, id: Identifier): (c: ScopeContext)
    ensures c.symbols.Keys == ctx.symbols.Keys
    ensures id.name in ctx.symbols ==> c.symbols[id.name] == id
    ensures forall n :: n in ctx.symbols && n != id.name ==> c.symbols[n] == ctx.symbols[n]
    ensures c == ctx.(symbols := c.symbols)
  {
    if id.name in ctx.symbols then ctx.(symbols := ctx.symbols[id.name := id]) else ctx
  }

  /**
   `RegisterIdentifierAsVariable`: the next 4-byte data slot. A global takes
   RGD and the slot at the data pointer, made relative to the data segment,
   and the pointer moves up by 4; a local takes RST and the slot just below
   the data pointer, and the pointer moves down by 4. The offset is a signed
   32-bit field, so it keeps the low 32 bits.
   */
  function RegisterIdentifierAsVariable(id: Identifier, isAtomic: nat, ctx: ScopeContext): (r: (Identifier, ScopeContext))
    ensures r.0 == id.(register := r.0.register, offset := r.0.offset, isAtomic := isAtomic)
    ensures r.1 == WriteBack(ctx.(dataPointer := r.1.dataPointer), r.0)
    ensures ctx.isGlobal ==> r.0.register == RGD && r.1.dataPointer == ctx.dataPointer + StackAlignment
    ensures ctx.isGlobal ==> r.0.offset == Wrap32(ctx.dataPointer - ProgramDataStart)
    ensures !ctx.isGlobal ==> r.0.register == RST && r.1.dataPointer == ctx.dataPointer - StackAlignment
    ensures !ctx.isGlobal ==> r.0.offset == Wrap32(r.1.dataPointer)
  {
    if ctx.isGlobal then
      var v := id.(offset := Wrap32(ctx.dataPointer - ProgramDataStart), register := RGD, isAtomic := isAtomic);
      (v, WriteBack(ctx.(dataPointer := ctx.dataPointer + StackAlignment), v))
    else
      var v := id.(offset := Wrap32(ctx.dataPointer - StackAlignment), register := RST, isAtomic := isAtomic);
      (v, WriteBack(ctx.(dataPointer := ctx.dataPointer - StackAlignment), v))
  }

  /** `RegisterIdentifierAsFunction`: RFN, starting at the current code pointer. */
  function RegisterIdentifierAsFunction(id: Identifier, ctx: ScopeContext): (r: (Identifier, ScopeContext))
    ensures r.0 == id.(register := RFN, offset := r.0.offset)
    ensures r.0.AbsOffset() == Unsigned32(ctx.codePointer)
    ensures r.1 == WriteBack(ctx, r.0)
  {
    var f := id.(register := RFN, offset := Wrap32(ctx.codePointer));
    OffsetUnion(f.offset, Unsigned32(ctx.codePointer));
    assert Wrap32(ctx.codePointer) == Wrap32(Unsigned32(ctx.codePointer));
    (f, WriteBack(ctx, f))
  }

  /**
   `RegisterIdentifierAsParameter`: only in a function's context. The
   parameter takes RST and the slot at the parameter pointer, which moves up
   by 4; it is entered into the function's own table.
   */
  function RegisterIdentifierAsParameter(name: string, dataType: IdnType, ctx: ScopeContext): (r: Result<(Identifier, ScopeContext), Fault>)
    ensures r.Err? <==> ctx.isGlobal
    ensures r.Ok? ==> r.value.0 == ZeroIdentifier(RST).(name := name, dataType := dataType, offset := Wrap32(ctx.parameterPointer))
    ensures r.Ok? ==> r.value.1 == ctx.(parameterPointer := ctx.parameterPointer + StackAlignment,
                                         symbols := ctx.symbols[name := r.value.0])
  {
    if ctx.isGlobal then Err(AssertionFailed("parameter registered in the global context"))
    else
      var p := ZeroIdentifier(RST).(name := name, dataType := dataType, offset := Wrap32(ctx.parameterPointer));
      Ok((p, ctx.(parameterPointer := ctx.parameterPointer + StackAlignment, symbols := ctx.symbols[name := p])))
  }

  /**
   `RegisterArrayToIdentifier`: a non-atomic variable becomes an array of
   `count` elements and the data pointer moves by 4 * count bytes, up for a
   global and down for a local. The array size is 4 * count bytes kept in a
   32-bit `unsigned long`, so it is 4 * count modulo 2^32. The identifier
   keeps its register and offset.
   */
  function RegisterArrayToIdentifier(id: Identifier, count: nat, ctx: ScopeContext): (r: Result<(Identifier, ScopeContext), Fault>)
    ensures r.Err? <==> id.isAtomic != 0
    ensures r.Ok? ==> r.value.0 == id.(arraySize := r.value.0.arraySize)
    ensures r.Ok? ==> r.value.0.arraySize < Two32 && (r.value.0.arraySize - StackAlignment * count) % Two32 == 0
    ensures r.Ok? && count < 0x4000_0000 ==> r.value.0.arraySize == StackAlignment * count
    ensures r.Ok? && ctx.isGlobal ==> r.value.1 == WriteBack(ctx.(dataPointer := ctx.dataPointer + StackAlignment * count), r.value.0)
    ensures r.Ok? && !ctx.isGlobal ==> r.value.1 == WriteBack(ctx.(dataPointer := ctx.dataPointer - StackAlignment * count), r.value.0)
  {
    if id.isAtomic != 0 then Err(AssertionFailed("an array may not be atomic"))
    else
      var a := id.(arraySize := Unsigned32(StackAlignment * count));
      var dp := if ctx.isGlobal then ctx.dataPointer + StackAlignment * count else ctx.dataPointer - StackAlignment * count;
      Ok((a, WriteBack(ctx.(dataPointer := dp), a)))
  }

  /**
   An array of 2^30 elements gets a recorded size of 0 although the data
   pointer moves by 2^32 bytes, so the identifier is no longer taken for an
   array.
   */
  lemma ArraySizeWraps(id: Identifier, ctx: ScopeContext)
    requires id.isAtomic == 0 && id.register != RFN
    ensures var r := RegisterArrayToIdentifier(id, 0x4000_0000, ctx);
            && r.Ok? && r.value.0.arraySize == 0 && !CheckIdentifierIsArray(r.value.0)
            && (ctx.isGlobal ==> r.value.1.dataPointer == ctx.dataPointer + 0x1_0000_0000)
            && (!ctx.isGlobal ==> r.value.1.dataPointer == ctx.dataPointer - 0x1_0000_0000)
  {
  }

  /** `RegisterParameterToIdentifier`: appends a parameter to a function identifier's queue. */
  function RegisterParameterToIdentifier(fn: Identifier, parameter: Identifier): (r: Result<Identifier, Fault>)
    ensures r.Err? <==> fn.register != RFN
    ensures r.Ok? ==> r.value == fn.(parameters := fn.parameters + [parameter])
  {
    if fn.register != RFN then Err(AssertionFailed("parameters belong to function identifiers"))
    else Ok(fn.(parameters := fn.parameters + [parameter]))
  }

  /** `RegisterFunctionCall`: a call of a function identifier with no parameters pushed yet. */
  function RegisterFunctionCall(callee: Identifier): (r: Result<FunctionCall, Fault>)
    ensures r.Err? <==> callee.register != RFN
    ensures r.Ok? ==> r.value.callee == callee && r.value.currentParameterCount == 0
  {
    if callee.register != RFN then Err(AssertionFailed("only a function can be called"))
    else Ok(FunctionCall(callee, 0))
  }

  /** `RegisterIoObject` and `CleanIoObject`: a PRINT or READ with nothing pushed yet. */
  function CleanIoObject(io: IoObject): (r: IoObject)
    ensures r.count == 0
  {
    IoObject(0)
  }

  // ---------------------------------------------------------------- functions

  /** The three answers of `CheckFunctionIsMain` (`FUNCTION_IS_MAIN_OK`, `_ERR`, `FUNCTION_IS_NOT_MAIN`). */
  datatype MainCheck = MainOk | MainErr | NotMain

  function MainCheckValue(m: MainCheck): nat
  {
    match m
    case MainOk => 0
    case MainErr => 1
    case NotMain => 2
  }

  /**
   `CheckFunctionIsMain`: only in a function's context. A function named
   "main" is accepted when its return type and its single parameter are
   integer-or-smaller types (enumerators up to UINT32T). A function with no
   parameters has a NULL parameter queue, whose size the C code reads anyway.
   */
  function CheckFunctionIsMain(ctx: ScopeContext): (r: Result<MainCheck, Fault>)
    ensures ctx.isGlobal || ctx.identifier.None? ==> r.Err?
    ensures r == Ok(NotMain) <==> !ctx.isGlobal && ctx.identifier.Some? && ctx.identifier.value.name != "main"
    ensures r == Ok(MainOk) <==>
              !ctx.isGlobal && ctx.identifier.Some? && ctx.identifier.value.name == "main"
              && ctx.identifier.value.ReturnType().Value() <= UINT32T.Value()
              && |ctx.identifier.value.parameters| == 1
              && ctx.identifier.value.parameters[0].dataType.Value() <= UINT32T.Value()
    ensures r.Err? ==> ctx.isGlobal || ctx.identifier.None?
                       || (ctx.identifier.value.name == "main" && ctx.identifier.value.ReturnType().Value() <= UINT32T.Value()
                           && ctx.identifier.value.parameters == [])
  {
    if ctx.isGlobal then Err(AssertionFailed("main check in the global context"))
    else if ctx.identifier.None? then Err(NullDereference("context without a function identifier"))
    else
      var f := ctx.identifier.value;
      if f.name != "main" then Ok(NotMain)
      else if f.ReturnType().Value() > UINT32T.Value() then Ok(MainErr)
      else if f.parameters == [] then Err(NullDereference("parameter queue of main"))
      else if |f.parameters| != 1 then Ok(MainErr)
      else if f.parameters[0].dataType.Value() > UINT32T.Value() then Ok(MainErr)
      else Ok(MainOk)
  }

  /**
   `RegisterFunctionSymbol`: the symbol of the function whose context is
   given: its address is the global code pointer at this moment, and its
   parameter count is 0 for a `(void)` list and the queue size otherwise.
   Both fields are 32-bit.
   */
  function RegisterFunctionSymbol(ctx: ScopeContext, global: ScopeContext): (r: Result<PD.FunctionSymbol, Fault>)
    ensures r.Ok? <==> !ctx.isGlobal && ctx.identifier.Some? && |ctx.identifier.value.parameters| >= 1
    ensures r.Ok? ==> r.value.functionAddress == Unsigned32(global.codePointer)
    ensures r.Ok? && ctx.identifier.value.parameters[0].dataType == VOID ==> r.value.parameterCount == 0
    ensures r.Ok? && ctx.identifier.value.parameters[0].dataType != VOID ==>
              r.value.parameterCount == Unsigned32(|ctx.identifier.value.parameters|)
  {
    if ctx.isGlobal then Err(AssertionFailed("function symbol for the global context"))
    else if ctx.identifier.None? then Err(NullDereference("context without a function identifier"))
    else
      var f := ctx.identifier.value;
      if f.parameters == [] then Err(NullDereference("parameter queue of the function"))
      else
        var count := if f.parameters[0].dataType == VOID then 0 else Unsigned32(|f.parameters|);
        Ok(PD.FunctionSymbol(Unsigned32(global.codePointer), count))
  }

  // ---------------------------------------------------------------- properties

  /** A name registered in a context is found there, hiding any global of the same name. */
  lemma RegisteredIsFound(name: string, t: IdnType, ctx: ScopeContext, global: ScopeContext)
    ensures var (id, c) := RegisterIdentifier(name, t, ctx);
            GetDeclaredIdentifier(name, c, global) == Some(id)
            && CheckIdentifierExists(name, c, global)
  {
  }

  /** Registering one name leaves the lookup of every other name unchanged. */
  lemma RegisterOtherNames(name: string, other: string, t: IdnType, ctx: ScopeContext, global: ScopeContext)
    requires other != name
    ensures GetDeclaredIdentifier(other, RegisterIdentifier(name, t, ctx).1, global) == GetDeclaredIdentifier(other, ctx, global)
  {
  }

  /**
   A local variable's slot is the four bytes between the new and the old
   data pointer: consecutive locals take adjacent, non-overlapping slots
   growing downwards, as long as the offsets fit the 32-bit field.
   */
  lemma LocalVariableSlot(id: Identifier, isAtomic: nat, ctx: ScopeContext)
    requires !ctx.isGlobal && IsLong(ctx.dataPointer - StackAlignment)
    ensures var (v, c) := RegisterIdentifierAsVariable(id, isAtomic, ctx);
            v.register == RST && v.offset == c.dataPointer && v.offset + StackAlignment == ctx.dataPointer
  {
  }

  /**
   A global variable's slot starts at the old data pointer and ends at the
   new one, both taken relative to the data segment at 0x80000.
   */
  lemma GlobalVariableSlot(id: Identifier, isAtomic: nat, ctx: ScopeContext)
    requires ctx.isGlobal && IsLong(ctx.dataPointer - ProgramDataStart)
    ensures var (v, c) := RegisterIdentifierAsVariable(id, isAtomic, ctx);
            v.register == RGD && v.offset == ctx.dataPointer - ProgramDataStart
            && v.offset + StackAlignment == c.dataPointer - ProgramDataStart
  {
  }

  /**
   A local array of `n` elements declared as a variable and then sized
   reserves 4 * (n + 1) bytes below the old data pointer: its element `i`
   (address offset - 4 * i, as the generator computes it) lies inside the
   reservation for every `i <= n`, one element more than the array holds.
   The recorded array size is 4 * n modulo 2^32.
   */
  lemma LocalArrayFrame(id: Identifier, n: nat, ctx: ScopeContext)
    requires !ctx.isGlobal && IsLong(ctx.dataPointer - StackAlignment)
    ensures var (v, c) := RegisterIdentifierAsVariable(id, 0, ctx);
            var r := RegisterArrayToIdentifier(v, n, c);
            r.Ok?
            && ctx.dataPointer - r.value.1.dataPointer == StackAlignment * (n + 1)
            && (n < 0x4000_0000 ==> r.value.0.arraySize == StackAlignment * n)
            && r.value.0.arraySize == Unsigned32(StackAlignment * n)
            && forall i :: 0 <= i <= n ==>
                 r.value.1.dataPointer <= v.offset - StackAlignment * i
                 && v.offset - StackAlignment * i + StackAlignment <= ctx.dataPointer
  {
  }

  /**
   The `k`-th parameter registered in a fresh function context sits at
   8 + 4 * k, i.e. parameters are laid out upwards from the frame base in
   declaration order.
   */
  function RegisterParameters(names: seq<string>, t: IdnType, ctx: ScopeContext): (r: Result<(seq<Identifier>, ScopeContext), Fault>)
    ensures r.Err? <==> ctx.isGlobal && |names| > 0
    ensures r.Ok? ==> |r.value.0| == |names|
    ensures r.Ok? ==> r.value.1.parameterPointer == ctx.parameterPointer + StackAlignment * |names|
    ensures r.Ok? ==> forall k :: 0 <= k < |names| ==>
              r.value.0[k].register == RST && r.value.0[k].name == names[k]
              && r.value.0[k].offset == Wrap32(ctx.parameterPointer + StackAlignment * k)
    decreases |names|
  {
    if |names| == 0 then Ok(([], ctx))
    else
      match RegisterIdentifierAsParameter(names[0], t, ctx)
      case Err(e) => Err(e)
      case Ok((p, c)) =>
        match RegisterParameters(names[1..], t, c)
        case Err(e) => Err(e)
        case Ok((ps, c')) => Ok(([p] + ps, c'))
  }

  /** In a fresh function context the parameters are at 8, 12, 16, ... */
  lemma FreshParameterOffsets(names: seq<string>, t: IdnType, fn: Identifier, global: ScopeContext)
    requires |names| < 0x1000_0000
    ensures var r := RegisterParameters(names, t, CreateFunctionContext(fn, global));
            r.Ok? && forall k :: 0 <= k < |names| ==> r.value.0[k].offset == FirstParameterOffset + StackAlignment * k
  {
  }
}

=== FILE: serializer.dfy ===
/**
 The object-file writer of the translator (translator/program.c). The file is
 the 64-byte program header, then the function symbols and then the
 instructions, each in queue order. Queues are written through a fixed-size
 staging buffer that is flushed whenever it is full and once at the end; the
 write routine is modelled as a loop over the queue's nodes so that its
 buffering can be shown to reproduce the plain concatenation of the records.
 */
module Serializer {
  import opened Base
  import opened InstrDef
  import PD = ProgDef
  import S = Scope
  import SQueue
  import ObjTypes

  /** `sizeof(WriteBuffer)` and the byte size of the two pointer arrays used as staging buffers. */
  const WriteBufferBytes: nat := 4096

  /** The records of a queue, head first: what the file should hold for it. */
  function SymbolImages(symbols: seq<PD.FunctionSymbol>): (r: seq<seq<byte>>)
    ensures |r| == |symbols|
    ensures forall i :: 0 <= i < |r| ==> |r[i]| == PD.SymbolRecordSize
  {
    seq(|symbols|, i requires 0 <= i < |symbols| => PD.SymbolBytes(symbols[i]))
  }

  function CodeImages(code: seq<Word>): (r: seq<seq<byte>>)
    ensures |r| == |code|
    ensures forall i :: 0 <= i < |r| ==> |r[i]| == InstrSize
  {
    seq(|code|, i requires 0 <= i < |code| => Bytes(code[i]))
  }

  /**
   `ProgramSerializeQueue`: copies each element of `queue` into a staging
   buffer of `bufferSize` bytes and writes the buffer out whenever it is full
   and once more at the end. The element count handed to `fwrite` is a local
   the C code never initialises; it is taken to start at 0, which is what makes
   the first flush write exactly the buffered bytes. The routine asserts that
   the buffer holds a whole number of elements; a buffer of size 0 would make
   the first copy overrun it.
   */
  method SerializeQueue(bufferSize: nat, queue: SQueue.Queue<seq<byte>>, dataSize: nat)
    returns (r: Result<seq<byte>, Fault>)
    requires dataSize > 0
    requires forall i :: 0 <= i < |queue| ==> |queue[i]| == dataSize
    ensures r.Ok? <==> bufferSize % dataSize == 0 && (bufferSize > 0 || |queue| == 0)
    ensures r.Ok? ==> r.value == Flatten(queue)
  {
    if bufferSize % dataSize != 0 {
      return Err(AssertionFailed("write buffer size is not a multiple of the element size"));
    }
    ghost var slots := bufferSize / dataSize;
    WholeSlots(bufferSize, dataSize);
    var buffer: seq<byte> := seq(bufferSize, _ => 0);
    var written: seq<byte> := [];
    var length: nat := 0;
    var count: nat := 0;
    var node := SQueue.TopNode(queue);
    ghost var i: nat := 0;
    while node.Some?
      invariant i <= |queue|
      invariant node.Some? <==> i < |queue|
      invariant node.Some? ==> node.value == i
      invariant |buffer| == bufferSize == Span(slots, dataSize)
      invariant length == Span(count, dataSize) <= bufferSize
      invariant written + buffer[..length] == Flatten(queue[..i])
      invariant bufferSize > 0 || i == 0
      decreases |queue| - i
    {
      var data := SQueue.DataFromNode(queue, node.value);
      if length == bufferSize {
        written := written + buffer[..Span(count, dataSize)];
        length := 0;
        count := 0;
      }
      if length < bufferSize {
        SpanRoom(count, slots, dataSize);
      }
      if length + dataSize > bufferSize {
        return Err(Undefined("copy past the end of the write buffer"));
      }
      ghost var before := buffer[..length];
      buffer := buffer[..length] + data + buffer[length + dataSize..];
      assert buffer[..length + dataSize] == before + data;
      FlattenStep(queue, i);
      length := length + dataSize;
      count := count + 1;
      node := SQueue.NextFromNode(queue, node.value);
      i := i + 1;
    }
    assert queue[..i] == queue;
    if length > 0 {
      written := written + buffer[..Span(count, dataSize)];
    }
    return Ok(written);
  }

  /** The byte length of `count` records of `size` bytes, kept as repeated addition. */
  function Span(count: nat, size: nat): nat
  {
    if count == 0 then 0 else Span(count - 1, size) + size
  }

  lemma {:induction false} SpanIsProduct(count: nat, size: nat)
    ensures Span(count, size) == count * size
  {
    if count > 0 {
      SpanIsProduct(count - 1, size);
    }
  }

  /** A buffer holding a whole number of records is that number of records long. */
  lemma WholeSlots(bufferSize: nat, size: nat)
    requires size > 0 && bufferSize % size == 0
    ensures bufferSize == Span(bufferSize / size, size)
  {
    SpanIsProduct(bufferSize / size, size);
  }

  /** Short of a whole buffer, there is room for one more record. */
  lemma {:induction false} SpanRoom(count: nat, slots: nat, size: nat)
    requires Span(count, size) < Span(slots, size)
    ensures Span(count, size) + size <= Span(slots, size)
  {
    if count > 0 && slots > 0 {
      SpanRoom(count - 1, slots - 1, size);
    }
  }

  lemma FlattenStep(parts: seq<seq<byte>>, i: nat)
    requires i < |parts|
    ensures Flatten(parts[..i + 1]) == Flatten(parts[..i]) + parts[i]
  {
    assert parts[..i + 1][..i] == parts[..i];
  }

  /**
   The header `ProgramSerializeCode` fills in. The stack top, data start and
   code start are the translator's layout constants, the stack alignment is
   4 and the stack size equals the stack top. DataSize is the global data
   pointer's distance from the data start times the stack alignment; the data
   pointer is an unsigned 64-bit quantity there, so the result is kept modulo
   2^32 as the 32-bit header field keeps it. The code is said to start one
   symbol record after the end of the symbol table.
   */
  function MakeHeader(dataPointer: int, instructionCount: nat, symbolCount: nat): (h: PD.Header)
    ensures h.codeBinaryLocation == Unsigned32(h.symbolBinaryLocation + h.symbolSize + PD.SymbolRecordSize)
    ensures instructionCount * InstrSize < Two32 ==> h.codeSize == InstrSize * instructionCount
    ensures symbolCount * PD.SymbolRecordSize < Two32 ==> h.symbolSize == PD.SymbolRecordSize * symbolCount
    ensures h.symbolBinaryLocation == PD.HeaderSizeBytes
    ensures h.magicNumber == 0xC403 && h.versionMajor == 1 && h.versionMinor == 0
    ensures h.stackAlignment == 4 && h.stackTop == 0x7FFFE && h.stackSize == 0x7FFFE
    ensures h.dataStart == 0x80000 && h.codeStart == 0xA0000
    ensures h.dataSize == Unsigned32((dataPointer - 0x80000) * 4)
    ensures h.reserved1 == 0 && h.reserved2 == 0 && h.reserved3 == 0 && h.reserved4 == 0
            && h.reserved5 == 0 && h.reserved6 == 0
  {
    var symbolSize := Unsigned32(symbolCount * PD.SymbolRecordSize);
    PD.Header(
      PD.HeaderMagicNumber, PD.CompilerVersionMajor, PD.CompilerVersionMinor, S.StackAlignment as U16,
      0, 0,
      S.ProgramStackTop, S.ProgramDataStart, S.ProgramCodeStart, S.ProgramStackTop,
      Unsigned32((dataPointer - S.ProgramDataStart) * S.StackAlignment),
      Unsigned32(instructionCount * InstrSize),
      symbolSize,
      PD.HeaderSizeBytes,
      Unsigned32(PD.HeaderSizeBytes + symbolSize + PD.SymbolRecordSize),
      0, 0, 0, 0)
  }

  /**
   The header with the code location the loader needs in order to get every
   written instruction back: directly after the symbol table, which is where
   the instructions are written. Every other field is as `MakeHeader` sets it.
   */
  function MakeHeaderCorrected(dataPointer: int, instructionCount: nat, symbolCount: nat): (h: PD.Header)
    ensures h.codeBinaryLocation == Unsigned32(h.symbolBinaryLocation + h.symbolSize)
    ensures h == MakeHeader(dataPointer, instructionCount, symbolCount).(codeBinaryLocation := h.codeBinaryLocation)
  {
    var h := MakeHeader(dataPointer, instructionCount, symbolCount);
    h.(codeBinaryLocation := Unsigned32(h.symbolBinaryLocation + h.symbolSize))
  }

  /** The bytes of an object file: the header, the symbol records, the instruction records. */
  function ProgramImage(h: PD.Header, symbols: seq<PD.FunctionSymbol>, code: seq<Word>): (r: seq<byte>)
    ensures |r| == PD.HeaderSizeBytes + PD.SymbolRecordSize * |symbols| + InstrSize * |code|
  {
    FlattenLength(SymbolImages(symbols), PD.SymbolRecordSize);
    FlattenLength(CodeImages(code), InstrSize);
    PD.HeaderBytes(h) + Flatten(SymbolImages(symbols)) + Flatten(CodeImages(code))
  }

  /**
   `ProgramSerializeCode`: the object file for an instruction queue and a
   function-symbol queue, given the global context. The routine asserts that
   the context it is handed is the global one.
   */
  method SerializeCode(code: SQueue.Queue<Word>, symbols: SQueue.Queue<PD.FunctionSymbol>, global: ObjTypes.ScopeContext)
    returns (r: Result<seq<byte>, Fault>)
    ensures r.Ok? <==> global.isGlobal
    ensures r.Ok? ==> r.value == ProgramImage(MakeHeader(global.dataPointer, |code|, |symbols|), symbols, code)
  {
    if !global.isGlobal {
      return Err(AssertionFailed("the context is not the global context"));
    }
    var header := MakeHeader(global.dataPointer, SQueue.Size(code), SQueue.Size(symbols));
    var symbolBytes := SerializeQueue(WriteBufferBytes, SymbolImages(symbols), PD.SymbolRecordSize);
    var codeBytes := SerializeQueue(WriteBufferBytes, CodeImages(code), InstrSize);
    return Ok(PD.HeaderBytes(header) + symbolBytes.value + codeBytes.value);
  }
}

=== FILE: vmstate.dfy ===
/**
 The state of one VM thread and its memory accessors (vm/exec.h,
 vm/memory_inl.h). A register set has REG_MAX - 1 = 17 slots, so the machine
 register RT7 (number 17) has no slot and any access to it, as to any larger
 register number, is undefined behaviour. Registers hold `ULONG` bit patterns;
 `LONG` quantities are their two's-complement readings.

 The thread stack is a block of StackSize bytes whose base pointer is set to
 its LAST byte, so stack offsets run from -(StackSize - 1) up to 0 relative
 to that byte; the offset of an index register's slot is the register minus
 the stack bias (StackTop) plus the instruction's offset, computed in 32-bit
 arithmetic. Global data is a block of DataSize bytes addressed from 0.
 Values move to and from memory as 4 little-endian bytes (the stack
 alignment the translator writes into the header).
 */
module VmState {
  import opened Base
  import opened RegisterDef

  /** `REG_MAX - 1`: the length of `REGISTER_SET.Register`. */
  const RegisterSlots: nat := 17
  /** The bytes a `memcpy` of `Header.StackAlignment` moves. */
  const WordBytes: nat := 4

  type RegisterSet = s: seq<bv32> | |s| == RegisterSlots witness ZeroSet()

  function ZeroSet(): (s: seq<bv32>)
    ensures |s| == RegisterSlots && forall i :: 0 <= i < |s| ==> s[i] == 0
  {
    seq(RegisterSlots, _ => 0)
  }

  /** The biases the VM subtracts from code and stack addresses, and the stack's size. */
  datatype Layout = Layout(codeBias: bv32, stackBias: bv32, stackSize: nat)

  /**
   One thread: the active register set, the stack of saved register sets
   (top last), the thread stack's bytes from lowest address up, and the
   program's global data. PRINT's values and READ's input are kept as
   streams: `output` is what PRINT has emitted so far and `input` what READ
   will still consume.
   */
  datatype Thread = Thread(
    active: RegisterSet,
    saved: seq<RegisterSet>,
    stack: seq<byte>,
    data: seq<byte>,
    output: seq<bv32>,
    input: seq<bv32>)

  /** The two's-complement reading of a 32-bit pattern, as a `LONG`. */
  function Signed(b: bv32): (x: int)
    ensures IsLong(x)
    ensures (x - b as int) % Two32 == 0
  {
    var n := b as int;
    if n < 0x8000_0000 then n else n - Two32
  }

  /** The slot of register `r`; register numbers past the set are undefined behaviour. */
  function Slot(regs: RegisterSet, r: int): (v: Result<bv32, Fault>)
    ensures v.Ok? <==> 0 <= r < RegisterSlots
    ensures v.Ok? ==> v.value == regs[r]
  {
    if 0 <= r < RegisterSlots then Ok(regs[r]) else Err(Undefined("register outside the register set"))
  }

  function SetSlot(regs: RegisterSet, r: int, v: bv32): (s: Result<RegisterSet, Fault>)
    ensures s.Ok? <==> 0 <= r < RegisterSlots
    ensures s.Ok? ==> s.value[r] == v
    ensures s.Ok? ==> forall i :: 0 <= i < RegisterSlots && i != r ==> s.value[i] == regs[i]
  {
    if 0 <= r < RegisterSlots then Ok(regs[r := v]) else Err(Undefined("register outside the register set"))
  }

  /** `ULONG` addition, wrapping modulo 2^32. */
  function Add32(a: bv32, b: bv32): bv32
  {
    a + b
  }

  /** `ULONG` subtraction, wrapping modulo 2^32. */
  function Sub32(a: bv32, b: bv32): bv32
  {
    a - b
  }

  /** The offset from the thread stack's base pointer that register value `reg` plus `offset` denotes. */
  function StackOffset(l: Layout, reg: bv32, offset: bv32): int
  {
    Signed(Add32(Sub32(reg, l.stackBias), offset))
  }

  /** Index into `Thread.stack` of a 4-byte access at stack offset `o`, when it lies inside the stack. */
  predicate InStack(l: Layout, o: int)
  {
    -(l.stackSize - 1) <= o && o + WordBytes <= 1
  }

  function StackIndex(l: Layout, o: int): int
  {
    o + l.stackSize - 1
  }

  /** A 4-byte little-endian read from the stack; outside the allocation it is undefined. */
  function ReadStack(l: Layout, stack: seq<byte>, o: int): (v: Result<bv32, Fault>)
    requires |stack| == l.stackSize
    ensures v.Ok? <==> InStack(l, o)
    ensures v.Ok? ==> v.value == ReadLe32(stack, StackIndex(l, o))
  {
    if InStack(l, o) then Ok(ReadLe32(stack, StackIndex(l, o)))
    else Err(Undefined("stack access outside the thread stack"))
  }

  /** A 4-byte little-endian write to the stack; outside the allocation it is undefined. */
  function WriteStack(l: Layout, stack: seq<byte>, o: int, v: bv32): (r: Result<seq<byte>, Fault>)
    requires |stack| == l.stackSize
    ensures r.Ok? <==> InStack(l, o)
    ensures r.Ok? ==> |r.value| == |stack| && ReadLe32(r.value, StackIndex(l, o)) == v
    ensures r.Ok? ==> forall i :: 0 <= i < |stack| && !(StackIndex(l, o) <= i < StackIndex(l, o) + WordBytes)
                                  ==> r.value[i] == stack[i]
  {
    if InStack(l, o) then
      var at := StackIndex(l, o);
      Le32RoundTrip(v, stack[..at], stack[at + WordBytes..]);
      Ok(stack[..at] + Le32(v) + stack[at + WordBytes..])
    else Err(Undefined("stack access outside the thread stack"))
  }

  predicate InData(data: seq<byte>, o: int)
  {
    0 <= o && o + WordBytes <= |data|
  }

  /** A 4-byte read of global data at byte offset `o`. */
  function ReadData(data: seq<byte>, o: int): (v: Result<bv32, Fault>)
    ensures v.Ok? <==> InData(data, o)
    ensures v.Ok? ==> v.value == ReadLe32(data, o)
  {
    if InData(data, o) then Ok(ReadLe32(data, o)) else Err(Undefined("access outside the global data"))
  }

  /** A 4-byte write of global data at byte offset `o`. */
  function WriteData(data: seq<byte>, o: int, v: bv32): (r: Result<seq<byte>, Fault>)
    ensures r.Ok? <==> InData(data, o)
    ensures r.Ok? ==> |r.value| == |data| && ReadLe32(r.value, o) == v
    ensures r.Ok? ==> forall i :: 0 <= i < |data| && !(o <= i < o + WordBytes) ==> r.value[i] == data[i]
  {
    if InData(data, o) then
      Le32RoundTrip(v, data[..o], data[o + WordBytes..]);
      Ok(data[..o] + Le32(v) + data[o + WordBytes..])
    else Err(Undefined("access outside the global data"))
  }

  /**
   `MemRegisterValue`: the value an operand `r` + `offset` denotes. RGD
   reads global data at the offset; the other index registers read the stack
   slot the register points at, displaced by the offset; RCT denotes the
   offset itself; any other register denotes its slot. The thread is not
   changed.
   */
  function RegisterValue(l: Layout, t: Thread, r: Register, offset: bv32): (v: Result<bv32, Fault>)
    requires |t.stack| == l.stackSize
    ensures r == RGD ==> v == ReadData(t.data, Signed(offset))
    ensures IsIndex(r) && r != RGD ==> v == ReadStack(l, t.stack, StackOffset(l, t.active[r], offset))
    ensures r == RCT ==> v == Ok(offset)
    ensures !IsIndex(r) && r != RCT ==> v == Slot(t.active, r)
  {
    if r == RGD then ReadData(t.data, Signed(offset))
    else if IsIndex(r) then ReadStack(l, t.stack, StackOffset(l, t.active[r], offset))
    else if r == RCT then Ok(offset)
    else Slot(t.active, r)
  }
}
